=== FILE: README.md ===
# DevConnect backend — a Dafny model

This project models the server core of DevConnect in Dafny. DevConnect is a
developer-networking backend built from Express handlers over Mongoose
documents, plus a Socket.IO layer. The model covers:

- **Users**: registration with its field rules, login, the public profile,
  profile-completion scoring, people search and logout.
- **Follows**: following, unfollowing, the follower and following lists, and
  follow-status checks.
- **Notifications**: creation, listing, read marks, deletion, the periodic
  cleanup and the 30-day TTL.
- **Projects**: creation, adding collaborators, user search, and the
  collaboration-request routes, in which a request is stored as a
  notification.
- **Project invitations**: a state machine with a one-week expiry and the six
  controller handlers.
- **Conversations and messages**: the model methods and statics, and the REST
  message routes.
- **The Socket.IO handlers**: connect and disconnect, joining a conversation,
  sending messages, read marks, status updates and the follow handshake.
- **The feed**: the feed itself, suggested users, trending projects and the
  relative-time text.

Modelling choices:

- **Collections**
  - Users are a `map` from id to record, plus the collection's natural order.
  - Projects, conversations and messages are sequences indexed by their id.
  - Follows, notifications and invitations are sequences of records with a
    `nextId` counter.
- **Handlers** are pure functions from the stores to the new stores and an
  HTTP status code (module `Http`).
- **Socket.IO pushes** are returned as a sequence of `Presence.Emit` records:
  target, event name and payload.
- **Time** is a parameter `now`, in milliseconds.
- **Library verdicts** are function parameters. This covers e-mail syntax,
  the password-hash comparison, regular-expression search, the cast of a
  string to an object id, and locale date rendering.
- **Mongoose behaviour** is written out where it decides an outcome:
  - Strict mode drops paths a schema does not declare.
  - A negative `skip` is refused, which the handlers turn into a 500.
  - A negative `limit` counts by its absolute value, and a limit of 0 means
    no limit.
  - `parseInt(x) || d` falls back on NaN and on 0.
  - Free-form (`Mixed`) sub-documents that are edited in place are not saved.

Where the code does something its surrounding code evidently did not intend,
the model has two versions: the code as written (`…AsWritten`) and a
corrected definition. The rest of the model uses the corrected one. Both are
listed under "Findings".

## Model

| member | source | states |
|---|---|---|
| Users.ParseStatus | models/user.model.js:87-91 | exactly the three status names are accepted, and an accepted name is the name of the status it yields |
| Users.StatusRoundTrip | models/user.model.js:87-91 | every status survives printing and re-parsing |
| Users.ParseSkillLevel | models/user.model.js:32-37 | exactly the three skill-level names are accepted, each naming the level it yields |
| Users.ProfileCompletion | models/user.model.js:213-242 | the completion score is always between 0 and 100 |
| Users.CompletionIsWeightedCount | models/user.model.js:213-242 | the score is 15 per met core criterion plus 5 per met social link, so the cap of 100 never cuts anything off |
| Users.CompletionFullIff | models/user.model.js:213-242 | a profile scores 100 exactly when all six core criteria and both social links are met |
| Users.RequiredFieldsGiveSixty | models/user.model.js:213-242 | a user with name, email and university (skill level is always set) scores at least 60 |
| Users.Saved | models/user.model.js:272-291 | after the save hooks the stored completion is the score of the saved record, `profile.lastActive` is the save time, the joined date is set only for a new document, and nothing else changes |
| Users.SavedIdempotent | models/user.model.js:272-291 | saving again at the same instant changes nothing |
| Users.ProfileUrlMatches | models/user.model.js:56-77 | every URL of the form https://[www.]host/path/segment[/] with a valid segment passes the social-profile pattern |
| Users.MatchingUrlDecomposes | models/user.model.js:56-77 | every URL that passes the pattern is of that form: the pattern describes exactly that language |
| Users.PublicProfileKeepsTheRest | models/user.model.js:245-251 | the public profile loses only password, socket id and preferences: putting those back restores the user |
| Users.PublicProfileHidesSecrets | models/user.model.js:245-251 | the public profile does not depend on password, socket id or preferences |
| Text.Utf16Length | models/user.model.js:9 | a string's JavaScript length is its character count plus one for every astral character, between one and two per character |
| Text.ValidatorLength | routes/user.router.js:12 | the validator's length is the character count less the variation selectors |
| Text.ValidatorLengthAtMostUtf16 | routes/user.router.js:12 | the validator never measures more than the schema, and both agree with the character count on text without astral characters or variation selectors |
| Projects.ParseProjectStatus | models/project.model.js:25-29 | the required status field accepts exactly the three names and rejects an absent value |
| Projects.ProjectStatusRoundTrip | models/project.model.js:25-29 | every project status survives printing and re-parsing |
| Projects.EntriesOf | models/project.model.js:35-44 | a user has no collaborator entries exactly when no entry names them |
| Projects.EntriesOfAppend | models/project.model.js:35-44 | appending an entry adds one to its user's count and nothing to anyone else's |
| Projects.AddCollaborator | controllers/project.controller.js:180-184 | pushing a collaborator keeps the old entries as a prefix, gives that user exactly one more entry, and leaves every other field and every other user's count unchanged |
| Projects.NewProject | models/project.model.js:3-55 | a project saves exactly when the trimmed title is non-blank, the description is non-empty and the status is valid; the saved project is active, owned by the caller, and lists the collaborators in order |
| ProjectController.CreateProjectAsWritten | controllers/project.controller.js:5-70 | as written: a body without a collaborator list fails with 500, a valid one appends the project, and no user record ever changes |
| ProjectController.Enrol | controllers/project.controller.js:25-48 | a user record gains an owner reference when it is the owner and one collaborator reference when listed (however often), and nothing else |
| ProjectController.CreateProject | controllers/project.controller.js:5-70 | corrected create: a missing list reads as empty; on 201 the project is appended and every stored user is enrolled as `Enrol` says; on 500 nothing changes |
| ProjectController.MissingCollaboratorsAsWritten | controllers/project.controller.js:19 | a valid body without collaborators fails as written and succeeds once corrected |
| ProjectController.CollaboratorEnrolledOnce | controllers/project.controller.js:35-48 | a listed collaborator who is not the owner gets exactly one collaborator reference, even when listed twice |
| ProjectController.AddRefusal | controllers/project.controller.js:151-177 | the refusals come in source order: 404 for an unknown project, 403 for a non-owner, 400 for an existing collaborator; nothing is refused otherwise |
| ProjectController.AddCollaboratorAsWritten | controllers/project.controller.js:145-209 | as written: the project gains the collaborator, but the push onto the user record is dropped |
| ProjectController.AddCollaborator | controllers/project.controller.js:145-209 | corrected add: the same status and the same project store as the code as written, so on 200 project pid is the `$push` of one entry onto it with every other field and entry kept, holding exactly one entry for the user, and no other project changes; a stored user gains exactly one collaborator reference; a refusal changes nothing |
| ProjectController.AddCollaboratorTwice | controllers/project.controller.js:167-177 | adding the same collaborator again is a 400 that changes nothing |
| ProjectController.SearchUsers | controllers/project.controller.js:109-142 | 400 without a query; otherwise exactly the first ten users other than the caller, in collection order, whose name or email matches |
| Conversations.Save | models/conversation.model.js:75-81 | a save fails exactly for a direct conversation without two participants, and otherwise stores the document unchanged |
| Conversations.DisplayName | models/conversation.model.js:84-90 | the display name is never empty: "Direct Message" for a direct conversation, the group's own name when set, "Group Chat" otherwise |
| Conversations.AddParticipant | models/conversation.model.js:93-99 | an existing participant is left alone; a newcomer is appended and saved; a successful result always includes the user |
| Conversations.AddParticipantIdempotent | models/conversation.model.js:93-99 | adding twice is adding once |
| Conversations.AddToDirectFails | models/conversation.model.js:75-81 | a full direct conversation refuses a third participant |
| Conversations.RemoveParticipant | models/conversation.model.js:102-105 | removal leaves the user out, keeps everyone else in order, and changes no other field |
| Conversations.RemoveFromDirectFails | models/conversation.model.js:75-81 | a member cannot be removed from a two-person direct conversation |
| Conversations.MarksOf | models/conversation.model.js:113-142 | a user has no marks exactly when no mark names them |
| Conversations.AddMark | models/conversation.model.js:113-136 | a mark is added only when the user has none, leaving them with exactly one; other users' counts are unchanged |
| Conversations.DropMarks | models/conversation.model.js:123-142 | dropping removes every mark of the user, keeps every other mark, and adds nothing |
| Conversations.AddMarkKeepsAtMostOne | models/conversation.model.js:113-136 | if every user has at most one mark, that still holds after adding one |
| Conversations.ArchiveFor | models/conversation.model.js:113-120 | archiving adds the mark only when absent, and always succeeds on a savable conversation |
| Conversations.UnarchiveFor | models/conversation.model.js:123-126 | unarchiving drops the user's marks and succeeds on a savable conversation |
| Conversations.MuteFor | models/conversation.model.js:129-136 | muting adds the mark only when absent, and always succeeds on a savable conversation |
| Conversations.UnmuteFor | models/conversation.model.js:139-142 | unmuting drops the user's marks and succeeds on a savable conversation |
| Conversations.ArchiveRoundTrip | models/conversation.model.js:113-126 | archiving is idempotent, and unarchiving afterwards leaves the user with no mark |
| Conversations.FindOrCreateDirect | models/conversation.model.js:145-167 | corrected (`lastActivity` only under `$set`): the result is a direct conversation between the two, stamped now; an existing one is reused in place, otherwise a fresh `[a, b]` is appended |
| Conversations.DirectBetweenSymmetric | models/conversation.model.js:147-150 | the lookup filter ignores argument order |
| Conversations.FindOrCreateDirectSymmetric | models/conversation.model.js:145-167 | both argument orders pick the same conversation, and the stores differ at most in the order of a new conversation's two participants |
| Conversations.FindOrCreateDirectStable | models/conversation.model.js:145-167 | calling again finds the conversation the first call left |
| Conversations.Upsert | models/conversation.model.js:146-166 | an update naming one path under both `$setOnInsert` and `$set` fails whatever the store holds; otherwise the answer is a direct conversation of the two, stamped now |
| Conversations.FindOrCreateDirectAsWritten | models/conversation.model.js:152-159 | as written: every call fails, because `lastActivity` sits under both operators; nothing is found or created |
| Conversations.DirectUpdateApplies | models/conversation.model.js:145-167 | without the duplicated path the update is accepted and the upsert gives the find-or-create result |
| Conversations.ListedIds | models/conversation.model.js:171-182 | exactly the conversations the user takes part in and has not archived, each once |
| Conversations.UserConversations | models/conversation.model.js:171-182 | a negative skip is an error; otherwise exactly the window the skip and limit cut from the listed conversations sorted by last activity, most recent first: its length is what skip and limit leave, each listed conversation appears at most once, and the k-th is ranked skip + k |
| Messages.ParseMessageType | models/message.model.js:19-23 | exactly the five type names are accepted, each naming the type it yields |
| Messages.MessageTypeRoundTrip | models/message.model.js:19-23 | every type survives printing and re-parsing |
| Messages.NewMessage | models/message.model.js:3-61 | a message saves exactly when its trimmed content is non-blank and its type (default text) is valid; it starts `sent`, not deleted or edited, with the trimmed content |
| Messages.MarkAsRead | models/message.model.js:77-80 | the status becomes read, nothing else changes, and the status never moves backwards |
| Messages.MarkAsDelivered | models/message.model.js:83-89 | only a sent message becomes delivered; any other is unchanged, so a read message never regresses |
| Messages.MarkAsReadIdempotent | models/message.model.js:77-80 | marking read twice is marking once |
| Messages.MarkAsDeliveredIdempotent | models/message.model.js:83-89 | marking delivered twice is marking once |
| Messages.ReadAbsorbs | models/message.model.js:77-89 | read absorbs delivered in either order |
| Messages.UpdateWhere | models/message.model.js:105-116 | a bulk update changes exactly the selected messages and keeps the store's length |
| Messages.MarkConversationAsRead | models/message.model.js:105-116 | every message of the conversation from someone else becomes read, no other message changes, no status regresses, and the count is the number changed |
| Messages.MarkConversationAsReadCount | models/message.model.js:105-116 | the modified count is the number of unread messages from others in that conversation |
| Messages.MarkDeliveredOnJoin | socket.js:60-67 | only others' messages in the joined conversation move, only from sent to delivered, and read messages are untouched |
| Messages.MarkListedRead | socket.js:188-212 | only listed messages of the conversation from someone else become read and no status regresses; the count is every matched message, already-read ones included, since the timestamps stamp each one, so it is zero exactly when nothing matches and never below the number changed |
| Messages.ListedCount | routes/message.routes.js:345-354 | the number of messages the filter matches, zero exactly when none does |
| Messages.MarkListedReadCount | routes/message.routes.js:345-354 | the modified count is the number of messages changed plus the matched messages that were already read |
| Messages.VisibleIds | models/message.model.js:92-97 | exactly the conversation's messages that are not deleted, each once |
| Messages.ConversationMessages | models/message.model.js:92-102 | a negative skip is an error; otherwise exactly the window the skip and limit cut from the visible messages sorted newest first: its length is what skip and limit leave, each visible message appears at most once, and the k-th is ranked skip + k by timestamp |
| Messages.FirstPageHasAllVisible | models/message.model.js:92-102 | with no limit, the first page holds every visible message of the conversation |
| Messages.UnreadGroupsBelow | models/message.model.js:119-151 | one group per conversation with unread messages, each carrying that conversation's unread count; the groups come in conversation-id order, an order the model picks because `$group` leaves its output order unspecified |
| Messages.TotalUnreadBelow | models/message.model.js:119-151 | the group counts over the first k conversations add up to the unread messages in those conversations |
| Messages.TotalUnreadCountsMessages | models/message.model.js:119-151 | the total the groups report is the number of unread messages the pipeline keeps: grouping loses and duplicates nothing |
| Notifications.ParseKind | models/notification.model.js:14-20 | exactly the seven kinds are accepted, each naming the kind it yields |
| Notifications.KindRoundTrip | models/notification.model.js:14-20 | every kind survives printing and re-parsing |
| Notifications.Create | models/notification.model.js:3-35 | a notification saves exactly when recipient, sender, a valid kind and a message are present; it is appended unread with a fresh id, and a refusal leaves the store alone |
| Notifications.CreateUnreadCount | models/notification.model.js:3-35 | a created notification adds one to its recipient's unread count and nothing to anyone else's |
| Notifications.FindAddressed | controllers/notification.controller.js:51-55 | a notification is found only through its own recipient, and nothing is found exactly when none matches |
| Notifications.AddressedUnique | controllers/notification.controller.js:51-55 | in a well-formed store at most one notification matches an id |
| Notifications.MarkAsRead | controllers/notification.controller.js:46-87 | only the caller's notification with that id changes, and only its read flag; 404 changes nothing; the reply's count is the caller's true unread count afterwards |
| Notifications.MarkAsReadCountDrops | controllers/notification.controller.js:46-87 | the reported count drops by one when the notification was unread and stays put otherwise |
| Notifications.MarkAllAsRead | controllers/notification.controller.js:89-112 | every notification of the caller becomes read, and nobody else's changes |
| Notifications.MarkAllAsReadLeavesNoneUnread | controllers/notification.controller.js:89-112 | the reported zero is the caller's true unread count afterwards, and every other user's count is unchanged |
| Notifications.Delete | controllers/notification.controller.js:138-168 | exactly the caller's notification with that id is removed; 404 changes nothing; every other notification stays |
| Notifications.DeleteFirst | controllers/follow.controller.js:178-182 | `deleteOne` removes one matching notification if any, keeps every non-matching one, and lowers the match count by at most one |
| Notifications.RemoveAddressedLeavesNone | controllers/notification.controller.js:138-168 | after the deletion a well-formed store holds no notification with that id for the caller |
| Notifications.Cleanup | controllers/notification.controller.js:169-180 | the cleanup keeps exactly the notifications that are unread or younger than 30 days, so no unread count changes |
| Notifications.CleanupWithinTtl | models/notification.model.js:40 | everything the cleanup removes the TTL index could already have removed |
| Notifications.CleanupAfterTtlSweep | models/notification.model.js:40 | after a TTL sweep the cleanup finds nothing to delete |
| Notifications.Inbox | controllers/notification.controller.js:10-14 | exactly the user's notifications, as many as the recipient count says |
| Notifications.List | controllers/notification.controller.js:3-44 | a negative skip is a 500; otherwise exactly the window the skip and limit cut from the caller's notifications sorted newest first (length, ranks, each at most once in a well-formed store); the pagination is the one `Paging.Paginate` computes from the caller's total, and the unread count covers all of the caller's notifications |
| Paging.QueryIntOr | controllers/notification.controller.js:6-8 | a present non-zero value is used as is; absent, unparsable and zero values give the default |
| Paging.Paginate | controllers/notification.controller.js:26-31 | the page info echoes page and total, and with a positive limit the page count is the least number of pages covering the total |
| Paging.CeilDiv | controllers/notification.controller.js:26-31 | the page count is the least number of pages of that size covering the total |
| Paging.HasMoreIffBeforeLastPage | controllers/notification.controller.js:26-31 | with ordinary values, `hasMore` holds exactly when the page is not the last |
| Paging.HasMoreIffItemsRemain | controllers/notification.controller.js:26-31 | `hasMore` holds exactly when items remain after the page the same skip and limit select |
| Follows.Save | models/follow.model.js:19-32 | a follow saves exactly when it is not a self-follow and the ordered pair is new; the self-follow check runs first; the new follow is appended |
| Follows.ReversePairAllowed | models/follow.model.js:19 | the unique index is on the ordered pair, so a→b does not block b→a |
| Follows.SecondSaveFails | models/follow.model.js:19 | the same pair cannot be saved twice |
| Follows.FindPair | controllers/follow.controller.js:40-50 | the lookup finds a follow of the pair exactly when one is stored |
| Follows.RemoveAt | controllers/follow.controller.js:175 | deleting removes one follow and keeps every other |
| Follows.RemovePairLeavesNone | controllers/follow.controller.js:160-175 | after unfollowing, a well-formed store holds no follow of the pair |
| Follows.SaveCounts | controllers/follow.controller.js:105-106 | a new follow adds one follower to the followed user and one following to the follower, and changes no other count |
| Follows.RemoveCounts | controllers/follow.controller.js:175-218 | deleting a follow takes one follower from the followed user and one following from the follower, and changes no other count |
| Follows.RemovePair | controllers/follow.controller.js:162-175 | deleting the stored pair keeps every other follow, leaves none of the pair in a well-formed store, and lowers both counts by one |
| Follows.AppendThenRemove | controllers/follow.controller.js:53-58 | deleting a pair that one appended follow introduced restores the earlier follows exactly |
| Follows.FollowersOf | controllers/follow.controller.js:257 | exactly the stored follows of the user, as many as the follower count |
| Follows.FollowingOf | controllers/follow.controller.js:295 | exactly the stored follows the user made, as many as the following count |
| Follows.PairIdentifies | models/follow.model.js:19 | in a well-formed store a follow is identified by its pair |
| FollowController.FollowUser | controllers/follow.controller.js:17-137 | 400 for an empty target or oneself, 404 for an unknown user, 409 for an existing follow, each changing nothing; otherwise one follow and one follow notification are appended, the reply's follower and following counts are one above the old counts, and a `newNotification` push with the target's unread count goes to the target's socket exactly when the target is registered and socket.io is up |
| FollowController.UnfollowUser | controllers/follow.controller.js:139-248 | 400 for an empty target or oneself; 200 exactly when the follow exists; then that follow and one matching notification are removed and everything else is kept, the reply's counts are one below the old counts, and a `userUnfollowed` push naming the caller, with the target's unread count, goes to the target's socket exactly when the target is registered and socket.io is up |
| FollowController.FollowUnfollowRoundTrip | controllers/follow.controller.js:17-248 | following then unfollowing restores the follow store's contents; the unfollow reply reports the follower and following counts from before the follow |
| FollowController.CheckFollowStatus | controllers/follow.controller.js:326-359 | "self" exactly for oneself; "following" exactly when the pair is stored and it is not oneself |
| FollowController.GetFollowers | controllers/follow.controller.js:250-286 | a negative skip is a 500; otherwise every listed user follows the given user, the k-th through the follow ranked skip + k by creation time, newest first; the length is what skip and limit leave of the follower count, the pagination (total, pages, more) is `Paging.Paginate` of that count, and in a well-formed store no user appears twice |
| FollowController.GetFollowing | controllers/follow.controller.js:288-324 | a negative skip is a 500; otherwise every listed user is followed by the given user, the k-th through the follow ranked skip + k by creation time, newest first; the length is what skip and limit leave of the following count, the pagination is `Paging.Paginate` of that count, and in a well-formed store no user appears twice |
| FollowController.FollowerRecords | controllers/follow.controller.js:257-266 | the follows behind a followers page: each is a follow of the given user, the k-th is the follow ranked skip + k among that user's followers by creation time, newest first; the window has the length skip and limit leave of the follower count, and no follow twice in a well-formed store |
| FollowController.FollowingRecords | controllers/follow.controller.js:295-304 | the follows behind a following page: each is a follow the given user made, the k-th is ranked skip + k among them by creation time, newest first; the length is what skip and limit leave of the following count, and no follow twice in a well-formed store |
| FollowController.ListedFollowers | models/follow.model.js:19 | the followers named by a page of follows of one user each follow that user, and the unique follower/following pair makes them distinct in a well-formed store |
| FollowController.ListedFollowed | models/follow.model.js:19 | the users named by a page of follows one user made are each followed by that user, and the unique pair makes them distinct in a well-formed store |
| Presence.Connect | socket.js:30 | the user is registered under this socket; every other entry is unchanged |
| Presence.Disconnect | socket.js:343 | the user's entry is gone, whichever socket it named; every other entry is unchanged |
| Presence.ConnectDisconnect | socket.js:30-343 | connecting and disconnecting a user who was offline restores the registry |
| Presence.StaleDisconnect | socket.js:30-343 | with two tabs, the second connection overwrites the first, and the first tab's disconnect marks the user offline |
| Presence.EmitToUser | socket.js:388-395 | exactly one event reaches the registered socket when the user is online and the server is up; otherwise nothing is sent and the answer is false |
| Presence.EmitsForCount | socket.js:398-404 | sending to a list produces one event per reachable user and none when the server is down |
| Presence.EmitToUsers | socket.js:398-404 | one answer per id, in order, each true exactly when that user is reachable, with the emits of each single send in turn |
| Presence.SendFollowNotification | socket.js:407-412 | a reachable target gets exactly one `newNotification` on its own registered socket, carrying the notification and its unread count, or 1 when it carries none (absent or zero); an unreachable one gets nothing |
| Presence.SendMessageNotification | socket.js:415-417 | a reachable user gets exactly one `messageNotification` on its own registered socket carrying the message data unchanged; an unreachable one gets nothing |
| Invitations.ParseStatus | models/projectInvitation.model.js:25-29 | exactly the four status names are accepted |
| Invitations.StatusRoundTrip | models/projectInvitation.model.js:25-29 | every status survives printing and re-parsing |
| Invitations.PendingIndex | models/projectInvitation.model.js:109-115 | an invitation is found exactly when a pending one of that user to that project exists |
| Invitations.New | models/projectInvitation.model.js:30-47 | an invitation saves exactly when its trimmed message is at most 500 UTF-16 code units and the email is non-blank; it is pending, unanswered, and expires exactly one week after creation |
| Invitations.Accept | models/projectInvitation.model.js:72-86 | accepting succeeds exactly for a pending, unexpired invitation; an expired pending one becomes `expired`; only status and answer time ever change |
| Invitations.Decline | models/projectInvitation.model.js:89-97 | declining succeeds exactly for a pending invitation, whatever its expiry |
| Invitations.AnsweredIsFinal | models/projectInvitation.model.js:72-97 | once answered, neither method succeeds again or changes the invitation |
| Invitations.DeclineIgnoresExpiry | models/projectInvitation.model.js:72-97 | an expired pending invitation can be declined but not accepted |
| Invitations.SetAt | controllers/projectInvitation.controller.js:231 | replacing an invitation keeps the store well formed when id, project and invitee stay the same and it does not become pending again |
| Invitations.RemoveAt | controllers/projectInvitation.controller.js:330-363 | deleting keeps the store well formed |
| Invitations.Received | models/projectInvitation.model.js:100-106 | exactly the user's pending invitations that expire after now are listed, as many as the count of receivable ones |
| Invitations.Sent | controllers/projectInvitation.controller.js:165-167 | exactly the invitations the user sent, whatever their status, as many as their count |
| Invitations.ReceivedAreAcceptable | models/projectInvitation.model.js:67-106 | every listed invitation can be accepted or declined at the time of listing |
| Invitations.ExpiryInstantNotListed | models/projectInvitation.model.js:67-106 | at its exact expiry instant an invitation is accepted as not expired, yet it is not listed |
| InvitationController.SendInvitation | controllers/projectInvitation.controller.js:7-108 | 404/403/404/400 in source order, each changing nothing; once every check passes, 201 exactly when the trimmed message fits in 500 UTF-16 units and the invitee's email is not blank, and 500 otherwise; on 201 one pending invitation from the caller and one linked invite notification are appended; stores stay well formed |
| InvitationController.SecondInvitationRefused | controllers/projectInvitation.controller.js:50-56 | sending the same invitation again is a 400 |
| InvitationController.SendInvitationAsWritten | controllers/projectInvitation.controller.js:7-108 | as written, with the full unique index in force: a 201 only when no invitation of the pair is stored, so a request whose project and user exist and whose pair is taken never succeeds; uniqueness of pairs is kept |
| InvitationController.NoPendingAfterDecline | models/projectInvitation.model.js:89-95 | declining the single pending invitation of a pair leaves the pair with no pending invitation, so the pending check no longer refuses it |
| InvitationController.ReinviteAfterDecline | models/projectInvitation.model.js:54-63 | inviting again after a decline is a 201 under the partial index and a 500 under the full index as declared |
| InvitationController.ListWhere | controllers/projectInvitation.controller.js:111-200 | a negative skip is a 500; otherwise exactly the window the skip and limit cut from the selected invitations sorted newest first: length, the k-th ranked skip + k by creation time, each at most once in a well-formed store; the pagination is `Paging.Paginate` of the selected count |
| InvitationController.ReceivedInvitations | controllers/projectInvitation.controller.js:111-156 | a negative skip is a 500; otherwise the window of the caller's receivable invitations, newest first, with exact length and ranks, each acceptable now; the pagination counts them all |
| InvitationController.SentInvitations | controllers/projectInvitation.controller.js:159-200 | a negative skip is a 500; otherwise the window of the invitations the caller sent, whatever their status, newest first, with exact length and ranks; the pagination counts them all |
| InvitationController.FindOpen | controllers/projectInvitation.controller.js:208-219 | an invitation is found exactly when a pending one with that id is addressed to the caller |
| InvitationController.Joined | controllers/projectInvitation.controller.js:239-245 | the joining user gains one collaborator reference and one joined project, and their completion is recomputed |
| InvitationController.Commit | controllers/projectInvitation.controller.js:231-236 | the invitation becomes accepted, every other invitation is unchanged, an existing project gains exactly one entry for the invitee, and every other project is unchanged |
| InvitationController.AcceptAsWritten | controllers/projectInvitation.controller.js:203-275 | as written: 404 without an open invitation, 400 for an expired one, and otherwise a 500 after the invitation is accepted and the collaborator pushed; user and notifications never change |
| InvitationController.AcceptAsWrittenCannotComplete | controllers/projectInvitation.controller.js:231-245 | as written, after that 500 the same request finds nothing: the accept can never be completed |
| InvitationController.AcceptInvitation | controllers/projectInvitation.controller.js:203-275 | corrected accept: 200 exactly for an open, unexpired invitation to an existing project; only that invitation (accepted) and that project (one more collaborator entry) change; the caller gains one project reference and one joined project; the inviter gets one update notification; on 400 only that invitation changes, to expired |
| InvitationController.DeclineInvitation | controllers/projectInvitation.controller.js:278-327 | 404 without an open invitation; otherwise it is declined, with no expiry check, and 200 with one notification to the inviter exactly when project and inviter still exist |
| InvitationController.CancelInvitation | controllers/projectInvitation.controller.js:330-363 | only the inviter of a pending invitation can cancel; it is then removed and every other invitation kept |
| Collaboration.MessageSuffix | routes/collaboration.routes.js:166 | the reply text gains a tail exactly when a non-empty message was given |
| Collaboration.RequestRefusal | routes/collaboration.routes.js:12-54 | a request passes exactly when fields are present, the project exists, is collaborative and the requester is not yet a collaborator; 404 exactly for an unknown project |
| Collaboration.StoreRequest | routes/collaboration.routes.js:57-77 | one unanswered request notification is appended, carrying the project id and title |
| Collaboration.RequestAsWritten | routes/collaboration.routes.js:12-106 | as written: the request goes to whoever the body names as owner |
| Collaboration.Request | routes/collaboration.routes.js:12-106 | corrected: the request goes to the stored owner of the project, unanswered and naming the project and its title, and every existing notification is kept |
| Collaboration.Replace | routes/collaboration.routes.js:224-230 | replacing a notification with one of the same id keeps the store well formed |
| Collaboration.Admit | routes/collaboration.routes.js:147-158 | the requester ends with exactly one entry if they had none and is unchanged otherwise; nobody else and no other field changes |
| Collaboration.AdmitIdempotent | routes/collaboration.routes.js:147-158 | accepting twice adds the requester once |
| Collaboration.FindRequest | routes/collaboration.routes.js:116-122 | a request is found exactly when one with that id is stored |
| Collaboration.RespondRefusal | routes/collaboration.routes.js:116-145 | an answer passes only for a stored request addressed to the caller, and an accept only when the project still exists; 403 exactly when the caller is not the recipient |
| Collaboration.Answer | routes/collaboration.routes.js:137-220 | an accept admits the requester and notifies them with the accept text; a reject notifies them with the reject text; any other action adds nothing |
| Collaboration.RespondAsWritten | routes/collaboration.routes.js:109-249 | as written: the recipient may answer; accept admits the requester once into the named project and leaves every other project alone; accept and reject append one reply of the matching kind and text to the requester; of the request only the read flag is saved, and every other notification is kept |
| Collaboration.Respond | routes/collaboration.routes.js:109-249 | corrected: only the project owner may accept; accept admits the requester once into the project and leaves every other project alone; accept and reject append one reply of the matching kind and text to the requester; the request is saved read and answered, and every other notification is kept |
| Collaboration.OpenRequests | routes/collaboration.routes.js:252-277 | exactly the caller's unanswered requests, each as often as it is stored (a reordering of the matches), newest first |
| Collaboration.AnsweredRequestStaysOpen | routes/collaboration.routes.js:224-262 | as written, an answered request is still listed as open |
| Collaboration.AnsweredRequestCloses | routes/collaboration.routes.js:224-262 | corrected, an answered request is no longer listed |
| Collaboration.NonOwnerCanAcceptAsWritten | routes/collaboration.routes.js:59-130 | as written, a stranger named as owner can accept and add the requester to a project they do not own |
| Collaboration.NonOwnerCannotAccept | routes/collaboration.routes.js:125-130 | corrected, a caller who is not the owner gets 403 on accept |
| Collaboration.RejectTextAsWritten | routes/collaboration.routes.js:197 | as written, the reject text always names the project "undefined" |
| Realtime.Connect | socket.js:26-44 | the user is registered under the socket and their record becomes active with that socket; nothing else changes and the registry and records stay in agreement |
| Realtime.Disconnect | socket.js:339-355 | the registry entry is removed and the record loses its socket and becomes inactive |
| Realtime.LogoutLeavesRegistryStale | controllers/user.controller.js:310-338 | logging out over REST while connected breaks the agreement between registry and records, and the later disconnect restores it |
| Realtime.SecondTabGoesDark | socket.js:26-355 | with two tabs open, closing the first marks the user offline and inactive although the second is open |
| Realtime.JoinConversation | socket.js:53-78 | exactly the joiner's incoming sent messages of that conversation become delivered, and the room hears `messagesDelivered` |
| Realtime.JoinTwiceChangesNothingMore | socket.js:53-78 | joining again changes no message |
| Realtime.MarkMessagesRead | socket.js:188-212 | exactly the listed messages of that conversation that others sent become read, and the room hears the ids |
| Realtime.OwnMessagesUntouched | socket.js:188-212 | a reader's own message never changes, even when listed |
| Realtime.UpdateStatus | socket.js:323-336 | only the three statuses are accepted; then the caller's record takes it and others hear it; otherwise nothing happens |
| Realtime.UpsertDirect | socket.js:98-109 | the upsert lands on a direct conversation whose participants become `[a, b]`; an existing match is rewritten in place, otherwise one is appended |
| Realtime.UpsertDirectStable | socket.js:98-109 | upserting the same pair again lands on the same conversation and creates nothing |
| Realtime.SelfMessageRewritesConversation | socket.js:98-109 | a message to oneself rewrites the sender's first direct conversation and drops the other participant |
| Realtime.ResolveConversation | socket.js:95-112 | a given id is used when it exists and fails otherwise; no id means the upsert |
| Realtime.SendMessage | socket.js:88-185 | the sender always ends with `messageSent` or `messageError` carrying the temp id; an accepted message is appended, delivered exactly when the recipient is online, and becomes the conversation's last message |
| Realtime.BlankMessageStillUpserts | socket.js:98-122 | a blank message is refused, but the direct conversation has already been upserted |
| Realtime.SendFollowRequest | socket.js:233-276 | nothing is stored; an online target gets a notification of a kind the schema rejects, with its unread count plus one; the sender always gets a confirmation |
| Realtime.AcceptFollowRequest | socket.js:278-320 | nothing is stored and no follow is created; an online requester gets a typed notification with its unread count plus one; the caller always gets a confirmation |
| Realtime.FollowHandshakeStoresNothing | socket.js:233-320 | the socket handshake reaches both ends and leaves the stores as they were |
| MessageRoutes.CreateDirect | routes/message.routes.js:67-159 | 400 without a recipient or for oneself, 404 for an unknown one; otherwise the existing conversation of the two is reused unchanged or a new one appended, and the reply describes the recipient |
| MessageRoutes.CreateDirectSymmetric | routes/message.routes.js:67-159 | whoever opens the conversation second lands on the first one, and nothing new is created |
| MessageRoutes.OldestFirst | routes/message.routes.js:179-186 | the newest-first window reversed: its length is what skip and limit leave of the visible messages, each appears at most once, oldest first, and the k-th is ranked skip + length - 1 - k by timestamp |
| MessageRoutes.ReversedPage | routes/message.routes.js:186 | reversing a newest-first ranked page of distinct messages yields them oldest first with the ranks mirrored |
| MessageRoutes.ListMessages | routes/message.routes.js:164-201 | 403 for a non-member, 500 for a negative skip; otherwise exactly the `OldestFirst` page, after which nothing the others sent there is unread; only statuses ever change |
| MessageRoutes.ListingClearsUnread | routes/message.routes.js:182 | after a listing the caller has no unread messages left in that conversation |
| MessageRoutes.SendAsWritten | routes/message.routes.js:269-326 | as written: a file-only message fails with 500, and a saved message still gets a 500 unless its text casts to an id |
| MessageRoutes.Send | routes/message.routes.js:269-326 | corrected, in the handler's order: 400 for neither content nor file, then 403 for a non-member, then 400 for a message the schema would refuse; 200 exactly for a member whose message would save, and then the message is appended and becomes the conversation's last message |
| MessageRoutes.FileOnlyMessageAsWritten | routes/message.routes.js:275-302 | a file-only message gives 500 as written and 400 once corrected |
| MessageRoutes.TextMessageAsWritten | routes/message.routes.js:306-311 | a plain text message is stored but answered with 500 as written; corrected, it is answered 200 and shown as the preview |
| MessageRoutes.SentMessageIsListed | routes/message.routes.js:164-326 | a message sent over REST appears in its conversation's listing |
| MessageRoutes.MarkRead | routes/message.routes.js:329-373 | 403 for a non-member; with ids only those listed from others become read, otherwise all from others; with ids the count is every matched message, already-read ones included, otherwise the number changed |
| MessageRoutes.MarkReadTwice | routes/message.routes.js:329-373 | marking a conversation read again modifies nothing |
| MessageRoutes.DeleteMessage | routes/message.routes.js:376-415 | 404 for an unknown id, 403 for a non-sender; otherwise the message is hidden from every listing and nothing else changes |
| MessageRoutes.DeletedMessageNotListed | routes/message.routes.js:376-415 | a deleted message appears on no page of any conversation |
| MessageRoutes.EditMessage | routes/message.routes.js:418-468 | 400 for blank content, 404, 403; otherwise the content becomes the trimmed text, flagged edited, and nothing else changes |
| MessageRoutes.EditAcceptsWhatSendAccepts | routes/message.routes.js:418-468 | an edit accepts exactly the contents a new text message accepts |
| MessageRoutes.EditWithSameText | routes/message.routes.js:418-468 | editing with the shown text keeps the text |
| MessageRoutes.EditTwiceSameText | routes/message.routes.js:418-468 | re-editing with an edit's result keeps that text |
| MessageRoutes.Hits | routes/message.routes.js:483-510 | exactly the messages a search may show, each once |
| MessageRoutes.SearchMessages | routes/message.routes.js:471-536 | 400 without a query, 403 for a foreign conversation; otherwise exactly the window of hits sorted newest first: its length is what skip and limit leave, each hit appears at most once, and the k-th is ranked skip + k by timestamp |
| MessageRoutes.SearchStaysInOwnConversations | routes/message.routes.js:471-536 | a search never shows a message from a conversation the caller is not in |
| MessageRoutes.SearchFindsEveryHit | routes/message.routes.js:471-536 | every hit whose rank falls inside the window a page and limit select is on that page |
| MessageRoutes.FirstSearchPageHasEveryHit | routes/message.routes.js:471-536 | with no limit, page 1 holds every hit |
| MessageRoutes.UnreadCount | routes/message.routes.js:539-561 | the total is the number of messages that count as unread for the caller |
| UserController.Messages | controllers/user.controller.js:7-15 | there are no errors exactly when no rule fails, and every failing rule's message is reported |
| UserController.MismatchReported | routes/user.router.js:26-32 | a confirmation that differs from the password is always reported |
| UserController.FieldErrorsEmptyIff | routes/user.router.js:8-64 | no rule fails exactly when the body is acceptable |
| UserController.AcceptedFields | routes/user.router.js:8-64 | an accepted body has a long enough name, password and university, a valid email, a matching confirmation, a valid skill level and at least one interest |
| UserController.NewUser | controllers/user.controller.js:39-52 | the stored record carries the sanitised fields, social links only when non-empty, the schema defaults and the save hooks' values |
| UserController.RegisterUser | controllers/user.controller.js:4-109 | 400 exactly for field errors or, with a free address, a record the schema refuses; 409 exactly for a taken address; 201 exactly for a valid body with a free address whose record the schema accepts, with the new user appended; email uniqueness is preserved |
| UserController.InsertKeepsUnique | controllers/user.controller.js:30-36 | storing a user with an untaken address keeps addresses unique |
| UserController.RegisterTwice | controllers/user.controller.js:30-36 | registering the same body twice gives 409 the second time |
| UserController.FindByEmail | controllers/user.controller.js:125 | a user is found only with that address, and nothing is found exactly when nobody has it |
| UserController.LoginUser | controllers/user.controller.js:111-172 | 400 for a bad address or empty password, 401 for an unknown address or wrong password, and 200 exactly otherwise, refreshing the user's activity |
| UserController.LoginFieldsOfAccepted | routes/user.router.js:16-78 | a registration body the rules accept carries an address the e-mail check accepts and a non-empty password, which is what the login rules demand |
| UserController.RegisterThenLogin | controllers/user.controller.js:4-172 | a user who just registered can log in with the same address and password |
| UserController.FindNewEmail | controllers/user.controller.js:125 | a new user with a fresh address is the one the login lookup finds |
| UserController.GeneralUserSearch | controllers/user.controller.js:174-206 | nothing for a short query; otherwise exactly the first ten active users, in collection order, whose name the query prefixes |
| UserController.ShortQueryFindsNobody | controllers/user.controller.js:178-183 | a single visible character of the Basic Multilingual Plane padded with blanks finds nobody |
| UserController.AstralQuerySearches | controllers/user.controller.js:178-183 | a single astral character is two UTF-16 code units, so the same query passes the guard and the search runs |
| UserController.AstralBioPassesRulesFailsSchema | routes/user.router.js:59-62 | a bio of 300 astral characters passes the rule's 500 and fails the schema's 500 |
| UserController.Transform | controllers/user.controller.js:253-265 | references to vanished projects are dropped, and every other reference is kept with its role |
| UserController.GetUserProfileAsWritten | controllers/user.controller.js:208-308 | as written: 400 for a missing id and 500 for every other id; no profile is ever shown |
| UserController.GetUserProfile | controllers/user.controller.js:208-308 | corrected: 400, 404, or the public fields with every existing project, its count, and `isOnline` exactly when active |
| UserController.UnknownProfileAsWritten | controllers/user.controller.js:221-248 | an unknown id gives 500 as written and 404 once corrected |
| UserController.KnownProfileAsWritten | controllers/user.controller.js:225-253 | a stored user gets 500 as written and their profile once corrected |
| UserController.LogoutUser | controllers/user.controller.js:310-338 | the caller loses the socket id and gets a new `profile.lastActive`; nothing else changes; the answer is always 200 |
| Feed.Bucket | controllers/feed.controller.js:255-273 | minutes under an hour, hours under a day, days under a week, otherwise a date; each count is the floor of the elapsed units |
| Feed.Render | controllers/feed.controller.js:255-273 | within a week the text is the count and unit words; after a week it is the locale date |
| Feed.RenderRoundTrip | controllers/feed.controller.js:255-273 | every relative-time text reads back as its bucket and count |
| Feed.TimeAgoReadsBack | controllers/feed.controller.js:255-273 | within a week the text reads back as the bucket of the elapsed time |
| Feed.SingularOnlyForOne | controllers/feed.controller.js:255-273 | "1 minute ago" appears exactly in the second minute |
| Feed.Entries | controllers/feed.controller.js:65-87 | the entries pair each project with its id |
| Feed.OwnerSet | controllers/feed.controller.js:17-32 | the owner list holds exactly the caller and everyone the caller follows, ending with the caller |
| Feed.PostsOf | controllers/feed.controller.js:92-119 | the posts exist exactly when every owner is stored, one post per project, in order |
| Feed.GetFeedPosts | controllers/feed.controller.js:6-158 | only active projects of the caller and of those followed; the k-th post is the project ranked skip + k among them by creation time, newest first, no project twice; the page size is what the skip and limit leave of the total over the whole feed; a negative skip or a vanished owner is a 500 |
| Feed.FeedFacts | controllers/feed.controller.js:65-132 | page entries are stored projects the feed shows, and the feed count is their number |
| Feed.FeedEntries | controllers/feed.controller.js:65-74 | the matched entries are stored active projects of the caller or of someone the caller follows, and there are as many as `countDocuments` reports |
| Feed.NewestWindow | controllers/feed.controller.js:84-86 | at most the limit's magnitude of the entries left after the skip, a sub-multiset of them (so no entry more often than it occurs), the k-th being the entry ranked skip + k by creation time, newest first |
| Feed.FeedPosts | controllers/feed.controller.js:92-119 | the k-th post is the post of the k-th page entry, a stored project the feed shows, and the posts exist whenever every shown project keeps its owner |
| Feed.FeedWindow | controllers/feed.controller.js:65-86 | the entries of one feed page: stored projects the feed shows, the k-th ranked skip + k among them newest first, no project twice, as many as the skip and limit leave |
| Feed.FeedPagePosts | controllers/feed.controller.js:65-119 | the posts of the page the skip and limit select: the k-th is the post of the feed project ranked skip + k, newest first, no project twice; they exist whenever every shown project keeps its owner |
| Feed.PostsFollowWindow | controllers/feed.controller.js:84-119 | posts carrying the ids of a ranked window, in order, keep its newest-first order, its ranks and its distinct ids |
| Feed.NextPageIffPostsRemain | controllers/feed.controller.js:134-146 | there is a next page exactly when posts remain, and a previous one exactly when this is not page 1 |
| Feed.FollowBringsProjects | controllers/feed.controller.js:17-87 | following someone brings their active projects into the feed |
| Feed.SuggestedUsers | controllers/feed.controller.js:161-207 | 404 for an unknown caller; otherwise up to five suggestible users, all of them when fewer than five exist |
| Feed.FollowedNotSuggested | controllers/feed.controller.js:180-192 | a followed user is never suggested |
| Feed.TrendingItemOf | controllers/feed.controller.js:228-237 | a trending item carries its project's id and relative age |
| Feed.NewestEntries | controllers/feed.controller.js:212-225 | at most the limit's magnitude of the given entries, a sub-multiset of them, the k-th being the entry ranked k by creation time, newest first |
| Feed.TrendingEntries | controllers/feed.controller.js:216-219 | the entries the trending query matches: stored active projects of the last week, none twice, as many as trend |
| Feed.TrendingWindow | controllers/feed.controller.js:216-225 | the first limit-magnitude trending entries: the k-th ranked k by creation time among the trending ones, newest first, none twice |
| Feed.TrendingProjects | controllers/feed.controller.js:210-252 | active projects of the last week, as many as the limit allows; the k-th is the trending project ranked k by creation time, newest first, and none comes twice |
| Feed.TrendingAgeIsRelative | controllers/feed.controller.js:216-237 | a trending project is at most a week old, and under a week its age reads back as minutes, hours or days |

## Left out

- Start-up and wiring are not part of this model: db/db.js, server.js, app.js and the route files that only bind handlers (follow.router.js, notification.router.js, feed.routes.js, project.router.js).
  - routes/user.router.js:81 binds a search handler the controller does not export. Express throws when a route is given an undefined handler, so loading that router (app.js:13) fails and the server as shipped does not start; the model describes the handlers as if it did.
  - routes/project.router.js:8-11 imports handlers that do not exist, and lines 28-37 bind them; that router would throw the same way if it were mounted (app.js mounts only the user routes).
- Middleware/authMiddleware.js: the caller's id is a parameter of every handler.
- Password hashing, JWT issue and `comparePassword` (models/user.model.js:184-205) are outside the model.
  - The stored password is kept as given.
  - The hash comparison is the parameter `verify`.
- Three library checks are parameters, because the libraries are outside the model:
  - the e-mail syntax check and normalisation (routes/user.router.js:16-20);
  - the schema's e-mail pattern (models/user.model.js:18);
  - the regular-expression search tests.
- Socket.IO rooms are not modelled. This covers room joins (socket.js:33, 47-50), `leaveConversation` (socket.js:81-85) and the typing indicators (socket.js:215-230). Room emits appear only as emit records.
- `global.io` pushes (routes/collaboration.routes.js:80-88, 181-189) are not modelled, because they only broadcast.
- Random and constant feed fields are not modelled: view counts, ratings, likes and comments (controllers/feed.controller.js:110-119).
- The locale date text is a parameter, and `formattedTime` is left out.
- Malformed ids: ids are naturals here, so the CastError that `findById` throws on a malformed id, which each handler's catch turns into a 500 (for instance controllers/follow.controller.js:31), is not modelled.
- The invitation TTL index (models/projectInvitation.model.js:55) is not modelled. Stored invitations stay past `expiresAt`, and the handlers' expiry checks decide instead, because the background deletion runs at no fixed time.
- Conversations.FindOrCreateDirect: no handler of the model uses it. Its only caller is the shadowed duplicate route (routes/message.routes.js:234).
- UserController.ShortQueryFindsNobody: holds only for characters of the Basic Multilingual Plane. An astral character is two UTF-16 code units and passes the guard (`UserController.AstralQuerySearches`).
- UserController.GetUserProfileAsWritten: no longer shows a profile for a stored user. As written every non-empty id gives 500 (see Findings).
- Messages.MarkListedRead: the count is no longer the number of messages changed. It counts every matched message, and the two differ by the matched messages already read.
- An invalid regular expression in a search is not modelled.
- Concurrency and atomicity are not modelled. This covers the duplicate-key race (controllers/user.controller.js:81-86), `upsert` races and the TTL monitor's timing.
- The commented-out listing (routes/message.routes.js:9-66) is not modelled because it is inactive. The shadowed duplicate route (routes/message.routes.js:205-266) is not modelled because it never runs.
- `getUserProjects` (controllers/project.controller.js:73-106) is not modelled. It only populates and projects data.
- `getConversationWithUnreadCount` (models/conversation.model.js:185-205) is not modelled as a separate static. Its per-conversation count is `Messages.UnreadIn`.
- `findSimilarUsers`, `getProfileWithCounts`, `updateLastActive` and the count and `isConnected` virtuals (models/user.model.js:161-200, 254-269) are not modelled. No modelled handler calls them; the login refresh is written into `UserController.LoginUser`.
- Realtime.SendMessage: only the last emit is described exactly; the room and recipient emits are given by count.
- Feed.SuggestedUsers: when five or more users qualify, the contract does not say which five come first.
- Feed.PostsOf: author, title and collaborator fields are copied but not stated field by field.
- Conversations.UserConversations: populated participants and the last message are not modelled.
- Observations that are not findings, because the code may intend them:
  - a deleted message can still be edited;
  - the feed's empty-owner return is unreachable;
  - a trending project exactly seven days old shows the locale date;
  - a future date gives a negative count of minutes;
  - the `follow_request` and `follow_accepted` socket kinds are not in the notification enum.

## Findings

| source | as written | input that shows it | evidently intended | confidence | as-written member | corrected member |
|---|---|---|---|---|---|---|
| controllers/user.controller.js:221-222, 225-240, 253 | the lookup result's `projects` is read before the null check; for a stored user the population names `projects.projectId`, a path the schema does not declare, and without it `user.projects` is undefined when filtered | any non-empty id | 404 "User not found" for an unknown id (lines 243-248), the profile for a stored one | not executed | UserController.GetUserProfileAsWritten, UserController.UnknownProfileAsWritten, UserController.KnownProfileAsWritten | UserController.GetUserProfile |
| controllers/project.controller.js:19 | `collaborators.map` runs unguarded | a create body without `collaborators` | an optional list, as the guard at line 35 shows | not executed | ProjectController.CreateProjectAsWritten, ProjectController.MissingCollaboratorsAsWritten | ProjectController.CreateProject |
| routes/message.routes.js:275-302 | the guard admits a file-only message, but content is required | `fileUrl` set, no `content` | a file message is accepted, or refused with 400 | not executed | MessageRoutes.SendAsWritten, MessageRoutes.FileOnlyMessageAsWritten | MessageRoutes.Send |
| routes/message.routes.js:306-311 | `lastMessage` gets the message content, not its id | content "hello" | `lastMessage` names the new message, and the answer is 200 | not executed | MessageRoutes.SendAsWritten, MessageRoutes.TextMessageAsWritten | MessageRoutes.Send |
| routes/collaboration.routes.js:59, 125-130 | the request goes to the body's `projectOwnerId`, and its recipient may accept | a requester naming a stranger as owner | only the project's owner can admit a collaborator | not executed | Collaboration.RespondAsWritten, Collaboration.NonOwnerCanAcceptAsWritten | Collaboration.Respond, Collaboration.NonOwnerCannotAccept |
| routes/collaboration.routes.js:197 | the reject text reads `notification.projectTitle`, a path the schema drops | any reject | the project's title | not executed | Collaboration.RespondAsWritten, Collaboration.RejectTextAsWritten | Collaboration.Respond |
| controllers/project.controller.js:25-32, 180-194; controllers/projectInvitation.controller.js:239-245 | pushes onto `projects`, which the user schema does not declare | any create, add or accept | the user's project list records the project | not executed | ProjectController.AddCollaboratorAsWritten, InvitationController.AcceptAsWritten, InvitationController.AcceptAsWrittenCannotComplete | ProjectController.AddCollaborator, ProjectController.CreateProject, InvitationController.AcceptInvitation |
| routes/collaboration.routes.js:224-230 | `relatedData.responded` is set in place on a Mixed path without `markModified` | answer a request, then list open requests | an answered request leaves the open list (lines 256-262) | not executed | Collaboration.AnsweredRequestStaysOpen | Collaboration.AnsweredRequestCloses |
| models/conversation.model.js:152-159 | `lastActivity` is set under both `$setOnInsert` and `$set`, which the server refuses as a conflicting update | any two users | the direct conversation is found or created and stamped | not executed | Conversations.FindOrCreateDirectAsWritten | Conversations.FindOrCreateDirect, Conversations.DirectUpdateApplies |
| models/projectInvitation.model.js:54, 57-63 | a full unique index on `{ project, invitedUser }` is declared before the partial one over pending invitations, so it is the one in force | invite, decline, invite the same user again | a new invitation once the earlier one is answered, as the partial index states | not executed | InvitationController.SendInvitationAsWritten, InvitationController.ReinviteAfterDecline | InvitationController.SendInvitation |

=== FILE: clock.dfy ===
/** Durations in milliseconds, the unit of every timestamp in the model. */
module Clock {
  const MinuteMs: int := 60000
  const HourMs: int := 3600000
  const DayMs: int := 86400000
  /** Seven days: the feed's relative-time horizon and an invitation's
      lifetime. */
  const WeekMs: int := 604800000
}

=== FILE: collaboration.dfy ===
/** The collaboration-request routes (routes/collaboration.routes.js): a
    request is a `collaboration_request` notification; answering it may add
    the requester to the project and always notifies the requester. */
module Collaboration {
  import opened Wrappers
  import opened Text
  import opened Users
  import Projects
  import Notifications
  import Seqs
  import Http

  datatype Outcome = Outcome(projects: seq<Projects.Project>, notes: Notifications.Store, code: int)

  function RequestMessage(requester: string, title: string, message: string): string {
    requester + " wants to collaborate on your project " + Quoted(title) + ": " + message
  }

  /** The optional tail of a response text: present only for a non-empty
      message. */
  function MessageSuffix(message: Option<string>): (r: string)
    ensures r == "" <==> message.None? || message.value == ""
  {
    if message.Some? && message.value != "" then " Message: " + message.value else ""
  }

  function AcceptedMessage(title: string, message: Option<string>): string {
    "Your collaboration request for " + Quoted(title) + " has been accepted!" + MessageSuffix(message)
  }

  function RejectedMessage(title: string, message: Option<string>): string {
    "Your collaboration request for " + Quoted(title) + " was declined." + MessageSuffix(message)
  }

  /** A request as stored: addressed to `owner`, sent by `requester`. */
  predicate RequestFrom(n: Notifications.Notification, requester: UserId, owner: UserId) {
    n.kind == Notifications.CollaborationRequest && n.sender == requester && n.recipient == owner
  }

  // ---------------------------------------------------------------------
  // POST /request
  // ---------------------------------------------------------------------

  /** The checks before a request is stored: 400 when a field is missing,
      404 for an unknown project, 400 when it is not `collaborative` or the
      requester already collaborates, 500 when the requester's own record is
      gone. `None` means every check passed. */
  function RequestRefusal(projects: seq<Projects.Project>, users: map<UserId, User>, caller: UserId,
                          projectId: Option<nat>, projectOwnerId: Option<UserId>, message: Option<string>): (r: Option<int>)
    ensures r.None? ==>
      (projectId.Some? && projectId.value < |projects| && caller in users
       && projectOwnerId.Some? && projectOwnerId.value != "" && message.Some? && message.value != ""
       && projects[projectId.value].status == Projects.Collaborative
       && !Projects.IsCollaborator(projects[projectId.value], caller))
    ensures r == Some(Http.NotFound) <==> (projectId.Some? && projectOwnerId.Some? && projectOwnerId.value != ""
      && message.Some? && message.value != "" && projectId.value >= |projects|)
  {
    if projectId.None? || projectOwnerId.None? || projectOwnerId.value == "" || message.None? || message.value == "" then
      Some(Http.BadRequest)
    else if projectId.value >= |projects| then Some(Http.NotFound)
    else if projects[projectId.value].status != Projects.Collaborative then Some(Http.BadRequest)
    else if Projects.IsCollaborator(projects[projectId.value], caller) then Some(Http.BadRequest)
    else if caller !in users then Some(Http.ServerError)
    else None
  }

  /** Storing the request notification for `recipient`. */
  function StoreRequest(projects: seq<Projects.Project>, users: map<UserId, User>, notes: Notifications.Store,
                        caller: UserId, pid: nat, recipient: UserId, message: string, now: int): (r: Notifications.Store)
    requires pid < |projects| && caller in users && message != ""
    ensures |r.items| == |notes.items| + 1 && r.items[..|notes.items|] == notes.items
    ensures RequestFrom(r.items[|notes.items|], caller, recipient)
    ensures r.items[|notes.items|].related.projectId == Some(pid) && !r.items[|notes.items|].related.responded
    ensures r.items[|notes.items|].related.projectTitle == Some(projects[pid].title)
    ensures Notifications.WellFormed(notes) ==> Notifications.WellFormed(r)
  {
    var title := projects[pid].title;
    var related := Notifications.NoRelated.(projectId := Some(pid), projectTitle := Some(title), requesterId := Some(caller));
    var note := Notifications.Create(notes, Some(recipient), Some(caller), "collaboration_request",
      RequestMessage(users[caller].fullname, title, message), related, now);
    assert note.Some?;
    note.value.0
  }

  /** The request as the route reads: the notification goes to whichever
      user the body names as `projectOwnerId`, owner of the project or not. */
  function RequestAsWritten(projects: seq<Projects.Project>, users: map<UserId, User>, notes: Notifications.Store,
                            caller: UserId, projectId: Option<nat>, projectOwnerId: Option<UserId>,
                            message: Option<string>, now: int): (r: Outcome)
    ensures r.projects == projects
    ensures r.code == Http.OK <==> RequestRefusal(projects, users, caller, projectId, projectOwnerId, message).None?
    ensures r.code != Http.OK ==> r.notes == notes
    ensures r.code == Http.OK ==>
      |r.notes.items| == |notes.items| + 1 && r.notes.items[..|notes.items|] == notes.items
      && RequestFrom(r.notes.items[|notes.items|], caller, projectOwnerId.value)
    ensures Notifications.WellFormed(notes) ==> Notifications.WellFormed(r.notes)
  {
    var refusal := RequestRefusal(projects, users, caller, projectId, projectOwnerId, message);
    if refusal.Some? then Outcome(projects, notes, refusal.value)
    else Outcome(projects, StoreRequest(projects, users, notes, caller, projectId.value, projectOwnerId.value, message.value, now), Http.OK)
  }

  /** The request addressed to the project's owner. `projectOwnerId` is
      still required, but only the stored owner receives the request. */
  function Request(projects: seq<Projects.Project>, users: map<UserId, User>, notes: Notifications.Store,
                   caller: UserId, projectId: Option<nat>, projectOwnerId: Option<UserId>,
                   message: Option<string>, now: int): (r: Outcome)
    ensures r.projects == projects
    ensures r.code == Http.OK <==> RequestRefusal(projects, users, caller, projectId, projectOwnerId, message).None?
    ensures r.code != Http.OK ==> r.notes == notes
    ensures r.code == Http.OK ==>
      |r.notes.items| == |notes.items| + 1 && r.notes.items[..|notes.items|] == notes.items
      && RequestFrom(r.notes.items[|notes.items|], caller, projects[projectId.value].owner)
    ensures r.code == Http.OK ==>
      var m := r.notes.items[|notes.items|];
      m.related.projectId == projectId && !m.related.responded && m.related.projectTitle == Some(projects[projectId.value].title)
    ensures Notifications.WellFormed(notes) ==> Notifications.WellFormed(r.notes)
  {
    var refusal := RequestRefusal(projects, users, caller, projectId, projectOwnerId, message);
    if refusal.Some? then Outcome(projects, notes, refusal.value)
    else
      var owner := projects[projectId.value].owner;
      Outcome(projects, StoreRequest(projects, users, notes, caller, projectId.value, owner, message.value, now), Http.OK)
  }

  // ---------------------------------------------------------------------
  // POST /respond/:requestId
  // ---------------------------------------------------------------------

  /** Replacing the notification at `k` by one with the same id. */
  function Replace(s: Notifications.Store, k: nat, n: Notifications.Notification): (r: Notifications.Store)
    requires k < |s.items| && n.id == s.items[k].id
    ensures r.items == s.items[k := n] && r.nextId == s.nextId
    ensures Notifications.WellFormed(s) ==> Notifications.WellFormed(r)
  {
    Notifications.Store(s.items[k := n], s.nextId)
  }

  /** Adding the requester when absent: the project ends with exactly one
      entry for the requester if it had none, and is unchanged otherwise. */
  function Admit(p: Projects.Project, u: UserId, now: int): (r: Projects.Project)
    ensures Projects.IsCollaborator(r, u)
    ensures Projects.EntriesOf(r.collaborators, u) == if Projects.EntriesOf(p.collaborators, u) == 0 then 1 else Projects.EntriesOf(p.collaborators, u)
    ensures forall v :: v != u ==> Projects.EntriesOf(r.collaborators, v) == Projects.EntriesOf(p.collaborators, v)
    ensures r.(collaborators := p.collaborators) == p
  {
    if Projects.IsCollaborator(p, u) then
      assert Projects.EntriesOf(p.collaborators, u) != 0;
      p
    else Projects.AddCollaborator(p, u, now)
  }

  /** Accepting twice adds the requester once. */
  lemma AdmitIdempotent(p: Projects.Project, u: UserId, now: int, later: int)
    ensures Admit(Admit(p, u, now), u, later) == Admit(p, u, now)
  {
  }

  /** The stored request `requestId`, if any (`findById`). */
  function FindRequest(notes: Notifications.Store, requestId: nat): (r: Option<nat>)
    ensures r.Some? ==> r.value < |notes.items| && notes.items[r.value].id == requestId
    ensures r.None? <==> forall i :: 0 <= i < |notes.items| ==> notes.items[i].id != requestId
  {
    Seqs.FindIndex(notes.items, (n: Notifications.Notification) => n.id == requestId)
  }

  /** The refusals common to both readings of the respond route: 404 for an
      unknown request, 403 when the caller is not its recipient, and, for
      `accept`, 404 when the project the request names is gone. */
  function RespondRefusal(projects: seq<Projects.Project>, notes: Notifications.Store, caller: UserId,
                          requestId: nat, action: Option<string>): (r: Option<int>)
    ensures r.None? ==>
      (FindRequest(notes, requestId).Some? && notes.items[FindRequest(notes, requestId).value].recipient == caller)
    ensures r.None? && action == Some("accept") ==>
      var n := notes.items[FindRequest(notes, requestId).value];
      n.related.projectId.Some? && n.related.projectId.value < |projects|
    ensures r == Some(Http.Forbidden) <==>
      FindRequest(notes, requestId).Some? && notes.items[FindRequest(notes, requestId).value].recipient != caller
  {
    var k := FindRequest(notes, requestId);
    if k.None? then Some(Http.NotFound)
    else
      var n := notes.items[k.value];
      if n.recipient != caller then Some(Http.Forbidden)
      else if action == Some("accept") && (n.related.projectId.None? || n.related.projectId.value >= |projects|) then
        Some(Http.NotFound)
      else None
  }

  /** The reply notification and the project change for an answered
      request; `title` is the title the reject text shows. */
  function Answer(projects: seq<Projects.Project>, notes: Notifications.Store, n: Notifications.Notification,
                  caller: UserId, action: Option<string>, message: Option<string>, rejectTitle: string, now: int)
    : (r: (seq<Projects.Project>, Notifications.Store))
    requires action == Some("accept") ==> n.related.projectId.Some? && n.related.projectId.value < |projects|
    ensures |r.0| == |projects|
    ensures action != Some("accept") ==> r.0 == projects
    ensures action == Some("accept") ==>
      var pid := n.related.projectId.value;
      r.0 == projects[pid := Admit(projects[pid], n.sender, now)]
    ensures action != Some("accept") && action != Some("reject") ==> r.1 == notes
    ensures action == Some("accept") || action == Some("reject") ==>
      |r.1.items| == |notes.items| + 1 && r.1.items[..|notes.items|] == notes.items
      && r.1.items[|notes.items|].recipient == n.sender && r.1.items[|notes.items|].sender == caller
    ensures action == Some("accept") ==>
      r.1.items[|notes.items|].kind == Notifications.CollaborationAccepted
      && r.1.items[|notes.items|].message == AcceptedMessage(projects[n.related.projectId.value].title, message)
    ensures action == Some("reject") ==>
      r.1.items[|notes.items|].kind == Notifications.CollaborationRejected
      && r.1.items[|notes.items|].message == RejectedMessage(rejectTitle, message)
    ensures Notifications.WellFormed(notes) ==> Notifications.WellFormed(r.1)
  {
    if action == Some("accept") then
      var pid := n.related.projectId.value;
      var p := Admit(projects[pid], n.sender, now);
      var related := Notifications.NoRelated.(projectId := Some(pid), projectTitle := Some(p.title));
      var note := Notifications.Create(notes, Some(n.sender), Some(caller), "collaboration_accepted",
        AcceptedMessage(p.title, message), related, now);
      assert note.Some?;
      (projects[pid := p], note.value.0)
    else if action == Some("reject") then
      var related := Notifications.NoRelated.(projectId := n.related.projectId);
      var note := Notifications.Create(notes, Some(n.sender), Some(caller), "collaboration_rejected",
        RejectedMessage(rejectTitle, message), related, now);
      assert note.Some?;
      (projects, note.value.0)
    else (projects, notes)
  }

  /** `m` answers the request `n`: it goes from `caller` to the requester,
      as an acceptance with the accept text or a rejection with the reject
      text showing `rejectTitle`. */
  predicate RepliesTo(m: Notifications.Notification, n: Notifications.Notification, caller: UserId,
                      projects: seq<Projects.Project>, action: Option<string>, message: Option<string>,
                      rejectTitle: string)
  {
    m.recipient == n.sender && m.sender == caller
    && (action == Some("accept") ==>
          n.related.projectId.Some? && n.related.projectId.value < |projects|
          && m.kind == Notifications.CollaborationAccepted
          && m.message == AcceptedMessage(projects[n.related.projectId.value].title, message))
    && (action == Some("reject") ==>
          m.kind == Notifications.CollaborationRejected && m.message == RejectedMessage(rejectTitle, message))
  }

  /** How a granted answer leaves the stores: the project of an accepted
      request admits the requester, every other project is unchanged; the
      request at `k` becomes `saved`, every other notification is kept, and
      exactly one reply is appended for accept and reject, none otherwise. */
  predicate Answered(projects: seq<Projects.Project>, notes: Notifications.Store, r: Outcome, k: nat,
                     saved: Notifications.Notification, caller: UserId, action: Option<string>,
                     message: Option<string>, rejectTitle: string, now: int)
    requires k < |notes.items|
  {
    var n := notes.items[k];
    var replied := action == Some("accept") || action == Some("reject");
    (action == Some("accept") ==>
       n.related.projectId.Some? && n.related.projectId.value < |projects|
       && r.projects == projects[n.related.projectId.value := Admit(projects[n.related.projectId.value], n.sender, now)])
    && (action != Some("accept") ==> r.projects == projects)
    && |r.notes.items| == |notes.items| + (if replied then 1 else 0)
    && r.notes.items[..|notes.items|] == notes.items[k := saved]
    && (replied ==> RepliesTo(r.notes.items[|notes.items|], n, caller, projects, action, message, rejectTitle))
  }

  /** The title a reject text shows when the route reads the request's
      top-level `projectTitle`: the schema has no such field, so the value
      is undefined and prints as `undefined`. */
  const UndefinedTitle := "undefined"

  /** The respond route as written: the caller only has to be the
      recipient, the reject text shows `undefined` for the title, and of
      the changes to the request only `isRead` is saved, because
      `relatedData` is a free-form field whose in-place edits are not
      tracked. Any action other than accept and reject only marks the
      request read. */
  function RespondAsWritten(projects: seq<Projects.Project>, notes: Notifications.Store, caller: UserId,
                            requestId: nat, action: Option<string>, message: Option<string>, now: int): (r: Outcome)
    ensures r.code in {Http.NotFound, Http.Forbidden, Http.OK}
    ensures r.code == Http.OK <==> RespondRefusal(projects, notes, caller, requestId, action).None?
    ensures r.code != Http.OK ==> r.projects == projects && r.notes == notes
    ensures |r.notes.items| >= |notes.items|
    ensures r.code == Http.OK ==>
      var k := FindRequest(notes, requestId).value;
      r.notes.items[k] == notes.items[k].(isRead := true)
    ensures r.code == Http.OK ==>
      var k := FindRequest(notes, requestId).value;
      Answered(projects, notes, r, k, notes.items[k].(isRead := true), caller, action, message, UndefinedTitle, now)
    ensures Notifications.WellFormed(notes) ==> Notifications.WellFormed(r.notes)
  {
    var refusal := RespondRefusal(projects, notes, caller, requestId, action);
    if refusal.Some? then Outcome(projects, notes, refusal.value)
    else
      var k := FindRequest(notes, requestId).value;
      var n := notes.items[k];
      var a := Answer(projects, notes, n, caller, action, message, UndefinedTitle, now);
      Outcome(a.0, Replace(a.1, k, n.(isRead := true)), Http.OK)
  }

  /** The respond route with the evident intent: only the project's owner
      may accept (403 otherwise), the reject text shows the title stored
      with the request, and the request is saved as answered. */
  function Respond(projects: seq<Projects.Project>, notes: Notifications.Store, caller: UserId,
                   requestId: nat, action: Option<string>, message: Option<string>, now: int): (r: Outcome)
    ensures r.code in {Http.NotFound, Http.Forbidden, Http.OK}
    ensures r.code == Http.OK <==>
      (RespondRefusal(projects, notes, caller, requestId, action).None?
       && (action == Some("accept") ==>
             projects[notes.items[FindRequest(notes, requestId).value].related.projectId.value].owner == caller))
    ensures r.code != Http.OK ==> r.projects == projects && r.notes == notes
    ensures |r.notes.items| >= |notes.items|
    ensures r.code == Http.OK ==>
      var k := FindRequest(notes, requestId).value;
      r.notes.items[k] == notes.items[k].(isRead := true,
        related := notes.items[k].related.(responded := true, response := action))
    ensures r.code == Http.OK ==>
      var k := FindRequest(notes, requestId).value;
      var n := notes.items[k];
      Answered(projects, notes, r, k, n.(isRead := true, related := n.related.(responded := true, response := action)),
               caller, action, message, n.related.projectTitle.GetOr(UndefinedTitle), now)
    ensures Notifications.WellFormed(notes) ==> Notifications.WellFormed(r.notes)
  {
    var refusal := RespondRefusal(projects, notes, caller, requestId, action);
    if refusal.Some? then Outcome(projects, notes, refusal.value)
    else
      var k := FindRequest(notes, requestId).value;
      var n := notes.items[k];
      if action == Some("accept") && projects[n.related.projectId.value].owner != caller then
        Outcome(projects, notes, Http.Forbidden)
      else
        var a := Answer(projects, notes, n, caller, action, message, n.related.projectTitle.GetOr(UndefinedTitle), now);
        Outcome(a.0, Replace(a.1, k, n.(isRead := true, related := n.related.(responded := true, response := action))), Http.OK)
  }

  // ---------------------------------------------------------------------
  // GET /requests
  // ---------------------------------------------------------------------

  /** A request still waiting for an answer from `u`. */
  predicate Open(n: Notifications.Notification, u: UserId) {
    n.recipient == u && n.kind == Notifications.CollaborationRequest && !n.related.responded
  }

  /** The open requests of `u`, newest first: a reordering of the stored
      ones, so each appears as often as it is stored. */
  function OpenRequests(notes: Notifications.Store, u: UserId): (r: seq<Notifications.Notification>)
    ensures forall n :: n in r <==> n in notes.items && Open(n, u)
    ensures multiset(r) == multiset(Seqs.Filter(notes.items, (n: Notifications.Notification) => Open(n, u)))
    ensures Seqs.SortedDesc(r, Notifications.ByCreatedAt)
  {
    var mine := Seqs.Filter(notes.items, (n: Notifications.Notification) => Open(n, u));
    var r := Seqs.SortDesc(mine, Notifications.ByCreatedAt);
    assert forall n :: n in r <==> n in notes.items && Open(n, u) by {
      forall n ensures n in r <==> n in notes.items && Open(n, u) {
        Seqs.FilterMembers(notes.items, (n: Notifications.Notification) => Open(n, u), n);
        assert n in r <==> n in multiset(r);
        assert n in mine <==> n in multiset(mine);
      }
    }
    r
  }

  /** As written, answering a request does not close it: the request,
      now read, is still listed as open. */
  lemma AnsweredRequestStaysOpen(projects: seq<Projects.Project>, notes: Notifications.Store, caller: UserId,
                                 requestId: nat, action: Option<string>, message: Option<string>, now: int)
    requires RespondAsWritten(projects, notes, caller, requestId, action, message, now).code == Http.OK
    requires Open(notes.items[FindRequest(notes, requestId).value], caller)
    ensures var r := RespondAsWritten(projects, notes, caller, requestId, action, message, now);
      notes.items[FindRequest(notes, requestId).value].(isRead := true) in OpenRequests(r.notes, caller)
  {
    var r := RespondAsWritten(projects, notes, caller, requestId, action, message, now);
    var k := FindRequest(notes, requestId).value;
    assert r.notes.items[k] in r.notes.items;
  }

  /** With the answer saved, a well-formed store lists no request with
      that id as open any more. */
  lemma AnsweredRequestCloses(projects: seq<Projects.Project>, notes: Notifications.Store, caller: UserId,
                              requestId: nat, action: Option<string>, message: Option<string>, now: int)
    requires Notifications.WellFormed(notes)
    requires Respond(projects, notes, caller, requestId, action, message, now).code == Http.OK
    ensures var r := Respond(projects, notes, caller, requestId, action, message, now);
      forall n :: n in OpenRequests(r.notes, caller) ==> n.id != requestId
  {
    var r := Respond(projects, notes, caller, requestId, action, message, now);
    var k := FindRequest(notes, requestId).value;
    assert Notifications.WellFormed(r.notes);
    forall i | 0 <= i < |r.notes.items| && i != k ensures r.notes.items[i].id != requestId {
      if i < k {
        assert r.notes.items[i].id < r.notes.items[k].id;
      } else {
        assert r.notes.items[k].id < r.notes.items[i].id;
      }
    }
  }

  /** As written, any user a request was addressed to can accept it and
      so add the requester to a project they do not own. */
  lemma NonOwnerCanAcceptAsWritten(projects: seq<Projects.Project>, users: map<UserId, User>, notes: Notifications.Store,
                                   requester: UserId, pid: nat, stranger: UserId, message: string, now: int, later: int)
    requires pid < |projects| && projects[pid].status == Projects.Collaborative
    requires !Projects.IsCollaborator(projects[pid], requester) && requester in users
    requires stranger != "" && stranger != projects[pid].owner && message != ""
    requires Notifications.WellFormed(notes)
    ensures var sent := RequestAsWritten(projects, users, notes, requester, Some(pid), Some(stranger), Some(message), now);
      var answered := RespondAsWritten(sent.projects, sent.notes, stranger, notes.nextId, Some("accept"), None, later);
      sent.code == Http.OK && answered.code == Http.OK && Projects.IsCollaborator(answered.projects[pid], requester)
  {
    var sent := RequestAsWritten(projects, users, notes, requester, Some(pid), Some(stranger), Some(message), now);
    var n := |notes.items|;
    assert sent.notes.items[n].id == notes.nextId;
    forall i | 0 <= i < n ensures sent.notes.items[i].id != notes.nextId {
      assert sent.notes.items[i] == notes.items[i];
    }
    assert FindRequest(sent.notes, notes.nextId) == Some(n);
  }

  /** With the owner check, a user other than the owner cannot accept. */
  lemma NonOwnerCannotAccept(projects: seq<Projects.Project>, notes: Notifications.Store, caller: UserId,
                             requestId: nat, message: Option<string>, now: int)
    requires RespondRefusal(projects, notes, caller, requestId, Some("accept")).None?
    requires projects[notes.items[FindRequest(notes, requestId).value].related.projectId.value].owner != caller
    ensures Respond(projects, notes, caller, requestId, Some("accept"), message, now).code == Http.Forbidden
  {
  }

  /** As written, a rejection always names the project `"undefined"`. */
  lemma RejectTextAsWritten(projects: seq<Projects.Project>, notes: Notifications.Store, caller: UserId,
                            requestId: nat, message: Option<string>, now: int)
    requires RespondAsWritten(projects, notes, caller, requestId, Some("reject"), message, now).code == Http.OK
    ensures var r := RespondAsWritten(projects, notes, caller, requestId, Some("reject"), message, now);
      |r.notes.items| == |notes.items| + 1
      && r.notes.items[|notes.items|].message == RejectedMessage("undefined", message)
  {
  }
}

=== FILE: conversations.dfy ===
/** The Conversation document (models/conversation.model.js): participant
    list, the "direct conversations have exactly two participants" save
    rule, per-user archive and mute marks, the display name, the symmetric
    find-or-create of a direct conversation and the per-user listing. */
module Conversations {
  import opened Wrappers
  import opened Users
  import Seqs
  import Paging

  /** Conversations are addressed by their position in the collection. */
  type ConversationId = nat

  datatype ConversationType = Direct | Group

  /** An `archivedBy` or `mutedBy` entry. */
  datatype Mark = Mark(user: UserId, at: int)

  datatype Conversation = Conversation(
    participants: seq<UserId>,
    kind: ConversationType,
    name: Option<string>,
    description: Option<string>,
    admin: Option<UserId>,
    lastMessage: Option<nat>,
    lastActivity: int,
    archivedBy: seq<Mark>,
    mutedBy: seq<Mark>,
    createdAt: int)

  /** A conversation with the schema defaults. */
  function Fresh(participants: seq<UserId>, kind: ConversationType, now: int): Conversation {
    Conversation(participants, kind, None, None, None, None, now, [], [], now)
  }

  /** The pre-save rule. */
  predicate SaveAllowed(c: Conversation) {
    !(c.kind == Direct && |c.participants| != 2)
  }

  /** `save()`: fails for a direct conversation without exactly two
      participants, otherwise stores the document as it is. */
  function Save(c: Conversation): (r: Option<Conversation>)
    ensures r.Some? <==> (c.kind == Group || |c.participants| == 2)
    ensures r.Some? ==> r.value == c
  {
    if SaveAllowed(c) then Some(c) else None
  }

  /** The invariant the save rule protects for a whole collection. */
  predicate WellFormed(cs: seq<Conversation>) {
    forall i :: 0 <= i < |cs| ==> SaveAllowed(cs[i])
  }

  /** The `displayName` virtual. */
  function DisplayName(c: Conversation): (r: string)
    ensures r != ""
    ensures c.kind == Direct ==> r == "Direct Message"
    ensures c.kind == Group && c.name.Some? && c.name.value != "" ==> r == c.name.value
    ensures c.kind == Group && (c.name.None? || c.name.value == "") ==> r == "Group Chat"
  {
    if c.kind == Group then
      if c.name.Some? && c.name.value != "" then c.name.value else "Group Chat"
    else "Direct Message"
  }

  /** `isParticipant`. */
  predicate IsParticipant(c: Conversation, u: UserId) {
    u in c.participants
  }

  /** `addParticipant`: appends and saves only when the user is absent;
      otherwise nothing is written. */
  function AddParticipant(c: Conversation, u: UserId): (r: Option<Conversation>)
    ensures u in c.participants ==> r == Some(c)
    ensures u !in c.participants ==> r == Save(c.(participants := c.participants + [u]))
    ensures r.Some? ==> IsParticipant(r.value, u)
  {
    if u in c.participants then Some(c) else Save(c.(participants := c.participants + [u]))
  }

  /** Adding twice is adding once. */
  lemma AddParticipantIdempotent(c: Conversation, u: UserId)
    requires AddParticipant(c, u).Some?
    ensures AddParticipant(AddParticipant(c, u).value, u) == AddParticipant(c, u)
  {
  }

  /** Adding a newcomer to a two-person direct conversation is refused by
      the save rule. */
  lemma AddToDirectFails(c: Conversation, u: UserId)
    requires c.kind == Direct && |c.participants| == 2 && u !in c.participants
    ensures AddParticipant(c, u).None?
  {
  }

  /** `removeParticipant`: keeps every other participant in order, then
      saves. */
  function RemoveParticipant(c: Conversation, u: UserId): (r: Option<Conversation>)
    ensures r.Some? ==> !IsParticipant(r.value, u)
    ensures r.Some? ==> forall v :: v in c.participants && v != u ==> v in r.value.participants
    ensures r.Some? ==> r.value.participants == Seqs.Filter(c.participants, (v: UserId) => v != u)
    ensures r.Some? ==> r.value.(participants := c.participants) == c
  {
    var kept := Seqs.Filter(c.participants, (v: UserId) => v != u);
    var r := Save(c.(participants := kept));
    if r.Some? then
      assert forall v :: v in c.participants && v != u ==> v in kept by {
        forall v | v in c.participants && v != u ensures v in kept {
          var i :| 0 <= i < |c.participants| && c.participants[i] == v;
        }
      }
      r
    else r
  }

  /** Removing a member of a two-person direct conversation is refused by
      the save rule: the conversation keeps both members. */
  lemma RemoveFromDirectFails(c: Conversation, u: UserId)
    requires c.kind == Direct && |c.participants| == 2
    requires u in c.participants
    ensures RemoveParticipant(c, u).None?
  {
    var kept := Seqs.Filter(c.participants, (v: UserId) => v != u);
    Seqs.CountIsFilterLength(c.participants, (v: UserId) => v != u);
    assert |kept| < 2;
  }

  // ---------------------------------------------------------------------
  // Archive and mute marks
  // ---------------------------------------------------------------------

  /** Number of marks belonging to `u`. */
  function MarksOf(ms: seq<Mark>, u: UserId): (n: nat)
    ensures n == 0 <==> forall i :: 0 <= i < |ms| ==> ms[i].user != u
  {
    Seqs.CountZeroIff(ms, (m: Mark) => m.user == u);
    Seqs.Count(ms, (m: Mark) => m.user == u)
  }

  predicate HasMark(ms: seq<Mark>, u: UserId) {
    exists i :: 0 <= i < |ms| && ms[i].user == u
  }

  /** Adds a mark for `u` unless one exists (the `find` guard of
      `archiveForUser` and `muteForUser`). */
  function AddMark(ms: seq<Mark>, u: UserId, now: int): (r: seq<Mark>)
    ensures HasMark(ms, u) ==> r == ms
    ensures !HasMark(ms, u) ==> r == ms + [Mark(u, now)]
    ensures MarksOf(r, u) == if HasMark(ms, u) then MarksOf(ms, u) else 1
    ensures forall v :: v != u ==> MarksOf(r, v) == MarksOf(ms, v)
  {
    if HasMark(ms, u) then ms
    else
      forall v ensures MarksOf(ms + [Mark(u, now)], v) == MarksOf(ms, v) + (if v == u then 1 else 0) {
        Seqs.CountAppend(ms, [Mark(u, now)], (m: Mark) => m.user == v);
      }
      ms + [Mark(u, now)]
  }

  /** Drops every mark of `u` (the `filter` of `unarchiveForUser` and
      `unmuteForUser`). */
  function DropMarks(ms: seq<Mark>, u: UserId): (r: seq<Mark>)
    ensures MarksOf(r, u) == 0
    ensures forall i :: 0 <= i < |ms| && ms[i].user != u ==> ms[i] in r
    ensures multiset(r) <= multiset(ms)
  {
    Seqs.Filter(ms, (m: Mark) => m.user != u)
  }

  /** A user is never counted twice: if every user has at most one mark
      before, the same holds after adding a mark. */
  lemma AddMarkKeepsAtMostOne(ms: seq<Mark>, u: UserId, now: int)
    requires forall v :: MarksOf(ms, v) <= 1
    ensures forall v :: MarksOf(AddMark(ms, u, now), v) <= 1
  {
  }

  /** `archiveForUser`: writes only when the user had no archive mark. */
  function ArchiveFor(c: Conversation, u: UserId, now: int): (r: Option<Conversation>)
    ensures HasMark(c.archivedBy, u) ==> r == Some(c)
    ensures r.Some? ==> r.value == c.(archivedBy := AddMark(c.archivedBy, u, now))
    ensures SaveAllowed(c) ==> r.Some?
  {
    if HasMark(c.archivedBy, u) then Some(c) else Save(c.(archivedBy := AddMark(c.archivedBy, u, now)))
  }

  /** `unarchiveForUser`. */
  function UnarchiveFor(c: Conversation, u: UserId): (r: Option<Conversation>)
    ensures r.Some? ==> r.value == c.(archivedBy := DropMarks(c.archivedBy, u))
    ensures SaveAllowed(c) ==> r.Some?
  {
    Save(c.(archivedBy := DropMarks(c.archivedBy, u)))
  }

  /** `muteForUser`. */
  function MuteFor(c: Conversation, u: UserId, now: int): (r: Option<Conversation>)
    ensures HasMark(c.mutedBy, u) ==> r == Some(c)
    ensures r.Some? ==> r.value == c.(mutedBy := AddMark(c.mutedBy, u, now))
    ensures SaveAllowed(c) ==> r.Some?
  {
    if HasMark(c.mutedBy, u) then Some(c) else Save(c.(mutedBy := AddMark(c.mutedBy, u, now)))
  }

  /** `unmuteForUser`. */
  function UnmuteFor(c: Conversation, u: UserId): (r: Option<Conversation>)
    ensures r.Some? ==> r.value == c.(mutedBy := DropMarks(c.mutedBy, u))
    ensures SaveAllowed(c) ==> r.Some?
  {
    Save(c.(mutedBy := DropMarks(c.mutedBy, u)))
  }

  /** Archiving is idempotent, and unarchiving undoes it: afterwards the
      user has no mark at all. */
  lemma ArchiveRoundTrip(c: Conversation, u: UserId, now: int)
    requires SaveAllowed(c)
    ensures ArchiveFor(ArchiveFor(c, u, now).value, u, now) == ArchiveFor(c, u, now)
    ensures MarksOf(UnarchiveFor(ArchiveFor(c, u, now).value, u).value.archivedBy, u) == 0
  {
    var a := ArchiveFor(c, u, now).value;
    assert HasMark(a.archivedBy, u) by {
      if !HasMark(c.archivedBy, u) {
        assert a.archivedBy[|a.archivedBy| - 1].user == u;
      }
    }
  }

  // ---------------------------------------------------------------------
  // Find-or-create and listing
  // ---------------------------------------------------------------------

  /** The filter `{ type: 'direct', participants: { $all: [a, b], $size: 2 } }`. */
  predicate DirectBetween(c: Conversation, a: UserId, b: UserId) {
    c.kind == Direct && a in c.participants && b in c.participants && |c.participants| == 2
  }

  /** Where `findOrCreateDirectConversation` lands: the first matching
      conversation, refreshed, or a new one `[a, b]` appended at the end.
      The upsert does not run the pre-save rule; its insert has exactly two
      entries anyway. */
  function FindOrCreateDirect(cs: seq<Conversation>, a: UserId, b: UserId, now: int): (r: (seq<Conversation>, ConversationId))
    ensures r.1 < |r.0|
    ensures DirectBetween(r.0[r.1], a, b)
    ensures r.0[r.1].lastActivity == now
    ensures Seqs.FindIndex(cs, (c: Conversation) => DirectBetween(c, a, b)).Some? ==>
      r.1 < |cs| && |r.0| == |cs| && r.0 == cs[r.1 := cs[r.1].(lastActivity := now)]
    ensures Seqs.FindIndex(cs, (c: Conversation) => DirectBetween(c, a, b)).None? ==>
      r.1 == |cs| && r.0 == cs + [Fresh([a, b], Direct, now)]
  {
    match Seqs.FindIndex(cs, (c: Conversation) => DirectBetween(c, a, b))
    case Some(i) => (cs[i := cs[i].(lastActivity := now)], i)
    case None => (cs + [Fresh([a, b], Direct, now)], |cs|)
  }

  /** The filter does not care about argument order. */
  lemma DirectBetweenSymmetric(c: Conversation, a: UserId, b: UserId)
    ensures DirectBetween(c, a, b) <==> DirectBetween(c, b, a)
  {
  }

  /** Find-or-create is symmetric: both argument orders pick the same
      conversation, and the stores they leave differ at most in the order
      of a newly created conversation's two participants. */
  lemma FindOrCreateDirectSymmetric(cs: seq<Conversation>, a: UserId, b: UserId, now: int)
    ensures FindOrCreateDirect(cs, a, b, now).1 == FindOrCreateDirect(cs, b, a, now).1
    ensures var (s1, i) := FindOrCreateDirect(cs, a, b, now);
      var (s2, _) := FindOrCreateDirect(cs, b, a, now);
      |s1| == |s2| && s1[..|cs|] == s2[..|cs|]
      && s1[i].(participants := []) == s2[i].(participants := [])
      && multiset(s1[i].participants) == multiset(s2[i].participants)
  {
    var p := (c: Conversation) => DirectBetween(c, a, b);
    var q := (c: Conversation) => DirectBetween(c, b, a);
    forall c ensures p(c) == q(c) {
      DirectBetweenSymmetric(c, a, b);
    }
    Seqs.FindIndexSamePredicate(cs, p, q);
  }

  /** Calling find-or-create again finds what the first call left. */
  lemma FindOrCreateDirectStable(cs: seq<Conversation>, a: UserId, b: UserId, now: int, later: int)
    ensures var (s1, i) := FindOrCreateDirect(cs, a, b, now);
      FindOrCreateDirect(s1, a, b, later).1 == i
  {
    var p := (c: Conversation) => DirectBetween(c, a, b);
    var (s1, i) := FindOrCreateDirect(cs, a, b, now);
    match Seqs.FindIndex(cs, p)
    case Some(k) =>
      assert forall j :: 0 <= j < k ==> s1[j] == cs[j];
      assert Seqs.FindIndex(s1, p) == Some(k);
    case None =>
      assert forall j :: 0 <= j < |cs| ==> s1[j] == cs[j];
      assert Seqs.FindIndex(s1, p) == Some(|cs|);
  }

  /** An update document reduced to what the server checks before it
      applies one: the paths under `$setOnInsert` and the paths under
      `$set`. */
  datatype Update = Update(onInsert: set<string>, always: set<string>)

  /** The server refuses an update that names one path under two
      operators, whether the upsert would match or insert. */
  predicate ConflictFree(u: Update) {
    u.onInsert * u.always == {}
  }

  /** The update `findOrCreateDirectConversation` sends: `lastActivity`
      sits under both `$setOnInsert` and `$set`. */
  const DirectUpdateAsWritten: Update := Update({"participants", "type", "lastActivity"}, {"lastActivity"})

  /** The same update with `lastActivity` only under `$set`, which stamps
      the inserted document as well. */
  const DirectUpdate: Update := Update({"participants", "type"}, {"lastActivity"})

  /** `findOneAndUpdate(filter, u, { upsert: true, new: true })` for the
      direct filter: a conflicting update is an error and leaves the
      collection alone; otherwise the matched or inserted conversation is
      returned, stamped with `now`. */
  function Upsert(cs: seq<Conversation>, a: UserId, b: UserId, now: int, u: Update): (r: Option<(seq<Conversation>, ConversationId)>)
    ensures r.None? <==> exists path :: path in u.onInsert && path in u.always
    ensures r.Some? ==>
      r.value.1 < |r.value.0| && DirectBetween(r.value.0[r.value.1], a, b)
      && r.value.0[r.value.1].lastActivity == now
  {
    if !ConflictFree(u) then
      assert exists path :: path in u.onInsert && path in u.always by {
        var path :| path in u.onInsert * u.always;
      }
      None
    else
      assert forall path :: !(path in u.onInsert && path in u.always) by {
        forall path ensures !(path in u.onInsert && path in u.always) {
          assert path !in u.onInsert * u.always;
        }
      }
      Some(FindOrCreateDirect(cs, a, b, now))
  }

  /** The static as written fails on every call: no conversation is found
      or created, whatever the store and the two users. */
  function FindOrCreateDirectAsWritten(cs: seq<Conversation>, a: UserId, b: UserId, now: int): (r: Option<(seq<Conversation>, ConversationId)>)
    ensures r.None?
  {
    assert "lastActivity" in DirectUpdateAsWritten.onInsert && "lastActivity" in DirectUpdateAsWritten.always;
    Upsert(cs, a, b, now, DirectUpdateAsWritten)
  }

  /** With `lastActivity` only under `$set` the upsert succeeds, and its
      answer is the find-or-create modelled above. */
  lemma DirectUpdateApplies(cs: seq<Conversation>, a: UserId, b: UserId, now: int)
    ensures ConflictFree(DirectUpdate)
    ensures Upsert(cs, a, b, now, DirectUpdate) == Some(FindOrCreateDirect(cs, a, b, now))
  {
    assert "lastActivity" != "participants" && "lastActivity" != "type";
  }

  /** The conversations `getUserConversations` may return: those the user
      takes part in and has not archived. */
  predicate Listed(c: Conversation, u: UserId) {
    u in c.participants && !HasMark(c.archivedBy, u)
  }

  /** The ids of the conversations `u` takes part in and has not
      archived. */
  function ListedIds(cs: seq<Conversation>, u: UserId): (r: seq<ConversationId>)
    ensures forall i: nat :: i in r <==> i < |cs| && Listed(cs[i], u)
    ensures Seqs.Distinct(r)
  {
    Seqs.Select(|cs|, (i: nat) => i < |cs| && Listed(cs[i], u))
  }

  function ByActivity(cs: seq<Conversation>): nat -> int {
    (i: nat) => if i < |cs| then cs[i].lastActivity else 0
  }

  /** `getUserConversations(u, page, limit)`: ids of the listed
      conversations, most recent activity first, one page of them; `None`
      for a negative skip, which the server rejects. The `k`-th entry holds
      the rank `skip + k` among the listed conversations. */
  function UserConversations(cs: seq<Conversation>, u: UserId, page: int, limit: int): (r: Option<seq<ConversationId>>)
    ensures r.None? <==> (page - 1) * limit < 0
    ensures r.Some? ==> |r.value| == Seqs.PageLength(|ListedIds(cs, u)|, (page - 1) * limit, limit)
    ensures r.Some? ==> Seqs.Distinct(r.value)
    ensures r.Some? ==> forall k :: 0 <= k < |r.value| ==> r.value[k] < |cs| && Listed(cs[r.value[k]], u)
    ensures r.Some? ==> Seqs.SortedDesc(r.value, ByActivity(cs))
    ensures r.Some? ==> forall k :: 0 <= k < |r.value| ==>
      Seqs.RankedAt(ListedIds(cs, u), ByActivity(cs), r.value[k], (page - 1) * limit + k)
  {
    var ids := ListedIds(cs, u);
    var w := Seqs.SortedPage(ids, ByActivity(cs), Paging.SkipFor(page, limit), limit);
    if w.Some? then
      Seqs.DistinctSub(w.value, ids);
      w
    else w
  }
}

=== FILE: feed.dfy ===
/** The handlers of controllers/feed.controller.js: the project feed of the
    people a user follows, suggested people to follow, trending projects,
    and the "time ago" text every listed project carries. */
module Feed {
  import opened Wrappers
  import opened Clock
  import opened Text
  import opened Users
  import opened Projects
  import Follows
  import Seqs
  import Paging
  import Http

  // ---------------------------------------------------------------------
  // formatTimeAgo
  // ---------------------------------------------------------------------

  /** The bucket an elapsed time falls into, with the whole number of units
      shown; `Older` is shown as a locale date. */
  datatype Ago = Minutes(n: int) | Hours(n: int) | Days(n: int) | Older

  /** The bucket `formatTimeAgo` picks for `elapsed` milliseconds. The
      counts are the floors of the elapsed minutes, hours and days, so a
      date in the future reads as a negative number of minutes. */
  function Bucket(elapsed: int): (a: Ago)
    ensures a.Minutes? <==> elapsed < HourMs
    ensures a.Hours? <==> HourMs <= elapsed < DayMs
    ensures a.Days? <==> DayMs <= elapsed < WeekMs
    ensures a.Older? <==> WeekMs <= elapsed
    ensures a.Minutes? ==> a.n < 60 && a.n * MinuteMs <= elapsed < (a.n + 1) * MinuteMs
    ensures a.Hours? ==> 1 <= a.n < 24 && a.n * HourMs <= elapsed < (a.n + 1) * HourMs
    ensures a.Days? ==> 1 <= a.n < 7 && a.n * DayMs <= elapsed < (a.n + 1) * DayMs
  {
    var minutes := elapsed / MinuteMs;
    var hours := elapsed / HourMs;
    var days := elapsed / DayMs;
    if minutes < 60 then Minutes(minutes)
    else if hours < 24 then Hours(hours)
    else if days == 1 then Days(1)
    else if days < 7 then Days(days)
    else Older
  }

  /** The unit words after the count: singular exactly for a count of 1. */
  function UnitText(a: Ago): string
    requires !a.Older?
  {
    match a
    case Minutes(n) => if n == 1 then " minute ago" else " minutes ago"
    case Hours(n) => if n == 1 then " hour ago" else " hours ago"
    case Days(n) => if n == 1 then " day ago" else " days ago"
  }

  /** The text of a bucket; `localeDate` is the locale rendering of the
      date, which is not part of this model. */
  function Render(a: Ago, localeDate: string): (r: string)
    ensures !a.Older? ==> r == IntToString(a.n) + UnitText(a)
    ensures a.Older? ==> r == localeDate
  {
    match a
    case Minutes(n) => IntToString(n) + (if n == 1 then " minute" else " minutes") + " ago"
    case Hours(n) => IntToString(n) + (if n == 1 then " hour" else " hours") + " ago"
    case Days(n) =>
      if n == 1 then
        assert IntToString(1) == "1";
        "1 day ago"
      else IntToString(n) + " days ago"
    case Older => localeDate
  }

  /** The bucket of a date seen at time `now`, both in milliseconds. */
  function Age(date: int, now: int): Ago {
    Bucket(now - date)
  }

  /** `formatTimeAgo(date)` read at time `now`; `localeDate` is the locale
      rendering of `date`. */
  function FormatTimeAgo(date: int, now: int, localeDate: string): string {
    Render(Age(date, now), localeDate)
  }

  /** Reads a relative-time text back: the count before the first space and
      the unit words after it. */
  function Unrender(s: string): Option<Ago> {
    match Seqs.FindIndex(s, SpaceChar)
    case None => None
    case Some(i) =>
      var n := ParseInt(s[..i]);
      var words := s[i..];
      if words == " minute ago" || words == " minutes ago" then Some(Minutes(n))
      else if words == " hour ago" || words == " hours ago" then Some(Hours(n))
      else if words == " day ago" || words == " days ago" then Some(Days(n))
      else None
  }

  /** Every relative-time text names its bucket and count unambiguously. */
  lemma RenderRoundTrip(a: Ago, localeDate: string)
    requires !a.Older?
    ensures Unrender(Render(a, localeDate)) == Some(a)
  {
    var digits := IntToString(a.n);
    var words := UnitText(a);
    var s := Render(a, localeDate);
    assert s == digits + words;
    SplitAtFirstSpace(digits, words);
    IntToStringRoundTrip(a.n);
    assert ParseInt(s[..|digits|]) == a.n;
    assert s[|digits|..] == words;
    UnitWordsRead(a, s, |digits|);
  }

  /** Reading the unit words of a bucket back gives its unit. */
  lemma UnitWordsRead(a: Ago, s: string, i: nat)
    requires !a.Older?
    requires Seqs.FindIndex(s, SpaceChar) == Some(i)
    requires i <= |s| && ParseInt(s[..i]) == a.n && s[i..] == UnitText(a)
    ensures Unrender(s) == Some(a)
  {
    match a
    case Minutes(n) =>
      assert s[i..] == " minute ago" || s[i..] == " minutes ago";
    case Hours(n) =>
      assert s[i..] != " minute ago" && s[i..] != " minutes ago";
      assert s[i..] == " hour ago" || s[i..] == " hours ago";
    case Days(n) =>
      assert s[i..] != " minute ago" && s[i..] != " minutes ago";
      assert s[i..] != " hour ago" && s[i..] != " hours ago";
      assert s[i..] == " day ago" || s[i..] == " days ago";
  }

  predicate SpaceChar(c: char) { c == ' ' }

  /** A count followed by unit words splits at the space that starts the
      words. */
  lemma SplitAtFirstSpace(digits: string, words: string)
    requires forall i :: 0 <= i < |digits| ==> digits[i] == '-' || '0' <= digits[i] <= '9'
    requires |words| > 0 && words[0] == ' '
    ensures Seqs.FindIndex(digits + words, SpaceChar) == Some(|digits|)
    ensures (digits + words)[..|digits|] == digits
    ensures (digits + words)[|digits|..] == words
  {
    var s := digits + words;
    assert SpaceChar(s[|digits|]);
    forall j | 0 <= j < |digits| ensures !SpaceChar(s[j]) {
      assert s[j] == digits[j];
    }
  }

  /** Within the week the text is relative, and reads back as the bucket
      of the elapsed time. */
  lemma TimeAgoReadsBack(date: int, now: int, localeDate: string)
    requires now - date < WeekMs
    ensures Unrender(FormatTimeAgo(date, now, localeDate)) == Some(Age(date, now))
  {
    RenderRoundTrip(Age(date, now), localeDate);
  }

  /** Within the week the text reads "1 minute ago" exactly in the minute
      after the first; the singular never shows another count. */
  lemma SingularOnlyForOne(date: int, now: int, localeDate: string)
    requires now - date < WeekMs
    ensures MinuteMs <= now - date < 2 * MinuteMs <==> FormatTimeAgo(date, now, localeDate) == "1 minute ago"
  {
    var a := Age(date, now);
    assert IntToString(1) == "1";
    assert Render(Minutes(1), localeDate) == "1 minute ago";
    if MinuteMs <= now - date < 2 * MinuteMs {
      assert a == Minutes(1);
    }
    if FormatTimeAgo(date, now, localeDate) == "1 minute ago" {
      RenderRoundTrip(a, localeDate);
      RenderRoundTrip(Minutes(1), localeDate);
      assert a == Minutes(1);
    }
  }

  // ---------------------------------------------------------------------
  // Listed projects
  // ---------------------------------------------------------------------

  /** A stored project with its id. */
  datatype Entry = Entry(id: ProjectId, project: Project)

  function Entries(projects: seq<Project>): (r: seq<Entry>)
    ensures |r| == |projects|
    ensures forall i :: 0 <= i < |projects| ==> r[i] == Entry(i, projects[i])
    ensures Seqs.Distinct(r)
  {
    seq(|projects|, i requires 0 <= i < |projects| => Entry(i, projects[i]))
  }

  /** The sort key of `sort({ createdAt: -1 })`. */
  function ByNewest(e: Entry): int { e.project.createdAt }

  /** The `profile` sub-document of a user. */
  datatype Profile = Profile(avatar: Option<string>, completion: int, joinedDate: int, lastActive: int)

  function ProfileOf(u: User): Profile {
    Profile(u.avatar, u.completion, u.joinedDate, u.profileLastActive)
  }

  /** The author shown with a project: the populated owner's id, full name,
      profile, skill level and university. */
  datatype Author = Author(id: UserId, fullname: string, profile: Profile, skillLevel: SkillLevel, university: string)

  function AuthorOf(id: UserId, u: User): Author {
    Author(id, u.fullname, ProfileOf(u), u.skillLevel, u.university)
  }

  // ---------------------------------------------------------------------
  // getFeedPosts
  // ---------------------------------------------------------------------

  /** The ids whose projects the caller's feed shows: everyone the caller
      follows, in the order the follows are stored, then the caller. */
  function OwnerSet(follows: Follows.Store, caller: UserId): (r: seq<UserId>)
    ensures |r| >= 1 && r[|r| - 1] == caller
    ensures forall id :: id in r <==> id == caller || Follows.HasPair(follows, caller, id)
  {
    var mine := Seqs.Filter(follows.items, (f: Follows.Follow) => f.follower == caller);
    var followed := Seqs.MapSeq(mine, (f: Follows.Follow) => f.following);
    assert forall id :: id in followed <==> Follows.HasPair(follows, caller, id) by {
      forall id ensures id in followed <==> Follows.HasPair(follows, caller, id) {
        if id in followed {
          var k :| 0 <= k < |followed| && followed[k] == id;
          Seqs.FilterMembers(follows.items, (f: Follows.Follow) => f.follower == caller, mine[k]);
          var i :| 0 <= i < |follows.items| && follows.items[i] == mine[k];
          assert follows.items[i].follower == caller && follows.items[i].following == id;
        }
        if Follows.HasPair(follows, caller, id) {
          var i :| 0 <= i < |follows.items| && follows.items[i].follower == caller && follows.items[i].following == id;
          Seqs.FilterMembers(follows.items, (f: Follows.Follow) => f.follower == caller, follows.items[i]);
          var k :| 0 <= k < |mine| && mine[k] == follows.items[i];
          assert followed[k] == id;
        }
      }
    }
    followed + [caller]
  }

  /** Whether the caller's feed shows a project: it is active and its owner
      is the caller or someone the caller follows. */
  predicate InFeed(follows: Follows.Store, caller: UserId, p: Project) {
    p.isActive && (p.owner == caller || Follows.HasPair(follows, caller, p.owner))
  }

  /** A feed post: the project, its author, the relative creation time and
      its collaborator entries. The view count and rating are random and
      the like, comment and bookmark fields are constants; none of them is
      part of this model. */
  datatype Post = Post(
    id: ProjectId,
    author: Author,
    title: string,
    description: string,
    tags: seq<string>,
    projectLink: Option<string>,
    liveDemo: Option<string>,
    createdAt: string,
    status: ProjectStatus,
    collaborators: seq<Collaborator>)

  function PostOf(e: Entry, owner: User, now: int, localeDate: int -> string): Post {
    var p := e.project;
    Post(e.id, AuthorOf(p.owner, owner), p.title, p.description, p.techStack, p.githubUrl, p.liveUrl,
      FormatTimeAgo(p.createdAt, now, localeDate(p.createdAt)), p.status, p.collaborators)
  }

  /** The posts of a page, or `None` for the failure when a project's owner
      is no longer stored (the populated owner is then null). */
  function PostsOf(users: map<UserId, User>, es: seq<Entry>, now: int, localeDate: int -> string): (r: Option<seq<Post>>)
    ensures r.Some? <==> forall k :: 0 <= k < |es| ==> es[k].project.owner in users
    ensures r.Some? ==> |r.value| == |es|
    ensures r.Some? ==> forall k :: 0 <= k < |es| ==>
      r.value[k] == PostOf(es[k], users[es[k].project.owner], now, localeDate)
    ensures r.Some? ==> forall k :: 0 <= k < |es| ==> r.value[k].id == es[k].id
  {
    if |es| == 0 then Some([])
    else if es[0].project.owner !in users then None
    else
      var rest := PostsOf(users, es[1..], now, localeDate);
      assert forall k :: 1 <= k < |es| ==> es[k] == es[1..][k - 1];
      if rest.None? then None
      else Some([PostOf(es[0], users[es[0].project.owner], now, localeDate)] + rest.value)
  }

  /** The `pagination` object of the feed. */
  datatype FeedPagination = FeedPagination(
    currentPage: int, totalPages: int, totalPosts: nat, hasNextPage: bool, hasPrevPage: bool)

  datatype FeedReply = FeedReply(posts: seq<Post>, pagination: FeedPagination)

  function FeedPage(page: int, limit: int, total: nat): FeedPagination
    requires limit != 0
  {
    var totalPages := Paging.CeilDiv(total, limit);
    FeedPagination(page, totalPages, total, page < totalPages, page > 1)
  }

  /** The reply for an empty owner list. */
  function EmptyFeed(page: int): FeedReply {
    FeedReply([], FeedPagination(page, 0, 0, false, false))
  }

  /** `getFeedPosts`: the active projects of the caller and of everyone the
      caller follows, newest first, one page of them; page and limit
      default to 1 and 10. `None` is the 500 of a negative skip or of a
      listed project whose owner is gone. The early return for an empty
      owner list is kept, though `OwnerSet` is never empty. */
  function GetFeedPosts(users: map<UserId, User>, projects: seq<Project>, follows: Follows.Store, caller: UserId,
                        rawPage: Option<int>, rawLimit: Option<int>, now: int, localeDate: int -> string): (r: Option<FeedReply>)
    ensures var page := Paging.QueryIntOr(rawPage, 1); var limit := Paging.QueryIntOr(rawLimit, 10);
      Paging.SkipFor(page, limit) < 0 ==> r.None?
    ensures var page := Paging.QueryIntOr(rawPage, 1); var limit := Paging.QueryIntOr(rawLimit, 10);
      Paging.SkipFor(page, limit) >= 0
      && (forall i :: 0 <= i < |projects| && InFeed(follows, caller, projects[i]) ==> projects[i].owner in users)
      ==> r.Some?
    ensures r.Some? ==>
      var skip := Paging.SkipFor(Paging.QueryIntOr(rawPage, 1), Paging.QueryIntOr(rawLimit, 10));
      var total := r.value.pagination.totalPosts;
      |r.value.posts| == Seqs.Min(Seqs.Abs(Paging.QueryIntOr(rawLimit, 10)), if skip < total then total - skip else 0)
    ensures r.Some? ==> forall k :: 0 <= k < |r.value.posts| ==>
      var id := r.value.posts[k].id;
      id < |projects| && InFeed(follows, caller, projects[id]) && projects[id].owner in users
      && r.value.posts[k] == PostOf(Entry(id, projects[id]), users[projects[id].owner], now, localeDate)
    ensures r.Some? ==> forall i, j :: 0 <= i < j < |r.value.posts| ==>
      r.value.posts[i].id < |projects| && r.value.posts[j].id < |projects|
      && projects[r.value.posts[i].id].createdAt >= projects[r.value.posts[j].id].createdAt
    ensures r.Some? ==> forall k :: 0 <= k < |r.value.posts| ==>
      var skip := Paging.SkipFor(Paging.QueryIntOr(rawPage, 1), Paging.QueryIntOr(rawLimit, 10));
      var id := r.value.posts[k].id;
      id < |projects| && Seqs.RankedAt(FeedEntries(projects, follows, caller), ByNewest, Entry(id, projects[id]), skip + k)
    ensures r.Some? ==> forall i, j :: 0 <= i < j < |r.value.posts| ==> r.value.posts[i].id != r.value.posts[j].id
    ensures r.Some? ==>
      r.value.pagination.totalPosts == Seqs.Count(Entries(projects), (e: Entry) => InFeed(follows, caller, e.project))
    ensures r.Some? ==> r.value.pagination == FeedPage(Paging.QueryIntOr(rawPage, 1), Paging.QueryIntOr(rawLimit, 10),
      r.value.pagination.totalPosts)
  {
    var page := Paging.QueryIntOr(rawPage, 1);
    var limit := Paging.QueryIntOr(rawLimit, 10);
    var owners := OwnerSet(follows, caller);
    if |owners| == 0 then Some(EmptyFeed(page))
    else
      var visible := FeedEntries(projects, follows, caller);
      if Paging.SkipFor(page, limit) < 0 then None
      else
        var posts := FeedPagePosts(users, projects, follows, caller, Paging.SkipFor(page, limit), limit, now, localeDate);
        if posts.None? then None
        else Some(FeedReply(posts.value, FeedPage(page, limit, |visible|)))
  }

  /** The posts of the feed page the skip and limit select: the post of the
      project ranked `skip + k` among the feed's projects, newest first,
      for each k, none twice; they exist whenever every project the feed
      shows still has its owner. */
  function FeedPagePosts(users: map<UserId, User>, projects: seq<Project>, follows: Follows.Store, caller: UserId,
                         skip: int, limit: int, now: int, localeDate: int -> string): (r: Option<seq<Post>>)
    requires skip >= 0 && limit != 0
    ensures (forall i :: 0 <= i < |projects| && InFeed(follows, caller, projects[i]) ==> projects[i].owner in users)
      ==> r.Some?
    ensures r.Some? ==> var total := |FeedEntries(projects, follows, caller)|;
      |r.value| == Seqs.Min(Seqs.Abs(limit), if skip < total then total - skip else 0)
    ensures r.Some? ==> forall k :: 0 <= k < |r.value| ==>
      var id := r.value[k].id;
      id < |projects| && InFeed(follows, caller, projects[id]) && projects[id].owner in users
      && r.value[k] == PostOf(Entry(id, projects[id]), users[projects[id].owner], now, localeDate)
    ensures r.Some? ==> forall i, j :: 0 <= i < j < |r.value| ==>
      r.value[i].id < |projects| && r.value[j].id < |projects|
      && projects[r.value[i].id].createdAt >= projects[r.value[j].id].createdAt
    ensures r.Some? ==> forall k :: 0 <= k < |r.value| ==>
      var id := r.value[k].id;
      id < |projects| && Seqs.RankedAt(FeedEntries(projects, follows, caller), ByNewest, Entry(id, projects[id]), skip + k)
    ensures r.Some? ==> forall i, j :: 0 <= i < j < |r.value| ==> r.value[i].id != r.value[j].id
  {
    var w := FeedWindow(projects, follows, caller, skip, limit);
    var posts := FeedPosts(users, projects, follows, caller, w, now, localeDate);
    if posts.None? then None
    else
      PostsFollowWindow(projects, FeedEntries(projects, follows, caller), skip, w, posts.value);
      posts
  }

  /** Posts that carry the ids of a ranked window of entries, in order,
      inherit the window's order, ranks and distinct ids. */
  lemma PostsFollowWindow(projects: seq<Project>, es: seq<Entry>, skip: int, w: seq<Entry>, posts: seq<Post>)
    requires forall k :: 0 <= k < |w| ==> w[k].id < |projects| && w[k] == Entry(w[k].id, projects[w[k].id])
    requires Seqs.SortedDesc(w, ByNewest)
    requires forall k :: 0 <= k < |w| ==> Seqs.RankedAt(es, ByNewest, w[k], skip + k)
    requires forall i, j :: 0 <= i < j < |w| ==> w[i].id != w[j].id
    requires |posts| == |w| && forall k :: 0 <= k < |posts| ==> posts[k].id == w[k].id
    ensures forall i, j :: 0 <= i < j < |posts| ==>
      posts[i].id < |projects| && posts[j].id < |projects|
      && projects[posts[i].id].createdAt >= projects[posts[j].id].createdAt
    ensures forall k :: 0 <= k < |posts| ==>
      posts[k].id < |projects| && Seqs.RankedAt(es, ByNewest, Entry(posts[k].id, projects[posts[k].id]), skip + k)
    ensures forall i, j :: 0 <= i < j < |posts| ==> posts[i].id != posts[j].id
  {
    forall i, j | 0 <= i < j < |posts|
      ensures posts[i].id < |projects| && posts[j].id < |projects|
        && projects[posts[i].id].createdAt >= projects[posts[j].id].createdAt
    {
      assert ByNewest(w[i]) >= ByNewest(w[j]);
    }
  }

  /** The posts of a page of feed entries: the k-th is the post of the
      k-th entry, a stored project the feed shows; they exist whenever
      every project the feed shows still has its owner. */
  function FeedPosts(users: map<UserId, User>, projects: seq<Project>, follows: Follows.Store, caller: UserId,
                     w: seq<Entry>, now: int, localeDate: int -> string): (r: Option<seq<Post>>)
    requires forall k :: 0 <= k < |w| ==>
      w[k].id < |projects| && w[k].project == projects[w[k].id] && InFeed(follows, caller, w[k].project)
    ensures (forall i :: 0 <= i < |projects| && InFeed(follows, caller, projects[i]) ==> projects[i].owner in users)
      ==> r.Some?
    ensures r.Some? ==> |r.value| == |w|
    ensures r.Some? ==> forall k :: 0 <= k < |r.value| ==> r.value[k].id == w[k].id
    ensures r.Some? ==> forall k :: 0 <= k < |r.value| ==>
      var id := r.value[k].id;
      id < |projects| && InFeed(follows, caller, projects[id]) && projects[id].owner in users
      && r.value[k] == PostOf(Entry(id, projects[id]), users[projects[id].owner], now, localeDate)
  {
    var posts := PostsOf(users, w, now, localeDate);
    if posts.None? then None
    else
      assert forall k :: 0 <= k < |w| ==> Entry(w[k].id, projects[w[k].id]) == w[k];
      posts
  }

  /** The entries the feed query matches: active projects owned by the
      caller or by someone the caller follows, each one stored, and as many
      as the feed's count. */
  function FeedEntries(projects: seq<Project>, follows: Follows.Store, caller: UserId): (v: seq<Entry>)
    ensures forall k :: 0 <= k < |v| ==>
      v[k].id < |projects| && v[k].project == projects[v[k].id] && InFeed(follows, caller, v[k].project)
    ensures |v| == Seqs.Count(Entries(projects), (e: Entry) => InFeed(follows, caller, e.project))
    ensures Seqs.Distinct(v)
  {
    var owners := OwnerSet(follows, caller);
    var visible := Seqs.Filter(Entries(projects), (e: Entry) => e.project.isActive && e.project.owner in owners);
    FeedFacts(projects, follows, caller, owners, visible, visible);
    Seqs.DistinctSub(visible, Entries(projects));
    visible
  }

  /** The entries of one feed page: the window the skip and limit cut from
      `FeedEntries` sorted newest first. Each is a stored project the feed
      shows, the k-th ranked `skip + k`, and no project comes twice. */
  function FeedWindow(projects: seq<Project>, follows: Follows.Store, caller: UserId, skip: int, limit: int): (w: seq<Entry>)
    requires skip >= 0 && limit != 0
    ensures var total := |FeedEntries(projects, follows, caller)|;
      |w| == Seqs.Min(Seqs.Abs(limit), if skip < total then total - skip else 0)
    ensures forall k :: 0 <= k < |w| ==>
      w[k].id < |projects| && w[k] == Entry(w[k].id, projects[w[k].id]) && InFeed(follows, caller, w[k].project)
    ensures forall k :: 0 <= k < |w| ==> Seqs.RankedAt(FeedEntries(projects, follows, caller), ByNewest, w[k], skip + k)
    ensures Seqs.SortedDesc(w, ByNewest)
    ensures forall i, j :: 0 <= i < j < |w| ==> w[i].id != w[j].id
  {
    var visible := FeedEntries(projects, follows, caller);
    var w := NewestWindow(visible, skip, limit);
    Seqs.DistinctSub(w, visible);
    assert forall i, j :: 0 <= i < j < |w| ==> w[i] != w[j];
    w
  }

  /** What `FeedEntries` needs about its page: the entries are stored
      projects the feed shows, and their number is the feed's count. */
  lemma FeedFacts(projects: seq<Project>, follows: Follows.Store, caller: UserId,
                  owners: seq<UserId>, visible: seq<Entry>, page: seq<Entry>)
    requires forall id :: id in owners <==> id == caller || Follows.HasPair(follows, caller, id)
    requires visible == Seqs.Filter(Entries(projects), (e: Entry) => e.project.isActive && e.project.owner in owners)
    requires forall k :: 0 <= k < |page| ==> page[k] in visible
    ensures forall k :: 0 <= k < |page| ==>
      page[k].id < |projects| && page[k].project == projects[page[k].id] && InFeed(follows, caller, page[k].project)
    ensures |visible| == Seqs.Count(Entries(projects), (e: Entry) => InFeed(follows, caller, e.project))
  {
    var es := Entries(projects);
    var shown := (e: Entry) => e.project.isActive && e.project.owner in owners;
    forall k | 0 <= k < |page|
      ensures page[k].id < |projects| && page[k].project == projects[page[k].id] && InFeed(follows, caller, page[k].project)
    {
      Seqs.FilterMembers(es, shown, page[k]);
    }
    Seqs.CountIsFilterLength(es, shown);
    Seqs.CountCongruent(es, shown, (e: Entry) => InFeed(follows, caller, e.project));
  }

  /** For ordinary page and limit values, the feed has a next page exactly
      when posts remain after this one, and a previous page exactly when
      this is not the first. */
  lemma NextPageIffPostsRemain(users: map<UserId, User>, projects: seq<Project>, follows: Follows.Store, caller: UserId,
                               page: int, limit: int, now: int, localeDate: int -> string)
    requires page >= 1 && limit >= 1
    requires GetFeedPosts(users, projects, follows, caller, Some(page), Some(limit), now, localeDate).Some?
    ensures var r := GetFeedPosts(users, projects, follows, caller, Some(page), Some(limit), now, localeDate).value;
      (r.pagination.hasNextPage <==> (page - 1) * limit + |r.posts| < r.pagination.totalPosts)
      && (r.pagination.hasPrevPage <==> page != 1)
  {
    var r := GetFeedPosts(users, projects, follows, caller, Some(page), Some(limit), now, localeDate).value;
    var total := r.pagination.totalPosts;
    Paging.HasMoreIffBeforeLastPage(page, limit, total);
  }

  /** Following someone brings their active projects into the feed: before
      the follow is saved the feed does not show them, afterwards it does. */
  lemma FollowBringsProjects(follows: Follows.Store, caller: UserId, target: UserId, now: int, p: Project)
    requires Follows.Save(follows, caller, target, now).Saved?
    requires p.isActive && p.owner == target
    ensures !InFeed(follows, caller, p)
    ensures InFeed(Follows.Save(follows, caller, target, now).store, caller, p)
  {
  }

  // ---------------------------------------------------------------------
  // getSuggestedUsers
  // ---------------------------------------------------------------------

  const SuggestionLimit: nat := 5

  /** Whether two interest lists have an entry in common (`$in`). */
  predicate SharesInterest(a: seq<string>, b: seq<string>) {
    exists s :: s in a && s in b
  }

  /** Whether `id` may be suggested to `caller`: a stored user other than
      the caller, not already followed, with an interest in common or the
      same skill level. */
  predicate Suggestible(users: map<UserId, User>, follows: Follows.Store, caller: UserId, id: UserId)
    requires caller in users
  {
    id in users && id != caller && !Follows.HasPair(follows, caller, id)
    && (SharesInterest(users[id].interests, users[caller].interests) || users[id].skillLevel == users[caller].skillLevel)
  }

  /** `getSuggestedUsers`: 404 for an unknown caller; otherwise the first
      five suggestible users in the collection's natural order `order`. */
  function SuggestedUsers(users: map<UserId, User>, order: seq<UserId>, follows: Follows.Store, caller: UserId): (r: (seq<UserId>, int))
    ensures r.1 in {Http.NotFound, Http.OK}
    ensures r.1 == Http.NotFound <==> caller !in users
    ensures r.1 == Http.NotFound ==> r.0 == []
    ensures |r.0| <= SuggestionLimit
    ensures r.1 == Http.OK ==> forall id :: id in r.0 ==> id in order && Suggestible(users, follows, caller, id)
    ensures r.1 == Http.OK && |r.0| < SuggestionLimit ==>
      forall id :: id in order && Suggestible(users, follows, caller, id) ==> id in r.0
  {
    if caller !in users then ([], Http.NotFound)
    else
      var fits := (id: UserId) => Suggestible(users, follows, caller, id);
      var hits := Seqs.Filter(order, fits);
      var page := hits[..Seqs.Min(SuggestionLimit, |hits|)];
      assert forall id :: id in page ==> id in order && fits(id) by {
        forall id | id in page ensures id in order && fits(id) {
          assert id in hits;
          Seqs.FilterMembers(order, fits, id);
        }
      }
      assert |page| < SuggestionLimit ==> page == hits;
      assert forall id :: id in order && fits(id) ==> id in hits by {
        forall id | id in order && fits(id) ensures id in hits {
          Seqs.FilterMembers(order, fits, id);
        }
      }
      (page, Http.OK)
  }

  /** Once the caller follows someone, that user is no longer suggested. */
  lemma FollowedNotSuggested(users: map<UserId, User>, order: seq<UserId>, follows: Follows.Store, caller: UserId,
                             target: UserId, now: int)
    requires Follows.Save(follows, caller, target, now).Saved?
    ensures target !in SuggestedUsers(users, order, Follows.Save(follows, caller, target, now).store, caller).0
  {
  }

  // ---------------------------------------------------------------------
  // getTrendingProjects
  // ---------------------------------------------------------------------

  /** A trending entry; `author` is the populated owner, null when the
      owner is no longer stored. */
  datatype TrendingItem = TrendingItem(
    id: ProjectId,
    title: string,
    description: string,
    author: Option<Author>,
    techStack: seq<string>,
    githubUrl: Option<string>,
    liveUrl: Option<string>,
    createdAt: string)

  function TrendingItemOf(users: map<UserId, User>, e: Entry, now: int, localeDate: int -> string): (r: TrendingItem)
    ensures r.id == e.id
    ensures r.createdAt == FormatTimeAgo(e.project.createdAt, now, localeDate(e.project.createdAt))
  {
    var p := e.project;
    var author := if p.owner in users then Some(AuthorOf(p.owner, users[p.owner])) else None;
    TrendingItem(e.id, p.title, p.description, author, p.techStack, p.githubUrl, p.liveUrl,
      FormatTimeAgo(p.createdAt, now, localeDate(p.createdAt)))
  }

  /** Whether a project trends at time `now`: active and created within the
      last seven days. */
  predicate Trends(p: Project, now: int) {
    p.isActive && p.createdAt >= now - WeekMs
  }

  /** The window `sort({ createdAt: -1 }).skip(skip).limit(limit)` cuts from
      `es`: at most `|limit|` entries of `es` after the first `skip`, the
      k-th the one ranked `skip + k` by creation time, newest first. */
  function NewestWindow(es: seq<Entry>, skip: int, limit: int): (w: seq<Entry>)
    requires skip >= 0 && limit != 0
    ensures |w| == Seqs.Min(Seqs.Abs(limit), if skip < |es| then |es| - skip else 0)
    ensures forall k :: 0 <= k < |w| ==> w[k] in es
    ensures multiset(w) <= multiset(es)
    ensures Seqs.SortedDesc(w, ByNewest)
    ensures forall k :: 0 <= k < |w| ==> Seqs.RankedAt(es, ByNewest, w[k], skip + k)
  {
    Seqs.SortedPage(es, ByNewest, skip, limit).value
  }

  /** The first `|limit|` of `es`, newest first (`sort({ createdAt: -1 })`
      then `limit(limit)` without a skip). */
  function NewestEntries(es: seq<Entry>, limit: int): (w: seq<Entry>)
    requires limit != 0
    ensures |w| == Seqs.Min(Seqs.Abs(limit), |es|)
    ensures forall k :: 0 <= k < |w| ==> w[k] in es
    ensures multiset(w) <= multiset(es)
    ensures Seqs.SortedDesc(w, ByNewest)
    ensures forall k :: 0 <= k < |w| ==> Seqs.RankedAt(es, ByNewest, w[k], k)
  {
    NewestWindow(es, 0, limit)
  }

  /** Holds of the entries of trending projects at time `now`. */
  function TrendsAt(now: int): Entry -> bool {
    (e: Entry) => Trends(e.project, now)
  }

  /** The entries the trending query matches, each a stored trending
      project, none twice. */
  function TrendingEntries(projects: seq<Project>, now: int): (v: seq<Entry>)
    ensures forall k :: 0 <= k < |v| ==>
      v[k].id < |projects| && v[k] == Entry(v[k].id, projects[v[k].id]) && Trends(v[k].project, now)
    ensures |v| == Seqs.Count(Entries(projects), (e: Entry) => Trends(e.project, now))
    ensures Seqs.Distinct(v)
  {
    var es := Entries(projects);
    var v := Seqs.Filter(es, TrendsAt(now));
    forall k | 0 <= k < |v| ensures v[k].id < |projects| && v[k] == Entry(v[k].id, projects[v[k].id]) {
      Seqs.FilterMembers(es, TrendsAt(now), v[k]);
    }
    Seqs.CountIsFilterLength(es, TrendsAt(now));
    assert Seqs.Count(es, TrendsAt(now)) == Seqs.Count(es, (e: Entry) => Trends(e.project, now)) by {
      Seqs.CountCongruent(es, TrendsAt(now), (e: Entry) => Trends(e.project, now));
    }
    Seqs.DistinctSub(v, es);
    v
  }

  /** `getTrendingProjects`: the active projects created in the last seven
      days, newest first, at most `limit` of them (default 10; a negative
      limit counts by its absolute value). */
  function TrendingProjects(users: map<UserId, User>, projects: seq<Project>, rawLimit: Option<int>, now: int,
                            localeDate: int -> string): (r: seq<TrendingItem>)
    ensures |r| == Seqs.Min(Seqs.Abs(Paging.QueryIntOr(rawLimit, 10)),
      Seqs.Count(Entries(projects), (e: Entry) => Trends(e.project, now)))
    ensures forall k :: 0 <= k < |r| ==>
      (r[k].id < |projects| && Trends(projects[r[k].id], now)
       && r[k] == TrendingItemOf(users, Entry(r[k].id, projects[r[k].id]), now, localeDate))
    ensures forall i, j :: 0 <= i < j < |r| ==>
      r[i].id < |projects| && r[j].id < |projects| && projects[r[i].id].createdAt >= projects[r[j].id].createdAt
    ensures forall k :: 0 <= k < |r| ==>
      r[k].id < |projects| && Seqs.RankedAt(TrendingEntries(projects, now), ByNewest, Entry(r[k].id, projects[r[k].id]), k)
    ensures forall i, j :: 0 <= i < j < |r| ==> r[i].id != r[j].id
  {
    var w := TrendingWindow(projects, now, Paging.QueryIntOr(rawLimit, 10));
    Seqs.MapSeq(w, (e: Entry) => TrendingItemOf(users, e, now, localeDate))
  }

  /** The entries `getTrendingProjects` lists: the first `|limit|` trending
      entries newest first, each a stored trending project, the k-th ranked
      k, none twice. */
  function TrendingWindow(projects: seq<Project>, now: int, limit: int): (w: seq<Entry>)
    requires limit != 0
    ensures |w| == Seqs.Min(Seqs.Abs(limit), Seqs.Count(Entries(projects), (e: Entry) => Trends(e.project, now)))
    ensures forall k :: 0 <= k < |w| ==>
      w[k].id < |projects| && w[k] == Entry(w[k].id, projects[w[k].id]) && Trends(w[k].project, now)
    ensures Seqs.SortedDesc(w, ByNewest)
    ensures forall k :: 0 <= k < |w| ==> Seqs.RankedAt(TrendingEntries(projects, now), ByNewest, w[k], k)
    ensures forall i, j :: 0 <= i < j < |w| ==> w[i].id != w[j].id
  {
    var recent := TrendingEntries(projects, now);
    var w := NewestEntries(recent, limit);
    Seqs.DistinctSub(w, recent);
    assert forall i, j :: 0 <= i < j < |w| ==> w[i] != w[j];
    w
  }

  /** A trending project is at most seven days old, and unless it is
      exactly seven days old its entry's age reads back as the minutes,
      hours or days elapsed rather than as a locale date. */
  lemma TrendingAgeIsRelative(users: map<UserId, User>, e: Entry, now: int, localeDate: int -> string)
    requires Trends(e.project, now)
    ensures now - e.project.createdAt <= WeekMs
    ensures now - e.project.createdAt < WeekMs ==>
      Unrender(TrendingItemOf(users, e, now, localeDate).createdAt) == Some(Age(e.project.createdAt, now))
  {
    if now - e.project.createdAt < WeekMs {
      TimeAgoReadsBack(e.project.createdAt, now, localeDate(e.project.createdAt));
    }
  }
}

=== FILE: follow_controller.dfy ===
/** The handlers of controllers/follow.controller.js: follow, unfollow,
    the follower and following lists and the follow-status check. */
module FollowController {
  import opened Wrappers
  import opened Users
  import Follows
  import Notifications
  import Presence
  import Paging
  import Seqs
  import Http

  /** The state a follow handler leaves behind and its answer. `sent` is
      the `notification.sent` flag of the reply. */
  datatype Outcome = Outcome(
    follows: Follows.Store,
    notes: Notifications.Store,
    code: int,
    emits: seq<Presence.Emit>,
    sent: bool,
    followerCount: nat,
    followingCount: nat)

  function Unchanged(follows: Follows.Store, notes: Notifications.Store, code: int): Outcome {
    Outcome(follows, notes, code, [], false, 0, 0)
  }

  /** The notification that marks `sender` following `recipient`. */
  predicate FollowNoteFrom(n: Notifications.Notification, sender: UserId, recipient: UserId) {
    n.kind == Notifications.FollowNote && n.sender == sender && n.recipient == recipient
  }

  function FollowMessage(callerName: string): string {
    callerName + " started following you"
  }

  /** `followUser` by `caller` (whose full name is `callerName`) for the
      path parameter `target`: 400 for an empty target or oneself, 404 for
      an unknown user, 409 for an existing follow; otherwise one follow and
      one `follow` notification to the target are stored, the target gets a
      live push when registered, and the answer is 201. */
  function FollowUser(users: map<UserId, User>, follows: Follows.Store, notes: Notifications.Store,
                      reg: Presence.Registry, caller: UserId, callerName: string, target: UserId, now: int): (r: Outcome)
    ensures r.code in {Http.BadRequest, Http.NotFound, Http.Conflict, Http.Created}
    ensures r.code == Http.BadRequest <==> target == "" || target == caller
    ensures r.code == Http.NotFound <==> target != "" && target != caller && target !in users
    ensures r.code == Http.Conflict <==>
      target != "" && target != caller && target in users && Follows.HasPair(follows, caller, target)
    ensures r.code != Http.Created ==> r.follows == follows && r.notes == notes && r.emits == []
    ensures r.code == Http.Created ==> |r.follows.items| == |follows.items| + 1 && r.follows.items[..|follows.items|] == follows.items
    ensures r.code == Http.Created ==> Follows.HasPair(r.follows, caller, target)
    ensures r.code == Http.Created ==> |r.notes.items| == |notes.items| + 1 && r.notes.items[..|notes.items|] == notes.items
    ensures r.code == Http.Created ==> FollowNoteFrom(r.notes.items[|notes.items|], caller, target)
    ensures r.code == Http.Created ==> r.sent == Presence.IsOnline(reg, target)
    ensures r.code == Http.Created ==> |r.emits| == if Presence.IsOnline(reg, target) && reg.ioReady then 1 else 0
    ensures r.code == Http.Created ==>
      r.followerCount == Follows.FollowerCount(follows, target) + 1 &&
      r.followingCount == Follows.FollowingCount(follows, caller) + 1
    ensures r.code == Http.Created ==>
      r.followerCount == Follows.FollowerCount(r.follows, target) && r.followingCount == Follows.FollowingCount(r.follows, caller)
    ensures r.code == Http.Created && |r.emits| == 1 ==>
      r.emits[0].target == Presence.ToSocket(reg.sockets[target]) && r.emits[0].event == "newNotification" &&
      r.emits[0].payload.TypedNotificationPayload? && r.emits[0].payload.kind == "follow" &&
      r.emits[0].payload.note.recipient == target && r.emits[0].payload.note.sender == caller &&
      r.emits[0].payload.unreadCount == Notifications.UnreadCount(r.notes.items, target)
    ensures Follows.WellFormed(follows) ==> Follows.WellFormed(r.follows)
    ensures Notifications.WellFormed(notes) ==> Notifications.WellFormed(r.notes)
  {
    if target == "" || target == caller then Unchanged(follows, notes, Http.BadRequest)
    else if target !in users then Unchanged(follows, notes, Http.NotFound)
    else if Follows.HasPair(follows, caller, target) then Unchanged(follows, notes, Http.Conflict)
    else
      var saved := Follows.Save(follows, caller, target, now);
      var related := Notifications.NoRelated.(followerId := Some(caller));
      var created := Notifications.Create(notes, Some(target), Some(caller), "follow", FollowMessage(callerName), related, now);
      assert saved.Saved? && created.Some?;
      var notes' := created.value.0;
      var push := Presence.EmitToUser(reg, target, "newNotification",
        Presence.TypedNotificationPayload(Presence.NoteView("follow", FollowMessage(callerName), caller, target),
          Notifications.UnreadCount(notes'.items, target), "follow"));
      Follows.SaveCounts(follows, caller, target, now, target);
      Follows.SaveCounts(follows, caller, target, now, caller);
      Outcome(saved.store, notes', Http.Created, push.1, target in reg.sockets,
        Follows.FollowerCount(saved.store, target), Follows.FollowingCount(saved.store, caller))
  }

  /** `unfollowUser`: 400 for an empty target or oneself, 404 for an
      unknown user or when `caller` does not follow `target`; otherwise the
      follow is removed together with one `follow` notification from
      `caller` to `target`, and the answer is 200. */
  function UnfollowUser(users: map<UserId, User>, follows: Follows.Store, notes: Notifications.Store,
                        reg: Presence.Registry, caller: UserId, target: UserId): (r: Outcome)
    ensures r.code in {Http.BadRequest, Http.NotFound, Http.OK}
    ensures r.code == Http.BadRequest <==> target == "" || target == caller
    ensures r.code == Http.OK <==>
      target != "" && target != caller && target in users && Follows.HasPair(follows, caller, target)
    ensures r.code != Http.OK ==> r.follows == follows && r.notes == notes && r.emits == []
    ensures r.code == Http.OK ==> |r.follows.items| + 1 == |follows.items|
    ensures r.code == Http.OK ==> r.follows == Follows.RemoveAt(follows, Follows.FindPair(follows, caller, target).value)
    ensures r.code == Http.OK && Follows.WellFormed(follows) ==> !Follows.HasPair(r.follows, caller, target)
    ensures r.code == Http.OK ==> forall f :: f in follows.items && !(f.follower == caller && f.following == target) ==> f in r.follows.items
    ensures r.code == Http.OK ==>
      var p := (n: Notifications.Notification) => FollowNoteFrom(n, caller, target);
      Seqs.Count(r.notes.items, p) == if Seqs.Count(notes.items, p) == 0 then 0 else Seqs.Count(notes.items, p) - 1
    ensures r.code == Http.OK ==> forall n :: n in notes.items && !FollowNoteFrom(n, caller, target) ==> n in r.notes.items
    ensures r.code == Http.OK ==> r.sent == Presence.IsOnline(reg, target)
    ensures r.code == Http.OK ==>
      r.followerCount + 1 == Follows.FollowerCount(follows, target) &&
      r.followingCount + 1 == Follows.FollowingCount(follows, caller)
    ensures r.code == Http.OK ==>
      r.followerCount == Follows.FollowerCount(r.follows, target) && r.followingCount == Follows.FollowingCount(r.follows, caller)
    ensures r.code == Http.OK ==> |r.emits| == if Presence.IsOnline(reg, target) && reg.ioReady then 1 else 0
    ensures r.code == Http.OK && |r.emits| == 1 ==>
      r.emits[0].target == Presence.ToSocket(reg.sockets[target]) && r.emits[0].event == "userUnfollowed" &&
      r.emits[0].payload == Presence.UserUnfollowedPayload(caller, Notifications.UnreadCount(r.notes.items, target))
    ensures Follows.WellFormed(follows) ==> Follows.WellFormed(r.follows)
    ensures Notifications.WellFormed(notes) ==> Notifications.WellFormed(r.notes)
  {
    if target == "" || target == caller then Unchanged(follows, notes, Http.BadRequest)
    else if target !in users then Unchanged(follows, notes, Http.NotFound)
    else
      var k := Follows.FindPair(follows, caller, target);
      if k.None? then Unchanged(follows, notes, Http.NotFound)
      else
        var follows' := Follows.RemoveAt(follows, k.value);
        Follows.RemovePair(follows, caller, target);
        var notes' := Notifications.DeleteFirst(notes, (n: Notifications.Notification) => FollowNoteFrom(n, caller, target));
        var push := Presence.EmitToUser(reg, target, "userUnfollowed",
          Presence.UserUnfollowedPayload(caller, Notifications.UnreadCount(notes'.items, target)));
        Outcome(follows', notes', Http.OK, push.1, target in reg.sockets,
          Follows.FollowerCount(follows', target), Follows.FollowingCount(follows', caller))
  }

  /** Following and then unfollowing restores the follow store's
      contents, and the unfollow reply shows the counts from before the
      follow. */
  lemma FollowUnfollowRoundTrip(users: map<UserId, User>, follows: Follows.Store, notes: Notifications.Store,
                                reg: Presence.Registry, caller: UserId, callerName: string, target: UserId, now: int)
    requires Follows.WellFormed(follows)
    requires FollowUser(users, follows, notes, reg, caller, callerName, target, now).code == Http.Created
    ensures var a := FollowUser(users, follows, notes, reg, caller, callerName, target, now);
      var b := UnfollowUser(users, a.follows, a.notes, reg, caller, target);
      b.code == Http.OK && b.follows.items == follows.items
    ensures var a := FollowUser(users, follows, notes, reg, caller, callerName, target, now);
      var b := UnfollowUser(users, a.follows, a.notes, reg, caller, target);
      b.followerCount == Follows.FollowerCount(follows, target) && b.followingCount == Follows.FollowingCount(follows, caller)
  {
    var a := FollowUser(users, follows, notes, reg, caller, callerName, target, now);
    Follows.AppendThenRemove(follows, a.follows, caller, target);
  }

  /** `checkFollowStatus`: asking about oneself answers "self, not
      following" without a lookup; otherwise whether the pair is stored. */
  function CheckFollowStatus(follows: Follows.Store, caller: UserId, target: UserId): (r: (bool, bool))
    ensures r.1 <==> target == caller
    ensures r.0 <==> target != caller && Follows.HasPair(follows, caller, target)
  {
    if target == caller then (false, true)
    else (Follows.FindPair(follows, caller, target).Some?, false)
  }

  datatype ListReply = ListReply(users: seq<UserId>, pagination: Paging.PageInfo)

  /** The follows behind one page of `getFollowers(u)`: the window the
      skip and limit cut from the follows of `u`'s followers sorted by
      creation time, newest first. */
  function FollowerRecords(follows: Follows.Store, u: UserId, skip: int, limit: int): (r: seq<Follows.Follow>)
    requires skip >= 0
    ensures |r| == Seqs.PageLength(Follows.FollowerCount(follows, u), skip, limit)
    ensures forall k :: 0 <= k < |r| ==> r[k] in follows.items && r[k].following == u
    ensures forall k :: 0 <= k < |r| ==> Seqs.RankedAt(Follows.FollowersOf(follows, u), Follows.ByCreatedAt, r[k], skip + k)
    ensures Follows.WellFormed(follows) ==> Seqs.Distinct(r)
  {
    var mine := Follows.FollowersOf(follows, u);
    var w := Seqs.SortedPage(mine, Follows.ByCreatedAt, skip, limit);
    assert Follows.WellFormed(follows) ==> Seqs.Distinct(w.value) by {
      if Follows.WellFormed(follows) {
        Follows.WellFormedDistinct(follows);
        Seqs.DistinctSub(w.value, follows.items);
      }
    }
    w.value
  }

  /** The follows behind one page of `getFollowing(u)`: the window the
      skip and limit cut from the follows `u` made sorted by creation time,
      newest first. */
  function FollowingRecords(follows: Follows.Store, u: UserId, skip: int, limit: int): (r: seq<Follows.Follow>)
    requires skip >= 0
    ensures |r| == Seqs.PageLength(Follows.FollowingCount(follows, u), skip, limit)
    ensures forall k :: 0 <= k < |r| ==> r[k] in follows.items && r[k].follower == u
    ensures forall k :: 0 <= k < |r| ==> Seqs.RankedAt(Follows.FollowingOf(follows, u), Follows.ByCreatedAt, r[k], skip + k)
    ensures Follows.WellFormed(follows) ==> Seqs.Distinct(r)
  {
    var mine := Follows.FollowingOf(follows, u);
    var w := Seqs.SortedPage(mine, Follows.ByCreatedAt, skip, limit);
    assert Follows.WellFormed(follows) ==> Seqs.Distinct(w.value) by {
      if Follows.WellFormed(follows) {
        Follows.WellFormedDistinct(follows);
        Seqs.DistinctSub(w.value, follows.items);
      }
    }
    w.value
  }

  /** The followers a page of follows of `u` names: each follows `u`, and
      in a well-formed store none is named twice. */
  lemma ListedFollowers(follows: Follows.Store, page: seq<Follows.Follow>, u: UserId)
    requires forall k :: 0 <= k < |page| ==> page[k] in follows.items && page[k].following == u
    requires Follows.WellFormed(follows) ==> Seqs.Distinct(page)
    ensures var ids := Seqs.MapSeq(page, Follows.FollowerOf);
      (forall k :: 0 <= k < |ids| ==> Follows.HasPair(follows, ids[k], u))
      && (Follows.WellFormed(follows) ==> Seqs.Distinct(ids))
  {
    var ids := Seqs.MapSeq(page, Follows.FollowerOf);
    forall k | 0 <= k < |ids| ensures Follows.HasPair(follows, ids[k], u) {
      var i :| 0 <= i < |follows.items| && follows.items[i] == page[k];
    }
    if Follows.WellFormed(follows) {
      forall k, l | 0 <= k < l < |ids| ensures ids[k] != ids[l] {
        if ids[k] == ids[l] {
          Follows.PairIdentifies(follows, page[k], page[l]);
        }
      }
    }
  }

  /** The followed users a page of follows by `u` names: `u` follows each,
      and in a well-formed store none is named twice. */
  lemma ListedFollowed(follows: Follows.Store, page: seq<Follows.Follow>, u: UserId)
    requires forall k :: 0 <= k < |page| ==> page[k] in follows.items && page[k].follower == u
    requires Follows.WellFormed(follows) ==> Seqs.Distinct(page)
    ensures var ids := Seqs.MapSeq(page, Follows.FollowedOf);
      (forall k :: 0 <= k < |ids| ==> Follows.HasPair(follows, u, ids[k]))
      && (Follows.WellFormed(follows) ==> Seqs.Distinct(ids))
  {
    var ids := Seqs.MapSeq(page, Follows.FollowedOf);
    forall k | 0 <= k < |ids| ensures Follows.HasPair(follows, u, ids[k]) {
      var i :| 0 <= i < |follows.items| && follows.items[i] == page[k];
    }
    if Follows.WellFormed(follows) {
      forall k, l | 0 <= k < l < |ids| ensures ids[k] != ids[l] {
        if ids[k] == ids[l] {
          Follows.PairIdentifies(follows, page[k], page[l]);
        }
      }
    }
  }

  /** `getFollowers(u)`: the followers of `u`, one page of them; page and
      limit default to 1 and 10. `None` is the 500 a negative skip
      produces. The users are the followers of `FollowerRecords`, the
      newest-first window of `u`'s follows. */
  function GetFollowers(follows: Follows.Store, u: UserId, rawPage: Option<int>, rawLimit: Option<int>): (r: Option<ListReply>)
    ensures var page := Paging.QueryIntOr(rawPage, 1); var limit := Paging.QueryIntOr(rawLimit, 10);
      r.None? <==> Paging.SkipFor(page, limit) < 0
    ensures r.Some? ==> forall k :: 0 <= k < |r.value.users| ==> Follows.HasPair(follows, r.value.users[k], u)
    ensures r.Some? ==> var page := Paging.QueryIntOr(rawPage, 1); var limit := Paging.QueryIntOr(rawLimit, 10);
      r.value.users == Seqs.MapSeq(FollowerRecords(follows, u, Paging.SkipFor(page, limit), limit), Follows.FollowerOf)
      && r.value.pagination == Paging.Paginate(page, limit, Follows.FollowerCount(follows, u))
    ensures r.Some? && Follows.WellFormed(follows) ==> Seqs.Distinct(r.value.users)
  {
    var page := Paging.QueryIntOr(rawPage, 1);
    var limit := Paging.QueryIntOr(rawLimit, 10);
    if Paging.SkipFor(page, limit) < 0 then None
    else
      var records := FollowerRecords(follows, u, Paging.SkipFor(page, limit), limit);
      ListedFollowers(follows, records, u);
      Some(ListReply(Seqs.MapSeq(records, Follows.FollowerOf), Paging.Paginate(page, limit, Follows.FollowerCount(follows, u))))
  }

  /** `getFollowing(u)`: the users `u` follows, one page of them. The users
      are the followed users of `FollowingRecords`, the newest-first window
      of the follows `u` made. */
  function GetFollowing(follows: Follows.Store, u: UserId, rawPage: Option<int>, rawLimit: Option<int>): (r: Option<ListReply>)
    ensures var page := Paging.QueryIntOr(rawPage, 1); var limit := Paging.QueryIntOr(rawLimit, 10);
      r.None? <==> Paging.SkipFor(page, limit) < 0
    ensures r.Some? ==> forall k :: 0 <= k < |r.value.users| ==> Follows.HasPair(follows, u, r.value.users[k])
    ensures r.Some? ==> var page := Paging.QueryIntOr(rawPage, 1); var limit := Paging.QueryIntOr(rawLimit, 10);
      r.value.users == Seqs.MapSeq(FollowingRecords(follows, u, Paging.SkipFor(page, limit), limit), Follows.FollowedOf)
      && r.value.pagination == Paging.Paginate(page, limit, Follows.FollowingCount(follows, u))
    ensures r.Some? && Follows.WellFormed(follows) ==> Seqs.Distinct(r.value.users)
  {
    var page := Paging.QueryIntOr(rawPage, 1);
    var limit := Paging.QueryIntOr(rawLimit, 10);
    if Paging.SkipFor(page, limit) < 0 then None
    else
      var records := FollowingRecords(follows, u, Paging.SkipFor(page, limit), limit);
      ListedFollowed(follows, records, u);
      Some(ListReply(Seqs.MapSeq(records, Follows.FollowedOf), Paging.Paginate(page, limit, Follows.FollowingCount(follows, u))))
  }
}

=== FILE: follows.dfy ===
/** The Follow document (models/follow.model.js): an ordered pair
    `follower -> following` with a unique index on the pair and a pre-save
    hook that rejects following oneself. */
module Follows {
  import opened Wrappers
  import opened Users
  import Seqs

  type FollowId = nat

  datatype Follow = Follow(id: FollowId, follower: UserId, following: UserId, createdAt: int)

  /** The collection, with the id the next insert receives. */
  datatype Store = Store(items: seq<Follow>, nextId: FollowId)

  const EmptyStore := Store([], 0)

  predicate HasPair(s: Store, a: UserId, b: UserId) {
    exists i :: 0 <= i < |s.items| && s.items[i].follower == a && s.items[i].following == b
  }

  /** What every stored follow satisfies: ids increase and stay below
      `nextId`, no pair is stored twice, and nobody follows themselves. */
  predicate WellFormed(s: Store) {
    (forall i :: 0 <= i < |s.items| ==> s.items[i].id < s.nextId)
    && (forall i, j :: 0 <= i < j < |s.items| ==> s.items[i].id < s.items[j].id)
    && (forall i, j :: 0 <= i < j < |s.items| ==>
          !(s.items[i].follower == s.items[j].follower && s.items[i].following == s.items[j].following))
    && (forall i :: 0 <= i < |s.items| ==> s.items[i].follower != s.items[i].following)
  }

  datatype SaveError = SelfFollow | DuplicatePair

  /** The message the pre-save hook fails with. */
  const SelfFollowMessage := "Users cannot follow themselves"

  /** Saving a new follow: the pre-save hook runs first and rejects
      `follower == following`; the insert then fails on the unique pair
      index. A rejected save leaves the store unchanged. */
  function Save(s: Store, follower: UserId, following: UserId, now: int): (r: Result)
    ensures r.Failed? <==> follower == following || HasPair(s, follower, following)
    ensures r.Failed? && follower == following ==> r.error == SelfFollow
    ensures r.Saved? ==> HasPair(r.store, follower, following)
    ensures r.Saved? ==> r.store.items == s.items + [r.follow]
    ensures r.Saved? ==> r.follow.follower == follower && r.follow.following == following
    ensures r.Saved? ==> r.follow.id == s.nextId && r.store.nextId == s.nextId + 1
    ensures r.Saved? && WellFormed(s) ==> WellFormed(r.store)
  {
    if follower == following then Failed(SelfFollow)
    else if HasPair(s, follower, following) then Failed(DuplicatePair)
    else
      var f := Follow(s.nextId, follower, following, now);
      var r := Store(s.items + [f], s.nextId + 1);
      assert r.items[|s.items|] == f;
      Saved(r, f)
  }

  datatype Result = Saved(store: Store, follow: Follow) | Failed(error: SaveError)

  /** The unique index is on the ordered pair: `a -> b` does not block
      `b -> a`. */
  lemma ReversePairAllowed(s: Store, a: UserId, b: UserId, now: int, later: int)
    requires a != b && !HasPair(s, a, b) && !HasPair(s, b, a)
    ensures Save(s, a, b, now).Saved?
    ensures Save(Save(s, a, b, now).store, b, a, later).Saved?
  {
    var t := Save(s, a, b, now).store;
    assert t.items == s.items + [Save(s, a, b, now).follow];
    forall i | 0 <= i < |t.items| ensures !(t.items[i].follower == b && t.items[i].following == a) {
      if i < |s.items| {
        assert t.items[i] == s.items[i];
      }
    }
  }

  /** Saving the same pair twice fails the second time, so the store never
      holds a pair twice. */
  lemma SecondSaveFails(s: Store, a: UserId, b: UserId, now: int, later: int)
    requires Save(s, a, b, now).Saved?
    ensures Save(Save(s, a, b, now).store, a, b, later) == Failed(DuplicatePair)
  {
  }

  /** The first stored follow of the pair, if any (`findOne`). */
  function FindPair(s: Store, a: UserId, b: UserId): (r: Option<nat>)
    ensures r.Some? ==> r.value < |s.items| && s.items[r.value].follower == a && s.items[r.value].following == b
    ensures r.None? <==> !HasPair(s, a, b)
  {
    Seqs.FindIndex(s.items, (f: Follow) => f.follower == a && f.following == b)
  }

  /** `deleteOne({ _id })` of the follow at position `k`. */
  function RemoveAt(s: Store, k: nat): (r: Store)
    requires k < |s.items|
    ensures |r.items| + 1 == |s.items| && r.nextId == s.nextId
    ensures forall f :: f in r.items ==> f in s.items
    ensures forall i :: 0 <= i < |s.items| && i != k ==> s.items[i] in r.items
    ensures WellFormed(s) ==> WellFormed(r)
  {
    var items := Seqs.RemoveAt(s.items, k);
    assert WellFormed(s) ==> WellFormed(Store(items, s.nextId)) by {
      if WellFormed(s) {
        forall i, j | 0 <= i < j < |items| ensures items[i].id < items[j].id {
          var i' := if i < k then i else i + 1;
          var j' := if j < k then j else j + 1;
          assert i' < j';
        }
        forall i, j | 0 <= i < j < |items|
          ensures !(items[i].follower == items[j].follower && items[i].following == items[j].following)
        {
          var i' := if i < k then i else i + 1;
          var j' := if j < k then j else j + 1;
          assert i' < j';
        }
      }
    }
    Store(items, s.nextId)
  }

  /** Removing the follow `a -> b` from a well-formed store leaves no
      `a -> b` behind. */
  lemma RemovePairLeavesNone(s: Store, a: UserId, b: UserId)
    requires WellFormed(s) && HasPair(s, a, b)
    ensures !HasPair(RemoveAt(s, FindPair(s, a, b).value), a, b)
  {
    var k := FindPair(s, a, b).value;
    var r := RemoveAt(s, k);
    forall i | 0 <= i < |r.items| ensures !(r.items[i].follower == a && r.items[i].following == b) {
      var i' := if i < k then i else i + 1;
      assert r.items[i] == s.items[i'];
      if i' < k {
        assert !(s.items[i'].follower == s.items[k].follower && s.items[i'].following == s.items[k].following);
      } else {
        assert !(s.items[k].follower == s.items[i'].follower && s.items[k].following == s.items[i'].following);
      }
    }
  }

  /** `countDocuments({ following: u })`. */
  function FollowerCount(s: Store, u: UserId): nat {
    Seqs.Count(s.items, (f: Follow) => f.following == u)
  }

  /** `countDocuments({ follower: u })`. */
  function FollowingCount(s: Store, u: UserId): nat {
    Seqs.Count(s.items, (f: Follow) => f.follower == u)
  }

  /** A successful save adds one follower to the followed user and one
      followed user to the follower, and changes no other count. */
  lemma SaveCounts(s: Store, a: UserId, b: UserId, now: int, u: UserId)
    requires Save(s, a, b, now).Saved?
    ensures FollowerCount(Save(s, a, b, now).store, u) == FollowerCount(s, u) + (if u == b then 1 else 0)
    ensures FollowingCount(Save(s, a, b, now).store, u) == FollowingCount(s, u) + (if u == a then 1 else 0)
  {
    var f := Save(s, a, b, now).follow;
    Seqs.CountAppend(s.items, [f], (g: Follow) => g.following == u);
    Seqs.CountAppend(s.items, [f], (g: Follow) => g.follower == u);
  }

  /** Deleting the follow at `k` takes one follower from the user it
      followed and one followed user from its follower, and changes no
      other count. */
  lemma RemoveCounts(s: Store, k: nat, u: UserId)
    requires k < |s.items|
    ensures FollowerCount(RemoveAt(s, k), u) == FollowerCount(s, u) - (if s.items[k].following == u then 1 else 0)
    ensures FollowingCount(RemoveAt(s, k), u) == FollowingCount(s, u) - (if s.items[k].follower == u then 1 else 0)
  {
    assert RemoveAt(s, k).items == Seqs.RemoveAt(s.items, k);
    Seqs.CountRemoveAt(s.items, k, (g: Follow) => g.following == u);
    Seqs.CountRemoveAt(s.items, k, (g: Follow) => g.follower == u);
  }

  /** A store that extends `s` by one follow `a -> b`, where `s` had none,
      loses exactly that follow when the pair is deleted again. */
  lemma AppendThenRemove(s: Store, t: Store, a: UserId, b: UserId)
    requires |t.items| == |s.items| + 1 && t.items[..|s.items|] == s.items
    requires !HasPair(s, a, b) && HasPair(t, a, b)
    ensures RemoveAt(t, FindPair(t, a, b).value).items == s.items
  {
    var n := |s.items|;
    var k := FindPair(t, a, b).value;
    assert k == n;
    assert t.items[..n] == s.items;
  }

  /** Deleting the stored follow `a -> b`: every other follow stays, none
      of the pair remains in a well-formed store, and `b` loses one
      follower and `a` one followed user. */
  lemma RemovePair(s: Store, a: UserId, b: UserId)
    requires HasPair(s, a, b)
    ensures var r := RemoveAt(s, FindPair(s, a, b).value);
      (forall f :: f in s.items && !(f.follower == a && f.following == b) ==> f in r.items)
      && (WellFormed(s) ==> !HasPair(r, a, b))
      && FollowerCount(r, b) + 1 == FollowerCount(s, b) && FollowingCount(r, a) + 1 == FollowingCount(s, a)
  {
    var k := FindPair(s, a, b).value;
    var r := RemoveAt(s, k);
    forall f | f in s.items && !(f.follower == a && f.following == b) ensures f in r.items {
      var i :| 0 <= i < |s.items| && s.items[i] == f;
      assert i != k;
    }
    if WellFormed(s) {
      RemovePairLeavesNone(s, a, b);
    }
    RemoveCounts(s, k, b);
    RemoveCounts(s, k, a);
  }

  function ByCreatedAt(f: Follow): int { f.createdAt }

  /** The user who follows. */
  function FollowerOf(f: Follow): UserId { f.follower }

  /** The user being followed. */
  function FollowedOf(f: Follow): UserId { f.following }

  /** The follows of `u`'s followers (`find({ following: u })`), in store
      order. */
  function FollowersOf(s: Store, u: UserId): (r: seq<Follow>)
    ensures forall f :: f in r <==> f in s.items && f.following == u
    ensures multiset(r) <= multiset(s.items)
    ensures |r| == FollowerCount(s, u)
  {
    var p := (f: Follow) => f.following == u;
    Seqs.CountIsFilterLength(s.items, p);
    forall f ensures f in Seqs.Filter(s.items, p) <==> f in s.items && f.following == u {
      Seqs.FilterMembers(s.items, p, f);
    }
    Seqs.Filter(s.items, p)
  }

  /** The follows `u` made (`find({ follower: u })`), in store order. */
  function FollowingOf(s: Store, u: UserId): (r: seq<Follow>)
    ensures forall f :: f in r <==> f in s.items && f.follower == u
    ensures multiset(r) <= multiset(s.items)
    ensures |r| == FollowingCount(s, u)
  {
    var p := (f: Follow) => f.follower == u;
    Seqs.CountIsFilterLength(s.items, p);
    forall f ensures f in Seqs.Filter(s.items, p) <==> f in s.items && f.follower == u {
      Seqs.FilterMembers(s.items, p, f);
    }
    Seqs.Filter(s.items, p)
  }

  /** Distinct ids make distinct records. */
  lemma WellFormedDistinct(s: Store)
    requires WellFormed(s)
    ensures Seqs.Distinct(s.items)
  {
  }

  /** In a well-formed store two different stored follows differ in their
      pair. */
  lemma PairIdentifies(s: Store, f: Follow, g: Follow)
    requires WellFormed(s) && f in s.items && g in s.items
    requires f.follower == g.follower && f.following == g.following
    ensures f == g
  {
    var i :| 0 <= i < |s.items| && s.items[i] == f;
    var j :| 0 <= j < |s.items| && s.items[j] == g;
    assert !(i < j) && !(j < i);
  }
}

=== FILE: http.dfy ===
/** The HTTP status codes the handlers answer with. */
module Http {
  const OK: int := 200
  const Created: int := 201
  const BadRequest: int := 400
  const Unauthorized: int := 401
  const Forbidden: int := 403
  const NotFound: int := 404
  const Conflict: int := 409
  const ServerError: int := 500
}

=== FILE: invitation_controller.dfy ===
/** The handlers of controllers/projectInvitation.controller.js: sending,
    listing, accepting, declining and cancelling project invitations. */
module InvitationController {
  import opened Wrappers
  import opened Users
  import opened Text
  import Projects
  import Invitations
  import Notifications
  import Paging
  import Seqs
  import Http

  /** The stores an invitation handler may touch and its status code. */
  datatype Outcome = Outcome(
    invs: Invitations.Store,
    projects: seq<Projects.Project>,
    users: map<UserId, User>,
    notes: Notifications.Store,
    code: int)

  function InviteMessage(inviter: string, title: string): string {
    inviter + " invited you to collaborate on " + Quoted(title)
  }

  function AcceptedMessage(invitee: string, title: string): string {
    invitee + " accepted your invitation to collaborate on " + Quoted(title)
  }

  function DeclinedMessage(invitee: string, title: string): string {
    invitee + " declined your invitation to collaborate on " + Quoted(title)
  }

  /** A notification of kind `kind` from `sender` to `recipient`. */
  predicate NoteFrom(n: Notifications.Notification, kind: Notifications.NotificationKind, sender: UserId, recipient: UserId) {
    n.kind == kind && n.sender == sender && n.recipient == recipient
  }

  /** `findById(projectId)` finds a project. */
  predicate ProjectFound(projects: seq<Projects.Project>, projectId: Option<nat>) {
    projectId.Some? && projectId.value < |projects|
  }

  /** `invitedUserId` names a stored user. */
  predicate UserFound(users: map<UserId, User>, u: Option<UserId>) {
    u.Some? && u.value in users
  }

  // ---------------------------------------------------------------------
  // sendInvitation
  // ---------------------------------------------------------------------

  /** Every check of `sendInvitation` before the save passes: the project
      exists and is the caller's, the invitee exists, does not collaborate
      on it and has no pending invitation to it. */
  predicate InviteChecksPass(projects: seq<Projects.Project>, users: map<UserId, User>, invs: Invitations.Store,
                             caller: UserId, projectId: Option<nat>, invitedUserId: Option<UserId>) {
    ProjectFound(projects, projectId) && projects[projectId.value].owner == caller
    && UserFound(users, invitedUserId)
    && !Projects.IsCollaborator(projects[projectId.value], invitedUserId.value)
    && Invitations.PendingIndex(invs, projectId.value, invitedUserId.value).None?
  }

  /** The invitation schema's rules on what the request supplies: the
      trimmed message fits in 500 UTF-16 code units and the invitee's
      trimmed email is not blank. */
  predicate InviteValid(message: Option<string>, email: string) {
    Utf16Length(Trim(message.GetOr(""))) <= Invitations.MessageMax && Trim(email) != ""
  }

  /** `sendInvitation` by `caller`: 404 for an unknown project, 403 unless
      the caller owns it, 404 for an unknown invitee, 400 when the invitee
      already collaborates or already has a pending invitation to the
      project; a message that fails validation is a 500. Otherwise one
      pending invitation and one `project_invite` notification to the
      invitee are stored, and the answer is 201. */
  function SendInvitation(projects: seq<Projects.Project>, users: map<UserId, User>, invs: Invitations.Store,
                          notes: Notifications.Store, caller: UserId, callerName: string, projectId: Option<nat>,
                          invitedUserId: Option<UserId>, message: Option<string>, now: int): (r: Outcome)
    ensures r.projects == projects && r.users == users
    ensures r.code in {Http.NotFound, Http.Forbidden, Http.BadRequest, Http.ServerError, Http.Created}
    ensures r.code == Http.Forbidden <==> ProjectFound(projects, projectId) && projects[projectId.value].owner != caller
    ensures r.code == Http.NotFound <==>
      (!ProjectFound(projects, projectId) || (projects[projectId.value].owner == caller && !UserFound(users, invitedUserId)))
    ensures r.code == Http.BadRequest <==>
      (ProjectFound(projects, projectId) && projects[projectId.value].owner == caller
       && UserFound(users, invitedUserId)
       && (Projects.IsCollaborator(projects[projectId.value], invitedUserId.value)
           || Invitations.PendingIndex(invs, projectId.value, invitedUserId.value).Some?))
    ensures r.code == Http.ServerError <==>
      InviteChecksPass(projects, users, invs, caller, projectId, invitedUserId)
      && !InviteValid(message, users[invitedUserId.value].email)
    ensures r.code == Http.Created <==>
      InviteChecksPass(projects, users, invs, caller, projectId, invitedUserId)
      && InviteValid(message, users[invitedUserId.value].email)
    ensures r.code != Http.Created ==> r.invs == invs && r.notes == notes
    ensures r.code == Http.Created ==>
      |r.invs.items| == |invs.items| + 1 && r.invs.items[..|invs.items|] == invs.items
      && Invitations.PendingFor(r.invs.items[|invs.items|], projectId.value, invitedUserId.value)
      && r.invs.items[|invs.items|].invitedBy == caller
    ensures r.code == Http.Created ==>
      |r.notes.items| == |notes.items| + 1 && r.notes.items[..|notes.items|] == notes.items
      && NoteFrom(r.notes.items[|notes.items|], Notifications.ProjectInvite, caller, invitedUserId.value)
      && r.notes.items[|notes.items|].related.invitationId == Some(r.invs.items[|invs.items|].id)
    ensures Invitations.WellFormed(invs) ==> Invitations.WellFormed(r.invs)
    ensures Notifications.WellFormed(notes) ==> Notifications.WellFormed(r.notes)
  {
    if !ProjectFound(projects, projectId) then Outcome(invs, projects, users, notes, Http.NotFound)
    else
      var p := projects[projectId.value];
      if p.owner != caller then Outcome(invs, projects, users, notes, Http.Forbidden)
      else if !UserFound(users, invitedUserId) then Outcome(invs, projects, users, notes, Http.NotFound)
      else
        var invitee := invitedUserId.value;
        if Projects.IsCollaborator(p, invitee) || Invitations.PendingIndex(invs, projectId.value, invitee).Some? then
          Outcome(invs, projects, users, notes, Http.BadRequest)
        else
          var details := Invitations.Details(p.title, p.description, p.techStack);
          var created := Invitations.New(invs, projectId.value, caller, invitee, users[invitee].email, message, details, now);
          if created.None? then Outcome(invs, projects, users, notes, Http.ServerError)
          else
            var related := Notifications.NoRelated.(invitationId := Some(created.value.1.id),
              projectId := projectId, projectTitle := Some(p.title));
            var note := Notifications.Create(notes, Some(invitee), Some(caller), "project_invite",
              InviteMessage(callerName, p.title), related, now);
            assert note.Some?;
            Outcome(created.value.0, projects, users, note.value.0, Http.Created)
  }

  /** Sending the same invitation twice: the second attempt finds the
      pending invitation the first created and is refused with 400. */
  lemma SecondInvitationRefused(projects: seq<Projects.Project>, users: map<UserId, User>, invs: Invitations.Store,
                                notes: Notifications.Store, caller: UserId, callerName: string, projectId: Option<nat>,
                                invitedUserId: Option<UserId>, message: Option<string>, now: int, later: int)
    requires SendInvitation(projects, users, invs, notes, caller, callerName, projectId, invitedUserId, message, now).code == Http.Created
    ensures var r := SendInvitation(projects, users, invs, notes, caller, callerName, projectId, invitedUserId, message, now);
      SendInvitation(r.projects, r.users, r.invs, r.notes, caller, callerName, projectId, invitedUserId, message, later).code
        == Http.BadRequest
  {
    var r := SendInvitation(projects, users, invs, notes, caller, callerName, projectId, invitedUserId, message, now);
    var n := |invs.items|;
    assert Invitations.PendingFor(r.invs.items[n], projectId.value, invitedUserId.value);
  }

  /** `sendInvitation` against the indexes as declared. The full unique
      index on `{ project, invitedUser }` is created first and the partial
      one over pending invitations, which has the same key, does not
      replace it; so once every check has passed, `save()` still fails with
      a duplicate key whenever any invitation for the pair is stored, be it
      declined, accepted or expired, and the catch answers 500. */
  function SendInvitationAsWritten(projects: seq<Projects.Project>, users: map<UserId, User>, invs: Invitations.Store,
                                   notes: Notifications.Store, caller: UserId, callerName: string, projectId: Option<nat>,
                                   invitedUserId: Option<UserId>, message: Option<string>, now: int): (r: Outcome)
    ensures r.projects == projects && r.users == users
    ensures r.code == Http.Created ==>
      ProjectFound(projects, projectId) && UserFound(users, invitedUserId)
      && !Invitations.PairTaken(invs, projectId.value, invitedUserId.value)
    ensures r.code != Http.Created ==> r.invs == invs && r.notes == notes
    ensures Invitations.UniquePairs(invs) ==> Invitations.UniquePairs(r.invs)
    ensures ProjectFound(projects, projectId) && UserFound(users, invitedUserId)
      && Invitations.PairTaken(invs, projectId.value, invitedUserId.value)
      ==> r.code != Http.Created
  {
    var r := SendInvitation(projects, users, invs, notes, caller, callerName, projectId, invitedUserId, message, now);
    if r.code == Http.Created && Invitations.PairTaken(invs, projectId.value, invitedUserId.value) then
      Outcome(invs, projects, users, notes, Http.ServerError)
    else
      assert Invitations.UniquePairs(invs) && r.code == Http.Created ==> Invitations.UniquePairs(r.invs) by {
        if Invitations.UniquePairs(invs) && r.code == Http.Created {
          var n := |invs.items|;
          forall i | 0 <= i < n
            ensures !(r.invs.items[i].project == r.invs.items[n].project
                      && r.invs.items[i].invitedUser == r.invs.items[n].invitedUser)
          {
            assert r.invs.items[i] == invs.items[i];
          }
        }
      }
      r
  }

  /** Declining an invitation and inviting the same user again: the model
      with the partial index answers 201, the indexes as declared answer
      500. */
  lemma ReinviteAfterDecline(projects: seq<Projects.Project>, users: map<UserId, User>, invs: Invitations.Store,
                             notes: Notifications.Store, caller: UserId, callerName: string, projectId: Option<nat>,
                             invitedUserId: Option<UserId>, message: Option<string>, now: int, later: int)
    requires SendInvitation(projects, users, invs, notes, caller, callerName, projectId, invitedUserId, message, now).code == Http.Created
    ensures var r := SendInvitation(projects, users, invs, notes, caller, callerName, projectId, invitedUserId, message, now);
      var n := |invs.items|;
      var declined := Invitations.SetAt(r.invs, n, Invitations.Decline(r.invs.items[n], later).0);
      SendInvitation(r.projects, r.users, declined, r.notes, caller, callerName, projectId, invitedUserId, message, later).code
        == Http.Created
      && SendInvitationAsWritten(r.projects, r.users, declined, r.notes, caller, callerName, projectId, invitedUserId, message, later).code
        == Http.ServerError
  {
    var r := SendInvitation(projects, users, invs, notes, caller, callerName, projectId, invitedUserId, message, now);
    var n := |invs.items|;
    NoPendingAfterDecline(invs, r.invs, projectId.value, invitedUserId.value, later);
    var declined := Invitations.SetAt(r.invs, n, Invitations.Decline(r.invs.items[n], later).0);
    assert declined.items[n].project == projectId.value && declined.items[n].invitedUser == invitedUserId.value;
  }

  /** Declining the one pending invitation of a pair leaves the pair with
      none. */
  lemma NoPendingAfterDecline(invs: Invitations.Store, s: Invitations.Store, project: nat, user: UserId, later: int)
    requires Invitations.PendingIndex(invs, project, user).None?
    requires |s.items| == |invs.items| + 1 && s.items[..|invs.items|] == invs.items
    requires Invitations.PendingFor(s.items[|invs.items|], project, user)
    ensures var n := |invs.items|;
      var d := Invitations.SetAt(s, n, Invitations.Decline(s.items[n], later).0);
      Invitations.PendingIndex(d, project, user).None?
      && d.items[n].project == project && d.items[n].invitedUser == user
  {
    var n := |invs.items|;
    var d := Invitations.SetAt(s, n, Invitations.Decline(s.items[n], later).0);
    forall i | 0 <= i < |d.items| ensures !Invitations.PendingFor(d.items[i], project, user) {
      if i < n {
        assert d.items[i] == invs.items[i];
      }
    }
  }

  // ---------------------------------------------------------------------
  // Listing
  // ---------------------------------------------------------------------

  datatype ListReply = ListReply(invitations: seq<Invitations.Invitation>, pagination: Paging.PageInfo)

  function ByCreatedAt(inv: Invitations.Invitation): int { inv.createdAt }

  /** One page, newest first, of the invitations `keep` selects; page and
      limit default to 1 and 10. `None` is the 500 a negative skip
      produces. The `k`-th invitation is ranked `skip + k` among the
      selected ones by creation time, newest first. */
  function ListWhere(invs: Invitations.Store, keep: Invitations.Invitation -> bool,
                     rawPage: Option<int>, rawLimit: Option<int>): (r: Option<ListReply>)
    ensures var page := Paging.QueryIntOr(rawPage, 1); var limit := Paging.QueryIntOr(rawLimit, 10);
      r.None? <==> Paging.SkipFor(page, limit) < 0
    ensures r.Some? ==> forall k :: 0 <= k < |r.value.invitations| ==>
      r.value.invitations[k] in invs.items && keep(r.value.invitations[k])
    ensures r.Some? ==> Seqs.SortedDesc(r.value.invitations, ByCreatedAt)
    ensures r.Some? ==> |r.value.invitations| <= Seqs.Abs(Paging.QueryIntOr(rawLimit, 10))
    ensures r.Some? ==> r.value.pagination.total == Seqs.Count(invs.items, keep)
    ensures r.Some? ==> var page := Paging.QueryIntOr(rawPage, 1); var limit := Paging.QueryIntOr(rawLimit, 10);
      |r.value.invitations| == Seqs.PageLength(Seqs.Count(invs.items, keep), Paging.SkipFor(page, limit), limit)
      && r.value.pagination == Paging.Paginate(page, limit, Seqs.Count(invs.items, keep))
      && forall k :: 0 <= k < |r.value.invitations| ==>
           Seqs.RankedAt(Seqs.Filter(invs.items, keep), ByCreatedAt, r.value.invitations[k], Paging.SkipFor(page, limit) + k)
    ensures r.Some? && Invitations.WellFormed(invs) ==> Seqs.Distinct(r.value.invitations)
  {
    var page := Paging.QueryIntOr(rawPage, 1);
    var limit := Paging.QueryIntOr(rawLimit, 10);
    var mine := Seqs.Filter(invs.items, keep);
    Seqs.CountIsFilterLength(invs.items, keep);
    var w := Seqs.SortedPage(mine, ByCreatedAt, Paging.SkipFor(page, limit), limit);
    if w.None? then None
    else
      assert forall k :: 0 <= k < |w.value| ==> w.value[k] in invs.items && keep(w.value[k]) by {
        forall k | 0 <= k < |w.value| ensures w.value[k] in invs.items && keep(w.value[k]) {
          Seqs.FilterMembers(invs.items, keep, w.value[k]);
        }
      }
      assert Invitations.WellFormed(invs) ==> Seqs.Distinct(w.value) by {
        if Invitations.WellFormed(invs) {
          Invitations.WellFormedDistinct(invs);
          Seqs.DistinctSub(w.value, invs.items);
        }
      }
      Some(ListReply(w.value, Paging.Paginate(page, limit, |mine|)))
  }

  /** `getReceivedInvitations`: only pending invitations addressed to the
      caller that expire after now, newest first; each of them can still be
      accepted. */
  function ReceivedInvitations(invs: Invitations.Store, caller: UserId, now: int,
                               rawPage: Option<int>, rawLimit: Option<int>): (r: Option<ListReply>)
    ensures var page := Paging.QueryIntOr(rawPage, 1); var limit := Paging.QueryIntOr(rawLimit, 10);
      r.None? <==> Paging.SkipFor(page, limit) < 0
    ensures r.Some? ==> forall k :: 0 <= k < |r.value.invitations| ==>
      r.value.invitations[k] in Invitations.Received(invs, caller, now)
      && Invitations.Accept(r.value.invitations[k], now).1
    ensures r.Some? ==> r.value.pagination.total == |Invitations.Received(invs, caller, now)|
    ensures r.Some? ==> var page := Paging.QueryIntOr(rawPage, 1); var limit := Paging.QueryIntOr(rawLimit, 10);
      |r.value.invitations| == Seqs.PageLength(|Invitations.Received(invs, caller, now)|, Paging.SkipFor(page, limit), limit)
      && r.value.pagination == Paging.Paginate(page, limit, |Invitations.Received(invs, caller, now)|)
      && forall k :: 0 <= k < |r.value.invitations| ==>
           Seqs.RankedAt(Invitations.Received(invs, caller, now), ByCreatedAt, r.value.invitations[k], Paging.SkipFor(page, limit) + k)
    ensures r.Some? && Invitations.WellFormed(invs) ==> Seqs.Distinct(r.value.invitations)
  {
    var r := ListWhere(invs, Invitations.ReceivableBy(caller, now), rawPage, rawLimit);
    if r.None? then r
    else
      assert forall k :: 0 <= k < |r.value.invitations| ==> r.value.invitations[k] in Invitations.Received(invs, caller, now) by {
        forall k | 0 <= k < |r.value.invitations| ensures r.value.invitations[k] in Invitations.Received(invs, caller, now) {
          assert Invitations.ReceivableBy(caller, now)(r.value.invitations[k]);
        }
      }
      r
  }

  /** `getSentInvitations`: every invitation the caller sent, whatever its
      status, newest first. */
  function SentInvitations(invs: Invitations.Store, caller: UserId, rawPage: Option<int>, rawLimit: Option<int>): (r: Option<ListReply>)
    ensures var page := Paging.QueryIntOr(rawPage, 1); var limit := Paging.QueryIntOr(rawLimit, 10);
      r.None? <==> Paging.SkipFor(page, limit) < 0
    ensures r.Some? ==> forall k :: 0 <= k < |r.value.invitations| ==>
      r.value.invitations[k] in invs.items && r.value.invitations[k].invitedBy == caller
    ensures r.Some? ==> r.value.pagination.total == |Invitations.Sent(invs, caller)|
    ensures r.Some? ==> var page := Paging.QueryIntOr(rawPage, 1); var limit := Paging.QueryIntOr(rawLimit, 10);
      |r.value.invitations| == Seqs.PageLength(|Invitations.Sent(invs, caller)|, Paging.SkipFor(page, limit), limit)
      && r.value.pagination == Paging.Paginate(page, limit, |Invitations.Sent(invs, caller)|)
      && forall k :: 0 <= k < |r.value.invitations| ==>
           Seqs.RankedAt(Invitations.Sent(invs, caller), ByCreatedAt, r.value.invitations[k], Paging.SkipFor(page, limit) + k)
    ensures r.Some? && Invitations.WellFormed(invs) ==> Seqs.Distinct(r.value.invitations)
  {
    var r := ListWhere(invs, Invitations.SentBy(caller), rawPage, rawLimit);
    if r.None? then r
    else
      assert forall k :: 0 <= k < |r.value.invitations| ==> r.value.invitations[k].invitedBy == caller by {
        forall k | 0 <= k < |r.value.invitations| ensures r.value.invitations[k].invitedBy == caller {
          assert Invitations.SentBy(caller)(r.value.invitations[k]);
        }
      }
      r
  }

  // ---------------------------------------------------------------------
  // acceptInvitation
  // ---------------------------------------------------------------------

  /** The filter `{ _id: id, invitedUser: caller, status: 'pending' }`. */
  predicate OpenFor(inv: Invitations.Invitation, id: nat, caller: UserId) {
    inv.id == id && inv.invitedUser == caller && inv.status == Invitations.Pending
  }

  function FindOpen(invs: Invitations.Store, id: nat, caller: UserId): (r: Option<nat>)
    ensures r.Some? ==> r.value < |invs.items| && OpenFor(invs.items[r.value], id, caller)
    ensures r.None? <==> forall i :: 0 <= i < |invs.items| ==> !OpenFor(invs.items[i], id, caller)
  {
    Seqs.FindIndex(invs.items, (inv: Invitations.Invitation) => OpenFor(inv, id, caller))
  }

  /** The user after joining project `pid` as a collaborator and being
      saved: one more `collaborator` project entry and one more joined
      project. */
  function Joined(u: User, pid: nat, now: int): (r: User)
    ensures r.projects == u.projects + [ProjectRef(pid, AsCollaborator)]
    ensures r.stats == u.stats.(projectsJoined := u.stats.projectsJoined + 1)
    ensures r.completion == ProfileCompletion(r)
  {
    Saved(u.(projects := u.projects + [ProjectRef(pid, AsCollaborator)],
             stats := u.stats.(projectsJoined := u.stats.projectsJoined + 1)), now, false)
  }

  /** The common first half of an accept: the invitation at `k` is marked
      accepted and, when its project still exists, the caller is pushed onto
      the project's collaborators (without a duplicate check). */
  function Commit(projects: seq<Projects.Project>, invs: Invitations.Store, k: nat, now: int)
    : (r: (Invitations.Store, seq<Projects.Project>))
    requires k < |invs.items|
    requires invs.items[k].status == Invitations.Pending && !Invitations.IsExpired(invs.items[k], now)
    ensures |r.0.items| == |invs.items| && r.0.items[k].status == Invitations.Accepted
    ensures forall i :: 0 <= i < |invs.items| && i != k ==> r.0.items[i] == invs.items[i]
    ensures Invitations.WellFormed(invs) ==> Invitations.WellFormed(r.0)
    ensures |r.1| == |projects|
    ensures forall i :: 0 <= i < |projects| && i != invs.items[k].project ==> r.1[i] == projects[i]
    ensures invs.items[k].project < |projects| ==>
      var p := invs.items[k].project;
      forall v :: Projects.EntriesOf(r.1[p].collaborators, v)
        == Projects.EntriesOf(projects[p].collaborators, v) + (if v == invs.items[k].invitedUser then 1 else 0)
    ensures r.0 == Invitations.SetAt(invs, k, Invitations.Accept(invs.items[k], now).0)
    ensures invs.items[k].project < |projects| ==>
      var p := invs.items[k].project;
      r.1 == projects[p := Projects.AddCollaborator(projects[p], invs.items[k].invitedUser, now)]
  {
    var inv := invs.items[k];
    var invs' := Invitations.SetAt(invs, k, Invitations.Accept(inv, now).0);
    if inv.project < |projects| then
      (invs', projects[inv.project := Projects.AddCollaborator(projects[inv.project], inv.invitedUser, now)])
    else (invs', projects)
  }

  /** `acceptInvitation` as the controller reads: 404 unless the caller is
      the invitee of a pending invitation with that id; an expired one
      becomes `expired` and the answer is 400. Otherwise the invitation is
      accepted and the caller pushed onto the project's collaborators; then
      the push onto the user's `projects` list fails, because the user
      schema has no such path, and the answer is 500. Nothing reaches the
      user or the inviter. */
  function AcceptAsWritten(projects: seq<Projects.Project>, users: map<UserId, User>, invs: Invitations.Store,
                           notes: Notifications.Store, caller: UserId, id: nat, now: int): (r: Outcome)
    ensures r.code in {Http.NotFound, Http.BadRequest, Http.ServerError}
    ensures r.code == Http.NotFound <==> FindOpen(invs, id, caller).None?
    ensures r.code == Http.BadRequest <==>
      FindOpen(invs, id, caller).Some? && Invitations.IsExpired(invs.items[FindOpen(invs, id, caller).value], now)
    ensures r.users == users && r.notes == notes && |r.invs.items| == |invs.items|
    ensures r.code == Http.ServerError ==>
      var k := FindOpen(invs, id, caller).value;
      r.invs.items[k].status == Invitations.Accepted && r.projects == Commit(projects, invs, k, now).1
    ensures Invitations.WellFormed(invs) ==> Invitations.WellFormed(r.invs)
  {
    var k := FindOpen(invs, id, caller);
    if k.None? then Outcome(invs, projects, users, notes, Http.NotFound)
    else
      var inv := invs.items[k.value];
      if Invitations.IsExpired(inv, now) then
        Outcome(Invitations.SetAt(invs, k.value, Invitations.Accept(inv, now).0), projects, users, notes, Http.BadRequest)
      else
        var c := Commit(projects, invs, k.value, now);
        Outcome(c.0, c.1, users, notes, Http.ServerError)
  }

  /** As the controller reads, accepting never succeeds, and it cannot be
      retried: after the 500 the invitation is no longer pending, so the
      same request now finds nothing. */
  lemma AcceptAsWrittenCannotComplete(projects: seq<Projects.Project>, users: map<UserId, User>, invs: Invitations.Store,
                                      notes: Notifications.Store, caller: UserId, id: nat, now: int, later: int)
    requires Invitations.WellFormed(invs)
    requires AcceptAsWritten(projects, users, invs, notes, caller, id, now).code == Http.ServerError
    ensures var r := AcceptAsWritten(projects, users, invs, notes, caller, id, now);
      AcceptAsWritten(r.projects, r.users, r.invs, r.notes, caller, id, later).code == Http.NotFound
  {
    var r := AcceptAsWritten(projects, users, invs, notes, caller, id, now);
    var k := FindOpen(invs, id, caller).value;
    forall i | 0 <= i < |r.invs.items| ensures !OpenFor(r.invs.items[i], id, caller) {
      if i != k {
        assert r.invs.items[i] == invs.items[i];
        assert invs.items[i].id != invs.items[k].id by {
          if i < k {
            assert invs.items[i].id < invs.items[k].id;
          } else {
            assert invs.items[k].id < invs.items[i].id;
          }
        }
      }
    }
  }

  /** `acceptInvitation` with the user's project list in place: on 200 the
      invitation is accepted, the caller gains one collaborator entry on the
      project, one `collaborator` project reference and one joined project,
      and the inviter one `project_update` notification. A project that no
      longer exists or an unknown caller is a 500 after the invitation was
      accepted. */
  function AcceptInvitation(projects: seq<Projects.Project>, users: map<UserId, User>, invs: Invitations.Store,
                            notes: Notifications.Store, caller: UserId, id: nat, now: int): (r: Outcome)
    ensures |r.invs.items| == |invs.items|
    ensures |r.projects| == |projects|
    ensures r.code in {Http.NotFound, Http.BadRequest, Http.ServerError, Http.OK}
    ensures r.code == Http.NotFound <==> FindOpen(invs, id, caller).None?
    ensures r.code == Http.BadRequest <==>
      FindOpen(invs, id, caller).Some? && Invitations.IsExpired(invs.items[FindOpen(invs, id, caller).value], now)
    ensures r.code == Http.OK <==>
      FindOpen(invs, id, caller).Some? && !Invitations.IsExpired(invs.items[FindOpen(invs, id, caller).value], now)
      && invs.items[FindOpen(invs, id, caller).value].project < |projects| && caller in users
    ensures r.code == Http.BadRequest ==>
      r.invs.items[FindOpen(invs, id, caller).value].status == Invitations.Expired && r.projects == projects
    ensures r.code != Http.OK ==> r.users == users && r.notes == notes
    ensures r.code == Http.OK ==>
      var inv := invs.items[FindOpen(invs, id, caller).value];
      r.invs.items[FindOpen(invs, id, caller).value].status == Invitations.Accepted
      && Projects.EntriesOf(r.projects[inv.project].collaborators, caller)
        == Projects.EntriesOf(projects[inv.project].collaborators, caller) + 1
      && caller in r.users && r.users == users[caller := Joined(users[caller], inv.project, now)]
      && |r.notes.items| == |notes.items| + 1 && r.notes.items[..|notes.items|] == notes.items
      && NoteFrom(r.notes.items[|notes.items|], Notifications.ProjectUpdate, caller, inv.invitedBy)
    ensures r.code == Http.OK || r.code == Http.ServerError ==>
      FindOpen(invs, id, caller).Some? && (r.invs, r.projects) == Commit(projects, invs, FindOpen(invs, id, caller).value, now)
    ensures r.code == Http.OK ==>
      var k := FindOpen(invs, id, caller).value;
      var p := invs.items[k].project;
      r.projects == projects[p := Projects.AddCollaborator(projects[p], caller, now)]
      && r.invs.items == invs.items[k := Invitations.Accept(invs.items[k], now).0]
    ensures r.code == Http.BadRequest ==>
      var k := FindOpen(invs, id, caller).value;
      r.invs.items == invs.items[k := Invitations.Accept(invs.items[k], now).0]
    ensures Invitations.WellFormed(invs) ==> Invitations.WellFormed(r.invs)
    ensures Notifications.WellFormed(notes) ==> Notifications.WellFormed(r.notes)
  {
    var k := FindOpen(invs, id, caller);
    if k.None? then Outcome(invs, projects, users, notes, Http.NotFound)
    else
      var inv := invs.items[k.value];
      if Invitations.IsExpired(inv, now) then
        Outcome(Invitations.SetAt(invs, k.value, Invitations.Accept(inv, now).0), projects, users, notes, Http.BadRequest)
      else
        var c := Commit(projects, invs, k.value, now);
        if inv.project >= |projects| || caller !in users then Outcome(c.0, c.1, users, notes, Http.ServerError)
        else
          var u := users[caller];
          var title := c.1[inv.project].title;
          var related := Notifications.NoRelated.(projectId := Some(inv.project), projectTitle := Some(title));
          var note := Notifications.Create(notes, Some(inv.invitedBy), Some(caller), "project_update",
            AcceptedMessage(u.fullname, title), related, now);
          assert note.Some?;
          Outcome(c.0, c.1, users[caller := Joined(u, inv.project, now)], note.value.0, Http.OK)
  }

  // ---------------------------------------------------------------------
  // declineInvitation and cancelInvitation
  // ---------------------------------------------------------------------

  /** `declineInvitation`: 404 unless the caller is the invitee of a
      pending invitation with that id; there is no expiry check. The
      invitation becomes `declined`; then the inviter gets one
      `project_update` notification and the answer is 200, or, when the
      project or the inviter no longer exists, the answer is 500 with the
      invitation already declined. */
  function DeclineInvitation(projects: seq<Projects.Project>, users: map<UserId, User>, invs: Invitations.Store,
                             notes: Notifications.Store, caller: UserId, callerName: string, id: nat, now: int): (r: Outcome)
    ensures r.projects == projects && r.users == users
    ensures r.code in {Http.NotFound, Http.ServerError, Http.OK}
    ensures r.code == Http.NotFound <==> FindOpen(invs, id, caller).None?
    ensures r.code == Http.NotFound ==> r.invs == invs
    ensures r.code != Http.NotFound ==>
      var k := FindOpen(invs, id, caller).value;
      r.invs.items == invs.items[k := invs.items[k].(status := Invitations.Declined, respondedAt := Some(now))]
    ensures r.code == Http.OK <==>
      (FindOpen(invs, id, caller).Some?
       && invs.items[FindOpen(invs, id, caller).value].project < |projects|
       && invs.items[FindOpen(invs, id, caller).value].invitedBy in users)
    ensures r.code != Http.OK ==> r.notes == notes
    ensures r.code == Http.OK ==>
      |r.notes.items| == |notes.items| + 1 && r.notes.items[..|notes.items|] == notes.items
      && NoteFrom(r.notes.items[|notes.items|], Notifications.ProjectUpdate, caller,
                  invs.items[FindOpen(invs, id, caller).value].invitedBy)
    ensures Invitations.WellFormed(invs) ==> Invitations.WellFormed(r.invs)
    ensures Notifications.WellFormed(notes) ==> Notifications.WellFormed(r.notes)
  {
    var k := FindOpen(invs, id, caller);
    if k.None? then Outcome(invs, projects, users, notes, Http.NotFound)
    else
      var inv := invs.items[k.value];
      var invs' := Invitations.SetAt(invs, k.value, Invitations.Decline(inv, now).0);
      if inv.project >= |projects| || inv.invitedBy !in users then Outcome(invs', projects, users, notes, Http.ServerError)
      else
        var title := projects[inv.project].title;
        var related := Notifications.NoRelated.(projectId := Some(inv.project), projectTitle := Some(title));
        var note := Notifications.Create(notes, Some(inv.invitedBy), Some(caller), "project_update",
          DeclinedMessage(callerName, title), related, now);
        assert note.Some?;
        Outcome(invs', projects, users, note.value.0, Http.OK)
  }

  /** The filter `{ _id: id, invitedBy: caller, status: 'pending' }`. */
  predicate CancellableBy(inv: Invitations.Invitation, id: nat, caller: UserId) {
    inv.id == id && inv.invitedBy == caller && inv.status == Invitations.Pending
  }

  /** `cancelInvitation`: only the inviter can cancel, and only while the
      invitation is pending; the record is then deleted and every other
      invitation kept. */
  function CancelInvitation(invs: Invitations.Store, caller: UserId, id: nat): (r: (Invitations.Store, int))
    ensures r.1 in {Http.NotFound, Http.OK}
    ensures r.1 == Http.OK <==> exists i :: 0 <= i < |invs.items| && CancellableBy(invs.items[i], id, caller)
    ensures r.1 == Http.NotFound ==> r.0 == invs
    ensures r.1 == Http.OK ==> |r.0.items| + 1 == |invs.items|
    ensures r.1 == Http.OK ==> forall inv :: inv in invs.items && inv.id != id ==> inv in r.0.items
    ensures r.1 == Http.OK && Invitations.WellFormed(invs) ==> forall inv :: inv in r.0.items ==> inv.id != id
    ensures Invitations.WellFormed(invs) ==> Invitations.WellFormed(r.0)
  {
    var k := Seqs.FindIndex(invs.items, (inv: Invitations.Invitation) => CancellableBy(inv, id, caller));
    if k.None? then (invs, Http.NotFound)
    else
      var r := Invitations.RemoveAt(invs, k.value);
      RemovingKeepsOtherIds(invs, k.value, id);
      if Invitations.WellFormed(invs) then
        RemovingLeavesNoId(invs, k.value);
        (r, Http.OK)
      else (r, Http.OK)
  }

  /** Deleting the record at `k`, whose id is `id`, keeps every record with
      another id. */
  lemma RemovingKeepsOtherIds(invs: Invitations.Store, k: nat, id: nat)
    requires k < |invs.items| && invs.items[k].id == id
    ensures forall inv :: inv in invs.items && inv.id != id ==> inv in Invitations.RemoveAt(invs, k).items
  {
    var r := Invitations.RemoveAt(invs, k);
    forall inv | inv in invs.items && inv.id != id ensures inv in r.items {
      var i :| 0 <= i < |invs.items| && invs.items[i] == inv;
      var i' := if i < k then i else i - 1;
      assert r.items[i'] == inv;
    }
  }

  /** In a well-formed store, deleting the record at `k` leaves no record
      with its id. */
  lemma RemovingLeavesNoId(invs: Invitations.Store, k: nat)
    requires k < |invs.items| && Invitations.WellFormed(invs)
    ensures forall inv :: inv in Invitations.RemoveAt(invs, k).items ==> inv.id != invs.items[k].id
  {
    var r := Invitations.RemoveAt(invs, k);
    forall i | 0 <= i < |r.items| ensures r.items[i].id != invs.items[k].id {
      var i' := if i < k then i else i + 1;
      assert r.items[i] == invs.items[i'];
    }
  }
}

=== FILE: invitations.dfy ===
/** The ProjectInvitation document (models/projectInvitation.model.js):
    the status state machine, the one-week expiry and the lookups the
    controller uses. */
module Invitations {
  import opened Wrappers
  import opened Clock
  import opened Text
  import opened Users
  import Seqs

  type InvitationId = nat

  datatype InvitationStatus = Pending | Accepted | Declined | Expired

  function StatusName(s: InvitationStatus): string {
    match s
    case Pending => "pending"
    case Accepted => "accepted"
    case Declined => "declined"
    case Expired => "expired"
  }

  /** The `status` enum check. */
  function ParseStatus(s: string): (r: Option<InvitationStatus>)
    ensures r.Some? <==> s == "pending" || s == "accepted" || s == "declined" || s == "expired"
    ensures r.Some? ==> StatusName(r.value) == s
  {
    if s == "pending" then Some(Pending)
    else if s == "accepted" then Some(Accepted)
    else if s == "declined" then Some(Declined)
    else if s == "expired" then Some(Expired)
    else None
  }

  lemma StatusRoundTrip(s: InvitationStatus)
    ensures ParseStatus(StatusName(s)) == Some(s)
  {
  }

  /** `message` is trimmed and limited to 500 UTF-16 code units. */
  const MessageMax: nat := 500

  /** The `projectDetails` copy taken when the invitation is sent. */
  datatype Details = Details(title: string, description: string, techStack: seq<string>)

  datatype Invitation = Invitation(
    id: InvitationId,
    project: nat,
    invitedBy: UserId,
    invitedUser: UserId,
    invitedEmail: string,
    status: InvitationStatus,
    message: string,
    details: Details,
    respondedAt: Option<int>,
    expiresAt: int,
    createdAt: int)

  datatype Store = Store(items: seq<Invitation>, nextId: InvitationId)

  const EmptyStore := Store([], 0)

  /** A pending invitation of `user` to `project` (the filter of
      `invitationExists`). */
  predicate PendingFor(inv: Invitation, project: nat, user: UserId) {
    inv.status == Pending && inv.project == project && inv.invitedUser == user
  }

  /** Ids increase along the collection and stay below `nextId`; no two
      pending invitations share a (project, invited user) pair, which is
      what the partial unique index asks for. */
  predicate WellFormed(s: Store) {
    (forall i :: 0 <= i < |s.items| ==> s.items[i].id < s.nextId)
    && (forall i, j :: 0 <= i < j < |s.items| ==> s.items[i].id < s.items[j].id)
    && (forall i, j :: 0 <= i < j < |s.items| && s.items[i].status == Pending && s.items[j].status == Pending ==>
          !(s.items[i].project == s.items[j].project && s.items[i].invitedUser == s.items[j].invitedUser))
  }

  /** The virtual `isExpired`: the expiry time lies strictly before now. */
  predicate IsExpired(inv: Invitation, now: int) {
    inv.expiresAt < now
  }

  /** `invitationExists`: the position of a pending invitation of `user` to
      `project`, if there is one. Answered or expired invitations do not
      count. */
  function PendingIndex(s: Store, project: nat, user: UserId): (r: Option<nat>)
    ensures r.Some? ==> r.value < |s.items| && PendingFor(s.items[r.value], project, user)
    ensures r.None? <==> forall i :: 0 <= i < |s.items| ==> !PendingFor(s.items[i], project, user)
  {
    Seqs.FindIndex(s.items, (inv: Invitation) => PendingFor(inv, project, user))
  }

  /** Building an invitation and saving it: the message defaults to the
      empty string and is trimmed, and a trimmed message longer than 500
      UTF-16 code units or a blank email fails validation, leaving the store
      alone. A new invitation is pending, unanswered, and expires one week
      after `now`. */
  function New(s: Store, project: nat, invitedBy: UserId, invitedUser: UserId, email: string,
               message: Option<string>, details: Details, now: int): (r: Option<(Store, Invitation)>)
    ensures r.Some? <==> Utf16Length(Trim(message.GetOr(""))) <= MessageMax && Trim(email) != ""
    ensures r.Some? ==> r.value.0.items == s.items + [r.value.1] && r.value.0.nextId == s.nextId + 1
    ensures r.Some? ==> PendingFor(r.value.1, project, invitedUser) && r.value.1.invitedBy == invitedBy
    ensures r.Some? ==> r.value.1.id == s.nextId && r.value.1.respondedAt.None? && r.value.1.createdAt == now
    ensures r.Some? ==> !IsExpired(r.value.1, now + WeekMs) && IsExpired(r.value.1, now + WeekMs + 1)
    ensures r.Some? && WellFormed(s) && PendingIndex(s, project, invitedUser).None? ==> WellFormed(r.value.0)
  {
    var msg := Trim(message.GetOr(""));
    if Utf16Length(msg) > MessageMax || Trim(email) == "" then None
    else
      var inv := Invitation(s.nextId, project, invitedBy, invitedUser, Trim(email), Pending, msg, details,
                            None, now + WeekMs, now);
      Some((Store(s.items + [inv], s.nextId + 1), inv))
  }

  /** The transitions of the status field: an invitation only ever leaves
      `pending`, and never returns to it. */
  predicate Step(from: InvitationStatus, to: InvitationStatus) {
    from == Pending && to != Pending
  }

  /** Whether `b` is `a` with at most its status and `respondedAt` changed. */
  predicate SameButAnswer(a: Invitation, b: Invitation) {
    b.(status := a.status, respondedAt := a.respondedAt) == a
  }

  /** The `accept` method. The flag says whether it returned normally; on
      `false` it threw. Only a pending invitation can be accepted, and an
      expired one is marked `expired` on the way out. */
  function Accept(inv: Invitation, now: int): (r: (Invitation, bool))
    ensures r.1 <==> inv.status == Pending && !IsExpired(inv, now)
    ensures SameButAnswer(inv, r.0)
    ensures r.0 == inv || Step(inv.status, r.0.status)
    ensures r.1 ==> r.0.status == Accepted && r.0.respondedAt == Some(now)
    ensures !r.1 ==> r.0.respondedAt == inv.respondedAt && (r.0.status == inv.status || r.0.status == Expired)
  {
    if inv.status != Pending then (inv, false)
    else if IsExpired(inv, now) then (inv.(status := Expired), false)
    else (inv.(status := Accepted, respondedAt := Some(now)), true)
  }

  /** The `decline` method: only a pending invitation can be declined, and
      there is no expiry check. */
  function Decline(inv: Invitation, now: int): (r: (Invitation, bool))
    ensures r.1 <==> inv.status == Pending
    ensures SameButAnswer(inv, r.0)
    ensures r.0 == inv || Step(inv.status, r.0.status)
    ensures r.1 ==> r.0.status == Declined && r.0.respondedAt == Some(now)
  {
    if inv.status != Pending then (inv, false)
    else (inv.(status := Declined, respondedAt := Some(now)), true)
  }

  /** Once answered, an invitation is settled: neither method succeeds on
      it again, and neither changes it. */
  lemma AnsweredIsFinal(inv: Invitation, now: int, later: int)
    ensures var a := Accept(inv, now).0;
      a.status != Pending ==> Accept(a, later) == (a, false) && Decline(a, later) == (a, false)
    ensures var d := Decline(inv, now).0;
      d.status != Pending ==> Accept(d, later) == (d, false) && Decline(d, later) == (d, false)
  {
  }

  /** A declined-after-expiry invitation: `decline` succeeds on an
      expired pending invitation where `accept` would not. */
  lemma DeclineIgnoresExpiry(inv: Invitation, now: int)
    requires inv.status == Pending && IsExpired(inv, now)
    ensures !Accept(inv, now).1 && Accept(inv, now).0.status == Expired
    ensures Decline(inv, now).1 && Decline(inv, now).0.status == Declined
  {
  }

  /** Replacing the invitation at position `k` by another with the same id,
      project and invitee that is pending only if the old one was. */
  function SetAt(s: Store, k: nat, inv: Invitation): (r: Store)
    requires k < |s.items|
    ensures r.items == s.items[k := inv] && r.nextId == s.nextId
    ensures WellFormed(s) && inv.id == s.items[k].id && inv.project == s.items[k].project
      && inv.invitedUser == s.items[k].invitedUser && (inv.status == Pending ==> s.items[k].status == Pending)
      ==> WellFormed(r)
  {
    Store(s.items[k := inv], s.nextId)
  }

  /** The store without the invitation at position `k` (`findByIdAndDelete`). */
  function RemoveAt(s: Store, k: nat): (r: Store)
    requires k < |s.items|
    ensures r.items == Seqs.RemoveAt(s.items, k) && r.nextId == s.nextId
    ensures WellFormed(s) ==> WellFormed(r)
  {
    var items := Seqs.RemoveAt(s.items, k);
    assert WellFormed(s) ==> WellFormed(Store(items, s.nextId)) by {
      if WellFormed(s) {
        forall i, j | 0 <= i < j < |items| ensures items[i].id < items[j].id {
          var i' := if i < k then i else i + 1;
          var j' := if j < k then j else j + 1;
          assert i' < j';
        }
        forall i, j | 0 <= i < j < |items| && items[i].status == Pending && items[j].status == Pending
          ensures !(items[i].project == items[j].project && items[i].invitedUser == items[j].invitedUser)
        {
          var i' := if i < k then i else i + 1;
          var j' := if j < k then j else j + 1;
          assert i' < j';
        }
      }
    }
    Store(items, s.nextId)
  }

  /** Whether an invitation belongs in `findPendingInvitations(u)` and the
      received list: addressed to `u`, pending, expiring after now. */
  predicate Receivable(inv: Invitation, u: UserId, now: int) {
    inv.invitedUser == u && inv.status == Pending && inv.expiresAt > now
  }

  /** `Receivable` as a filter over the collection. */
  function ReceivableBy(u: UserId, now: int): Invitation -> bool {
    (inv: Invitation) => Receivable(inv, u, now)
  }

  /** The invitations `u` has received and can still answer, in store
      order. */
  function Received(s: Store, u: UserId, now: int): (r: seq<Invitation>)
    ensures forall inv :: inv in r <==> inv in s.items && Receivable(inv, u, now)
    ensures multiset(r) <= multiset(s.items)
    ensures |r| == Seqs.Count(s.items, ReceivableBy(u, now))
  {
    var r := Seqs.Filter(s.items, ReceivableBy(u, now));
    Seqs.CountIsFilterLength(s.items, ReceivableBy(u, now));
    assert forall inv :: inv in r <==> inv in s.items && Receivable(inv, u, now) by {
      forall inv ensures inv in r <==> inv in s.items && Receivable(inv, u, now) {
        Seqs.FilterMembers(s.items, ReceivableBy(u, now), inv);
      }
    }
    r
  }

  /** Whether `u` sent an invitation (`find({ invitedBy: u })`). */
  function SentBy(u: UserId): Invitation -> bool {
    (inv: Invitation) => inv.invitedBy == u
  }

  /** Every invitation `u` sent, whatever its status, in store order. */
  function Sent(s: Store, u: UserId): (r: seq<Invitation>)
    ensures forall inv :: inv in r <==> inv in s.items && inv.invitedBy == u
    ensures multiset(r) <= multiset(s.items)
    ensures |r| == Seqs.Count(s.items, SentBy(u))
  {
    var r := Seqs.Filter(s.items, SentBy(u));
    Seqs.CountIsFilterLength(s.items, SentBy(u));
    assert forall inv :: inv in r <==> inv in s.items && inv.invitedBy == u by {
      forall inv ensures inv in r <==> inv in s.items && inv.invitedBy == u {
        Seqs.FilterMembers(s.items, SentBy(u), inv);
      }
    }
    r
  }

  /** Distinct ids make distinct records. */
  lemma WellFormedDistinct(s: Store)
    requires WellFormed(s)
    ensures Seqs.Distinct(s.items)
  {
  }

  /** Some stored invitation, of any status, is for `user` and `project`:
      what the full unique index on `{ project, invitedUser }` refuses to
      insert again. */
  predicate PairTaken(s: Store, project: nat, user: UserId) {
    exists i :: 0 <= i < |s.items| && s.items[i].project == project && s.items[i].invitedUser == user
  }

  /** What the full unique index on `{ project, invitedUser }` keeps: no
      two stored invitations share the pair, whatever their status. */
  predicate UniquePairs(s: Store) {
    forall i, j :: 0 <= i < j < |s.items| ==>
      !(s.items[i].project == s.items[j].project && s.items[i].invitedUser == s.items[j].invitedUser)
  }

  /** Every listed invitation can be accepted at the time of listing. */
  lemma ReceivedAreAcceptable(s: Store, u: UserId, now: int, inv: Invitation)
    requires inv in Received(s, u, now)
    ensures Accept(inv, now).1 && Decline(inv, now).1
  {
  }

  /** An invitation whose expiry instant is exactly now is neither expired
      nor listed: the two filters use `<` and `>` on the same instant. */
  lemma ExpiryInstantNotListed(s: Store, inv: Invitation, now: int)
    requires inv in s.items && inv.status == Pending && inv.expiresAt == now
    ensures !IsExpired(inv, now) && Accept(inv, now).1
    ensures inv !in Received(s, inv.invitedUser, now)
  {
  }
}

=== FILE: message_routes.dfy ===
/** The REST handlers of routes/message.routes.js: opening a direct
    conversation, listing, sending, marking read, deleting, editing and
    searching messages, and the unread total. Conversations and messages
    are addressed by their index; an id that names nothing is "not found". */
module MessageRoutes {
  import opened Wrappers
  import opened Users
  import opened Text
  import opened Conversations
  import opened Messages
  import Seqs
  import Paging
  import Http

  // ---------------------------------------------------------------------
  // POST /conversations/direct
  // ---------------------------------------------------------------------

  /** The paperclip prefix of a file preview, as the source file spells
      it: the UTF-8 bytes of U+1F4CE read back as Windows-1252. */
  const Paperclip: string := "\U{F0}\U{178}\U{201C}\U{17D} "

  const NoMessageText: string := "Start a conversation..."

  /** `lastMessageText`: the file name behind the paperclip for a file
      message (`File` when it has none), the content otherwise, and the
      invitation to start when the reference names no message. */
  function Preview(ms: seq<Message>, last: Option<MessageId>): string {
    if last.None? || last.value >= |ms| then NoMessageText
    else
      var m := ms[last.value];
      if m.kind == FileMsg then Paperclip + (if Falsy(m.fileName) then "File" else m.fileName.value)
      else m.content
  }

  /** The reply fields the handler adds to the conversation document. */
  datatype DirectReply = DirectReply(
    conversation: ConversationId,
    displayName: string,
    isOnline: bool,
    lastMessageText: string,
    unreadCount: nat)

  datatype DirectOutcome = DirectOutcome(cs: seq<Conversation>, reply: Option<DirectReply>, code: int)

  /** The `findOne` of the handler: the first direct conversation with
      exactly the two users. */
  function FindDirect(cs: seq<Conversation>, a: UserId, b: UserId): Option<ConversationId> {
    Seqs.FindIndex(cs, (c: Conversation) => DirectBetween(c, a, b))
  }

  /** The first of the two handlers registered for this path; the second
      never runs. 400 without a recipient or for oneself, 404 for an
      unknown recipient; otherwise the existing conversation of the two,
      left as it is, or a new one `[caller, recipient]`. The reply
      describes the recipient. */
  function CreateDirect(users: map<UserId, User>, cs: seq<Conversation>, ms: seq<Message>, caller: UserId,
                        recipientId: Option<UserId>, now: int): (r: DirectOutcome)
    ensures r.code in {Http.BadRequest, Http.NotFound, Http.OK}
    ensures r.code == Http.BadRequest <==> Falsy(recipientId) || recipientId.value == caller
    ensures r.code == Http.NotFound <==> !Falsy(recipientId) && recipientId.value != caller && recipientId.value !in users
    ensures r.code != Http.OK ==> r.cs == cs && r.reply.None?
    ensures r.code == Http.OK ==>
      r.reply.Some? && r.reply.value.conversation < |r.cs|
      && DirectBetween(r.cs[r.reply.value.conversation], caller, recipientId.value)
    ensures r.code == Http.OK ==>
      r.reply.value.displayName == users[recipientId.value].fullname
      && r.reply.value.isOnline == (users[recipientId.value].status == Active)
      && r.reply.value.unreadCount == 0
    ensures r.code == Http.OK && FindDirect(cs, caller, recipientId.value).Some? ==>
      r.cs == cs && r.reply.value.conversation == FindDirect(cs, caller, recipientId.value).value
    ensures r.code == Http.OK && FindDirect(cs, caller, recipientId.value).None? ==>
      r.cs == cs + [Fresh([caller, recipientId.value], Direct, now)] && r.reply.value.conversation == |cs|
      && r.reply.value.lastMessageText == NoMessageText
  {
    if Falsy(recipientId) || recipientId.value == caller then DirectOutcome(cs, None, Http.BadRequest)
    else if recipientId.value !in users then DirectOutcome(cs, None, Http.NotFound)
    else
      var b := recipientId.value;
      var (cs1, id) := match FindDirect(cs, caller, b)
        case Some(i) => (cs, i)
        case None => (cs + [Fresh([caller, b], Direct, now)], |cs|);
      var reply := DirectReply(id, users[b].fullname, users[b].status == Active, Preview(ms, cs1[id].lastMessage), 0);
      DirectOutcome(cs1, Some(reply), Http.OK)
  }

  /** Whoever of the two opens the conversation second lands on the one
      the first opened, and nothing new is created. */
  lemma CreateDirectSymmetric(users: map<UserId, User>, cs: seq<Conversation>, ms: seq<Message>,
                              a: UserId, b: UserId, now: int, later: int)
    requires a != "" && b != "" && a != b && a in users && b in users
    ensures var r1 := CreateDirect(users, cs, ms, a, Some(b), now);
      var r2 := CreateDirect(users, r1.cs, ms, b, Some(a), later);
      r2.code == Http.OK && r2.cs == r1.cs && r2.reply.value.conversation == r1.reply.value.conversation
  {
    var r1 := CreateDirect(users, cs, ms, a, Some(b), now);
    var id := r1.reply.value.conversation;
    var p := (c: Conversation) => DirectBetween(c, b, a);
    assert p(r1.cs[id]);
    forall j | 0 <= j < id ensures !p(r1.cs[j]) {
      assert r1.cs[j] == cs[j];
      DirectBetweenSymmetric(cs[j], a, b);
    }
    assert FindDirect(r1.cs, b, a) == Some(id);
  }

  // ---------------------------------------------------------------------
  // GET /conversations/:conversationId/messages
  // ---------------------------------------------------------------------

  /** Whether the caller may read or write the conversation `c`. */
  predicate Member(cs: seq<Conversation>, c: ConversationId, u: UserId) {
    c < |cs| && IsParticipant(cs[c], u)
  }

  datatype ListOutcome = ListOutcome(ms: seq<Message>, messages: seq<MessageId>, code: int)

  /** The page the listing hands back: the newest-first page of the
      visible messages, reversed so that the oldest comes first. The `k`-th
      entry holds the rank of position `skip + |page| - 1 - k` of the
      newest-first order. */
  function OldestFirst(ms: seq<Message>, c: ConversationId, page: int, limit: int): (r: Option<seq<MessageId>>)
    ensures r.None? <==> Paging.SkipFor(page, limit) < 0
    ensures r.Some? ==> |r.value| == Seqs.PageLength(|VisibleIds(ms, c)|, Paging.SkipFor(page, limit), limit)
    ensures r.Some? ==> Seqs.Distinct(r.value)
    ensures r.Some? ==> forall k :: 0 <= k < |r.value| ==> r.value[k] < |ms| && Visible(ms[r.value[k]], c)
    ensures r.Some? ==> Seqs.SortedAsc(r.value, ByTimestamp(ms))
    ensures r.Some? ==> forall k :: 0 <= k < |r.value| ==>
      Seqs.RankedAt(VisibleIds(ms, c), ByTimestamp(ms), r.value[k], Paging.SkipFor(page, limit) + |r.value| - 1 - k)
  {
    match ConversationMessages(ms, c, page, limit)
    case None => None
    case Some(newest) =>
      ReversedPage(ms, c, newest, Paging.SkipFor(page, limit));
      Some(Seqs.Reverse(newest))
  }

  /** Reversing a newest-first page keeps its messages and their ranks and
      orders them oldest first. */
  lemma ReversedPage(ms: seq<Message>, c: ConversationId, newest: seq<MessageId>, skip: int)
    requires forall k :: 0 <= k < |newest| ==> newest[k] < |ms| && Visible(ms[newest[k]], c)
    requires Seqs.SortedDesc(newest, ByTimestamp(ms)) && Seqs.Distinct(newest)
    requires forall k :: 0 <= k < |newest| ==> Seqs.RankedAt(VisibleIds(ms, c), ByTimestamp(ms), newest[k], skip + k)
    ensures forall k :: 0 <= k < |newest| ==> Seqs.Reverse(newest)[k] < |ms| && Visible(ms[Seqs.Reverse(newest)[k]], c)
    ensures Seqs.SortedAsc(Seqs.Reverse(newest), ByTimestamp(ms))
    ensures Seqs.Distinct(Seqs.Reverse(newest))
    ensures forall k :: 0 <= k < |newest| ==>
      Seqs.RankedAt(VisibleIds(ms, c), ByTimestamp(ms), Seqs.Reverse(newest)[k], skip + |newest| - 1 - k)
  {
    Seqs.ReverseSortedDesc(newest, ByTimestamp(ms));
    var shown := Seqs.Reverse(newest);
    Seqs.DistinctSub(shown, newest);
    Seqs.ReverseRanks(VisibleIds(ms, c), ByTimestamp(ms), newest, skip);
    forall k | 0 <= k < |newest| ensures shown[k] < |ms| && Visible(ms[shown[k]], c) {
      assert shown[k] == newest[|newest| - 1 - k];
    }
  }

  /** Listing a conversation: 403 unless the caller takes part; a page of
      the visible messages, newest first, handed back oldest first; then
      every message the others sent in it becomes read. `page` and `limit`
      default to 1 and 50; a page that yields a negative skip is refused by
      the store, a 500. */
  function ListMessages(cs: seq<Conversation>, ms: seq<Message>, caller: UserId, c: ConversationId,
                        rawPage: Option<int>, rawLimit: Option<int>): (r: ListOutcome)
    ensures r.code in {Http.Forbidden, Http.ServerError, Http.OK}
    ensures r.code == Http.Forbidden <==> !Member(cs, c, caller)
    ensures r.code == Http.ServerError <==> Member(cs, c, caller) && Paging.SkipFor(rawPage.GetOr(1), rawLimit.GetOr(50)) < 0
    ensures r.code != Http.OK ==> r.ms == ms && r.messages == []
    ensures |r.ms| == |ms|
    ensures r.code == Http.OK ==> Some(r.messages) == OldestFirst(ms, c, rawPage.GetOr(1), rawLimit.GetOr(50))
    ensures r.code == Http.OK ==> forall i :: 0 <= i < |ms| ==> !UnreadFromOthers(r.ms[i], c, caller)
    ensures forall i :: 0 <= i < |ms| ==> r.ms[i].(status := ms[i].status) == ms[i]
  {
    if !Member(cs, c, caller) then ListOutcome(ms, [], Http.Forbidden)
    else
      match OldestFirst(ms, c, rawPage.GetOr(1), rawLimit.GetOr(50))
      case None => ListOutcome(ms, [], Http.ServerError)
      case Some(shown) => ListOutcome(MarkConversationAsRead(ms, c, caller).0, shown, Http.OK)
  }

  /** After a successful listing the caller has nothing unread left in
      that conversation. */
  lemma ListingClearsUnread(cs: seq<Conversation>, ms: seq<Message>, caller: UserId, c: ConversationId,
                            rawPage: Option<int>, rawLimit: Option<int>)
    requires ListMessages(cs, ms, caller, c, rawPage, rawLimit).code == Http.OK
    ensures UnreadIn(ListMessages(cs, ms, caller, c, rawPage, rawLimit).ms, caller, cs, c) == 0
  {
    var r := ListMessages(cs, ms, caller, c, rawPage, rawLimit).ms;
    var p := (m: Message) => CountsAsUnread(m, caller, cs) && m.conversationId == c;
    forall i | 0 <= i < |r| ensures !p(r[i]) {
      assert !UnreadFromOthers(r[i], c, caller);
    }
    Seqs.CountZeroIff(r, p);
  }

  // ---------------------------------------------------------------------
  // POST /conversations/:conversationId/messages
  // ---------------------------------------------------------------------

  datatype SendOutcome = SendOutcome(cs: seq<Conversation>, ms: seq<Message>, code: int)

  /** Sending over REST as the handler reads. The guard lets a request
      through when it has a content or a file URL, but the schema requires
      content, so a file-only message fails to save (500). After saving,
      the conversation update writes the message CONTENT into the
      `lastMessage` reference; unless the text happens to be castable to an
      id (`castsToId`, the store's cast rule) the update throws and the
      client gets 500 for a message that was stored. A cast that succeeds
      leaves a reference to no message, modelled as `None`. */
  function SendAsWritten(cs: seq<Conversation>, ms: seq<Message>, caller: UserId, c: ConversationId,
                         content: Option<string>, kind: Option<string>, fileName: Option<string>,
                         fileSize: Option<string>, fileUrl: Option<string>, castsToId: string -> bool,
                         now: int): (r: SendOutcome)
    ensures r.code in {Http.BadRequest, Http.Forbidden, Http.ServerError, Http.OK}
    ensures r.code == Http.BadRequest <==> Falsy(content) && Falsy(fileUrl)
    ensures r.code == Http.Forbidden <==> !(Falsy(content) && Falsy(fileUrl)) && !Member(cs, c, caller)
    ensures r.code in {Http.BadRequest, Http.Forbidden} ==> r.cs == cs && r.ms == ms
    ensures var m := NewMessage(caller, c, content, kind, fileName, fileSize, fileUrl, now);
      r.code == Http.ServerError && m.None? ==> r.cs == cs && r.ms == ms
    ensures var m := NewMessage(caller, c, content, kind, fileName, fileSize, fileUrl, now);
      r.code !in {Http.BadRequest, Http.Forbidden} && m.Some? ==> r.ms == ms + [m.value]
    ensures var m := NewMessage(caller, c, content, kind, fileName, fileSize, fileUrl, now);
      r.code == Http.OK <==> Member(cs, c, caller) && m.Some? && castsToId(m.value.content)
    ensures r.code == Http.OK ==> r.cs == cs[c := cs[c].(lastMessage := None, lastActivity := now)]
    ensures r.code == Http.ServerError ==> r.cs == cs
  {
    if Falsy(content) && Falsy(fileUrl) then SendOutcome(cs, ms, Http.BadRequest)
    else if !Member(cs, c, caller) then SendOutcome(cs, ms, Http.Forbidden)
    else
      match NewMessage(caller, c, content, kind, fileName, fileSize, fileUrl, now)
      case None => SendOutcome(cs, ms, Http.ServerError)
      case Some(m) =>
        if !castsToId(m.content) then SendOutcome(cs, ms + [m], Http.ServerError)
        else SendOutcome(cs[c := cs[c].(lastMessage := None, lastActivity := now)], ms + [m], Http.OK)
  }

  /** Sending over REST in the handler's order, with the checks the schema
      makes stated before the save, and the conversation pointing at the
      new message: 400 for a request with neither content nor file, 403
      for a non-member, then 400 for a message the schema would refuse;
      nothing else fails. */
  function Send(cs: seq<Conversation>, ms: seq<Message>, caller: UserId, c: ConversationId,
                content: Option<string>, kind: Option<string>, fileName: Option<string>,
                fileSize: Option<string>, fileUrl: Option<string>, now: int): (r: SendOutcome)
    ensures r.code in {Http.BadRequest, Http.Forbidden, Http.OK}
    ensures r.code == Http.BadRequest <==>
      NewMessage(caller, c, content, kind, fileName, fileSize, fileUrl, now).None?
      && ((Falsy(content) && Falsy(fileUrl)) || Member(cs, c, caller))
    ensures r.code == Http.Forbidden <==> !(Falsy(content) && Falsy(fileUrl)) && !Member(cs, c, caller)
    ensures r.code == Http.OK <==>
      NewMessage(caller, c, content, kind, fileName, fileSize, fileUrl, now).Some? && Member(cs, c, caller)
    ensures r.code != Http.OK ==> r.cs == cs && r.ms == ms
    ensures |r.cs| == |cs|
    ensures r.code == Http.OK ==>
      r.ms == ms + [NewMessage(caller, c, content, kind, fileName, fileSize, fileUrl, now).value]
      && r.cs == cs[c := cs[c].(lastMessage := Some(|ms|), lastActivity := now)]
    ensures r.code == Http.OK ==> r.ms[|ms|].content == Trim(content.value) && Visible(r.ms[|ms|], c)
  {
    if Falsy(content) && Falsy(fileUrl) then SendOutcome(cs, ms, Http.BadRequest)
    else if !Member(cs, c, caller) then SendOutcome(cs, ms, Http.Forbidden)
    else
      match NewMessage(caller, c, content, kind, fileName, fileSize, fileUrl, now)
      case None => SendOutcome(cs, ms, Http.BadRequest)
      case Some(m) => SendOutcome(cs[c := cs[c].(lastMessage := Some(|ms|), lastActivity := now)], ms + [m], Http.OK)
  }

  /** A file-only message: the handler as written passes its own guard and
      then fails to save with 500; the corrected handler refuses it with
      400. */
  lemma FileOnlyMessageAsWritten(cs: seq<Conversation>, ms: seq<Message>, caller: UserId, c: ConversationId,
                                 url: string, castsToId: string -> bool, now: int)
    requires Member(cs, c, caller) && url != ""
    ensures SendAsWritten(cs, ms, caller, c, None, Some("file"), Some("a.pdf"), None, Some(url), castsToId, now)
      == SendOutcome(cs, ms, Http.ServerError)
    ensures Send(cs, ms, caller, c, None, Some("file"), Some("a.pdf"), None, Some(url), now).code == Http.BadRequest
  {
  }

  /** A plain text message whose content is no id: the handler as written
      stores it and still answers 500; the corrected one answers 200 and
      the conversation's preview shows the message. */
  lemma TextMessageAsWritten(cs: seq<Conversation>, ms: seq<Message>, caller: UserId, c: ConversationId,
                             castsToId: string -> bool, now: int)
    requires Member(cs, c, caller) && !castsToId("hello")
    ensures var r := SendAsWritten(cs, ms, caller, c, Some("hello"), None, None, None, None, castsToId, now);
      r.code == Http.ServerError && |r.ms| == |ms| + 1 && r.cs == cs
    ensures var r := Send(cs, ms, caller, c, Some("hello"), None, None, None, None, now);
      r.code == Http.OK && Preview(r.ms, r.cs[c].lastMessage) == "hello"
  {
    TrimUnspaced("hello");
  }

  /** A message sent over REST is on the first page of its conversation
      when the page has no limit. */
  lemma SentMessageIsListed(cs: seq<Conversation>, ms: seq<Message>, caller: UserId, c: ConversationId,
                            content: Option<string>, kind: Option<string>, now: int)
    requires Send(cs, ms, caller, c, content, kind, None, None, None, now).code == Http.OK
    ensures var r := Send(cs, ms, caller, c, content, kind, None, None, None, now);
      ConversationMessages(r.ms, c, 1, 0).Some? && |ms| in ConversationMessages(r.ms, c, 1, 0).value
  {
    var r := Send(cs, ms, caller, c, content, kind, None, None, None, now);
    FirstPageHasAllVisible(r.ms, c, |ms|);
  }

  // ---------------------------------------------------------------------
  // PATCH /conversations/:conversationId/read
  // ---------------------------------------------------------------------

  datatype ReadOutcome = ReadOutcome(ms: seq<Message>, modifiedCount: nat, code: int)

  /** Marking read over REST: 403 unless the caller takes part; with a
      non-empty id list only those messages of the conversation that others
      sent become read, otherwise all such messages of the conversation.
      Without a list only unread messages are selected, so the count is the
      number that changed; with a list every matched message counts, read
      or not, because the update also stamps `updatedAt`. */
  function MarkRead(cs: seq<Conversation>, ms: seq<Message>, caller: UserId, c: ConversationId,
                    ids: Option<seq<MessageId>>): (r: ReadOutcome)
    ensures r.code in {Http.Forbidden, Http.OK}
    ensures r.code == Http.Forbidden <==> !Member(cs, c, caller)
    ensures r.code == Http.Forbidden ==> r.ms == ms && r.modifiedCount == 0
    ensures |r.ms| == |ms| && NoRegression(ms, r.ms) && r.modifiedCount >= Changed(ms, r.ms)
    ensures forall i :: 0 <= i < |ms| && r.ms[i] != ms[i] ==>
      r.ms[i] == ms[i].(status := Read) && ms[i].conversationId == c && ms[i].senderId != caller
    ensures r.code == Http.OK && ids.Some? && |ids.value| > 0 ==>
      forall i :: 0 <= i < |ms| ==> (r.ms[i] != ms[i] <==> ListedFromOthers(i, ms[i], ids.value, c, caller) && ms[i].status != Read)
    ensures r.code == Http.OK && ids.Some? && |ids.value| > 0 ==>
      r.modifiedCount == ListedCount(ms, ids.value, c, caller)
    ensures r.code == Http.OK && (ids.None? || |ids.value| == 0) ==> r.modifiedCount == Changed(ms, r.ms)
    ensures r.code == Http.OK && (ids.None? || |ids.value| == 0) ==>
      forall i :: 0 <= i < |ms| ==> !UnreadFromOthers(r.ms[i], c, caller)
  {
    if !Member(cs, c, caller) then ReadOutcome(ms, 0, Http.Forbidden)
    else if ids.Some? && |ids.value| > 0 then
      var (r, n) := MarkListedRead(ms, ids.value, c, caller);
      ReadOutcome(r, n, Http.OK)
    else
      var (r, n) := MarkConversationAsRead(ms, c, caller);
      ReadOutcome(r, n, Http.OK)
  }

  /** Marking a whole conversation read a second time modifies nothing. */
  lemma MarkReadTwice(cs: seq<Conversation>, ms: seq<Message>, caller: UserId, c: ConversationId)
    requires Member(cs, c, caller)
    ensures var r1 := MarkRead(cs, ms, caller, c, None);
      var r2 := MarkRead(cs, r1.ms, caller, c, None);
      r2.ms == r1.ms && r2.modifiedCount == 0
  {
    var r1 := MarkRead(cs, ms, caller, c, None);
    var r2 := MarkRead(cs, r1.ms, caller, c, None);
    assert forall i :: 0 <= i < |ms| ==> r2.ms[i] == r1.ms[i];
  }

  // ---------------------------------------------------------------------
  // DELETE and PATCH /messages/:messageId
  // ---------------------------------------------------------------------

  /** Soft delete: 404 for an unknown message, 403 unless the caller sent
      it; otherwise the message is flagged deleted now and no other message
      changes. An already deleted message can be deleted again. */
  function DeleteMessage(ms: seq<Message>, caller: UserId, id: MessageId, now: int): (r: (seq<Message>, int))
    ensures r.1 in {Http.NotFound, Http.Forbidden, Http.OK}
    ensures r.1 == Http.NotFound <==> id >= |ms|
    ensures r.1 == Http.Forbidden <==> id < |ms| && ms[id].senderId != caller
    ensures r.1 != Http.OK ==> r.0 == ms
    ensures |r.0| == |ms|
    ensures r.1 == Http.OK ==> forall c :: !Visible(r.0[id], c)
    ensures r.1 == Http.OK ==>
      (r.0[id].(isDeleted := ms[id].isDeleted, deletedAt := ms[id].deletedAt) == ms[id]
       && r.0[id].deletedAt == Some(now))
    ensures forall i :: 0 <= i < |ms| && i != id ==> r.0[i] == ms[i]
  {
    if id >= |ms| then (ms, Http.NotFound)
    else if ms[id].senderId != caller then (ms, Http.Forbidden)
    else (ms[id := ms[id].(isDeleted := true, deletedAt := Some(now))], Http.OK)
  }

  /** A deleted message is on no page of any conversation. */
  lemma DeletedMessageNotListed(ms: seq<Message>, caller: UserId, id: MessageId, now: int,
                                c: ConversationId, page: int, limit: int)
    requires DeleteMessage(ms, caller, id, now).1 == Http.OK
    ensures var after := DeleteMessage(ms, caller, id, now).0;
      ConversationMessages(after, c, page, limit).Some? ==> id !in ConversationMessages(after, c, page, limit).value
  {
    var after := DeleteMessage(ms, caller, id, now).0;
    var listed := ConversationMessages(after, c, page, limit);
    if listed.Some? {
      assert !Visible(after[id], c);
      forall k | 0 <= k < |listed.value| ensures listed.value[k] != id {
        assert Visible(after[listed.value[k]], c);
      }
    }
  }

  /** Editing: 400 when the content is absent or blank, 404 for an unknown
      message, 403 unless the caller sent it; otherwise the content becomes
      the trimmed text and the message is flagged edited now. A deleted
      message is edited like any other. */
  function EditMessage(ms: seq<Message>, caller: UserId, id: MessageId, content: Option<string>, now: int): (r: (seq<Message>, int))
    ensures r.1 in {Http.BadRequest, Http.NotFound, Http.Forbidden, Http.OK}
    ensures r.1 == Http.BadRequest <==> content.None? || Trim(content.value) == ""
    ensures r.1 == Http.NotFound <==> content.Some? && Trim(content.value) != "" && id >= |ms|
    ensures r.1 == Http.Forbidden <==> content.Some? && Trim(content.value) != "" && id < |ms| && ms[id].senderId != caller
    ensures r.1 != Http.OK ==> r.0 == ms
    ensures |r.0| == |ms|
    ensures r.1 == Http.OK ==>
      r.0[id].content == Trim(content.value) && r.0[id].isEdited && r.0[id].editedAt == Some(now)
      && r.0[id].(content := ms[id].content, isEdited := ms[id].isEdited, editedAt := ms[id].editedAt) == ms[id]
    ensures forall i :: 0 <= i < |ms| && i != id ==> r.0[i] == ms[i]
  {
    if content.None? || Trim(content.value) == "" then (ms, Http.BadRequest)
    else if id >= |ms| then (ms, Http.NotFound)
    else if ms[id].senderId != caller then (ms, Http.Forbidden)
    else (ms[id := ms[id].(content := Trim(content.value), isEdited := true, editedAt := Some(now))], Http.OK)
  }

  /** An edit accepts exactly the contents a new text message accepts. */
  lemma EditAcceptsWhatSendAccepts(ms: seq<Message>, caller: UserId, id: MessageId, content: Option<string>,
                                   c: ConversationId, now: int)
    ensures EditMessage(ms, caller, id, content, now).1 == Http.BadRequest
      <==> NewMessage(caller, c, content, None, None, None, None, now).None?
  {
    assert ParseMessageType("text").Some?;
  }

  /** Editing with the text a message already shows leaves its text as it
      is. */
  lemma EditWithSameText(ms: seq<Message>, caller: UserId, id: MessageId, now: int)
    requires id < |ms| && ms[id].senderId == caller && Trim(ms[id].content) != ""
    ensures var (after, code) := EditMessage(ms, caller, id, Some(ms[id].content), now);
      code == Http.OK && after[id].content == Trim(ms[id].content)
  {
  }

  /** The text a stored message shows is already trimmed, so re-editing
      with the result of an edit keeps that text. */
  lemma EditTwiceSameText(ms: seq<Message>, caller: UserId, id: MessageId, content: string, now: int, later: int)
    requires EditMessage(ms, caller, id, Some(content), now).1 == Http.OK
    ensures var (m1, _) := EditMessage(ms, caller, id, Some(content), now);
      var (m2, code) := EditMessage(m1, caller, id, Some(m1[id].content), later);
      code == Http.OK && m2[id].content == m1[id].content
  {
    TrimIdempotent(content);
  }

  // ---------------------------------------------------------------------
  // GET /search
  // ---------------------------------------------------------------------

  /** The conversations a search looks in: the named one, or every
      conversation the caller takes part in. */
  predicate InScope(cs: seq<Conversation>, caller: UserId, only: Option<ConversationId>, c: ConversationId) {
    if only.Some? then c == only.value else c < |cs| && caller in cs[c].participants
  }

  /** The search filter; `matches` stands for the case-insensitive regular
      expression test of the content. */
  predicate Hit(cs: seq<Conversation>, ms: seq<Message>, caller: UserId, query: string, only: Option<ConversationId>,
                matches: (string, string) -> bool, i: nat) {
    i < |ms| && matches(ms[i].content, query) && !ms[i].isDeleted && InScope(cs, caller, only, ms[i].conversationId)
  }

  /** The ids of the messages the search filter keeps. */
  function Hits(cs: seq<Conversation>, ms: seq<Message>, caller: UserId, query: string, only: Option<ConversationId>,
                matches: (string, string) -> bool): (r: seq<MessageId>)
    ensures forall i: nat :: i in r <==> Hit(cs, ms, caller, query, only, matches, i)
    ensures Seqs.Distinct(r)
  {
    Seqs.Select(|ms|, (i: nat) => Hit(cs, ms, caller, query, only, matches, i))
  }

  /** Searching: 400 without a query; 403 when a named conversation is not
      the caller's; otherwise one page of the hits, newest first, the
      `k`-th entry holding the rank `skip + k` among all hits. `page`
      and `limit` default to 1 and 20; a negative skip is refused by the
      store (500). */
  function SearchMessages(cs: seq<Conversation>, ms: seq<Message>, caller: UserId, query: Option<string>,
                          only: Option<ConversationId>, rawPage: Option<int>, rawLimit: Option<int>,
                          matches: (string, string) -> bool): (r: (seq<MessageId>, int))
    ensures r.1 in {Http.BadRequest, Http.Forbidden, Http.ServerError, Http.OK}
    ensures r.1 == Http.BadRequest <==> Falsy(query)
    ensures r.1 == Http.Forbidden <==> !Falsy(query) && only.Some? && !Member(cs, only.value, caller)
    ensures r.1 == Http.ServerError <==>
      !Falsy(query) && !(only.Some? && !Member(cs, only.value, caller))
      && Paging.SkipFor(rawPage.GetOr(1), rawLimit.GetOr(20)) < 0
    ensures r.1 != Http.OK ==> r.0 == []
    ensures r.1 == Http.OK ==> forall k :: 0 <= k < |r.0| ==> Hit(cs, ms, caller, query.value, only, matches, r.0[k])
    ensures r.1 == Http.OK ==> Seqs.SortedDesc(r.0, ByTimestamp(ms))
    ensures r.1 == Http.OK ==> Seqs.Distinct(r.0)
    ensures r.1 == Http.OK ==> var skip := Paging.SkipFor(rawPage.GetOr(1), rawLimit.GetOr(20));
      |r.0| == Seqs.PageLength(|Hits(cs, ms, caller, query.value, only, matches)|, skip, rawLimit.GetOr(20))
      && forall k :: 0 <= k < |r.0| ==>
        Seqs.RankedAt(Hits(cs, ms, caller, query.value, only, matches), ByTimestamp(ms), r.0[k], skip + k)
  {
    if Falsy(query) then ([], Http.BadRequest)
    else if only.Some? && !Member(cs, only.value, caller) then ([], Http.Forbidden)
    else
      var hits := Hits(cs, ms, caller, query.value, only, matches);
      var page := Seqs.SortedPage(hits, ByTimestamp(ms), Paging.SkipFor(rawPage.GetOr(1), rawLimit.GetOr(20)), rawLimit.GetOr(20));
      if page.None? then ([], Http.ServerError)
      else
        Seqs.DistinctSub(page.value, hits);
        (page.value, Http.OK)
  }

  /** A search never shows a message of a conversation the caller does not
      take part in. */
  lemma SearchStaysInOwnConversations(cs: seq<Conversation>, ms: seq<Message>, caller: UserId, query: Option<string>,
                                      only: Option<ConversationId>, rawPage: Option<int>, rawLimit: Option<int>,
                                      matches: (string, string) -> bool, k: nat)
    requires SearchMessages(cs, ms, caller, query, only, rawPage, rawLimit, matches).1 == Http.OK
    requires k < |SearchMessages(cs, ms, caller, query, only, rawPage, rawLimit, matches).0|
    ensures var id := SearchMessages(cs, ms, caller, query, only, rawPage, rawLimit, matches).0[k];
      id < |ms| && Member(cs, ms[id].conversationId, caller)
  {
  }

  /** A hit whose rank among all hits, ties included, lies inside the
      requested window is on the page the search returns. */
  lemma SearchFindsEveryHit(cs: seq<Conversation>, ms: seq<Message>, caller: UserId, query: string,
                            only: Option<ConversationId>, rawPage: Option<int>, rawLimit: Option<int>,
                            matches: (string, string) -> bool, i: nat)
    requires query != "" && !(only.Some? && !Member(cs, only.value, caller))
    requires Hit(cs, ms, caller, query, only, matches, i)
    requires var skip := Paging.SkipFor(rawPage.GetOr(1), rawLimit.GetOr(20));
      var hits := Hits(cs, ms, caller, query, only, matches); var key := ByTimestamp(ms);
      0 <= skip <= Seqs.Count(hits, Seqs.Above(key, key(i)))
      && Seqs.Count(hits, Seqs.AtLeast(key, key(i))) <= skip + Seqs.PageLength(|hits|, skip, rawLimit.GetOr(20))
    ensures var r := SearchMessages(cs, ms, caller, Some(query), only, rawPage, rawLimit, matches);
      r.1 == Http.OK && i in r.0
  {
    var hits := Hits(cs, ms, caller, query, only, matches);
    Seqs.OnSortedPage(hits, ByTimestamp(ms), Paging.SkipFor(rawPage.GetOr(1), rawLimit.GetOr(20)), rawLimit.GetOr(20), i);
  }

  /** An unlimited first page holds every hit. */
  lemma FirstSearchPageHasEveryHit(cs: seq<Conversation>, ms: seq<Message>, caller: UserId, query: string,
                                   only: Option<ConversationId>, matches: (string, string) -> bool, i: nat)
    requires query != "" && !(only.Some? && !Member(cs, only.value, caller))
    requires Hit(cs, ms, caller, query, only, matches, i)
    ensures var r := SearchMessages(cs, ms, caller, Some(query), only, Some(1), Some(0), matches);
      r.1 == Http.OK && i in r.0
  {
    var hits := Hits(cs, ms, caller, query, only, matches);
    var key := ByTimestamp(ms);
    assert Seqs.Count(hits, Seqs.AtLeast(key, key(i))) <= |hits|;
    SearchFindsEveryHit(cs, ms, caller, query, only, Some(1), Some(0), matches, i);
  }

  // ---------------------------------------------------------------------
  // GET /unread-count
  // ---------------------------------------------------------------------

  /** The unread total and the per-conversation groups: the total is the
      number of messages that count as unread for the caller. */
  function UnreadCount(ms: seq<Message>, caller: UserId, cs: seq<Conversation>): (r: (nat, seq<UnreadGroup>))
    ensures r.1 == UnreadGroups(ms, caller, cs)
    ensures r.0 == Seqs.Count(ms, (m: Message) => CountsAsUnread(m, caller, cs))
  {
    var groups := UnreadGroups(ms, caller, cs);
    TotalUnreadCountsMessages(ms, caller, cs);
    (TotalUnread(groups), groups)
  }
}

=== FILE: messages.dfy ===
/** The Message document (models/message.model.js): the delivery status
    machine `sent -> delivered -> read`, the per-document status methods,
    the bulk status updates the socket and REST handlers issue, the
    per-conversation listing and the per-conversation unread counts. */
module Messages {
  import opened Wrappers
  import opened Text
  import opened Users
  import opened Conversations
  import Seqs
  import Paging

  /** Messages are addressed by their position in the collection; they are
      soft-deleted, never removed. */
  type MessageId = nat

  datatype MessageStatus = Sent | Delivered | Read

  /** Position of a status along the delivery order. */
  function Rank(s: MessageStatus): nat {
    match s
    case Sent => 0
    case Delivered => 1
    case Read => 2
  }

  function MessageStatusName(s: MessageStatus): string {
    match s
    case Sent => "sent"
    case Delivered => "delivered"
    case Read => "read"
  }

  datatype MessageType = TextMsg | ImageMsg | FileMsg | CodeMsg | LinkMsg

  function MessageTypeName(t: MessageType): string {
    match t
    case TextMsg => "text"
    case ImageMsg => "image"
    case FileMsg => "file"
    case CodeMsg => "code"
    case LinkMsg => "link"
  }

  /** The `type` enum check. */
  function ParseMessageType(s: string): (r: Option<MessageType>)
    ensures r.Some? <==> s in ["text", "image", "file", "code", "link"]
    ensures r.Some? ==> MessageTypeName(r.value) == s
  {
    if s == "text" then Some(TextMsg)
    else if s == "image" then Some(ImageMsg)
    else if s == "file" then Some(FileMsg)
    else if s == "code" then Some(CodeMsg)
    else if s == "link" then Some(LinkMsg)
    else None
  }

  lemma MessageTypeRoundTrip(t: MessageType)
    ensures ParseMessageType(MessageTypeName(t)) == Some(t)
  {
  }

  datatype Message = Message(
    senderId: UserId,
    conversationId: ConversationId,
    content: string,
    kind: MessageType,
    status: MessageStatus,
    timestamp: int,
    fileName: Option<string>,
    fileSize: Option<string>,
    fileUrl: Option<string>,
    isEdited: bool,
    editedAt: Option<int>,
    isDeleted: bool,
    deletedAt: Option<int>,
    createdAt: int)

  /** Building a message and saving it: the content is trimmed and
      required, so absent, empty and blank content all fail; an absent type
      defaults to `text`; the status starts at `sent`. */
  function NewMessage(
    sender: UserId, conversation: ConversationId, content: Option<string>, kind: Option<string>,
    fileName: Option<string>, fileSize: Option<string>, fileUrl: Option<string>, now: int): (r: Option<Message>)
    ensures r.Some? <==> content.Some? && Trim(content.value) != "" && ParseMessageType(kind.GetOr("text")).Some?
    ensures r.Some? ==> r.value.status == Sent && r.value.content == Trim(content.value)
    ensures r.Some? ==> r.value.senderId == sender && r.value.conversationId == conversation
    ensures r.Some? ==> MessageTypeName(r.value.kind) == kind.GetOr("text")
    ensures r.Some? ==> !r.value.isDeleted && !r.value.isEdited && r.value.timestamp == now
  {
    var t := ParseMessageType(kind.GetOr("text"));
    if content.None? || Trim(content.value) == "" || t.None? then None
    else Some(Message(sender, conversation, Trim(content.value), t.value, Sent, now,
      fileName, fileSize, fileUrl, false, None, false, None, now))
  }

  // ---------------------------------------------------------------------
  // Per-document status methods
  // ---------------------------------------------------------------------

  /** `markAsRead`: unconditional. */
  function MarkAsRead(m: Message): (r: Message)
    ensures r.status == Read
    ensures r.(status := m.status) == m
    ensures Rank(r.status) >= Rank(m.status)
  {
    m.(status := Read)
  }

  /** `markAsDelivered`: only a `sent` message moves; any other is left as
      it is, so a read message never goes back to delivered. */
  function MarkAsDelivered(m: Message): (r: Message)
    ensures m.status == Sent ==> r.status == Delivered
    ensures m.status != Sent ==> r == m
    ensures r.(status := m.status) == m
    ensures Rank(r.status) >= Rank(m.status)
  {
    if m.status == Sent then m.(status := Delivered) else m
  }

  lemma MarkAsReadIdempotent(m: Message)
    ensures MarkAsRead(MarkAsRead(m)) == MarkAsRead(m)
  {
  }

  lemma MarkAsDeliveredIdempotent(m: Message)
    ensures MarkAsDelivered(MarkAsDelivered(m)) == MarkAsDelivered(m)
  {
  }

  /** Read absorbs both methods, in either order. */
  lemma ReadAbsorbs(m: Message)
    ensures MarkAsDelivered(MarkAsRead(m)) == MarkAsRead(m)
    ensures MarkAsRead(MarkAsDelivered(m)) == MarkAsRead(m)
  {
  }

  // ---------------------------------------------------------------------
  // Bulk updates
  // ---------------------------------------------------------------------

  /** `updateMany(filter, update)`: every message the filter selects gets
      the update; the rest are left alone. */
  function UpdateWhere(ms: seq<Message>, sel: (nat, Message) -> bool, f: Message -> Message): (r: seq<Message>)
    ensures |r| == |ms|
    ensures forall i :: 0 <= i < |ms| ==> r[i] == if sel(i, ms[i]) then f(ms[i]) else ms[i]
  {
    seq(|ms|, i requires 0 <= i < |ms| => if sel(i, ms[i]) then f(ms[i]) else ms[i])
  }

  /** The number of stored messages an update actually changed (the
      store's `modifiedCount`). */
  function Changed(before: seq<Message>, after: seq<Message>): nat
    requires |before| == |after|
  {
    Seqs.CountIdx(|before|, (i: nat) => i < |before| && before[i] != after[i])
  }

  /** Pointwise status order between two stores of equal length. */
  predicate NoRegression(before: seq<Message>, after: seq<Message>) {
    |before| == |after| && forall i :: 0 <= i < |before| ==> Rank(after[i].status) >= Rank(before[i].status)
  }

  /** The filter of `markConversationAsRead(c, u)`. */
  predicate UnreadFromOthers(m: Message, c: ConversationId, u: UserId) {
    m.conversationId == c && m.senderId != u && m.status != Read
  }

  /** `markConversationAsRead(c, u)`: every message of conversation `c`
      that someone other than `u` sent becomes read; the result also
      carries the modified count. */
  function MarkConversationAsRead(ms: seq<Message>, c: ConversationId, u: UserId): (r: (seq<Message>, nat))
    ensures |r.0| == |ms|
    ensures forall i :: 0 <= i < |ms| ==>
      r.0[i] == if ms[i].conversationId == c && ms[i].senderId != u then MarkAsRead(ms[i]) else ms[i]
    ensures forall i :: 0 <= i < |ms| ==> !UnreadFromOthers(r.0[i], c, u)
    ensures NoRegression(ms, r.0)
    ensures r.1 == Changed(ms, r.0)
  {
    var r := UpdateWhere(ms, (i: nat, m: Message) => UnreadFromOthers(m, c, u), MarkAsRead);
    (r, Changed(ms, r))
  }

  /** The modified count of `markConversationAsRead` is the number of
      messages its filter selects. */
  lemma MarkConversationAsReadCount(ms: seq<Message>, c: ConversationId, u: UserId)
    ensures MarkConversationAsRead(ms, c, u).1
      == Seqs.CountIdx(|ms|, (i: nat) => i < |ms| && UnreadFromOthers(ms[i], c, u))
  {
    var r := MarkConversationAsRead(ms, c, u).0;
    Seqs.CountIdxCongruent(|ms|, (i: nat) => i < |ms| && ms[i] != r[i],
      (i: nat) => i < |ms| && UnreadFromOthers(ms[i], c, u));
  }

  /** The bulk update of `joinConversation`: the joiner's incoming `sent`
      messages of that conversation become delivered. */
  function MarkDeliveredOnJoin(ms: seq<Message>, c: ConversationId, u: UserId): (r: seq<Message>)
    ensures |r| == |ms|
    ensures forall i :: 0 <= i < |ms| ==>
      r[i] == if ms[i].conversationId == c && ms[i].senderId != u then MarkAsDelivered(ms[i]) else ms[i]
    ensures forall i :: 0 <= i < |ms| && ms[i].status == Read ==> r[i] == ms[i]
    ensures NoRegression(ms, r)
  {
    UpdateWhere(ms, (i: nat, m: Message) => m.conversationId == c && m.senderId != u && m.status == Sent,
      (m: Message) => m.(status := Delivered))
  }

  /** The filter `{ _id: { $in: ids }, conversationId: c, senderId: { $ne: u } }`. */
  predicate ListedFromOthers(i: nat, m: Message, ids: seq<MessageId>, c: ConversationId, u: UserId) {
    i in ids && m.conversationId == c && m.senderId != u
  }

  /** How many messages the filter `{ _id: { $in: ids }, conversationId:
      c, senderId: { $ne: u } }` matches. */
  function ListedCount(ms: seq<Message>, ids: seq<MessageId>, c: ConversationId, u: UserId): (n: nat)
    ensures n <= |ms|
    ensures n == 0 <==> forall i :: 0 <= i < |ms| ==> !ListedFromOthers(i, ms[i], ids, c, u)
  {
    var p := (i: nat) => i < |ms| && ListedFromOthers(i, ms[i], ids, c, u);
    assert (forall i: nat :: i < |ms| ==> !p(i)) ==> forall i :: 0 <= i < |ms| ==> !ListedFromOthers(i, ms[i], ids, c, u) by {
      if forall i: nat :: i < |ms| ==> !p(i) {
        forall i | 0 <= i < |ms| ensures !ListedFromOthers(i, ms[i], ids, c, u) {
          assert !p(i);
        }
      }
    }
    Seqs.CountIdx(|ms|, p)
  }

  /** Marking listed messages read: only listed messages of conversation
      `c` sent by someone else change. The schema keeps timestamps, so the
      update also stamps `updatedAt` on every message it matches, and the
      store reports each of them as modified, whether or not it was read
      already. */
  function MarkListedRead(ms: seq<Message>, ids: seq<MessageId>, c: ConversationId, u: UserId): (r: (seq<Message>, nat))
    ensures |r.0| == |ms|
    ensures forall i :: 0 <= i < |ms| ==>
      r.0[i] == if ListedFromOthers(i, ms[i], ids, c, u) then MarkAsRead(ms[i]) else ms[i]
    ensures NoRegression(ms, r.0)
    ensures r.1 == 0 <==> forall i :: 0 <= i < |ms| ==> !ListedFromOthers(i, ms[i], ids, c, u)
    ensures r.1 >= Changed(ms, r.0)
  {
    var r := UpdateWhere(ms, (i: nat, m: Message) => ListedFromOthers(i, m, ids, c, u), MarkAsRead);
    Seqs.CountIdxMono(|ms|, (i: nat) => i < |ms| && ms[i] != r[i],
      (i: nat) => i < |ms| && ListedFromOthers(i, ms[i], ids, c, u));
    (r, ListedCount(ms, ids, c, u))
  }

  /** The count a listed mark-read reports is the messages whose status
      changed plus the matched messages that were read already. */
  lemma MarkListedReadCount(ms: seq<Message>, ids: seq<MessageId>, c: ConversationId, u: UserId)
    ensures var r := MarkListedRead(ms, ids, c, u);
      r.1 == Changed(ms, r.0)
        + Seqs.CountIdx(|ms|, (i: nat) => i < |ms| && ListedFromOthers(i, ms[i], ids, c, u) && ms[i].status == Read)
  {
    var r := MarkListedRead(ms, ids, c, u).0;
    Seqs.CountIdxSplit(|ms|, (i: nat) => i < |ms| && ListedFromOthers(i, ms[i], ids, c, u),
      (i: nat) => i < |ms| && ms[i] != r[i],
      (i: nat) => i < |ms| && ListedFromOthers(i, ms[i], ids, c, u) && ms[i].status == Read);
  }

  // ---------------------------------------------------------------------
  // Listing
  // ---------------------------------------------------------------------

  /** The messages `getConversationMessages` may return. */
  predicate Visible(m: Message, c: ConversationId) {
    m.conversationId == c && !m.isDeleted
  }

  function ByTimestamp(ms: seq<Message>): nat -> int {
    (i: nat) => if i < |ms| then ms[i].timestamp else 0
  }

  /** The ids of conversation `c`'s messages that are not deleted. */
  function VisibleIds(ms: seq<Message>, c: ConversationId): (r: seq<MessageId>)
    ensures forall i: nat :: i in r <==> i < |ms| && Visible(ms[i], c)
    ensures Seqs.Distinct(r)
  {
    Seqs.Select(|ms|, (i: nat) => i < |ms| && Visible(ms[i], c))
  }

  /** `getConversationMessages(c, page, limit)`: ids of the conversation's
      non-deleted messages, newest first, skipping `(page - 1) * limit` and
      keeping `|limit|` of them (0 meaning all); `None` for a negative
      skip, which the server rejects. The `k`-th entry is a message that
      has at most `skip + k` visible messages newer than it and more than
      `skip + k` as new or newer, so the page is the right slice of the
      newest-first order. */
  function ConversationMessages(ms: seq<Message>, c: ConversationId, page: int, limit: int): (r: Option<seq<MessageId>>)
    ensures r.None? <==> Paging.SkipFor(page, limit) < 0
    ensures r.Some? ==> |r.value| == Seqs.PageLength(|VisibleIds(ms, c)|, Paging.SkipFor(page, limit), limit)
    ensures r.Some? ==> Seqs.Distinct(r.value)
    ensures r.Some? ==> forall k :: 0 <= k < |r.value| ==> r.value[k] < |ms| && Visible(ms[r.value[k]], c)
    ensures r.Some? ==> Seqs.SortedDesc(r.value, ByTimestamp(ms))
    ensures r.Some? ==> forall k :: 0 <= k < |r.value| ==>
      Seqs.RankedAt(VisibleIds(ms, c), ByTimestamp(ms), r.value[k], Paging.SkipFor(page, limit) + k)
  {
    var ids := VisibleIds(ms, c);
    var w := Seqs.SortedPage(ids, ByTimestamp(ms), Paging.SkipFor(page, limit), limit);
    if w.Some? then
      Seqs.DistinctSub(w.value, ids);
      w
    else w
  }

  /** Every visible message of the conversation appears on the first page
      when the page is large enough. */
  lemma FirstPageHasAllVisible(ms: seq<Message>, c: ConversationId, i: MessageId)
    requires i < |ms| && Visible(ms[i], c)
    ensures ConversationMessages(ms, c, 1, 0).Some?
    ensures i in ConversationMessages(ms, c, 1, 0).value
  {
    var ids := VisibleIds(ms, c);
    var key := ByTimestamp(ms);
    assert Seqs.Count(ids, Seqs.AtLeast(key, key(i))) <= |ids|;
    Seqs.OnSortedPage(ids, key, 0, 0, i);
  }

  // ---------------------------------------------------------------------
  // Unread counts
  // ---------------------------------------------------------------------

  /** The pipeline of `getUnreadCount(u)` keeps a message when it is not
      read, not deleted, its conversation exists and has `u` among its
      participants, and someone else sent it. */
  predicate CountsAsUnread(m: Message, u: UserId, cs: seq<Conversation>) {
    m.status != Read && !m.isDeleted && m.conversationId < |cs|
    && u in cs[m.conversationId].participants && m.senderId != u
  }

  datatype UnreadGroup = UnreadGroup(conversationId: ConversationId, unreadCount: nat)

  function UnreadIn(ms: seq<Message>, u: UserId, cs: seq<Conversation>, c: ConversationId): nat {
    Seqs.Count(ms, (m: Message) => CountsAsUnread(m, u, cs) && m.conversationId == c)
  }

  /** The `$group` stage over the conversations `0 .. k - 1`: one group per
      conversation with at least one unread message, in id order. */
  function UnreadGroupsBelow(ms: seq<Message>, u: UserId, cs: seq<Conversation>, k: nat): (r: seq<UnreadGroup>)
    ensures forall j :: 0 <= j < |r| ==> r[j].conversationId < k && r[j].unreadCount > 0
    ensures forall j :: 0 <= j < |r| ==> r[j].unreadCount == UnreadIn(ms, u, cs, r[j].conversationId)
    ensures forall j, l :: 0 <= j < l < |r| ==> r[j].conversationId < r[l].conversationId
  {
    if k == 0 then []
    else
      var n := UnreadIn(ms, u, cs, k - 1);
      UnreadGroupsBelow(ms, u, cs, k - 1) + (if n > 0 then [UnreadGroup(k - 1, n)] else [])
  }

  /** `getUnreadCount(u)`. */
  function UnreadGroups(ms: seq<Message>, u: UserId, cs: seq<Conversation>): seq<UnreadGroup> {
    UnreadGroupsBelow(ms, u, cs, |cs|)
  }

  /** The `reduce` that totals the group counts. */
  function TotalUnread(gs: seq<UnreadGroup>): nat {
    if |gs| == 0 then 0 else TotalUnread(gs[..|gs| - 1]) + gs[|gs| - 1].unreadCount
  }

  function UnreadBelow(ms: seq<Message>, u: UserId, cs: seq<Conversation>, k: nat): nat {
    Seqs.Count(ms, (m: Message) => CountsAsUnread(m, u, cs) && m.conversationId < k)
  }

  lemma {:induction false} TotalUnreadBelow(ms: seq<Message>, u: UserId, cs: seq<Conversation>, k: nat)
    ensures TotalUnread(UnreadGroupsBelow(ms, u, cs, k)) == UnreadBelow(ms, u, cs, k)
  {
    if k == 0 {
      UnreadBelowZero(ms, u, cs);
    } else {
      TotalUnreadBelow(ms, u, cs, k - 1);
      GroupsStep(ms, u, cs, k);
      UnreadBelowStep(ms, u, cs, k);
    }
  }

  lemma UnreadBelowZero(ms: seq<Message>, u: UserId, cs: seq<Conversation>)
    ensures UnreadBelow(ms, u, cs, 0) == 0
  {
    var p := (m: Message) => CountsAsUnread(m, u, cs) && m.conversationId < 0;
    Seqs.CountZeroIff(ms, p);
  }

  /** One more conversation adds its unread count to the total. */
  lemma GroupsStep(ms: seq<Message>, u: UserId, cs: seq<Conversation>, k: nat)
    requires k > 0
    ensures TotalUnread(UnreadGroupsBelow(ms, u, cs, k))
      == TotalUnread(UnreadGroupsBelow(ms, u, cs, k - 1)) + UnreadIn(ms, u, cs, k - 1)
  {
    var n := UnreadIn(ms, u, cs, k - 1);
    var prev := UnreadGroupsBelow(ms, u, cs, k - 1);
    if n > 0 {
      assert UnreadGroupsBelow(ms, u, cs, k) == prev + [UnreadGroup(k - 1, n)];
      TotalUnreadAppend(prev, UnreadGroup(k - 1, n));
    } else {
      assert UnreadGroupsBelow(ms, u, cs, k) == prev + [];
      assert prev + [] == prev;
    }
  }

  lemma TotalUnreadAppend(gs: seq<UnreadGroup>, g: UnreadGroup)
    ensures TotalUnread(gs + [g]) == TotalUnread(gs) + g.unreadCount
  {
    assert (gs + [g])[..|gs|] == gs;
  }

  lemma UnreadBelowStep(ms: seq<Message>, u: UserId, cs: seq<Conversation>, k: nat)
    requires k > 0
    ensures UnreadBelow(ms, u, cs, k) == UnreadBelow(ms, u, cs, k - 1) + UnreadIn(ms, u, cs, k - 1)
  {
    Seqs.CountSplit(ms,
      (m: Message) => CountsAsUnread(m, u, cs) && m.conversationId < k,
      (m: Message) => CountsAsUnread(m, u, cs) && m.conversationId < k - 1,
      (m: Message) => CountsAsUnread(m, u, cs) && m.conversationId == k - 1);
  }

  /** The total the unread-count endpoint reports is the number of messages
      the pipeline keeps: grouping loses and duplicates nothing. */
  lemma TotalUnreadCountsMessages(ms: seq<Message>, u: UserId, cs: seq<Conversation>)
    ensures TotalUnread(UnreadGroups(ms, u, cs)) == Seqs.Count(ms, (m: Message) => CountsAsUnread(m, u, cs))
  {
    TotalUnreadBelow(ms, u, cs, |cs|);
    Seqs.CountCongruent(ms, (m: Message) => CountsAsUnread(m, u, cs) && m.conversationId < |cs|,
      (m: Message) => CountsAsUnread(m, u, cs));
  }
}

=== FILE: notifications.dfy ===
/** The Notification document (models/notification.model.js) and the
    handlers of controllers/notification.controller.js over a store of
    notifications: recipient-scoped reads, updates and deletes, the unread
    count, the periodic cleanup and the 30-day TTL. */
module Notifications {
  import opened Wrappers
  import opened Users
  import Seqs
  import Paging
  import Http

  type NotificationId = nat

  datatype NotificationKind =
    | FollowNote | ProjectInvite | MessageNote | ProjectUpdate
    | CollaborationRequest | CollaborationAccepted | CollaborationRejected

  function KindName(k: NotificationKind): string {
    match k
    case FollowNote => "follow"
    case ProjectInvite => "project_invite"
    case MessageNote => "message"
    case ProjectUpdate => "project_update"
    case CollaborationRequest => "collaboration_request"
    case CollaborationAccepted => "collaboration_accepted"
    case CollaborationRejected => "collaboration_rejected"
  }

  const KindNames: seq<string> := [
    "follow", "project_invite", "message", "project_update",
    "collaboration_request", "collaboration_accepted", "collaboration_rejected"]

  /** The `type` enum check: exactly the seven names. */
  function ParseKind(s: string): (r: Option<NotificationKind>)
    ensures r.Some? <==> s in KindNames
    ensures r.Some? ==> KindName(r.value) == s
  {
    if s == "follow" then Some(FollowNote)
    else if s == "project_invite" then Some(ProjectInvite)
    else if s == "message" then Some(MessageNote)
    else if s == "project_update" then Some(ProjectUpdate)
    else if s == "collaboration_request" then Some(CollaborationRequest)
    else if s == "collaboration_accepted" then Some(CollaborationAccepted)
    else if s == "collaboration_rejected" then Some(CollaborationRejected)
    else None
  }

  lemma KindRoundTrip(k: NotificationKind)
    ensures ParseKind(KindName(k)) == Some(k)
  {
  }

  /** The keys of the free-form `relatedData` object that some handler
      reads back. A key that was never set is `None` (or `false`). */
  datatype Related = Related(
    projectId: Option<nat>,
    projectTitle: Option<string>,
    invitationId: Option<nat>,
    requesterId: Option<UserId>,
    followerId: Option<UserId>,
    responded: bool,
    response: Option<string>)

  /** The `relatedData` default `{}`. */
  const NoRelated := Related(None, None, None, None, None, false, None)

  datatype Notification = Notification(
    id: NotificationId,
    recipient: UserId,
    sender: UserId,
    kind: NotificationKind,
    message: string,
    isRead: bool,
    related: Related,
    createdAt: int)

  /** The collection, with the id the next insert receives. */
  datatype Store = Store(items: seq<Notification>, nextId: NotificationId)

  const EmptyStore := Store([], 0)

  /** Ids increase along the collection and stay below `nextId`, so they are
      unique. */
  predicate WellFormed(s: Store) {
    (forall i :: 0 <= i < |s.items| ==> s.items[i].id < s.nextId)
    && (forall i, j :: 0 <= i < j < |s.items| ==> s.items[i].id < s.items[j].id)
  }

  /** The filter `{ recipient: u, isRead: false }`. */
  predicate UnreadOf(n: Notification, u: UserId) {
    n.recipient == u && !n.isRead
  }

  /** `countDocuments({ recipient: u, isRead: false })`. */
  function UnreadCount(items: seq<Notification>, u: UserId): nat {
    Seqs.Count(items, (n: Notification) => UnreadOf(n, u))
  }

  /** Building a notification and saving it. Recipient, sender, type and
      message are required, and the type must be one of the seven names;
      `isRead` starts false. A rejected document leaves the store alone. */
  function Create(s: Store, recipient: Option<UserId>, sender: Option<UserId>, kind: string, message: string,
                  related: Related, now: int): (r: Option<(Store, Notification)>)
    ensures r.Some? <==> recipient.Some? && sender.Some? && kind in KindNames && message != ""
    ensures r.Some? ==> r.value.0.items == s.items + [r.value.1]
    ensures r.Some? ==> r.value.1.id == s.nextId && !r.value.1.isRead && r.value.1.createdAt == now
    ensures r.Some? ==> r.value.1.recipient == recipient.value && r.value.1.sender == sender.value
    ensures r.Some? ==> KindName(r.value.1.kind) == kind && r.value.1.related == related
    ensures r.Some? && WellFormed(s) ==> WellFormed(r.value.0)
  {
    var k := ParseKind(kind);
    if recipient.None? || sender.None? || k.None? || message == "" then None
    else
      var n := Notification(s.nextId, recipient.value, sender.value, k.value, message, false, related, now);
      Some((Store(s.items + [n], s.nextId + 1), n))
  }

  /** A created notification adds one to its recipient's unread count and
      nothing to anybody else's. */
  lemma CreateUnreadCount(s: Store, recipient: Option<UserId>, sender: Option<UserId>, kind: string,
                          message: string, related: Related, now: int, u: UserId)
    requires Create(s, recipient, sender, kind, message, related, now).Some?
    ensures UnreadCount(Create(s, recipient, sender, kind, message, related, now).value.0.items, u)
      == UnreadCount(s.items, u) + (if recipient.value == u then 1 else 0)
  {
    var r := Create(s, recipient, sender, kind, message, related, now).value;
    Seqs.CountAppend(s.items, [r.1], (n: Notification) => UnreadOf(n, u));
  }

  /** The filter `{ _id: id, recipient: u }`: a notification is only ever
      reached through its recipient. */
  predicate Addressed(n: Notification, id: NotificationId, u: UserId) {
    n.id == id && n.recipient == u
  }

  function FindAddressed(s: Store, id: NotificationId, u: UserId): (r: Option<nat>)
    ensures r.Some? ==> r.value < |s.items| && Addressed(s.items[r.value], id, u)
    ensures r.None? <==> forall i :: 0 <= i < |s.items| ==> !Addressed(s.items[i], id, u)
  {
    Seqs.FindIndex(s.items, (n: Notification) => Addressed(n, id, u))
  }

  /** In a well-formed store at most one notification has a given id. */
  lemma AddressedUnique(s: Store, id: NotificationId, u: UserId, i: nat, j: nat)
    requires WellFormed(s)
    requires i < |s.items| && j < |s.items|
    requires Addressed(s.items[i], id, u) && Addressed(s.items[j], id, u)
    ensures i == j
  {
  }

  // ---------------------------------------------------------------------
  // Handlers
  // ---------------------------------------------------------------------

  datatype MarkReadReply =
    | MarkReadNotFound
    | MarkedRead(notification: Notification, unreadCount: nat)

  function MarkReadCode(r: MarkReadReply): int {
    if r.MarkReadNotFound? then Http.NotFound else Http.OK
  }

  /** `markAsRead(id)` for caller `u`: only a notification addressed to `u`
      with that id is set read (404 otherwise, with nothing changed); the
      reply carries the caller's unread count afterwards. */
  function MarkAsRead(s: Store, id: NotificationId, u: UserId): (r: (Store, MarkReadReply))
    ensures r.1.MarkReadNotFound? <==> forall i :: 0 <= i < |s.items| ==> !Addressed(s.items[i], id, u)
    ensures r.1.MarkReadNotFound? ==> r.0 == s
    ensures r.0.nextId == s.nextId && |r.0.items| == |s.items|
    ensures forall i :: 0 <= i < |s.items| ==> r.0.items[i].(isRead := s.items[i].isRead) == s.items[i]
    ensures forall i :: 0 <= i < |s.items| && r.0.items[i] != s.items[i] ==>
      Addressed(s.items[i], id, u) && r.0.items[i].isRead
    ensures r.1.MarkedRead? ==> Addressed(r.1.notification, id, u) && r.1.notification.isRead
    ensures r.1.MarkedRead? ==> r.1.notification in r.0.items
    ensures r.1.MarkedRead? ==> r.1.unreadCount == UnreadCount(r.0.items, u)
    ensures WellFormed(s) ==> WellFormed(r.0)
  {
    var k := FindAddressed(s, id, u);
    if k.None? then (s, MarkReadNotFound)
    else
      var n := s.items[k.value].(isRead := true);
      var items := s.items[k.value := n];
      (Store(items, s.nextId), MarkedRead(n, UnreadCount(items, u)))
  }

  /** The count `markAsRead` reports is one less than before when the
      notification was unread, and unchanged when it had been read. */
  lemma MarkAsReadCountDrops(s: Store, id: NotificationId, u: UserId)
    requires MarkAsRead(s, id, u).1.MarkedRead?
    ensures var k := FindAddressed(s, id, u).value;
      MarkAsRead(s, id, u).1.unreadCount == UnreadCount(s.items, u) - (if s.items[k].isRead then 0 else 1)
  {
    var k := FindAddressed(s, id, u).value;
    Seqs.CountUpdate(s.items, k, s.items[k].(isRead := true), (n: Notification) => UnreadOf(n, u));
  }

  /** `markAllAsRead` for caller `u`: every unread notification of `u`
      becomes read; nobody else's is touched. */
  function MarkAllAsRead(s: Store, u: UserId): (r: Store)
    ensures r.nextId == s.nextId && |r.items| == |s.items|
    ensures forall i :: 0 <= i < |s.items| ==>
      r.items[i] == if s.items[i].recipient == u then s.items[i].(isRead := true) else s.items[i]
    ensures WellFormed(s) ==> WellFormed(r)
  {
    Store(seq(|s.items|, i requires 0 <= i < |s.items| =>
      if UnreadOf(s.items[i], u) then s.items[i].(isRead := true) else s.items[i]), s.nextId)
  }

  /** The `unreadCount: 0` that `markAllAsRead` reports is the caller's true
      unread count afterwards, and every other user's count is unchanged. */
  lemma MarkAllAsReadLeavesNoneUnread(s: Store, u: UserId, v: UserId)
    ensures UnreadCount(MarkAllAsRead(s, u).items, u) == 0
    ensures v != u ==> UnreadCount(MarkAllAsRead(s, u).items, v) == UnreadCount(s.items, v)
  {
    var r := MarkAllAsRead(s, u).items;
    Seqs.CountZeroIff(r, (n: Notification) => UnreadOf(n, u));
    if v != u {
      CountSameWhereUntouched(s.items, r, v);
    }
  }

  /** Two stores whose notifications for `v` agree position by position
      count the same for `v`. */
  lemma {:induction false} CountSameWhereUntouched(a: seq<Notification>, b: seq<Notification>, v: UserId)
    requires |a| == |b|
    requires forall i :: 0 <= i < |a| ==> UnreadOf(a[i], v) == UnreadOf(b[i], v)
    ensures UnreadCount(a, v) == UnreadCount(b, v)
  {
    if |a| > 0 {
      CountSameWhereUntouched(a[1..], b[1..], v);
    }
  }

  /** `deleteNotification(id)` for caller `u`: removes the one notification
      with that id addressed to `u`; `false` (404) and no change otherwise. */
  function Delete(s: Store, id: NotificationId, u: UserId): (r: (Store, bool))
    ensures !r.1 <==> forall i :: 0 <= i < |s.items| ==> !Addressed(s.items[i], id, u)
    ensures !r.1 ==> r.0 == s
    ensures r.1 ==> |r.0.items| + 1 == |s.items|
    ensures r.0.nextId == s.nextId
    ensures forall n :: n in r.0.items ==> n in s.items
    ensures forall n :: n in s.items && !Addressed(n, id, u) ==> n in r.0.items
    ensures WellFormed(s) ==> WellFormed(r.0)
    ensures WellFormed(s) ==> forall i :: 0 <= i < |r.0.items| ==> !Addressed(r.0.items[i], id, u)
  {
    var k := FindAddressed(s, id, u);
    if k.None? then (s, false)
    else
      var r := RemoveAt(s, k.value);
      assert forall n :: n in s.items && !Addressed(n, id, u) ==> n in r.items;
      RemoveAddressedLeavesNone(s, id, u, k.value);
      (r, true)
  }

  /** The store without the notification at position `k`. */
  function RemoveAt(s: Store, k: nat): (r: Store)
    requires k < |s.items|
    ensures |r.items| + 1 == |s.items| && r.nextId == s.nextId
    ensures r.items == Seqs.RemoveAt(s.items, k)
    ensures forall n :: n in r.items ==> n in s.items
    ensures forall i :: 0 <= i < |s.items| && i != k ==> s.items[i] in r.items
    ensures WellFormed(s) ==> WellFormed(r)
  {
    var items := Seqs.RemoveAt(s.items, k);
    assert WellFormed(s) ==> WellFormed(Store(items, s.nextId)) by {
      if WellFormed(s) {
        forall i, j | 0 <= i < j < |items| ensures items[i].id < items[j].id {
          var i' := if i < k then i else i + 1;
          var j' := if j < k then j else j + 1;
          assert i' < j';
        }
      }
    }
    Store(items, s.nextId)
  }

  /** `deleteOne(filter)`: removes the first notification the filter
      selects, if there is one. */
  function DeleteFirst(s: Store, p: Notification -> bool): (r: Store)
    ensures (forall i :: 0 <= i < |s.items| ==> !p(s.items[i])) ==> r == s
    ensures (exists i :: 0 <= i < |s.items| && p(s.items[i])) ==> |r.items| + 1 == |s.items|
    ensures r.nextId == s.nextId
    ensures forall n :: n in r.items ==> n in s.items
    ensures forall n :: n in s.items && !p(n) ==> n in r.items
    ensures Seqs.Count(r.items, p) == if Seqs.Count(s.items, p) == 0 then 0 else Seqs.Count(s.items, p) - 1
    ensures WellFormed(s) ==> WellFormed(r)
  {
    var k := Seqs.FindIndex(s.items, p);
    Seqs.CountZeroIff(s.items, p);
    if k.None? then s
    else
      Seqs.CountRemoveAt(s.items, k.value, p);
      RemoveAt(s, k.value)
  }

  /** Removing the addressed notification of a well-formed store leaves no
      other with the same id. */
  lemma RemoveAddressedLeavesNone(s: Store, id: NotificationId, u: UserId, k: nat)
    requires k < |s.items| && Addressed(s.items[k], id, u)
    ensures WellFormed(s) ==> forall i :: 0 <= i < |s.items| - 1 ==> !Addressed(RemoveAt(s, k).items[i], id, u)
  {
    var items := RemoveAt(s, k).items;
    if WellFormed(s) {
      forall i | 0 <= i < |items| ensures !Addressed(items[i], id, u) {
        var j := if i < k then i else i + 1;
        if Addressed(items[i], id, u) {
          AddressedUnique(s, id, u, j, k);
        }
      }
    }
  }

  // ---------------------------------------------------------------------
  // Retention
  // ---------------------------------------------------------------------

  /** The TTL index: `expireAfterSeconds: 2592000` on `createdAt`. */
  const TtlSeconds: int := 2592000

  /** The window `cleanupOldNotifications` uses: 30 days, in milliseconds. */
  const RetentionMs: int := 30 * 24 * 60 * 60 * 1000

  /** The TTL monitor may remove a document once its `createdAt` plus the
      TTL lies in the past, read or not. */
  predicate TtlExpired(n: Notification, now: int) {
    n.createdAt + TtlSeconds * 1000 < now
  }

  /** What `cleanupOldNotifications` keeps: everything except read
      notifications created before `now - 30 days`. */
  predicate SurvivesCleanup(n: Notification, now: int) {
    !(n.isRead && n.createdAt < now - RetentionMs)
  }

  function Cleanup(s: Store, now: int): (r: Store)
    ensures r.nextId == s.nextId
    ensures forall n :: n in r.items <==> n in s.items && SurvivesCleanup(n, now)
    ensures forall n :: n in s.items && !n.isRead ==> n in r.items
    ensures forall u :: UnreadCount(r.items, u) == UnreadCount(s.items, u)
  {
    var items := Seqs.Filter(s.items, (n: Notification) => SurvivesCleanup(n, now));
    forall n ensures n in items <==> n in s.items && SurvivesCleanup(n, now) {
      Seqs.FilterMembers(s.items, (n: Notification) => SurvivesCleanup(n, now), n);
    }
    forall u ensures UnreadCount(items, u) == UnreadCount(s.items, u) {
      FilterKeepsUnread(s.items, now, u);
    }
    Store(items, s.nextId)
  }

  lemma {:induction false} FilterKeepsUnread(items: seq<Notification>, now: int, u: UserId)
    ensures UnreadCount(Seqs.Filter(items, (n: Notification) => SurvivesCleanup(n, now)), u) == UnreadCount(items, u)
  {
    if |items| > 0 {
      FilterKeepsUnread(items[1..], now, u);
    }
  }

  /** The cleanup window equals the TTL, so every notification the cleanup
      removes could already have been removed by the TTL monitor. */
  lemma CleanupWithinTtl(s: Store, now: int, n: Notification)
    requires n in s.items && n !in Cleanup(s, now).items
    ensures TtlExpired(n, now)
  {
  }

  /** After a TTL sweep the cleanup finds nothing left to delete. */
  lemma CleanupAfterTtlSweep(s: Store, now: int)
    ensures var swept := Seqs.Filter(s.items, (n: Notification) => !TtlExpired(n, now));
      Cleanup(Store(swept, s.nextId), now) == Store(swept, s.nextId)
  {
    var swept := Seqs.Filter(s.items, (n: Notification) => !TtlExpired(n, now));
    Seqs.FilterKeepsAll(swept, (n: Notification) => SurvivesCleanup(n, now));
  }

  // ---------------------------------------------------------------------
  // Listing
  // ---------------------------------------------------------------------

  datatype ListReply = ListReply(notifications: seq<Notification>, pagination: Paging.PageInfo, unreadCount: nat)

  function ByCreatedAt(n: Notification): int { n.createdAt }

  /** The caller's notifications, in store order. */
  function Inbox(items: seq<Notification>, u: UserId): (r: seq<Notification>)
    ensures forall n :: n in r <==> n in items && n.recipient == u
    ensures multiset(r) <= multiset(items)
    ensures |r| == Seqs.Count(items, (n: Notification) => n.recipient == u)
  {
    var p := (n: Notification) => n.recipient == u;
    Seqs.CountIsFilterLength(items, p);
    forall n ensures n in Seqs.Filter(items, p) <==> n in items && n.recipient == u {
      Seqs.FilterMembers(items, p, n);
    }
    Seqs.Filter(items, p)
  }

  /** Distinct ids make distinct records. */
  lemma WellFormedDistinct(s: Store)
    requires WellFormed(s)
    ensures Seqs.Distinct(s.items)
  {
  }

  /** `getNotifications` for caller `u`: page and limit default to 1 and 20
      when absent, unparsable or zero; the caller's notifications newest
      first, one page of them, the page information over all of them and
      the unread count. `None` is the 500 a negative skip produces. The
      `k`-th entry holds the rank `skip + k` among the caller's
      notifications. */
  function List(s: Store, u: UserId, rawPage: Option<int>, rawLimit: Option<int>): (r: Option<ListReply>)
    ensures var page := Paging.QueryIntOr(rawPage, 1); var limit := Paging.QueryIntOr(rawLimit, 20);
      r.None? <==> Paging.SkipFor(page, limit) < 0
    ensures r.Some? ==> forall k :: 0 <= k < |r.value.notifications| ==>
      r.value.notifications[k] in s.items && r.value.notifications[k].recipient == u
    ensures r.Some? ==> Seqs.SortedDesc(r.value.notifications, ByCreatedAt)
    ensures r.Some? ==> var page := Paging.QueryIntOr(rawPage, 1); var limit := Paging.QueryIntOr(rawLimit, 20);
      |r.value.notifications| == Seqs.PageLength(|Inbox(s.items, u)|, Paging.SkipFor(page, limit), limit)
      && (forall k :: 0 <= k < |r.value.notifications| ==>
            Seqs.RankedAt(Inbox(s.items, u), ByCreatedAt, r.value.notifications[k], Paging.SkipFor(page, limit) + k))
      && r.value.pagination == Paging.Paginate(page, limit, |Inbox(s.items, u)|)
    ensures r.Some? && WellFormed(s) ==> Seqs.Distinct(r.value.notifications)
    ensures r.Some? ==> r.value.pagination.total == Seqs.Count(s.items, (n: Notification) => n.recipient == u)
    ensures r.Some? ==> r.value.unreadCount == UnreadCount(s.items, u)
  {
    var page := Paging.QueryIntOr(rawPage, 1);
    var limit := Paging.QueryIntOr(rawLimit, 20);
    var mine := Inbox(s.items, u);
    var w := Seqs.SortedPage(mine, ByCreatedAt, Paging.SkipFor(page, limit), limit);
    if w.None? then None
    else
      assert WellFormed(s) ==> Seqs.Distinct(w.value) by {
        if WellFormed(s) {
          WellFormedDistinct(s);
          Seqs.DistinctSub(w.value, s.items);
        }
      }
      Some(ListReply(w.value, Paging.Paginate(page, limit, |mine|), UnreadCount(s.items, u)))
  }
}

=== FILE: paging.dfy ===
/** The pagination arithmetic the list endpoints share:
    `page = parseInt(q.page) || 1`, `limit = parseInt(q.limit) || d`,
    `skip = (page - 1) * limit`, `totalPages = Math.ceil(total / limit)` and
    `hasMore = page * limit < total` (controllers/notification.controller.js,
    controllers/follow.controller.js, controllers/feed.controller.js). */
module Paging {
  import opened Wrappers
  import opened Seqs

  /** `parseInt(raw) || fallback`. `None` stands for a missing or unparsable
      value (NaN); NaN and 0 are falsy, so both give the fallback. */
  function QueryIntOr(raw: Option<int>, fallback: int): (r: int)
    ensures raw.Some? && raw.value != 0 ==> r == raw.value
    ensures raw.None? || raw.value == 0 ==> r == fallback
    ensures fallback != 0 ==> r != 0
  {
    if raw.Some? && raw.value != 0 then raw.value else fallback
  }

  function SkipFor(page: int, limit: int): int {
    (page - 1) * limit
  }

  /** `Math.ceil(total / limit)` for a non-zero limit. */
  function CeilDiv(total: nat, limit: int): (r: int)
    requires limit != 0
    ensures limit > 0 ==> (r - 1) * limit < total <= r * limit
    ensures limit > 0 ==> r >= 0
    ensures limit < 0 ==> r * limit <= total < (r - 1) * limit
  {
    if limit > 0 then
      var q := (total + limit - 1) / limit;
      assert q * limit <= total + limit - 1 < (q + 1) * limit;
      q
    else
      var q := total / -limit;
      assert q * -limit <= total < (q + 1) * -limit;
      -q
  }

  /** The `pagination` object of a list response. */
  datatype PageInfo = PageInfo(currentPage: int, totalPages: int, total: nat, hasMore: bool)

  /** The `pagination` object for `total` items. The handlers never pass a
      zero limit: `parseInt(x) || d` turns 0 into the default `d`. */
  function Paginate(page: int, limit: int, total: nat): (r: PageInfo)
    requires limit != 0
    ensures r.currentPage == page && r.total == total
    ensures limit > 0 ==> (r.totalPages - 1) * limit < total <= r.totalPages * limit
  {
    PageInfo(page, CeilDiv(total, limit), total, page * limit < total)
  }

  /** For ordinary page and limit values, "there is more" is exactly "this
      is not the last page". */
  lemma HasMoreIffBeforeLastPage(page: int, limit: int, total: nat)
    requires page >= 1 && limit >= 1
    ensures Paginate(page, limit, total).hasMore <==> page < Paginate(page, limit, total).totalPages
  {
    var t := CeilDiv(total, limit);
    if page * limit < total {
      MulCancel(page, t, limit);
    } else {
      MulCancel(t - 1, page, limit);
    }
  }

  lemma MulCancel(a: int, b: int, c: int)
    requires c > 0 && a * c < b * c
    ensures a < b
  {
  }

  /** `hasMore` holds exactly when items remain after the page the same
      `skip`/`limit` select. */
  lemma HasMoreIffItemsRemain<T>(xs: seq<T>, page: int, limit: int)
    requires page >= 1 && limit >= 1
    ensures Window(xs, SkipFor(page, limit), limit).Some?
    ensures Paginate(page, limit, |xs|).hasMore
      <==> SkipFor(page, limit) + |Window(xs, SkipFor(page, limit), limit).value| < |xs|
  {
    var skip := SkipFor(page, limit);
    assert page * limit == skip + limit;
    assert skip >= 0;
  }
}

=== FILE: presence.dfy ===
/** The presence registry of socket.js (`connectedUsers`: user id to
    socket id) and the events the server emits. An emit is recorded as a
    target, an event name and a payload; delivery itself is left to the
    transport. */
module Presence {
  import opened Wrappers
  import opened Users

  /** The registry, and whether the socket server has been initialised
      (`io` is set). */
  datatype Registry = Registry(sockets: map<UserId, SocketId>, ioReady: bool)

  predicate IsOnline(r: Registry, u: UserId) {
    u in r.sockets
  }

  /** A connection stores its socket id under the user, replacing any
      entry the user had. */
  function Connect(r: Registry, u: UserId, sid: SocketId): (q: Registry)
    ensures IsOnline(q, u) && q.sockets[u] == sid
    ensures forall v :: v != u ==> (IsOnline(q, v) <==> IsOnline(r, v))
    ensures forall v :: v != u && v in r.sockets ==> v in q.sockets && q.sockets[v] == r.sockets[v]
    ensures q.ioReady == r.ioReady
  {
    r.(sockets := r.sockets[u := sid])
  }

  /** A disconnect deletes the user's entry, whichever socket it names. */
  function Disconnect(r: Registry, u: UserId): (q: Registry)
    ensures !IsOnline(q, u)
    ensures forall v :: v != u ==> (IsOnline(q, v) <==> IsOnline(r, v))
    ensures forall v :: v != u && v in r.sockets ==> v in q.sockets && q.sockets[v] == r.sockets[v]
    ensures q.ioReady == r.ioReady
  {
    r.(sockets := r.sockets - {u})
  }

  /** Connecting and disconnecting a user who was offline restores the
      registry. */
  lemma ConnectDisconnect(r: Registry, u: UserId, sid: SocketId)
    requires !IsOnline(r, u)
    ensures Disconnect(Connect(r, u, sid), u) == r
  {
    assert Disconnect(Connect(r, u, sid), u).sockets == r.sockets;
  }

  /** Two tabs: the second connection overwrites the first, and when the
      first socket disconnects the user reads as offline although the
      second socket is still open. */
  lemma StaleDisconnect(r: Registry, u: UserId, first: SocketId, second: SocketId)
    ensures Connect(Connect(r, u, first), u, second).sockets[u] == second
    ensures !IsOnline(Disconnect(Connect(Connect(r, u, first), u, second), u), u)
  {
  }

  // ---------------------------------------------------------------------
  // Events
  // ---------------------------------------------------------------------

  datatype Room = ConversationRoom(conversation: nat) | UserRoom(user: UserId)

  /** `io.to(socketId)`, `socket.to(room)` (everyone in the room except
      the sending socket) and `socket.broadcast` (everyone but the sender). */
  datatype Target =
    | ToSocket(socket: SocketId)
    | ToRoomExcept(room: Room, except: SocketId)
    | BroadcastExcept(except: SocketId)

  /** The fields of a notification a live push carries. */
  datatype NoteView = NoteView(kind: string, message: string, sender: UserId, recipient: UserId)

  /** The bodies of the events the handlers emit. `TypedNotificationPayload`
      is a `newNotification` body that also carries a `type` field. */
  datatype Payload =
    | NewMessagePayload(messageId: nat, conversationId: nat, senderId: UserId, content: string, kind: string, status: string)
    | MessageSentPayload(messageId: nat, conversationId: nat, content: string, status: string, tempId: Option<string>)
    | MessageErrorPayload(tempId: Option<string>)
    | MessageNotificationPayload(conversationId: nat, senderName: string, rawContent: Option<string>)
    | MessagesDeliveredPayload(conversationId: nat, userId: UserId)
    | MessagesReadPayload(conversationId: nat, messageIds: seq<nat>, readBy: UserId)
    | NewNotificationPayload(note: NoteView, unreadCount: int)
    | TypedNotificationPayload(note: NoteView, unreadCount: int, kind: string)
    | UserUnfollowedPayload(unfollowedBy: UserId, unreadCount: int)
    | UserStatusPayload(userId: UserId, status: string)
    | FollowRequestSentPayload(targetUserId: UserId)
    | FollowRequestAcceptedPayload(requesterId: UserId)
    | FollowRequestErrorPayload

  datatype Emit = Emit(target: Target, event: string, payload: Payload)

  /** `emitToUser`: sends to the user's socket and answers `true` when the
      user is registered and the server is up; answers `false` and sends
      nothing otherwise. */
  function EmitToUser(r: Registry, u: UserId, event: string, payload: Payload): (res: (bool, seq<Emit>))
    ensures res.0 <==> IsOnline(r, u) && r.ioReady
    ensures |res.1| == if res.0 then 1 else 0
    ensures res.0 ==> res.1[0].target == ToSocket(r.sockets[u]) && res.1[0].event == event && res.1[0].payload == payload
  {
    if u in r.sockets && r.ioReady then (true, [Emit(ToSocket(r.sockets[u]), event, payload)])
    else (false, [])
  }

  /** The emits of `emitToUser` for each id of `ids`, in order. */
  function EmitsFor(r: Registry, ids: seq<UserId>, event: string, payload: Payload): seq<Emit> {
    if |ids| == 0 then []
    else EmitsFor(r, ids[..|ids| - 1], event, payload) + EmitToUser(r, ids[|ids| - 1], event, payload).1
  }

  /** The number of ids of `ids` that are reachable. */
  function Reachable(r: Registry, ids: seq<UserId>): nat {
    if |ids| == 0 then 0
    else Reachable(r, ids[..|ids| - 1]) + (if IsOnline(r, ids[|ids| - 1]) && r.ioReady then 1 else 0)
  }

  /** One message per reachable user, and none for the others. */
  lemma {:induction false} EmitsForCount(r: Registry, ids: seq<UserId>, event: string, payload: Payload)
    ensures |EmitsFor(r, ids, event, payload)| == Reachable(r, ids)
    ensures !r.ioReady ==> EmitsFor(r, ids, event, payload) == []
  {
    if |ids| > 0 {
      EmitsForCount(r, ids[..|ids| - 1], event, payload);
    }
  }

  /** `emitToUsers`: one answer per id, in the order given, and the emits
      of `emitToUser` for each id in turn. */
  method EmitToUsers(r: Registry, ids: seq<UserId>, event: string, payload: Payload)
    returns (results: seq<bool>, emits: seq<Emit>)
    ensures |results| == |ids|
    ensures forall i :: 0 <= i < |ids| ==> (results[i] <==> IsOnline(r, ids[i]) && r.ioReady)
    ensures emits == EmitsFor(r, ids, event, payload)
  {
    results := [];
    emits := [];
    var i := 0;
    while i < |ids|
      invariant 0 <= i <= |ids|
      invariant |results| == i
      invariant forall j :: 0 <= j < i ==> (results[j] <==> IsOnline(r, ids[j]) && r.ioReady)
      invariant emits == EmitsFor(r, ids[..i], event, payload)
    {
      var sent := EmitToUser(r, ids[i], event, payload);
      results := results + [sent.0];
      assert ids[..i + 1][..i] == ids[..i];
      emits := emits + sent.1;
      i := i + 1;
    }
    assert ids[..|ids|] == ids;
  }

  /** `sendFollowNotification`: pushes `newNotification` with the
      notification's own unread count, or 1 when it has none (absent or
      zero). */
  function SendFollowNotification(r: Registry, target: UserId, note: NoteView, unreadCount: Option<int>): (res: (bool, seq<Emit>))
    ensures res.0 <==> IsOnline(r, target) && r.ioReady
    ensures |res.1| == if res.0 then 1 else 0
    ensures res.0 ==> res.1[0].target == ToSocket(r.sockets[target])
    ensures res.0 ==> res.1[0].event == "newNotification" && res.1[0].payload.NewNotificationPayload?
    ensures res.0 ==> res.1[0].payload.note == note && res.1[0].payload.unreadCount != 0
    ensures res.0 && unreadCount.Some? && unreadCount.value != 0 ==> res.1[0].payload.unreadCount == unreadCount.value
    ensures res.0 && (unreadCount.None? || unreadCount.value == 0) ==> res.1[0].payload.unreadCount == 1
  {
    var count := if unreadCount.Some? && unreadCount.value != 0 then unreadCount.value else 1;
    EmitToUser(r, target, "newNotification", NewNotificationPayload(note, count))
  }

  /** `sendMessageNotification`: the message data, unchanged, to the
      user's own socket as `messageNotification`. */
  function SendMessageNotification(r: Registry, u: UserId, payload: Payload): (res: (bool, seq<Emit>))
    ensures res.0 <==> IsOnline(r, u) && r.ioReady
    ensures |res.1| == if res.0 then 1 else 0
    ensures res.0 ==> res.1[0].target == ToSocket(r.sockets[u])
    ensures res.0 ==> res.1[0].event == "messageNotification" && res.1[0].payload == payload
  {
    EmitToUser(r, u, "messageNotification", payload)
  }
}

=== FILE: project_controller.dfy ===
/** The handlers of controllers/project.controller.js: creating a project,
    adding a collaborator and searching for users to invite. */
module ProjectController {
  import opened Wrappers
  import opened Users
  import Projects
  import Seqs
  import Http

  datatype Outcome = Outcome(projects: seq<Projects.Project>, users: map<UserId, User>, code: int)

  /** The fields of a create request; `collaborators` is the list of ids
      the body carries, absent when the body has none. */
  datatype CreateRequest = CreateRequest(
    title: Option<string>,
    description: Option<string>,
    githubUrl: Option<string>,
    liveUrl: Option<string>,
    techStack: seq<string>,
    projectTypes: Option<string>,
    collaborators: Option<seq<UserId>>)

  function Build(req: CreateRequest, caller: UserId, collaborators: seq<UserId>, now: int): Option<Projects.Project> {
    Projects.NewProject(req.title, req.description, req.githubUrl, req.liveUrl, req.techStack, req.projectTypes,
      caller, collaborators, now)
  }

  /** `createProject` as the controller reads. The collaborator list is
      mapped before anything else, so a body without one fails with 500;
      a document that fails validation is a 500 too. The project references
      pushed onto the owner and the collaborators are dropped, because the
      user schema has no `projects` path, so no user record changes. */
  function CreateProjectAsWritten(projects: seq<Projects.Project>, users: map<UserId, User>, caller: UserId,
                                  req: CreateRequest, now: int): (r: Outcome)
    ensures r.users == users
    ensures r.code in {Http.Created, Http.ServerError}
    ensures r.code == Http.Created <==> req.collaborators.Some? && Build(req, caller, req.collaborators.value, now).Some?
    ensures r.code != Http.Created ==> r.projects == projects
    ensures r.code == Http.Created ==> r.projects == projects + [Build(req, caller, req.collaborators.value, now).value]
  {
    if req.collaborators.None? then Outcome(projects, users, Http.ServerError)
    else
      var p := Build(req, caller, req.collaborators.value, now);
      if p.None? then Outcome(projects, users, Http.ServerError)
      else Outcome(projects + [p.value], users, Http.Created)
  }

  /** A user record after the two `$push` updates of a create: an `owner`
      reference when the user is the owner, then a `collaborator` reference
      when the user is listed, however often. The updates bypass the save
      hooks, so nothing else changes. */
  function Enrol(u: User, id: UserId, pid: nat, owner: UserId, collaborators: seq<UserId>): (r: User)
    ensures r.(projects := u.projects) == u
    ensures r.projects == u.projects
      + (if id == owner then [ProjectRef(pid, AsOwner)] else [])
      + (if id in collaborators then [ProjectRef(pid, AsCollaborator)] else [])
  {
    u.(projects := u.projects
      + (if id == owner then [ProjectRef(pid, AsOwner)] else [])
      + (if id in collaborators then [ProjectRef(pid, AsCollaborator)] else []))
  }

  /** `createProject` with a missing collaborator list read as empty and
      the user's project list in place. On 201 the project is appended, and
      every stored user gains the references `Enrol` describes: the owner
      one `owner` reference, each listed collaborator one `collaborator`
      reference, nobody else anything. */
  function CreateProject(projects: seq<Projects.Project>, users: map<UserId, User>, caller: UserId,
                         req: CreateRequest, now: int): (r: Outcome)
    ensures r.code in {Http.Created, Http.ServerError}
    ensures r.code == Http.Created <==> Build(req, caller, req.collaborators.GetOr([]), now).Some?
    ensures r.code != Http.Created ==> r.projects == projects && r.users == users
    ensures r.code == Http.Created ==> r.projects == projects + [Build(req, caller, req.collaborators.GetOr([]), now).value]
    ensures r.users.Keys == users.Keys
    ensures r.code == Http.Created ==> forall id :: id in users ==>
      r.users[id] == Enrol(users[id], id, |projects|, caller, req.collaborators.GetOr([]))
  {
    var cs := req.collaborators.GetOr([]);
    var p := Build(req, caller, cs, now);
    if p.None? then Outcome(projects, users, Http.ServerError)
    else
      var users' := map id | id in users :: Enrol(users[id], id, |projects|, caller, cs);
      Outcome(projects + [p.value], users', Http.Created)
  }

  /** A body without a collaborator list: the controller as written fails
      where the corrected one creates the project. */
  lemma MissingCollaboratorsAsWritten(projects: seq<Projects.Project>, users: map<UserId, User>, caller: UserId,
                                      req: CreateRequest, now: int)
    requires req.collaborators.None? && Build(req, caller, [], now).Some?
    ensures CreateProjectAsWritten(projects, users, caller, req, now).code == Http.ServerError
    ensures CreateProject(projects, users, caller, req, now).code == Http.Created
  {
  }

  /** A listed collaborator gets exactly one collaborator reference to the
      new project, even when listed twice. */
  lemma CollaboratorEnrolledOnce(projects: seq<Projects.Project>, users: map<UserId, User>, caller: UserId,
                                 req: CreateRequest, now: int, id: UserId)
    requires CreateProject(projects, users, caller, req, now).code == Http.Created
    requires id in users && id != caller && id in req.collaborators.GetOr([])
    ensures var r := CreateProject(projects, users, caller, req, now);
      r.users[id].projects == users[id].projects + [ProjectRef(|projects|, AsCollaborator)]
  {
  }

  // ---------------------------------------------------------------------
  // addCollaborator
  // ---------------------------------------------------------------------

  /** The refusals of `addCollaborator`, in order: 404 for an unknown
      project, 403 unless the caller owns it, 400 when the user already
      collaborates. */
  function AddRefusal(projects: seq<Projects.Project>, caller: UserId, pid: nat, collaboratorId: UserId): (r: Option<int>)
    ensures r.None? <==>
      pid < |projects| && projects[pid].owner == caller && !Projects.IsCollaborator(projects[pid], collaboratorId)
    ensures r == Some(Http.NotFound) <==> pid >= |projects|
    ensures r == Some(Http.Forbidden) <==> pid < |projects| && projects[pid].owner != caller
  {
    if pid >= |projects| then Some(Http.NotFound)
    else if projects[pid].owner != caller then Some(Http.Forbidden)
    else if Projects.IsCollaborator(projects[pid], collaboratorId) then Some(Http.BadRequest)
    else None
  }

  /** `addCollaborator` as the controller reads: the project gains one
      entry for the collaborator; the push onto the user is dropped. */
  function AddCollaboratorAsWritten(projects: seq<Projects.Project>, users: map<UserId, User>, caller: UserId,
                                    pid: nat, collaboratorId: UserId, now: int): (r: Outcome)
    ensures r.users == users
    ensures r.code == Http.OK <==> AddRefusal(projects, caller, pid, collaboratorId).None?
    ensures r.code != Http.OK ==> r.projects == projects
    ensures r.code == Http.OK ==> r.projects == projects[pid := Projects.AddCollaborator(projects[pid], collaboratorId, now)]
  {
    var refusal := AddRefusal(projects, caller, pid, collaboratorId);
    if refusal.Some? then Outcome(projects, users, refusal.value)
    else Outcome(projects[pid := Projects.AddCollaborator(projects[pid], collaboratorId, now)], users, Http.OK)
  }

  /** `addCollaborator` with the user's project list in place: on 200 the
      project gains the `$push`ed entry and keeps everything else, so it
      holds exactly one entry for the collaborator, and a stored
      collaborator gains exactly one `collaborator` reference. The project
      side is the same as the code as written; only the user side
      differs. */
  function AddCollaborator(projects: seq<Projects.Project>, users: map<UserId, User>, caller: UserId,
                           pid: nat, collaboratorId: UserId, now: int): (r: Outcome)
    ensures r.code in {Http.NotFound, Http.Forbidden, Http.BadRequest, Http.OK}
    ensures r.code == Http.OK <==> AddRefusal(projects, caller, pid, collaboratorId).None?
    ensures r.code != Http.OK ==> r.projects == projects && r.users == users
    ensures |r.projects| == |projects|
    ensures r.code == Http.OK ==> Projects.EntriesOf(r.projects[pid].collaborators, collaboratorId) == 1
    ensures r.code == Http.OK ==> forall i :: 0 <= i < |projects| && i != pid ==> r.projects[i] == projects[i]
    ensures r.code == Http.OK ==> r.projects == projects[pid := Projects.AddCollaborator(projects[pid], collaboratorId, now)]
    ensures var w := AddCollaboratorAsWritten(projects, users, caller, pid, collaboratorId, now);
      r.code == w.code && r.projects == w.projects
    ensures r.code == Http.OK ==> r.users == if collaboratorId in users then
      users[collaboratorId := users[collaboratorId].(projects := users[collaboratorId].projects + [ProjectRef(pid, AsCollaborator)])]
      else users
  {
    var refusal := AddRefusal(projects, caller, pid, collaboratorId);
    if refusal.Some? then Outcome(projects, users, refusal.value)
    else
      var p := Projects.AddCollaborator(projects[pid], collaboratorId, now);
      var users' := if collaboratorId in users then
        users[collaboratorId := users[collaboratorId].(projects := users[collaboratorId].projects + [ProjectRef(pid, AsCollaborator)])]
        else users;
      Outcome(projects[pid := p], users', Http.OK)
  }

  /** Adding the same collaborator twice: the second request is refused
      with 400 and changes nothing. */
  lemma AddCollaboratorTwice(projects: seq<Projects.Project>, users: map<UserId, User>, caller: UserId,
                             pid: nat, collaboratorId: UserId, now: int, later: int)
    requires AddCollaborator(projects, users, caller, pid, collaboratorId, now).code == Http.OK
    ensures var r := AddCollaborator(projects, users, caller, pid, collaboratorId, now);
      AddCollaborator(r.projects, r.users, caller, pid, collaboratorId, later) == Outcome(r.projects, r.users, Http.BadRequest)
  {
  }

  // ---------------------------------------------------------------------
  // searchUsers
  // ---------------------------------------------------------------------

  const SearchLimit: nat := 10

  /** `searchUsers`: 400 without a query; otherwise the first ten stored
      users other than the caller whose full name or email the query
      matches, in the collection's natural order `order`. `matches` stands
      for the case-insensitive regular-expression test. */
  function SearchUsers(users: map<UserId, User>, order: seq<UserId>, caller: UserId, query: Option<string>,
                       matches: (string, string) -> bool): (r: (seq<UserId>, int))
    ensures r.1 == Http.BadRequest <==> query.None? || query.value == ""
    ensures r.1 != Http.BadRequest ==> r.1 == Http.OK
    ensures r.1 == Http.BadRequest ==> r.0 == []
    ensures |r.0| <= SearchLimit
    ensures forall id :: id in r.0 ==>
      (id in order && id in users && id != caller
       && (matches(users[id].fullname, query.value) || matches(users[id].email, query.value)))
    ensures r.1 == Http.OK ==>
      var hits := Seqs.Filter(order, (id: UserId) => id in users && id != caller
        && (matches(users[id].fullname, query.value) || matches(users[id].email, query.value)));
      r.0 == hits[..Seqs.Min(SearchLimit, |hits|)]
  {
    if query.None? || query.value == "" then ([], Http.BadRequest)
    else
      var hit := (id: UserId) => id in users && id != caller
        && (matches(users[id].fullname, query.value) || matches(users[id].email, query.value));
      var hits := Seqs.Filter(order, hit);
      var page := hits[..Seqs.Min(SearchLimit, |hits|)];
      assert forall id :: id in page ==> id in order && hit(id) by {
        forall id | id in page ensures id in order && hit(id) {
          assert id in hits;
          Seqs.FilterMembers(order, hit, id);
        }
      }
      (page, Http.OK)
  }
}

=== FILE: projects.dfy ===
/** The Project document (models/project.model.js): status enum,
    collaborator entries and the checks the schema applies on save. */
module Projects {
  import opened Wrappers
  import opened Text
  import opened Users
  import Seqs

  /** Projects are addressed by their position in the collection. */
  type ProjectId = nat

  datatype ProjectStatus = Completed | InProgress | Collaborative

  function ProjectStatusName(s: ProjectStatus): string {
    match s
    case Completed => "completed"
    case InProgress => "active"
    case Collaborative => "collaborative"
  }

  /** The `projectStatus` enum check; the field is required, so an absent
      value fails as well. */
  function ParseProjectStatus(s: Option<string>): (r: Option<ProjectStatus>)
    ensures r.Some? <==> s.Some? && (s.value == "completed" || s.value == "active" || s.value == "collaborative")
    ensures r.Some? ==> ProjectStatusName(r.value) == s.value
  {
    if s == Some("completed") then Some(Completed)
    else if s == Some("active") then Some(InProgress)
    else if s == Some("collaborative") then Some(Collaborative)
    else None
  }

  lemma ProjectStatusRoundTrip(s: ProjectStatus)
    ensures ParseProjectStatus(Some(ProjectStatusName(s))) == Some(s)
  {
  }

  /** A `collaborators` entry: the user and `joinedAt`, which defaults to
      the time the entry is created. */
  datatype Collaborator = Collaborator(userId: UserId, joinedAt: int)

  datatype Project = Project(
    title: string,
    description: string,
    githubUrl: Option<string>,
    liveUrl: Option<string>,
    techStack: seq<string>,
    status: ProjectStatus,
    owner: UserId,
    collaborators: seq<Collaborator>,
    purposes: seq<string>,
    isActive: bool,
    createdAt: int)

  /** Whether `u` has a collaborator entry (the `collaborators.some(...)`
      test of the controllers). */
  predicate IsCollaborator(p: Project, u: UserId) {
    exists i :: 0 <= i < |p.collaborators| && p.collaborators[i].userId == u
  }

  /** The number of entries `u` has in the collaborator list. */
  function EntriesOf(cs: seq<Collaborator>, u: UserId): (n: nat)
    ensures n == 0 <==> forall i :: 0 <= i < |cs| ==> cs[i].userId != u
  {
    if |cs| == 0 then 0
    else (if cs[|cs| - 1].userId == u then 1 else 0) + EntriesOf(cs[..|cs| - 1], u)
  }

  /** Appending an entry for `u` adds exactly one entry for `u` and none for
      anybody else. */
  lemma EntriesOfAppend(cs: seq<Collaborator>, c: Collaborator, v: UserId)
    ensures EntriesOf(cs + [c], v) == EntriesOf(cs, v) + (if c.userId == v then 1 else 0)
  {
    assert (cs + [c])[..|cs|] == cs;
  }

  /** A `collaborators.push({ userId: u })`: one more entry, for `u`,
      joined now, and nothing else about the project changes. There is no
      duplicate check here; callers decide whether to push. */
  function AddCollaborator(p: Project, u: UserId, now: int): (r: Project)
    ensures r.(collaborators := p.collaborators) == p
    ensures |r.collaborators| == |p.collaborators| + 1 && r.collaborators[..|p.collaborators|] == p.collaborators
    ensures IsCollaborator(r, u)
    ensures forall v :: EntriesOf(r.collaborators, v) == EntriesOf(p.collaborators, v) + (if v == u then 1 else 0)
  {
    var c := Collaborator(u, now);
    assert forall v :: EntriesOf(p.collaborators + [c], v) == EntriesOf(p.collaborators, v) + (if v == u then 1 else 0) by {
      forall v ensures EntriesOf(p.collaborators + [c], v) == EntriesOf(p.collaborators, v) + (if v == u then 1 else 0) {
        EntriesOfAppend(p.collaborators, c, v);
      }
    }
    var r := p.(collaborators := p.collaborators + [c]);
    assert r.collaborators[|p.collaborators|].userId == u;
    r
  }

  /** The result of building a new project document and saving it: the
      required title (trimmed by the schema), description and status. */
  function NewProject(
    title: Option<string>, description: Option<string>, githubUrl: Option<string>,
    liveUrl: Option<string>, techStack: seq<string>, projectTypes: Option<string>,
    owner: UserId, collaborators: seq<UserId>, now: int): (r: Option<Project>)
    ensures r.Some? <==>
      title.Some? && Trim(title.value) != "" && description.Some? && description.value != ""
      && ParseProjectStatus(projectTypes).Some?
    ensures r.Some? ==> r.value.owner == owner && r.value.isActive && r.value.createdAt == now
    ensures r.Some? ==> r.value.title == Trim(title.value)
    ensures r.Some? ==> Some(ProjectStatusName(r.value.status)) == projectTypes
    ensures r.Some? ==> |r.value.collaborators| == |collaborators|
    ensures r.Some? ==> forall i :: 0 <= i < |collaborators| ==>
      r.value.collaborators[i] == Collaborator(collaborators[i], now)
  {
    var status := ParseProjectStatus(projectTypes);
    if title.None? || Trim(title.value) == "" || description.None? || description.value == "" || status.None? then None
    else
      Some(Project(Trim(title.value), description.value, githubUrl.Map(Trim), liveUrl.Map(Trim),
        Seqs.MapSeq(techStack, Trim), status.value, owner,
        seq(|collaborators|, i requires 0 <= i < |collaborators| => Collaborator(collaborators[i], now)),
        [], true, now))
  }
}

=== FILE: realtime.dfy ===
/** The socket handlers of socket.js: connect and disconnect, joining a
    conversation, sending a message, marking messages read, status
    updates and the follow-request push. Each handler takes the server's
    state and answers the new state with the events it emits. */
module Realtime {
  import opened Wrappers
  import opened Users
  import opened Conversations
  import opened Messages
  import Presence
  import Notifications
  import Seqs
  import UserController

  /** What the handlers read and write: the presence registry and the
      user, conversation and message collections. */
  datatype World = World(
    reg: Presence.Registry,
    users: map<UserId, User>,
    cs: seq<Conversation>,
    ms: seq<Message>)

  datatype Step = Step(world: World, emits: seq<Presence.Emit>)

  /** The registry and the stored `socketID` fields agree: a stored user
      has a socket id exactly when registered, and it is the registered
      one. */
  predicate Consistent(w: World) {
    forall u :: u in w.users ==>
      (w.users[u].socketId.Some? <==> u in w.reg.sockets)
      && (u in w.reg.sockets ==> w.users[u].socketId == Some(w.reg.sockets[u]))
  }

  // ---------------------------------------------------------------------
  // Connection
  // ---------------------------------------------------------------------

  /** The connection handler: the registry maps the user to this socket,
      and the user's record (when there is one) gets the socket id, status
      `active` and `lastActive` now. Nothing is emitted. */
  function Connect(w: World, caller: UserId, sid: SocketId, now: int): (r: Step)
    ensures r.world.reg == Presence.Connect(w.reg, caller, sid)
    ensures r.world.users.Keys == w.users.Keys && r.world.cs == w.cs && r.world.ms == w.ms && r.emits == []
    ensures caller in w.users ==>
      r.world.users[caller] == w.users[caller].(socketId := Some(sid), status := Active, lastActive := now)
    ensures forall u :: u in w.users && u != caller ==> r.world.users[u] == w.users[u]
    ensures Consistent(w) ==> Consistent(r.world)
  {
    var users := if caller in w.users
      then w.users[caller := w.users[caller].(socketId := Some(sid), status := Active, lastActive := now)]
      else w.users;
    Step(World(Presence.Connect(w.reg, caller, sid), users, w.cs, w.ms), [])
  }

  /** The disconnect handler: the user's registry entry is deleted, and the
      record loses its socket id and becomes `inactive`. */
  function Disconnect(w: World, caller: UserId, now: int): (r: Step)
    ensures r.world.reg == Presence.Disconnect(w.reg, caller)
    ensures r.world.users.Keys == w.users.Keys && r.world.cs == w.cs && r.world.ms == w.ms && r.emits == []
    ensures caller in w.users ==>
      r.world.users[caller] == w.users[caller].(socketId := None, status := Inactive, lastActive := now)
    ensures forall u :: u in w.users && u != caller ==> r.world.users[u] == w.users[u]
    ensures Consistent(w) ==> Consistent(r.world)
  {
    var users := if caller in w.users
      then w.users[caller := w.users[caller].(socketId := None, status := Inactive, lastActive := now)]
      else w.users;
    Step(World(Presence.Disconnect(w.reg, caller), users, w.cs, w.ms), [])
  }

  /** Logging out over REST clears the stored socket id but leaves the
      registry entry, so a connected user who logs out breaks the agreement
      between the two; the socket's eventual disconnect restores it. */
  lemma LogoutLeavesRegistryStale(w: World, caller: UserId, now: int, later: int)
    requires Consistent(w) && caller in w.users && Presence.IsOnline(w.reg, caller)
    ensures var out := w.(users := UserController.LogoutUser(w.users, caller, now).0);
      !Consistent(out) && Consistent(Disconnect(out, caller, later).world)
  {
    var out := w.(users := UserController.LogoutUser(w.users, caller, now).0);
    assert out.users[caller].socketId.None? && caller in out.reg.sockets;
  }

  /** Two connections of the same user, then the first one closes: the user
      is recorded offline and inactive although the second socket is still
      open. */
  lemma SecondTabGoesDark(w: World, u: UserId, first: SocketId, second: SocketId, now: int)
    requires u in w.users
    ensures var w1 := Connect(Connect(w, u, first, now).world, u, second, now).world;
      var w2 := Disconnect(w1, u, now).world;
      !Presence.IsOnline(w2.reg, u) && w2.users[u].status == Inactive && w2.users[u].socketId.None?
  {
  }

  // ---------------------------------------------------------------------
  // joinConversation and markMessagesRead
  // ---------------------------------------------------------------------

  /** `joinConversation`: the caller's incoming `sent` messages of the
      conversation become `delivered`, and the rest of the room hears
      `messagesDelivered`. */
  function JoinConversation(w: World, caller: UserId, sid: SocketId, cid: ConversationId): (r: Step)
    ensures r.world == w.(ms := r.world.ms)
    ensures |r.world.ms| == |w.ms|
    ensures forall i :: 0 <= i < |w.ms| ==> r.world.ms[i].(status := w.ms[i].status) == w.ms[i]
    ensures forall i :: 0 <= i < |w.ms| ==>
      (r.world.ms[i] != w.ms[i] <==> w.ms[i].conversationId == cid && w.ms[i].senderId != caller && w.ms[i].status == Sent)
    ensures forall i :: 0 <= i < |w.ms| && r.world.ms[i] != w.ms[i] ==> r.world.ms[i].status == Delivered
    ensures r.emits == [Presence.Emit(Presence.ToRoomExcept(Presence.ConversationRoom(cid), sid), "messagesDelivered",
                                      Presence.MessagesDeliveredPayload(cid, caller))]
  {
    Step(w.(ms := MarkDeliveredOnJoin(w.ms, cid, caller)),
      [Presence.Emit(Presence.ToRoomExcept(Presence.ConversationRoom(cid), sid), "messagesDelivered",
                     Presence.MessagesDeliveredPayload(cid, caller))])
  }

  /** Joining again changes no message. */
  lemma JoinTwiceChangesNothingMore(w: World, caller: UserId, sid: SocketId, cid: ConversationId)
    ensures var w1 := JoinConversation(w, caller, sid, cid).world;
      JoinConversation(w1, caller, sid, cid).world == w1
  {
    var w1 := JoinConversation(w, caller, sid, cid).world;
    var w2 := JoinConversation(w1, caller, sid, cid).world;
    assert w2.ms == w1.ms;
  }

  /** `markMessagesRead`: the listed messages of the conversation that
      others sent become `read`, whatever their status; the room hears
      `messagesRead` with the ids as sent. */
  function MarkMessagesRead(w: World, caller: UserId, sid: SocketId, cid: ConversationId, ids: seq<MessageId>): (r: Step)
    ensures r.world == w.(ms := r.world.ms)
    ensures |r.world.ms| == |w.ms|
    ensures forall i :: 0 <= i < |w.ms| ==>
      r.world.ms[i] == if i in ids && w.ms[i].conversationId == cid && w.ms[i].senderId != caller
                       then w.ms[i].(status := Read) else w.ms[i]
    ensures r.emits == [Presence.Emit(Presence.ToRoomExcept(Presence.ConversationRoom(cid), sid), "messagesRead",
                                      Presence.MessagesReadPayload(cid, ids, caller))]
  {
    Step(w.(ms := MarkListedRead(w.ms, ids, cid, caller).0),
      [Presence.Emit(Presence.ToRoomExcept(Presence.ConversationRoom(cid), sid), "messagesRead",
                     Presence.MessagesReadPayload(cid, ids, caller))])
  }

  /** A message the reader sent never changes when the reader marks
      messages read, even when its id is listed. */
  lemma OwnMessagesUntouched(w: World, caller: UserId, sid: SocketId, cid: ConversationId, ids: seq<MessageId>, i: nat)
    requires i < |w.ms| && w.ms[i].senderId == caller
    ensures MarkMessagesRead(w, caller, sid, cid, ids).world.ms[i] == w.ms[i]
  {
  }

  // ---------------------------------------------------------------------
  // updateStatus
  // ---------------------------------------------------------------------

  /** `updateStatus`: only `active`, `inactive` and `busy` are accepted;
      then the record's status changes and everybody but the sender hears
      `userStatusUpdate`. Any other value changes nothing and emits
      nothing. */
  function UpdateStatus(w: World, caller: UserId, sid: SocketId, status: string): (r: Step)
    ensures ParseStatus(status).None? ==> r == Step(w, [])
    ensures ParseStatus(status).Some? ==>
      r.emits == [Presence.Emit(Presence.BroadcastExcept(sid), "userStatusUpdate", Presence.UserStatusPayload(caller, status))]
    ensures r.world.reg == w.reg && r.world.cs == w.cs && r.world.ms == w.ms && r.world.users.Keys == w.users.Keys
    ensures forall u :: u in w.users && u != caller ==> r.world.users[u] == w.users[u]
    ensures caller in w.users && ParseStatus(status).Some? ==>
      r.world.users[caller] == w.users[caller].(status := ParseStatus(status).value)
      && StatusName(r.world.users[caller].status) == status
    ensures Consistent(w) ==> Consistent(r.world)
  {
    match ParseStatus(status)
    case None => Step(w, [])
    case Some(s) =>
      var users := if caller in w.users then w.users[caller := w.users[caller].(status := s)] else w.users;
      Step(w.(users := users),
        [Presence.Emit(Presence.BroadcastExcept(sid), "userStatusUpdate", Presence.UserStatusPayload(caller, status))])
  }

  // ---------------------------------------------------------------------
  // sendMessage
  // ---------------------------------------------------------------------

  /** The filter of the socket upsert: a direct conversation whose
      participants include both ids; unlike the model's static finder it
      does not ask for exactly two entries. */
  predicate DirectWith(c: Conversation, a: UserId, b: UserId) {
    c.kind == Direct && a in c.participants && b in c.participants
  }

  /** The `findOneAndUpdate(..., { upsert: true })` of `sendMessage`: the
      first matching conversation gets its participants replaced by
      `[a, b]` and its activity refreshed; without a match a fresh direct
      conversation `[a, b]` is appended. */
  function UpsertDirect(cs: seq<Conversation>, a: UserId, b: UserId, now: int): (r: (seq<Conversation>, ConversationId))
    ensures r.1 < |r.0|
    ensures r.0[r.1].kind == Direct && r.0[r.1].participants == [a, b] && r.0[r.1].lastActivity == now
    ensures (exists i :: 0 <= i < |cs| && DirectWith(cs[i], a, b)) <==> |r.0| == |cs|
    ensures |r.0| == |cs| ==> DirectWith(cs[r.1], a, b) && r.0 == cs[r.1 := cs[r.1].(participants := [a, b], lastActivity := now)]
    ensures |r.0| != |cs| ==> r.0 == cs + [Fresh([a, b], Direct, now)] && r.1 == |cs|
  {
    match Seqs.FindIndex(cs, (c: Conversation) => DirectWith(c, a, b))
    case Some(i) => (cs[i := cs[i].(participants := [a, b], lastActivity := now)], i)
    case None => (cs + [Fresh([a, b], Direct, now)], |cs|)
  }

  /** Upserting twice with the same pair lands on the same conversation and
      creates nothing the second time. */
  lemma UpsertDirectStable(cs: seq<Conversation>, a: UserId, b: UserId, now: int, later: int)
    ensures var (cs1, i) := UpsertDirect(cs, a, b, now);
      var (cs2, j) := UpsertDirect(cs1, a, b, later);
      j == i && |cs2| == |cs1|
  {
    var (cs1, i) := UpsertDirect(cs, a, b, now);
    var p := (c: Conversation) => DirectWith(c, a, b);
    assert p(cs1[i]);
    var k := Seqs.FindIndex(cs1, p);
    forall j | 0 <= j < i ensures !p(cs1[j]) {
      assert cs1[j] == cs[j];
      assert j < |cs|;
    }
  }

  /** A message to oneself without a conversation id: the filter matches
      the sender's first direct conversation with anybody, and the update
      rewrites its participants to the sender twice, dropping the other
      participant. */
  lemma SelfMessageRewritesConversation(cs: seq<Conversation>, a: UserId, other: UserId, i: nat, now: int)
    requires i < |cs| && cs[i].kind == Direct && cs[i].participants == [a, other] && other != a
    requires forall j :: 0 <= j < i ==> !DirectWith(cs[j], a, a)
    ensures UpsertDirect(cs, a, a, now).1 == i
    ensures other !in UpsertDirect(cs, a, a, now).0[i].participants
  {
    assert DirectWith(cs[i], a, a);
  }

  /** The result of `sendMessage` for the sender: whether the message was
      stored. */
  predicate MessageAccepted(r: Step, sid: SocketId) {
    |r.emits| > 0 && r.emits[|r.emits| - 1].target == Presence.ToSocket(sid)
    && r.emits[|r.emits| - 1].event == "messageSent"
  }

  /** Where `sendMessage` stores the message: the conversation named by id
      (none when the id is unknown), or the upserted direct conversation
      with the recipient. */
  function ResolveConversation(cs: seq<Conversation>, caller: UserId, recipientId: UserId,
                               conversationId: Option<ConversationId>, now: int): (r: Option<(seq<Conversation>, ConversationId)>)
    ensures r.Some? ==> r.value.1 < |r.value.0| && |r.value.0| >= |cs|
    ensures conversationId.Some? ==> (r.Some? <==> conversationId.value < |cs|)
    ensures conversationId.Some? && r.Some? ==> r.value == (cs, conversationId.value)
    ensures conversationId.None? ==> r == Some(UpsertDirect(cs, caller, recipientId, now))
  {
    if conversationId.Some? then
      if conversationId.value < |cs| then Some((cs, conversationId.value)) else None
    else Some(UpsertDirect(cs, caller, recipientId, now))
  }

  /** `sendMessage` from `caller` on socket `sid`. An absent recipient is
      the empty id, which is never registered. The message is stored as
      `sent` and upgraded to `delivered` exactly when the recipient is
      registered; the room hears `newMessage`, a registered recipient gets
      `messageNotification`, and the sender's last event is `messageSent`
      or, when anything failed, `messageError`; both carry the client's
      `tempId`. There is no participant check. */
  function SendMessage(w: World, caller: UserId, callerName: string, sid: SocketId, recipientId: UserId,
                       content: Option<string>, kind: Option<string>, conversationId: Option<ConversationId>,
                       tempId: Option<string>, now: int): (r: Step)
    ensures |r.emits| >= 1
    ensures var last := r.emits[|r.emits| - 1];
      last.target == Presence.ToSocket(sid) && (last.event == "messageSent" || last.event == "messageError")
      && (last.payload.MessageSentPayload? || last.payload.MessageErrorPayload?) && last.payload.tempId == tempId
    ensures MessageAccepted(r, sid) <==>
      ResolveConversation(w.cs, caller, recipientId, conversationId, now).Some?
      && NewMessage(caller, ResolveConversation(w.cs, caller, recipientId, conversationId, now).value.1,
                    content, kind, None, None, None, now).Some?
    ensures !MessageAccepted(r, sid) ==> r.world.ms == w.ms && |r.emits| == 1
    ensures r.world.reg == w.reg && r.world.users == w.users
    ensures MessageAccepted(r, sid) ==>
      |r.world.ms| == |w.ms| + 1 && r.world.ms[..|w.ms|] == w.ms
      && r.world.ms[|w.ms|].senderId == caller && r.world.ms[|w.ms|].content == Text.Trim(content.value)
      && (r.world.ms[|w.ms|].status == if Presence.IsOnline(w.reg, recipientId) then Delivered else Sent)
      && r.emits[|r.emits| - 1].payload == Presence.MessageSentPayload(|w.ms|, r.world.ms[|w.ms|].conversationId,
           r.world.ms[|w.ms|].content, MessageStatusName(r.world.ms[|w.ms|].status), tempId)
    ensures MessageAccepted(r, sid) ==>
      var cid := r.world.ms[|w.ms|].conversationId;
      cid < |r.world.cs| && r.world.cs[cid].lastMessage == Some(|w.ms|) && r.world.cs[cid].lastActivity == now
    ensures MessageAccepted(r, sid) ==>
      |r.emits| == if Presence.IsOnline(w.reg, recipientId) then 3 else 2
    ensures MessageAccepted(r, sid) && conversationId.None? ==>
      r.world.cs[r.world.ms[|w.ms|].conversationId].participants == [caller, recipientId]
  {
    var error := [Presence.Emit(Presence.ToSocket(sid), "messageError", Presence.MessageErrorPayload(tempId))];
    var conv := ResolveConversation(w.cs, caller, recipientId, conversationId, now);
    if conv.None? then Step(w, error)
    else
      var (cs1, cid) := conv.value;
      var m := NewMessage(caller, cid, content, kind, None, None, None, now);
      if m.None? then Step(w.(cs := cs1), error)
      else
        var mid := |w.ms|;
        var online := recipientId in w.reg.sockets;
        var stored := if online then MarkAsDelivered(m.value) else m.value;
        var cs2 := cs1[cid := cs1[cid].(lastMessage := Some(mid), lastActivity := now)];
        var toRoom := Presence.Emit(Presence.ToRoomExcept(Presence.ConversationRoom(cid), sid), "newMessage",
          Presence.NewMessagePayload(mid, cid, caller, m.value.content, MessageTypeName(m.value.kind), "sent"));
        var toRecipient := if online then
          [Presence.Emit(Presence.ToSocket(w.reg.sockets[recipientId]), "messageNotification",
            Presence.MessageNotificationPayload(cid, callerName, content))]
          else [];
        var toSender := Presence.Emit(Presence.ToSocket(sid), "messageSent",
          Presence.MessageSentPayload(mid, cid, m.value.content, MessageStatusName(stored.status), tempId));
        Step(World(w.reg, w.users, cs2, w.ms + [stored]), [toRoom] + toRecipient + [toSender])
  }

  /** A message whose content is blank is refused with `messageError`,
      but a missing conversation id has already created or rewritten the
      direct conversation. */
  lemma BlankMessageStillUpserts(w: World, caller: UserId, callerName: string, sid: SocketId, recipientId: UserId,
                                 content: string, tempId: Option<string>, now: int)
    requires Text.Trim(content) == ""
    ensures var r := SendMessage(w, caller, callerName, sid, recipientId, Some(content), None, None, tempId, now);
      !MessageAccepted(r, sid) && r.world.cs == UpsertDirect(w.cs, caller, recipientId, now).0
  {
  }

  // ---------------------------------------------------------------------
  // sendFollowRequest
  // ---------------------------------------------------------------------

  function FollowRequestMessage(callerName: string): string {
    callerName + " sent you a follow request"
  }

  /** `sendFollowRequest`: nothing is stored. A registered target gets a
      `newNotification` of kind `follow_request`, a kind the notification
      schema does not accept, with its stored unread count plus one; the
      sender always gets `followRequestSent`. */
  function SendFollowRequest(w: World, notes: Notifications.Store, caller: UserId, callerName: string,
                             sid: SocketId, target: UserId): (r: Step)
    ensures r.world == w
    ensures |r.emits| == if Presence.IsOnline(w.reg, target) then 2 else 1
    ensures r.emits[|r.emits| - 1] ==
      Presence.Emit(Presence.ToSocket(sid), "followRequestSent", Presence.FollowRequestSentPayload(target))
    ensures Presence.IsOnline(w.reg, target) ==>
      r.emits[0].target == Presence.ToSocket(w.reg.sockets[target])
      && r.emits[0].event == "newNotification"
      && r.emits[0].payload.NewNotificationPayload?
      && Notifications.ParseKind(r.emits[0].payload.note.kind).None?
      && r.emits[0].payload.note.sender == caller && r.emits[0].payload.note.recipient == target
      && r.emits[0].payload.unreadCount == Notifications.UnreadCount(notes.items, target) + 1
  {
    var confirm := Presence.Emit(Presence.ToSocket(sid), "followRequestSent", Presence.FollowRequestSentPayload(target));
    if target in w.reg.sockets then
      var note := Presence.NoteView("follow_request", FollowRequestMessage(callerName), caller, target);
      Step(w, [Presence.Emit(Presence.ToSocket(w.reg.sockets[target]), "newNotification",
        Presence.NewNotificationPayload(note, Notifications.UnreadCount(notes.items, target) + 1)), confirm])
    else Step(w, [confirm])
  }

  // ---------------------------------------------------------------------
  // acceptFollowRequest
  // ---------------------------------------------------------------------

  function FollowAcceptedMessage(callerName: string): string {
    callerName + " accepted your follow request"
  }

  /** `acceptFollowRequest`: nothing is stored and no follow is created. A
      registered requester gets a `newNotification` of kind
      `follow_accepted`, again a kind the notification schema does not
      accept, tagged with that kind and carrying the requester's stored
      unread count plus one; the caller always gets
      `followRequestAccepted`. */
  function AcceptFollowRequest(w: World, notes: Notifications.Store, caller: UserId, callerName: string,
                               sid: SocketId, requester: UserId): (r: Step)
    ensures r.world == w
    ensures |r.emits| == if Presence.IsOnline(w.reg, requester) then 2 else 1
    ensures r.emits[|r.emits| - 1] ==
      Presence.Emit(Presence.ToSocket(sid), "followRequestAccepted", Presence.FollowRequestAcceptedPayload(requester))
    ensures Presence.IsOnline(w.reg, requester) ==>
      r.emits[0].target == Presence.ToSocket(w.reg.sockets[requester])
      && r.emits[0].event == "newNotification"
      && r.emits[0].payload.TypedNotificationPayload?
      && r.emits[0].payload.kind == r.emits[0].payload.note.kind
      && Notifications.ParseKind(r.emits[0].payload.note.kind).None?
      && r.emits[0].payload.note.sender == caller && r.emits[0].payload.note.recipient == requester
      && r.emits[0].payload.unreadCount == Notifications.UnreadCount(notes.items, requester) + 1
  {
    var confirm := Presence.Emit(Presence.ToSocket(sid), "followRequestAccepted",
      Presence.FollowRequestAcceptedPayload(requester));
    if requester in w.reg.sockets then
      var note := Presence.NoteView("follow_accepted", FollowAcceptedMessage(callerName), caller, requester);
      Step(w, [Presence.Emit(Presence.ToSocket(w.reg.sockets[requester]), "newNotification",
        Presence.TypedNotificationPayload(note, Notifications.UnreadCount(notes.items, requester) + 1, "follow_accepted")),
        confirm])
    else Step(w, [confirm])
  }

  /** A request answered over the socket: the two pushes reach opposite
      ends, and neither leaves a trace in the stores. */
  lemma FollowHandshakeStoresNothing(w: World, notes: Notifications.Store, requester: UserId, requesterName: string,
                                     rsid: SocketId, target: UserId, targetName: string, tsid: SocketId)
    ensures var sent := SendFollowRequest(w, notes, requester, requesterName, rsid, target);
      var accepted := AcceptFollowRequest(sent.world, notes, target, targetName, tsid, requester);
      accepted.world == w
      && (Presence.IsOnline(w.reg, target) ==> sent.emits[0].payload.note.recipient == target)
      && (Presence.IsOnline(w.reg, requester) ==> accepted.emits[0].payload.note.recipient == requester)
  {
  }
}

=== FILE: seqs.dfy ===
/** Sequence operations that stand in for the document store's query
    primitives: filtering (`find` with a condition), counting
    (`countDocuments`), "first match" (`findOne`), skip/limit windows and
    sorting by a numeric key. */
module Seqs {
  import opened Wrappers

  /** The elements of `xs` that satisfy `p`, in their original order. */
  function Filter<T>(xs: seq<T>, p: T -> bool): (r: seq<T>)
    ensures |r| <= |xs|
    ensures forall i :: 0 <= i < |r| ==> p(r[i])
    ensures forall i :: 0 <= i < |xs| && p(xs[i]) ==> xs[i] in r
    ensures multiset(r) <= multiset(xs)
  {
    if |xs| == 0 then []
    else if p(xs[0]) then
      assert xs == [xs[0]] + xs[1..];
      [xs[0]] + Filter(xs[1..], p)
    else
      assert xs == [xs[0]] + xs[1..];
      Filter(xs[1..], p)
  }

  /** How many elements of `xs` satisfy `p`. */
  function Count<T>(xs: seq<T>, p: T -> bool): (n: nat)
    ensures n <= |xs|
  {
    if |xs| == 0 then 0
    else (if p(xs[0]) then 1 else 0) + Count(xs[1..], p)
  }

  /** The count is zero exactly when no element satisfies `p`. (Kept out
      of `Count`'s own contract so that arithmetic about counts does not
      drag the quantifiers along.) */
  lemma {:induction false} CountZeroIff<T>(xs: seq<T>, p: T -> bool)
    ensures Count(xs, p) == 0 <==> forall i :: 0 <= i < |xs| ==> !p(xs[i])
  {
    if |xs| > 0 {
      CountZeroIff(xs[1..], p);
      assert forall i :: 1 <= i < |xs| ==> xs[i] == xs[1..][i - 1];
    }
  }

  /** The count is the full length exactly when every element satisfies `p`. */
  lemma {:induction false} CountFullIff<T>(xs: seq<T>, p: T -> bool)
    ensures Count(xs, p) == |xs| <==> forall i :: 0 <= i < |xs| ==> p(xs[i])
  {
    if |xs| > 0 {
      CountFullIff(xs[1..], p);
      assert forall i :: 1 <= i < |xs| ==> xs[i] == xs[1..][i - 1];
    }
  }

  lemma {:induction false} CountAppend<T>(xs: seq<T>, ys: seq<T>, p: T -> bool)
    ensures Count(xs + ys, p) == Count(xs, p) + Count(ys, p)
  {
    if |xs| == 0 {
      assert xs + ys == ys;
    } else {
      assert (xs + ys)[1..] == xs[1..] + ys;
      CountAppend(xs[1..], ys, p);
    }
  }

  lemma {:induction false} CountIsFilterLength<T>(xs: seq<T>, p: T -> bool)
    ensures Count(xs, p) == |Filter(xs, p)|
  {
    if |xs| > 0 {
      CountIsFilterLength(xs[1..], p);
    }
  }

  /** Counting with a predicate that splits into two disjoint parts adds
      the two counts. */
  lemma {:induction false} CountSplit<T>(xs: seq<T>, p: T -> bool, a: T -> bool, b: T -> bool)
    requires forall i :: 0 <= i < |xs| ==> p(xs[i]) == (a(xs[i]) || b(xs[i]))
    requires forall i :: 0 <= i < |xs| ==> !(a(xs[i]) && b(xs[i]))
    ensures Count(xs, p) == Count(xs, a) + Count(xs, b)
  {
    if |xs| > 0 {
      CountSplit(xs[1..], p, a, b);
    }
  }

  /** Predicates that agree on the elements count the same. */
  lemma {:induction false} CountCongruent<T>(xs: seq<T>, p: T -> bool, q: T -> bool)
    requires forall i :: 0 <= i < |xs| ==> p(xs[i]) == q(xs[i])
    ensures Count(xs, p) == Count(xs, q)
  {
    if |xs| > 0 {
      CountCongruent(xs[1..], p, q);
    }
  }

  /** How many of the positions `0 .. n - 1` satisfy `p`. */
  function CountIdx(n: nat, p: nat -> bool): (k: nat)
    ensures k <= n
    ensures k == 0 <==> forall i :: 0 <= i < n ==> !p(i)
  {
    if n == 0 then 0 else CountIdx(n - 1, p) + (if p(n - 1) then 1 else 0)
  }

  /** Position predicates that agree below `n` count the same. */
  lemma {:induction false} CountIdxCongruent(n: nat, p: nat -> bool, q: nat -> bool)
    requires forall i :: 0 <= i < n ==> p(i) == q(i)
    ensures CountIdx(n, p) == CountIdx(n, q)
  {
    if n > 0 {
      CountIdxCongruent(n - 1, p, q);
    }
  }

  /** A weaker position predicate counts no fewer positions. */
  lemma {:induction false} CountIdxMono(n: nat, p: nat -> bool, q: nat -> bool)
    requires forall i :: 0 <= i < n && p(i) ==> q(i)
    ensures CountIdx(n, p) <= CountIdx(n, q)
  {
    if n > 0 {
      CountIdxMono(n - 1, p, q);
    }
  }

  /** Counting positions with a predicate that splits into two disjoint
      parts adds the two counts. */
  lemma {:induction false} CountIdxSplit(n: nat, p: nat -> bool, a: nat -> bool, b: nat -> bool)
    requires forall i :: 0 <= i < n ==> p(i) == (a(i) || b(i))
    requires forall i :: 0 <= i < n ==> !(a(i) && b(i))
    ensures CountIdx(n, p) == CountIdx(n, a) + CountIdx(n, b)
  {
    if n > 0 {
      CountIdxSplit(n - 1, p, a, b);
    }
  }

  /** Index of the first element satisfying `p` (the document `findOne`
      returns in natural order), if any. */
  function FindIndex<T>(xs: seq<T>, p: T -> bool): (r: Option<nat>)
    ensures r.Some? ==> r.value < |xs| && p(xs[r.value])
    ensures r.Some? ==> forall j :: 0 <= j < r.value ==> !p(xs[j])
    ensures r.None? <==> forall j :: 0 <= j < |xs| ==> !p(xs[j])
  {
    FindFrom(xs, p, 0)
  }

  function FindFrom<T>(xs: seq<T>, p: T -> bool, k: nat): (r: Option<nat>)
    requires k <= |xs|
    requires forall j :: 0 <= j < k ==> !p(xs[j])
    ensures r.Some? ==> k <= r.value < |xs| && p(xs[r.value])
    ensures r.Some? ==> forall j :: 0 <= j < r.value ==> !p(xs[j])
    ensures r.None? <==> forall j :: 0 <= j < |xs| ==> !p(xs[j])
    decreases |xs| - k
  {
    if k == |xs| then None
    else if p(xs[k]) then Some(k)
    else FindFrom(xs, p, k + 1)
  }

  /** Equivalent predicates find the same element. */
  lemma FindIndexSamePredicate<T>(xs: seq<T>, p: T -> bool, q: T -> bool)
    requires forall x :: p(x) == q(x)
    ensures FindIndex(xs, p) == FindIndex(xs, q)
  {
    var a := FindIndex(xs, p);
    var b := FindIndex(xs, q);
    if a.Some? && b.Some? {
      assert q(xs[a.value]);
      assert p(xs[b.value]);
    }
  }

  function Min(a: int, b: int): int { if a <= b then a else b }
  function Abs(a: int): nat { if a < 0 then -a else a }

  /** The window a MongoDB cursor returns for `skip(skip).limit(limit)`:
      the server rejects a negative skip, a zero limit means "no limit", and
      a negative limit is taken by absolute value. */
  function Window<T>(xs: seq<T>, skip: int, limit: int): (r: Option<seq<T>>)
    ensures r.None? <==> skip < 0
    ensures r.Some? ==> |r.value| <= |xs|
    ensures r.Some? ==> forall k :: 0 <= k < |r.value| ==> skip + k < |xs| && r.value[k] == xs[skip + k]
    ensures r.Some? && limit == 0 ==> |r.value| == if skip < |xs| then |xs| - skip else 0
    ensures r.Some? && limit != 0 ==>
      |r.value| == Min(Abs(limit), if skip < |xs| then |xs| - skip else 0)
  {
    if skip < 0 then None
    else if skip >= |xs| then Some([])
    else if limit == 0 then Some(xs[skip..])
    else Some(xs[skip..Min(skip + Abs(limit), |xs|)])
  }

  ghost predicate SortedDesc<T>(xs: seq<T>, key: T -> int) {
    forall i, j :: 0 <= i < j < |xs| ==> key(xs[i]) >= key(xs[j])
  }

  function InsertDesc<T>(x: T, xs: seq<T>, key: T -> int): (r: seq<T>)
    requires SortedDesc(xs, key)
    ensures SortedDesc(r, key)
    ensures multiset(r) == multiset(xs) + multiset{x}
    ensures |r| == |xs| + 1
  {
    if |xs| == 0 then [x]
    else if key(x) >= key(xs[0]) then
      assert xs == [xs[0]] + xs[1..];
      [x] + xs
    else
      assert xs == [xs[0]] + xs[1..];
      var rest := InsertDesc(x, xs[1..], key);
      BoundedByHead(x, xs, rest, key);
      ConsSortedDesc(xs[0], rest, key);
      [xs[0]] + rest
  }

  /** Everything in a permutation of `xs[1..]` plus a smaller `x` is at most
      the head of the descending `xs`. */
  lemma BoundedByHead<T>(x: T, xs: seq<T>, rest: seq<T>, key: T -> int)
    requires |xs| > 0 && SortedDesc(xs, key) && key(x) < key(xs[0])
    requires multiset(rest) == multiset(xs[1..]) + multiset{x}
    ensures forall y :: y in rest ==> key(y) <= key(xs[0])
  {
    forall y | y in rest ensures key(y) <= key(xs[0]) {
      assert y in multiset(rest);
      if y != x {
        assert y in multiset(xs[1..]);
        var k :| 0 <= k < |xs[1..]| && xs[1..][k] == y;
        assert xs[k + 1] == y;
      }
    }
  }

  /** A head no smaller than anything after it keeps a descending
      sequence descending. */
  lemma ConsSortedDesc<T>(h: T, rest: seq<T>, key: T -> int)
    requires SortedDesc(rest, key)
    requires forall y :: y in rest ==> key(y) <= key(h)
    ensures SortedDesc([h] + rest, key)
  {
    var r := [h] + rest;
    forall i, j | 0 <= i < j < |r| ensures key(r[i]) >= key(r[j]) {
      assert r[j] == rest[j - 1] && r[j] in rest;
      if i > 0 {
        assert r[i] == rest[i - 1];
      }
    }
  }

  /** `xs` ordered by `key`, largest first (a `sort({ key: -1 })`). Ties keep
      no particular order, as in the store. */
  function SortDesc<T>(xs: seq<T>, key: T -> int): (r: seq<T>)
    ensures SortedDesc(r, key)
    ensures multiset(r) == multiset(xs)
    ensures |r| == |xs|
  {
    if |xs| == 0 then []
    else
      assert xs == [xs[0]] + xs[1..];
      InsertDesc(xs[0], SortDesc(xs[1..], key), key)
  }

  /** The sequence of the values of `xs` under `f`, position by position. */
  function MapSeq<T, U>(xs: seq<T>, f: T -> U): (r: seq<U>)
    ensures |r| == |xs|
    ensures forall i :: 0 <= i < |xs| ==> r[i] == f(xs[i])
  {
    if |xs| == 0 then [] else [f(xs[0])] + MapSeq(xs[1..], f)
  }

  function Sum(xs: seq<int>): int {
    if |xs| == 0 then 0 else xs[0] + Sum(xs[1..])
  }

  /** A contiguous slice of a sorted sequence is sorted. */
  lemma SortedWindow<T>(xs: seq<T>, key: T -> int, skip: int, w: seq<T>)
    requires SortedDesc(xs, key)
    requires skip >= 0
    requires forall k :: 0 <= k < |w| ==> skip + k < |xs| && w[k] == xs[skip + k]
    ensures SortedDesc(w, key)
  {
  }

  ghost predicate SortedAsc<T>(xs: seq<T>, key: T -> int) {
    forall i, j :: 0 <= i < j < |xs| ==> key(xs[i]) <= key(xs[j])
  }

  /** `xs` back to front (the array `reverse()`). */
  function Reverse<T>(xs: seq<T>): (r: seq<T>)
    ensures |r| == |xs|
    ensures forall i :: 0 <= i < |xs| ==> r[i] == xs[|xs| - 1 - i]
    ensures multiset(r) == multiset(xs)
  {
    if |xs| == 0 then []
    else
      assert xs == xs[..|xs| - 1] + [xs[|xs| - 1]];
      [xs[|xs| - 1]] + Reverse(xs[..|xs| - 1])
  }

  /** Reversing a page turns the rank of position `skip + k` into that of
      position `skip + |w| - 1 - k`. */
  lemma ReverseRanks<T>(xs: seq<T>, key: T -> int, w: seq<T>, skip: int)
    requires forall k :: 0 <= k < |w| ==> RankedAt(xs, key, w[k], skip + k)
    ensures forall k :: 0 <= k < |w| ==> RankedAt(xs, key, Reverse(w)[k], skip + |w| - 1 - k)
  {
    forall k | 0 <= k < |w| ensures RankedAt(xs, key, Reverse(w)[k], skip + |w| - 1 - k) {
      assert Reverse(w)[k] == w[|w| - 1 - k];
    }
  }

  /** Reversing a list sorted largest first sorts it smallest first. */
  lemma ReverseSortedDesc<T>(xs: seq<T>, key: T -> int)
    requires SortedDesc(xs, key)
    ensures SortedAsc(Reverse(xs), key)
  {
    var r := Reverse(xs);
    forall i, j | 0 <= i < j < |r| ensures key(r[i]) <= key(r[j]) {
      assert r[i] == xs[|xs| - 1 - i] && r[j] == xs[|xs| - 1 - j];
    }
  }

  /** `[0, 1, ..., n - 1]`. */
  function Indexes(n: nat): (r: seq<nat>)
    ensures |r| == n
    ensures forall i :: 0 <= i < n ==> r[i] == i
  {
    seq(n, i => i)
  }

  /** The elements of `xs` are pairwise different. */
  ghost predicate Distinct<T>(xs: seq<T>) {
    forall i, j :: 0 <= i < j < |xs| ==> xs[i] != xs[j]
  }

  /** A sequence without repeats holds each value at most once. */
  lemma {:induction false} DistinctOnce<T>(xs: seq<T>, x: T)
    requires Distinct(xs)
    ensures multiset(xs)[x] <= 1
  {
    if |xs| > 0 {
      assert xs == [xs[0]] + xs[1..];
      assert Distinct(xs[1..]) by {
        forall i, j | 0 <= i < j < |xs[1..]| ensures xs[1..][i] != xs[1..][j] {
          assert xs[1..][i] == xs[i + 1] && xs[1..][j] == xs[j + 1];
        }
      }
      DistinctOnce(xs[1..], x);
      if x == xs[0] {
        forall k | 0 <= k < |xs[1..]| ensures xs[1..][k] != x {
          assert xs[1..][k] == xs[k + 1];
        }
        assert x !in multiset(xs[1..]);
      }
    }
  }

  /** Two positions holding the same value make it occur twice. */
  lemma TwoPositions<T>(xs: seq<T>, i: nat, j: nat)
    requires i < j < |xs|
    ensures multiset(xs)[xs[j]] >= if xs[i] == xs[j] then 2 else 1
  {
    assert xs == xs[..j] + xs[j..];
    assert xs[j..][0] == xs[j];
    assert xs[j] in multiset(xs[j..]);
    assert xs[..j][i] == xs[i];
    assert xs[i] in multiset(xs[..j]);
  }

  /** A sub-multiset of a sequence without repeats has no repeats. */
  lemma DistinctSub<T>(a: seq<T>, b: seq<T>)
    requires Distinct(b) && multiset(a) <= multiset(b)
    ensures Distinct(a)
  {
    forall i, j | 0 <= i < j < |a| ensures a[i] != a[j] {
      TwoPositions(a, i, j);
      DistinctOnce(b, a[j]);
    }
  }

  /** The positions below `n` that `keep` selects, each once (the ids a
      `find` with that condition returns). */
  function Select(n: nat, keep: nat -> bool): (r: seq<nat>)
    ensures forall i: nat :: i in r <==> i < n && keep(i)
    ensures Distinct(r)
  {
    var ids := Indexes(n);
    var r := Filter<nat>(ids, keep);
    forall i: nat | i < n && keep(i) ensures i in r {
      assert ids[i] == i;
    }
    forall i: nat | i in r ensures i < n && keep(i) {
      FilterMembers(ids, keep, i);
    }
    DistinctSub(r, ids);
    r
  }

  /** Holds of the values whose key is above `v`. */
  function Above<T>(key: T -> int, v: int): T -> bool {
    (x: T) => key(x) > v
  }

  /** Holds of the values whose key is `v` or more. */
  function AtLeast<T>(key: T -> int, v: int): T -> bool {
    (x: T) => key(x) >= v
  }

  /** `x` can stand at position `p` (from 0) when `xs` is ordered by `key`,
      largest first: at most `p` elements of `xs` have a larger key and
      more than `p` have a key as large or larger. Among equal keys any
      order is allowed, as with the store's sort. */
  predicate RankedAt<T>(xs: seq<T>, key: T -> int, x: T, p: int) {
    Count(xs, Above(key, key(x))) <= p < Count(xs, AtLeast(key, key(x)))
  }

  /** How many of `total` items a `skip`/`limit` window keeps; a zero limit
      keeps all that remain. */
  function PageLength(total: nat, skip: int, limit: int): nat {
    var rest := if skip < total then total - skip else 0;
    if limit != 0 && Abs(limit) < rest then Abs(limit) else rest
  }

  /** Sequences with the same elements count the same. */
  lemma {:induction false} CountPermutation<T>(xs: seq<T>, ys: seq<T>, p: T -> bool)
    requires multiset(xs) == multiset(ys)
    ensures Count(xs, p) == Count(ys, p)
  {
    if |xs| == 0 {
      assert |ys| == |multiset(ys)| == 0;
    } else {
      var x := xs[0];
      assert x in multiset(ys);
      var k :| 0 <= k < |ys| && ys[k] == x;
      var rest := RemoveAt(ys, k);
      assert rest == ys[..k] + ys[k + 1..];
      assert ys == ys[..k] + [x] + ys[k + 1..];
      assert xs == [x] + xs[1..];
      assert multiset(ys) == multiset(ys[..k]) + multiset{x} + multiset(ys[k + 1..]);
      assert multiset(rest) == multiset(ys[..k]) + multiset(ys[k + 1..]);
      assert multiset(xs) == multiset{x} + multiset(xs[1..]);
      assert multiset(xs[1..]) == multiset(xs) - multiset{x};
      assert multiset(rest) == multiset(ys) - multiset{x};
      CountPermutation(xs[1..], rest, p);
      CountRemoveAt(ys, k, p);
    }
  }

  /** In an ordering of `xs` by `key`, largest first, at most `p`
      elements rank above the one at position `p`. */
  lemma CountAboveSorted<T>(s: seq<T>, xs: seq<T>, key: T -> int, p: nat)
    requires SortedDesc(s, key) && multiset(s) == multiset(xs) && p < |s|
    ensures Count(xs, Above(key, key(s[p]))) <= p
  {
    var above := Above(key, key(s[p]));
    CountPermutation(s, xs, above);
    assert s == s[..p] + s[p..];
    CountAppend(s[..p], s[p..], above);
    forall j | 0 <= j < |s[p..]| ensures !above(s[p..][j]) {
      assert s[p..][j] == s[p + j];
    }
    CountZeroIff(s[p..], above);
  }

  /** In an ordering of `xs` by `key`, largest first, more than `p`
      elements rank at or above the one at position `p`. */
  lemma CountAtLeastSorted<T>(s: seq<T>, xs: seq<T>, key: T -> int, p: nat)
    requires SortedDesc(s, key) && multiset(s) == multiset(xs) && p < |s|
    ensures Count(xs, AtLeast(key, key(s[p]))) > p
  {
    var atLeast := AtLeast(key, key(s[p]));
    CountPermutation(s, xs, atLeast);
    assert s == s[..p + 1] + s[p + 1..];
    CountAppend(s[..p + 1], s[p + 1..], atLeast);
    var front := s[..p + 1];
    forall j | 0 <= j < |front| ensures atLeast(front[j]) {
      assert front[j] == s[j];
    }
    CountFullIff(front, atLeast);
  }

  /** In an ordering of `xs` by `key`, largest first, every element is
      ranked at its own position. */
  lemma RankOfSorted<T>(s: seq<T>, xs: seq<T>, key: T -> int, p: nat)
    requires SortedDesc(s, key) && multiset(s) == multiset(xs) && p < |s|
    ensures RankedAt(xs, key, s[p], p)
  {
    CountAboveSorted(s, xs, key, p);
    CountAtLeastSorted(s, xs, key, p);
  }

  /** What a window of an ordering of `xs` inherits from it. */
  lemma WindowOfSorted<T>(xs: seq<T>, key: T -> int, s: seq<T>, skip: nat, w: seq<T>)
    requires SortedDesc(s, key) && multiset(s) == multiset(xs)
    requires forall k :: 0 <= k < |w| ==> skip + k < |s| && w[k] == s[skip + k]
    ensures multiset(w) <= multiset(xs)
    ensures forall k :: 0 <= k < |w| ==> w[k] in xs
    ensures SortedDesc(w, key)
    ensures forall k :: 0 <= k < |w| ==> RankedAt(xs, key, w[k], skip + k)
  {
    if |w| > 0 {
      var last := |w| - 1;
      assert skip + last < |s| && w[last] == s[skip + last];
      assert w == s[skip..skip + |w|];
      assert s == s[..skip] + w + s[skip + |w|..];
    } else {
      assert multiset(w) == multiset{};
    }
    forall k | 0 <= k < |w| ensures w[k] in xs && RankedAt(xs, key, w[k], skip + k) {
      assert w[k] in multiset(s);
      RankOfSorted(s, xs, key, skip + k);
    }
  }

  /** One page of `xs` ordered by `key`, largest first: sort, then
      `skip`/`limit`. The page has the window's length, repeats nothing
      `xs` does not, and each entry holds the rank of its position. */
  function SortedPage<T>(xs: seq<T>, key: T -> int, skip: int, limit: int): (r: Option<seq<T>>)
    ensures r.None? <==> skip < 0
    ensures r.Some? ==> |r.value| == PageLength(|xs|, skip, limit)
    ensures r.Some? ==> multiset(r.value) <= multiset(xs)
    ensures r.Some? ==> forall k :: 0 <= k < |r.value| ==> r.value[k] in xs
    ensures r.Some? ==> SortedDesc(r.value, key)
    ensures r.Some? ==> forall k :: 0 <= k < |r.value| ==> RankedAt(xs, key, r.value[k], skip + k)
    ensures r.Some? ==> forall k :: 0 <= k < |r.value| ==> r.value[k] == SortDesc(xs, key)[skip + k]
  {
    var sorted := SortDesc(xs, key);
    var w := Window(sorted, skip, limit);
    if w.Some? then
      WindowOfSorted(xs, key, sorted, skip, w.value);
      w
    else w
  }

  /** An element whose rank, ties included, lies inside the window is on
      the page. */
  lemma OnSortedPage<T>(xs: seq<T>, key: T -> int, skip: int, limit: int, x: T)
    requires skip >= 0 && x in xs
    requires skip <= Count(xs, Above(key, key(x)))
    requires Count(xs, AtLeast(key, key(x))) <= skip + PageLength(|xs|, skip, limit)
    ensures SortedPage(xs, key, skip, limit).Some?
    ensures x in SortedPage(xs, key, skip, limit).value
  {
    var s := SortDesc(xs, key);
    assert x in multiset(s);
    var p :| 0 <= p < |s| && s[p] == x;
    RankOfSorted(s, xs, key, p);
    var r := SortedPage(xs, key, skip, limit).value;
    assert r[p - skip] == x;
  }

  /** Replacing one element changes a count by what the old and the new
      element contribute. */
  lemma {:induction false} CountUpdate<T>(xs: seq<T>, k: nat, y: T, p: T -> bool)
    requires k < |xs|
    ensures Count(xs[k := y], p) == Count(xs, p) - (if p(xs[k]) then 1 else 0) + (if p(y) then 1 else 0)
  {
    if k > 0 {
      assert xs[k := y][1..] == xs[1..][k - 1 := y];
      CountUpdate(xs[1..], k - 1, y, p);
    } else {
      assert xs[k := y][1..] == xs[1..];
    }
  }

  /** Filtering with a predicate every element satisfies changes nothing. */
  lemma {:induction false} FilterKeepsAll<T>(xs: seq<T>, p: T -> bool)
    requires forall i :: 0 <= i < |xs| ==> p(xs[i])
    ensures Filter(xs, p) == xs
  {
    if |xs| > 0 {
      FilterKeepsAll(xs[1..], p);
    }
  }

  /** Membership in a filtered sequence. */
  lemma FilterMembers<T>(xs: seq<T>, p: T -> bool, x: T)
    ensures x in Filter(xs, p) <==> x in xs && p(x)
  {
    if x in Filter(xs, p) {
      assert x in multiset(Filter(xs, p));
    }
  }

  /** `xs` without its element at position `k` (a `deleteOne`). */
  function RemoveAt<T>(xs: seq<T>, k: nat): (r: seq<T>)
    requires k < |xs|
    ensures |r| + 1 == |xs|
    ensures forall i :: 0 <= i < |r| ==> r[i] == xs[if i < k then i else i + 1]
    ensures forall x :: x in r ==> x in xs
    ensures forall i :: 0 <= i < |xs| && i != k ==> xs[i] in r
  {
    var r := xs[..k] + xs[k + 1..];
    assert forall i :: 0 <= i < |r| ==> r[i] == xs[if i < k then i else i + 1];
    assert forall i :: 0 <= i < |xs| && i != k ==> xs[i] in r by {
      forall i | 0 <= i < |xs| && i != k ensures xs[i] in r {
        if i < k {
          assert r[i] == xs[i];
        } else {
          assert r[i - 1] == xs[i];
        }
      }
    }
    r
  }

  /** Removing one element takes its contribution off a count. */
  lemma CountRemoveAt<T>(xs: seq<T>, k: nat, p: T -> bool)
    requires k < |xs|
    ensures Count(RemoveAt(xs, k), p) == Count(xs, p) - (if p(xs[k]) then 1 else 0)
  {
    var a, c, b := xs[..k], [xs[k]], xs[k + 1..];
    assert RemoveAt(xs, k) == a + b;
    assert xs == a + (c + b);
    assert c[1..] == [];
    assert Count(c, p) == if p(xs[k]) then 1 else 0;
    CountAppend(a, b, p);
    CountAppend(a, c + b, p);
    CountAppend(c, b, p);
  }
}

=== FILE: text.dfy ===
/** String helpers with JavaScript's semantics: `String.prototype.trim`,
    truthiness of strings, decimal rendering of integers (template literal
    interpolation) and prefix tests. */
module Text {
  import opened Wrappers
  import Seqs

  /** The characters `String.prototype.trim` removes: ECMAScript WhiteSpace
      (tab, vertical tab, form feed, space, no-break space, byte order mark
      and the Unicode space separators) and LineTerminator. */
  predicate IsSpace(c: char) {
    var n := c as int;
    n == 0x09 || n == 0x0A || n == 0x0B || n == 0x0C || n == 0x0D || n == 0x20
    || n == 0xA0 || n == 0x1680 || (0x2000 <= n <= 0x200A) || n == 0x2028 || n == 0x2029
    || n == 0x202F || n == 0x205F || n == 0x3000 || n == 0xFEFF
  }

  predicate AllSpace(s: string) {
    forall i :: 0 <= i < |s| ==> IsSpace(s[i])
  }

  /** Number of leading white-space characters of `s`. */
  function LeadCount(s: string): (k: nat)
    ensures k <= |s|
    ensures forall i :: 0 <= i < k ==> IsSpace(s[i])
    ensures k < |s| ==> !IsSpace(s[k])
  {
    if |s| == 0 || !IsSpace(s[0]) then 0 else 1 + LeadCount(s[1..])
  }

  /** Number of trailing white-space characters of `s`. */
  function TrailCount(s: string): (k: nat)
    ensures k <= |s|
    ensures forall i :: |s| - k <= i < |s| ==> IsSpace(s[i])
    ensures k < |s| ==> !IsSpace(s[|s| - 1 - k])
  {
    if |s| == 0 || !IsSpace(s[|s| - 1]) then 0 else 1 + TrailCount(s[..|s| - 1])
  }

  /** A character outside the Basic Multilingual Plane, which a JavaScript
      string holds as a surrogate pair. */
  predicate Astral(c: char) {
    c as int > 0xFFFF
  }

  /** `s.length` in JavaScript, which is also what the schema's
      `minLength` and `maxLength` measure: UTF-16 code units, two for every
      astral character. */
  function Utf16Length(s: string): (n: nat)
    ensures n == |s| + Seqs.Count(s, Astral)
    ensures |s| <= n <= 2 * |s|
  {
    if |s| == 0 then 0 else (if Astral(s[0]) then 2 else 1) + Utf16Length(s[1..])
  }

  /** The variation selectors U+FE0E and U+FE0F, which the validator's
      `isLength` does not count. */
  predicate PresentationSelector(c: char) {
    c == '\U{FE0E}' || c == '\U{FE0F}'
  }

  /** The length `isLength` checks: code points (a surrogate pair counts
      once) less the variation selectors. */
  function ValidatorLength(s: string): (n: nat)
    ensures n == |s| - Seqs.Count(s, PresentationSelector)
    ensures n <= |s|
  {
    if |s| == 0 then 0 else (if PresentationSelector(s[0]) then 0 else 1) + ValidatorLength(s[1..])
  }

  /** The validator never measures a string longer than the schema does;
      the two agree on text without astral characters or variation
      selectors. */
  lemma {:induction false} ValidatorLengthAtMostUtf16(s: string)
    ensures ValidatorLength(s) <= Utf16Length(s)
    ensures (forall i :: 0 <= i < |s| ==> !Astral(s[i]) && !PresentationSelector(s[i])) ==>
      ValidatorLength(s) == |s| == Utf16Length(s)
  {
    if |s| > 0 {
      ValidatorLengthAtMostUtf16(s[1..]);
      assert forall i :: 1 <= i < |s| ==> s[1..][i - 1] == s[i];
    }
  }

  /** `s.trim()`: what is left after dropping the leading and the trailing
      white space. */
  function Trim(s: string): (r: string)
    ensures |r| <= |s|
    ensures |r| > 0 ==> !IsSpace(r[0]) && !IsSpace(r[|r| - 1])
    ensures LeadCount(s) + |r| <= |s|
    ensures r == s[LeadCount(s)..LeadCount(s) + |r|]
    ensures AllSpace(s[LeadCount(s) + |r|..])
  {
    var a := LeadCount(s);
    var rest := s[a..];
    var b := TrailCount(rest);
    var r := rest[..|rest| - b];
    assert r == s[a..a + |r|];
    assert AllSpace(s[a + |r|..]) by {
      assert s[a + |r|..] == rest[|rest| - b..];
    }
    r
  }

  lemma {:induction false} LeadCountAllSpace(s: string)
    requires AllSpace(s)
    ensures LeadCount(s) == |s|
  {
    if |s| > 0 {
      LeadCountAllSpace(s[1..]);
    }
  }

  /** A string is blank when trimming leaves nothing, exactly when every
      character is white space. */
  lemma BlankIffAllSpace(s: string)
    ensures Trim(s) == "" <==> AllSpace(s)
  {
    if Trim(s) == "" {
      assert LeadCount(s) == |s|;
    }
    if AllSpace(s) {
      LeadCountAllSpace(s);
    }
  }

  /** Trimming twice is trimming once. */
  lemma TrimIdempotent(s: string)
    ensures Trim(Trim(s)) == Trim(s)
  {
    var r := Trim(s);
    if |r| > 0 {
      assert LeadCount(r) == 0;
      assert r[0..] == r;
      assert TrailCount(r) == 0;
    }
  }

  /** A string that neither starts nor ends with white space is its own
      trim. */
  lemma TrimUnspaced(s: string)
    requires |s| > 0 && !IsSpace(s[0]) && !IsSpace(s[|s| - 1])
    ensures Trim(s) == s
  {
    assert LeadCount(s) == 0;
    assert s[0..] == s;
    assert TrailCount(s) == 0;
  }

  /** JavaScript truthiness of a string: only the empty string is falsy. */
  predicate Truthy(s: string) { s != "" }

  /** JavaScript falsiness of an optional string field: absent or empty. */
  predicate Falsy(s: Option<string>) {
    s.None? || !Truthy(s.value)
  }

  function DigitChar(d: nat): char
    requires d < 10
  {
    "0123456789"[d]
  }

  function DigitValue(c: char): int {
    c as int - '0' as int
  }

  /** Decimal text of `n`, without leading zeros. */
  function NatToString(n: nat): (r: string)
    ensures |r| > 0
    ensures forall i :: 0 <= i < |r| ==> '0' <= r[i] <= '9'
    ensures |r| > 1 ==> r[0] != '0'
  {
    if n < 10 then [DigitChar(n)]
    else NatToString(n / 10) + [DigitChar(n % 10)]
  }

  /** Decimal text of `n` as a template literal renders it. */
  function IntToString(n: int): (r: string)
    ensures |r| > 0
    ensures forall i :: 0 <= i < |r| ==> r[i] == '-' || '0' <= r[i] <= '9'
  {
    if n < 0 then "-" + NatToString(-n) else NatToString(n)
  }

  /** The value of a string of decimal digits. */
  function DigitsValue(s: string): int {
    if |s| == 0 then 0 else 10 * DigitsValue(s[..|s| - 1]) + DigitValue(s[|s| - 1])
  }

  /** Parses the text `IntToString` produces. */
  function ParseInt(s: string): int {
    if |s| > 0 && s[0] == '-' then -DigitsValue(s[1..]) else DigitsValue(s)
  }

  lemma {:induction false} NatToStringRoundTrip(n: nat)
    ensures DigitsValue(NatToString(n)) == n
  {
    if n >= 10 {
      var s := NatToString(n);
      assert s[..|s| - 1] == NatToString(n / 10);
      NatToStringRoundTrip(n / 10);
    }
  }

  /** Rendering an integer and parsing it back gives the integer. */
  lemma IntToStringRoundTrip(n: int)
    ensures ParseInt(IntToString(n)) == n
  {
    var s := IntToString(n);
    if n < 0 {
      var digits := NatToString(-n);
      assert s == "-" + digits;
      assert s[0] == '-' && s[1..] == digits;
      NatToStringRoundTrip(-n);
    } else {
      assert s == NatToString(n);
      assert s[0] != '-';
      NatToStringRoundTrip(n);
    }
  }

  predicate StartsWith(s: string, prefix: string) {
    |prefix| <= |s| && s[..|prefix|] == prefix
  }

  predicate EndsWith(s: string, suffix: string) {
    |suffix| <= |s| && s[|s| - |suffix|..] == suffix
  }

  /** A title between double quotes, as the notification texts show it. */
  function Quoted(title: string): string { "\"" + title + "\"" }
}

=== FILE: user_controller.dfy ===
/** Registration, login, the name search and the profile view of
    controllers/user.controller.js, with the field rules of
    routes/user.router.js. E-mail syntax, e-mail normalisation, password
    hashing and the regular-expression search are library calls whose
    verdicts are passed in. */
module UserController {
  import opened Wrappers
  import opened Text
  import opened Users
  import Projects
  import Seqs
  import Http

  // ---------------------------------------------------------------------
  // The registration and login field rules
  // ---------------------------------------------------------------------

  /** A registration body; a field the client left out is `None`. */
  datatype RegisterBody = RegisterBody(
    fullname: Option<string>,
    email: Option<string>,
    password: Option<string>,
    confirmPassword: Option<string>,
    university: Option<string>,
    skillLevel: Option<string>,
    interests: Option<seq<string>>,
    github: Option<string>,
    linkedin: Option<string>,
    bio: Option<string>)

  /** One check of the rule chains: whether it fails and what it reports. */
  datatype Rule = Rule(fails: bool, message: string)

  /** The registration checks, in the order of the chains. A required check
      runs on the empty string when the field is absent; an optional field
      is only checked when present. Lengths are the validator's (code points
      without variation selectors), taken before the trimming sanitisers
      run. */
  function Rules(body: RegisterBody, isEmail: string -> bool): seq<Rule> {
    var fullname := body.fullname.GetOr("");
    var university := body.university.GetOr("");
    [ Rule(fullname == "", "Full name is required"),
      Rule(ValidatorLength(fullname) < FullnameMin, "Full name must be at least 3 characters long"),
      Rule(!isEmail(body.email.GetOr("")), "Please enter a valid email"),
      Rule(ValidatorLength(body.password.GetOr("")) < PasswordMin, "Password must be at least 6 characters long"),
      Rule(body.confirmPassword != body.password, "Passwords do not match"),
      Rule(university == "", "University is required"),
      Rule(ValidatorLength(university) < UniversityMin, "University name must be at least 3 characters long"),
      Rule(body.skillLevel.None? || ParseSkillLevel(body.skillLevel.value).None?, "Invalid skill level"),
      Rule(body.interests.None? || |body.interests.value| == 0, "Please select at least one interest"),
      Rule(body.github.Some? && !MatchesProfileUrl(body.github.value, GithubPath), "Please enter a valid GitHub URL"),
      Rule(body.linkedin.Some? && !MatchesProfileUrl(body.linkedin.value, LinkedinPath), "Please enter a valid LinkedIn URL"),
      Rule(body.bio.Some? && ValidatorLength(body.bio.value) > BioMax, "Bio cannot exceed 500 characters") ]
  }

  /** The messages of the failing checks, in order (`errors.array()`). */
  function Messages(rules: seq<Rule>): (r: seq<string>)
    ensures |r| <= |rules|
    ensures r == [] <==> forall i :: 0 <= i < |rules| ==> !rules[i].fails
    ensures forall i :: 0 <= i < |rules| && rules[i].fails ==> rules[i].message in r
  {
    if |rules| == 0 then []
    else
      var rest := Messages(rules[1..]);
      assert forall i :: 1 <= i < |rules| ==> rules[i] == rules[1..][i - 1];
      (if rules[0].fails then [rules[0].message] else []) + rest
  }

  function FieldErrors(body: RegisterBody, isEmail: string -> bool): seq<string> {
    Messages(Rules(body, isEmail))
  }

  /** A confirmation that differs from the password is always reported. */
  lemma MismatchReported(body: RegisterBody, isEmail: string -> bool)
    requires body.confirmPassword != body.password
    ensures "Passwords do not match" in FieldErrors(body, isEmail)
  {
    assert Rules(body, isEmail)[4].fails;
  }

  /** The body the rules let through, stated field by field. */
  predicate BodyAccepted(body: RegisterBody, isEmail: string -> bool) {
    body.fullname.Some? && ValidatorLength(body.fullname.value) >= 3
    && body.email.Some? && isEmail(body.email.GetOr(""))
    && body.password.Some? && ValidatorLength(body.password.value) >= 6
    && body.confirmPassword == body.password
    && body.university.Some? && ValidatorLength(body.university.value) >= 3
    && body.skillLevel.Some? && body.skillLevel.value in ["beginner", "intermediate", "advanced"]
    && body.interests.Some? && |body.interests.value| >= 1
    && (body.github.None? || MatchesProfileUrl(body.github.value, GithubPath))
    && (body.linkedin.None? || MatchesProfileUrl(body.linkedin.value, LinkedinPath))
    && (body.bio.None? || ValidatorLength(body.bio.value) <= 500)
  }

  /** No rule fails exactly when the body is accepted. The absent e-mail is
      the empty string, which no e-mail syntax admits. */
  lemma FieldErrorsEmptyIff(body: RegisterBody, isEmail: string -> bool)
    requires !isEmail("")
    ensures FieldErrors(body, isEmail) == [] <==> BodyAccepted(body, isEmail)
  {
    var rs := Rules(body, isEmail);
    if BodyAccepted(body, isEmail) {
      assert body.skillLevel.value in ["beginner", "intermediate", "advanced"];
      assert ParseSkillLevel(body.skillLevel.value).Some?;
      assert forall i :: 0 <= i < |rs| ==> !rs[i].fails;
    }
    if FieldErrors(body, isEmail) == [] {
      AcceptedFields(body, isEmail);
      assert !rs[9].fails && !rs[10].fails && !rs[11].fails;
    }
  }

  /** What a body without errors is known to carry. */
  lemma AcceptedFields(body: RegisterBody, isEmail: string -> bool)
    requires FieldErrors(body, isEmail) == []
    ensures body.fullname.Some? && ValidatorLength(body.fullname.value) >= FullnameMin
    ensures isEmail(body.email.GetOr(""))
    ensures body.password.Some? && ValidatorLength(body.password.value) >= PasswordMin && body.confirmPassword == body.password
    ensures body.university.Some? && ValidatorLength(body.university.value) >= UniversityMin
    ensures body.skillLevel.Some? && ParseSkillLevel(body.skillLevel.value).Some?
    ensures body.interests.Some? && |body.interests.value| > 0
  {
    var rs := Rules(body, isEmail);
    assert !rs[1].fails && !rs[2].fails && !rs[3].fails && !rs[4].fails;
    assert !rs[6].fails && !rs[7].fails && !rs[8].fails;
  }

  // ---------------------------------------------------------------------
  // registerUser
  // ---------------------------------------------------------------------

  /** The record a registration stores: the sanitised fields, a social
      profile only when the URL is non-empty, a bio that defaults to the
      empty string, the schema defaults, and the save hooks applied. The
      password is stored as given; its hashing is not part of this model.
      Fields the rules require are read with empty defaults. */
  function NewUser(body: RegisterBody, email: string, now: int): (u: User)
    ensures u.password == body.password.GetOr("")
    ensures u.email == email && u.fullname == Trim(body.fullname.GetOr("")) && u.university == Trim(body.university.GetOr(""))
    ensures body.skillLevel.Some? && ParseSkillLevel(body.skillLevel.value).Some? ==>
      u.skillLevel == ParseSkillLevel(body.skillLevel.value).value
    ensures u.interests == body.interests.GetOr([])
    ensures u.github.Some? <==> body.github.Some? && body.github.value != ""
    ensures u.linkedin.Some? <==> body.linkedin.Some? && body.linkedin.value != ""
    ensures u.bio == Some(Trim(body.bio.GetOr("")))
    ensures u.status == Inactive && u.socketId.None? && u.stats == ZeroStats && u.projects == []
    ensures u.completion == ProfileCompletion(u) && u.joinedDate == now && u.createdAt == now
  {
    var github := if body.github.Some? && body.github.value != "" then Some(Trim(body.github.value)) else None;
    var linkedin := if body.linkedin.Some? && body.linkedin.value != "" then Some(Trim(body.linkedin.value)) else None;
    var level := if body.skillLevel.Some? then ParseSkillLevel(body.skillLevel.value).GetOr(DefaultSkillLevel) else DefaultSkillLevel;
    var u := User(Trim(body.fullname.GetOr("")), email, body.password.GetOr(""), Trim(body.university.GetOr("")),
      level, body.interests.GetOr([]), github, linkedin,
      Some(Trim(body.bio.GetOr(""))), None, Inactive, now, None, 0, now, now, DefaultPreferences,
      ZeroStats, [], now);
    Saved(u, now, true)
  }

  /** Whether some stored user has the e-mail address. */
  predicate EmailTaken(users: map<UserId, User>, email: string) {
    exists id :: id in users && users[id].email == email
  }

  /** At most one stored user per e-mail address (the unique index). */
  predicate EmailsUnique(users: map<UserId, User>) {
    forall a, b :: a in users && b in users && users[a].email == users[b].email ==> a == b
  }

  datatype Registration = Registration(users: map<UserId, User>, order: seq<UserId>, code: int)

  /** `registerUser`: 400 when a field rule fails, 409 when the normalised
      address is taken, 400 when the stored record fails the schema, 201
      otherwise with the new user appended to the collection under the
      fresh id `newId`. `normalize` stands for the router's e-mail
      normalisation and lower-casing, `emailMatches` for the schema's
      e-mail pattern. */
  function RegisterUser(users: map<UserId, User>, order: seq<UserId>, body: RegisterBody, isEmail: string -> bool,
                        normalize: string -> string, emailMatches: string -> bool, newId: UserId, now: int): (r: Registration)
    requires newId !in users
    ensures r.code in {Http.BadRequest, Http.Conflict, Http.Created}
    ensures r.code == Http.BadRequest <==>
      FieldErrors(body, isEmail) != []
      || (!EmailTaken(users, normalize(body.email.GetOr("")))
          && !SchemaValid(NewUser(body, normalize(body.email.GetOr("")), now), emailMatches(normalize(body.email.GetOr("")))))
    ensures r.code == Http.Created <==>
      FieldErrors(body, isEmail) == [] && !EmailTaken(users, normalize(body.email.GetOr("")))
      && SchemaValid(NewUser(body, normalize(body.email.GetOr("")), now), emailMatches(normalize(body.email.GetOr(""))))
    ensures r.code == Http.Conflict <==> FieldErrors(body, isEmail) == [] && EmailTaken(users, normalize(body.email.GetOr("")))
    ensures r.code != Http.Created ==> r.users == users && r.order == order
    ensures r.code == Http.Created ==>
      FieldErrors(body, isEmail) == [] && !EmailTaken(users, normalize(body.email.GetOr("")))
      && r.users == users[newId := NewUser(body, normalize(body.email.GetOr("")), now)]
      && SchemaValid(r.users[newId], emailMatches(normalize(body.email.GetOr(""))))
      && r.order == order + [newId]
    ensures EmailsUnique(users) ==> EmailsUnique(r.users)
  {
    if FieldErrors(body, isEmail) != [] then Registration(users, order, Http.BadRequest)
    else
      AcceptedFields(body, isEmail);
      var email := normalize(body.email.GetOr(""));
      if EmailTaken(users, email) then Registration(users, order, Http.Conflict)
      else
        var u := NewUser(body, email, now);
        if !SchemaValid(u, emailMatches(email)) then Registration(users, order, Http.BadRequest)
        else
          InsertKeepsUnique(users, newId, u);
          Registration(users[newId := u], order + [newId], Http.Created)
  }

  /** Storing a user under a fresh id with an untaken address keeps the
      addresses unique. */
  lemma InsertKeepsUnique(users: map<UserId, User>, id: UserId, u: User)
    requires id !in users && !EmailTaken(users, u.email)
    ensures EmailsUnique(users) ==> EmailsUnique(users[id := u])
  {
  }

  /** Registering the same body twice: the second attempt is a 409. */
  lemma RegisterTwice(users: map<UserId, User>, order: seq<UserId>, body: RegisterBody, isEmail: string -> bool,
                      normalize: string -> string, emailMatches: string -> bool, first: UserId, second: UserId, now: int)
    requires first !in users && second != first && second !in users
    requires RegisterUser(users, order, body, isEmail, normalize, emailMatches, first, now).code == Http.Created
    ensures var r := RegisterUser(users, order, body, isEmail, normalize, emailMatches, first, now);
      RegisterUser(r.users, r.order, body, isEmail, normalize, emailMatches, second, now).code == Http.Conflict
  {
    var r := RegisterUser(users, order, body, isEmail, normalize, emailMatches, first, now);
    assert r.users[first].email == normalize(body.email.GetOr(""));
  }

  // ---------------------------------------------------------------------
  // loginUser
  // ---------------------------------------------------------------------

  /** The first user of the collection, in its natural order, with the
      address. */
  function FindByEmail(users: map<UserId, User>, order: seq<UserId>, email: string): (r: Option<UserId>)
    ensures r.Some? ==> r.value in users && users[r.value].email == email
    ensures r.None? ==> forall id :: id in order && id in users ==> users[id].email != email
  {
    match Seqs.FindIndex(order, (id: UserId) => id in users && users[id].email == email)
    case Some(i) => Some(order[i])
    case None => None
  }

  datatype Login = Login(users: map<UserId, User>, user: Option<UserId>, code: int)

  /** `loginUser`: 400 when the address is malformed or the password is
      empty; 401, with the same message, when no user has the address and
      when the password does not verify; 200 otherwise, after the user's
      `lastActive` and save-time fields are refreshed. `verify` stands for
      the hash comparison. */
  function LoginUser(users: map<UserId, User>, order: seq<UserId>, email: Option<string>, password: Option<string>,
                     isEmail: string -> bool, normalize: string -> string, verify: (string, string) -> bool,
                     now: int): (r: Login)
    ensures r.code in {Http.BadRequest, Http.Unauthorized, Http.OK}
    ensures r.code == Http.BadRequest <==> !isEmail(email.GetOr("")) || password.GetOr("") == ""
    ensures r.code != Http.OK ==> r.users == users && r.user.None?
    ensures r.code == Http.OK <==>
      isEmail(email.GetOr("")) && password.GetOr("") != ""
      && FindByEmail(users, order, normalize(email.GetOr(""))).Some?
      && verify(password.value, users[FindByEmail(users, order, normalize(email.GetOr(""))).value].password)
    ensures r.code == Http.OK ==>
      r.user == FindByEmail(users, order, normalize(email.GetOr("")))
      && r.users == users[r.user.value := Saved(users[r.user.value].(lastActive := now), now, false)]
  {
    if !isEmail(email.GetOr("")) || password.GetOr("") == "" then Login(users, None, Http.BadRequest)
    else
      match FindByEmail(users, order, normalize(email.GetOr("")))
      case None => Login(users, None, Http.Unauthorized)
      case Some(id) =>
        if !verify(password.value, users[id].password) then Login(users, None, Http.Unauthorized)
        else Login(users[id := Saved(users[id].(lastActive := now), now, false)], Some(id), Http.OK)
  }

  /** A user who has just registered can log in with the same address and
      password. */
  lemma RegisterThenLogin(users: map<UserId, User>, order: seq<UserId>, body: RegisterBody, isEmail: string -> bool,
                          normalize: string -> string, emailMatches: string -> bool, verify: (string, string) -> bool,
                          newId: UserId, now: int, later: int)
    requires newId !in users
    requires RegisterUser(users, order, body, isEmail, normalize, emailMatches, newId, now).code == Http.Created
    requires verify(body.password.GetOr(""), body.password.GetOr(""))
    ensures var r := RegisterUser(users, order, body, isEmail, normalize, emailMatches, newId, now);
      var l := LoginUser(r.users, r.order, body.email, body.password, isEmail, normalize, verify, later);
      l.code == Http.OK && l.user == Some(newId)
  {
    var email := normalize(body.email.GetOr(""));
    LoginFieldsOfAccepted(body, isEmail);
    FindNewEmail(users, order, newId, NewUser(body, email, now), email);
  }

  /** A body the rules accept also passes the login checks: a valid
      address and a non-empty password. */
  lemma LoginFieldsOfAccepted(body: RegisterBody, isEmail: string -> bool)
    requires FieldErrors(body, isEmail) == []
    ensures isEmail(body.email.GetOr("")) && body.password.Some? && body.password.value != ""
  {
    AcceptedFields(body, isEmail);
  }

  /** A new user with an address nobody had is the one the login lookup
      finds. */
  lemma FindNewEmail(users: map<UserId, User>, order: seq<UserId>, newId: UserId, u: User, email: string)
    requires newId !in users && !EmailTaken(users, email) && u.email == email
    ensures FindByEmail(users[newId := u], order + [newId], email) == Some(newId)
  {
    var us := users[newId := u];
    var o := order + [newId];
    var p := (id: UserId) => id in us && us[id].email == email;
    assert p(o[|order|]);
    var k := Seqs.FindIndex(o, p);
    var found := o[k.value];
    assert p(found);
  }

  // ---------------------------------------------------------------------
  // generalUserSearch
  // ---------------------------------------------------------------------

  const SearchLimit: nat := 10

  /** `generalUserSearch`: an empty list when the query is absent or its
      trimmed JavaScript length (UTF-16 code units) is under 2; otherwise the first ten active users, in
      natural order, whose full name the untrimmed query prefixes
      (`prefixMatches` stands for the anchored case-insensitive regular
      expression test). */
  function GeneralUserSearch(users: map<UserId, User>, order: seq<UserId>, q: Option<string>,
                             prefixMatches: (string, string) -> bool): (r: seq<UserId>)
    ensures q.None? || Utf16Length(Trim(q.value)) < 2 ==> r == []
    ensures |r| <= SearchLimit
    ensures forall id :: id in r ==>
      id in order && id in users && users[id].status == Active && prefixMatches(users[id].fullname, q.value)
    ensures q.Some? && Utf16Length(Trim(q.value)) >= 2 ==>
      var hits := Seqs.Filter(order, (id: UserId) => id in users && users[id].status == Active
        && prefixMatches(users[id].fullname, q.value));
      r == hits[..Seqs.Min(SearchLimit, |hits|)]
  {
    if q.None? || Utf16Length(Trim(q.value)) < 2 then []
    else
      var hit := (id: UserId) => id in users && users[id].status == Active && prefixMatches(users[id].fullname, q.value);
      var hits := Seqs.Filter(order, hit);
      var page := hits[..Seqs.Min(SearchLimit, |hits|)];
      assert forall id :: id in page ==> id in order && hit(id) by {
        forall id | id in page ensures id in order && hit(id) {
          assert id in hits;
          Seqs.FilterMembers(order, hit, id);
        }
      }
      page
  }

  /** A query of one visible character of the Basic Multilingual Plane and
      surrounding blanks finds nobody, whoever is stored. */
  lemma ShortQueryFindsNobody(users: map<UserId, User>, order: seq<UserId>, c: char,
                              prefixMatches: (string, string) -> bool)
    requires !IsSpace(c) && !Astral(c)
    ensures GeneralUserSearch(users, order, Some(" " + [c] + " "), prefixMatches) == []
  {
    var s := " " + [c] + " ";
    assert LeadCount(s) == 1 by {
      assert IsSpace(s[0]) && !IsSpace(s[1]);
      assert LeadCount(s[1..]) == 0;
    }
    assert |Trim(s)| <= 1 by {
      assert Trim(s) == s[1..1 + |Trim(s)|];
    }
  }

  /** Trimming a blank-padded single visible character leaves that
      character. */
  lemma TrimPaddedChar(c: char)
    requires !IsSpace(c)
    ensures Trim(" " + [c] + " ") == [c]
  {
    var s := " " + [c] + " ";
    assert LeadCount(s) == 1 by {
      assert IsSpace(s[0]) && !IsSpace(s[1]);
      assert LeadCount(s[1..]) == 0;
    }
    var r := Trim(s);
    assert r == s[1..1 + |r|];
  }

  /** A single astral character is two UTF-16 code units, so the same
      one-character query passes the length guard and the search runs. */
  lemma AstralQuerySearches(users: map<UserId, User>, order: seq<UserId>, c: char,
                            prefixMatches: (string, string) -> bool)
    requires !IsSpace(c) && Astral(c)
    ensures Utf16Length(Trim(" " + [c] + " ")) == 2
    ensures var hits := Seqs.Filter(order, (id: UserId) => id in users && users[id].status == Active
        && prefixMatches(users[id].fullname, " " + [c] + " "));
      GeneralUserSearch(users, order, Some(" " + [c] + " "), prefixMatches) == hits[..Seqs.Min(SearchLimit, |hits|)]
  {
    TrimPaddedChar(c);
    assert Utf16Length([c]) == 2 + Utf16Length([c][1..]);
  }

  /** A bio of 300 astral characters is 300 long to the registration rules
      and 600 long to the schema: the rules accept it and the save rejects
      it. */
  lemma AstralBioPassesRulesFailsSchema(bio: string)
    requires |bio| == 300 && forall i :: 0 <= i < |bio| ==> Astral(bio[i])
    ensures ValidatorLength(bio) <= BioMax
    ensures Utf16Length(bio) > BioMax
  {
    Seqs.CountFullIff(bio, Astral);
    assert forall i :: 0 <= i < |bio| ==> !PresentationSelector(bio[i]);
    Seqs.CountZeroIff(bio, PresentationSelector);
  }

  // ---------------------------------------------------------------------
  // getUserProfile
  // ---------------------------------------------------------------------

  /** An entry of the transformed `projects` list: the project with the
      user's role on it. */
  datatype ProfileProject = ProfileProject(project: Projects.ProjectId, role: Role)

  /** The profile reply: the public fields, the transformed project list,
      its length as `projectsCount`, and whether the user is online. The
      last-seen date is locale formatting and not part of this model. */
  datatype ProfileView = ProfileView(
    profile: PublicProfile,
    projects: seq<ProfileProject>,
    projectsCount: nat,
    isOnline: bool,
    joinDate: int)

  /** The transformation of the project list: references whose project no
      longer exists are dropped, the rest keep their order and role. */
  function Transform(refs: seq<ProjectRef>, projects: seq<Projects.Project>): (r: seq<ProfileProject>)
    ensures |r| <= |refs|
    ensures forall k :: 0 <= k < |r| ==> r[k].project < |projects|
    ensures forall k :: 0 <= k < |r| ==> ProjectRef(r[k].project, r[k].role) in refs
    ensures forall k :: 0 <= k < |refs| && refs[k].projectId < |projects| ==>
      ProfileProject(refs[k].projectId, refs[k].role) in r
  {
    if |refs| == 0 then []
    else
      var rest := Transform(refs[1..], projects);
      assert forall k :: 0 <= k < |rest| ==> ProjectRef(rest[k].project, rest[k].role) in refs by {
        forall k | 0 <= k < |rest| ensures ProjectRef(rest[k].project, rest[k].role) in refs {
          assert ProjectRef(rest[k].project, rest[k].role) in refs[1..];
        }
      }
      assert forall k :: 1 <= k < |refs| ==> refs[k] == refs[1..][k - 1];
      if refs[0].projectId < |projects| then [ProfileProject(refs[0].projectId, refs[0].role)] + rest
      else rest
  }

  function View(u: User, projects: seq<Projects.Project>): ProfileView {
    var kept := Transform(u.projects, projects);
    ProfileView(PublicProfileOf(u), kept, |kept|, u.status == Active, u.createdAt)
  }

  /** `getUserProfile` as written: every non-empty id ends in the catch,
      so the answer is 400 or 500 and never a profile. For an unknown id the
      first lookup's result is read before it is checked. For a stored user
      the population of `projects.projectId` names a path the user schema
      does not declare, which fails the query, and without population
      `user.projects` is undefined, so filtering it fails. The 404 and 200
      branches are unreachable. */
  function GetUserProfileAsWritten(users: map<UserId, User>, projects: seq<Projects.Project>,
                                   userId: Option<UserId>): (r: (Option<ProfileView>, int))
    ensures r.1 == Http.BadRequest <==> Falsy(userId)
    ensures r.1 == Http.ServerError <==> !Falsy(userId)
    ensures r.0.None?
  {
    if Falsy(userId) then (None, Http.BadRequest)
    else (None, Http.ServerError)
  }

  /** `getUserProfile` with the lookup checked before use: 404 for an
      unknown id. The view shows the public fields only, every reference to
      an existing project with its role and nothing else, the number kept
      as `projectsCount`, and `isOnline` exactly when the status is
      `active`. */
  function GetUserProfile(users: map<UserId, User>, projects: seq<Projects.Project>,
                          userId: Option<UserId>): (r: (Option<ProfileView>, int))
    ensures r.1 in {Http.BadRequest, Http.NotFound, Http.OK}
    ensures r.1 == Http.BadRequest <==> Falsy(userId)
    ensures r.1 == Http.NotFound <==> !Falsy(userId) && userId.value !in users
    ensures r.1 != Http.OK <==> r.0.None?
    ensures r.1 == Http.OK ==>
      var u := users[userId.value];
      var v := r.0.value;
      v.profile == PublicProfileOf(u)
      && v.projectsCount == |v.projects|
      && (v.isOnline <==> u.status == Active)
      && (forall k :: 0 <= k < |v.projects| ==>
            v.projects[k].project < |projects| && ProjectRef(v.projects[k].project, v.projects[k].role) in u.projects)
      && (forall k :: 0 <= k < |u.projects| && u.projects[k].projectId < |projects| ==>
            ProfileProject(u.projects[k].projectId, u.projects[k].role) in v.projects)
  {
    if Falsy(userId) then (None, Http.BadRequest)
    else if userId.value !in users then (None, Http.NotFound)
    else (Some(View(users[userId.value], projects)), Http.OK)
  }

  /** An unknown id: 500 as written, 404 once the lookup is checked. */
  lemma UnknownProfileAsWritten(users: map<UserId, User>, projects: seq<Projects.Project>, userId: UserId)
    requires userId != "" && userId !in users
    ensures GetUserProfileAsWritten(users, projects, Some(userId)).1 == Http.ServerError
    ensures GetUserProfile(users, projects, Some(userId)).1 == Http.NotFound
  {
  }

  /** A stored user: 500 as written, the profile once the lookup is
      checked and the project list is read from a declared path. */
  lemma KnownProfileAsWritten(users: map<UserId, User>, projects: seq<Projects.Project>, userId: UserId)
    requires userId != "" && userId in users
    ensures GetUserProfileAsWritten(users, projects, Some(userId)).1 == Http.ServerError
    ensures GetUserProfile(users, projects, Some(userId)).1 == Http.OK
    ensures GetUserProfile(users, projects, Some(userId)).0 == Some(View(users[userId], projects))
  {
  }

  // ---------------------------------------------------------------------
  // logoutUser
  // ---------------------------------------------------------------------

  /** `logoutUser`: the caller's record gets `profile.lastActive` set to now
      and loses its socket id, and nothing else about it changes; the
      update runs no save hooks. A caller without a record changes nothing.
      The answer is 200 either way. */
  function LogoutUser(users: map<UserId, User>, caller: UserId, now: int): (r: (map<UserId, User>, int))
    ensures r.1 == Http.OK
    ensures r.0.Keys == users.Keys
    ensures caller in users ==> r.0[caller].socketId.None? && r.0[caller].profileLastActive == now
    ensures caller in users ==>
      r.0[caller].(socketId := users[caller].socketId, profileLastActive := users[caller].profileLastActive) == users[caller]
    ensures forall u :: u in users && u != caller ==> r.0[u] == users[u]
  {
    if caller in users then (users[caller := users[caller].(socketId := None, profileLastActive := now)], Http.OK)
    else (users, Http.OK)
  }
}

=== FILE: users.dfy ===
/** The User document (models/user.model.js): its enums, the profile
    completion score recomputed on every save, the social-profile URL
    validators, the field length limits and the public projection. */
module Users {
  import opened Wrappers
  import opened Text
  import Seqs

  type UserId = string

  /** Socket.IO connection ids are never empty. */
  type SocketId = s: string | |s| > 0 witness "0"

  datatype Status = Active | Inactive | Busy

  function StatusName(s: Status): string {
    match s
    case Active => "active"
    case Inactive => "inactive"
    case Busy => "busy"
  }

  /** The `status` enum check. */
  function ParseStatus(s: string): (r: Option<Status>)
    ensures r.Some? <==> s == "active" || s == "inactive" || s == "busy"
    ensures r.Some? ==> StatusName(r.value) == s
  {
    if s == "active" then Some(Active)
    else if s == "inactive" then Some(Inactive)
    else if s == "busy" then Some(Busy)
    else None
  }

  lemma StatusRoundTrip(s: Status)
    ensures ParseStatus(StatusName(s)) == Some(s)
  {
  }

  const DefaultStatus: Status := Inactive

  datatype SkillLevel = Beginner | Intermediate | Advanced

  function SkillLevelName(s: SkillLevel): string {
    match s
    case Beginner => "beginner"
    case Intermediate => "intermediate"
    case Advanced => "advanced"
  }

  /** The `skillLevel` enum check. */
  function ParseSkillLevel(s: string): (r: Option<SkillLevel>)
    ensures r.Some? <==> s == "beginner" || s == "intermediate" || s == "advanced"
    ensures r.Some? ==> SkillLevelName(r.value) == s
  {
    if s == "beginner" then Some(Beginner)
    else if s == "intermediate" then Some(Intermediate)
    else if s == "advanced" then Some(Advanced)
    else None
  }

  const DefaultSkillLevel: SkillLevel := Beginner

  /** The values the `interests` enum admits. */
  const InterestNames: seq<string> := [
    "Web Development", "Mobile Apps", "AI/ML", "Data Science", "DevOps",
    "Cybersecurity", "Game Development", "Blockchain", "Cloud Computing",
    "IoT", "AR/VR", "Robotics"]

  predicate KnownInterest(s: string) { s in InterestNames }

  datatype Role = AsOwner | AsCollaborator

  /** An entry of the user's `projects` list. */
  datatype ProjectRef = ProjectRef(projectId: nat, role: Role)

  datatype Preferences = Preferences(emailNotifications: bool, projectInvites: bool, mentorshipRequests: bool)

  const DefaultPreferences := Preferences(true, true, true)

  datatype Stats = Stats(projectsJoined: int, projectsCreated: int, connectionsCount: int, reputation: int)

  const ZeroStats := Stats(0, 0, 0, 0)

  datatype User = User(
    fullname: string,
    email: string,
    password: string,
    university: string,
    skillLevel: SkillLevel,
    interests: seq<string>,
    github: Option<string>,
    linkedin: Option<string>,
    bio: Option<string>,
    socketId: Option<SocketId>,
    status: Status,
    lastActive: int,
    avatar: Option<string>,
    completion: int,
    joinedDate: int,
    profileLastActive: int,
    preferences: Preferences,
    stats: Stats,
    projects: seq<ProjectRef>,
    createdAt: int)

  // ---------------------------------------------------------------------
  // Profile completion
  // ---------------------------------------------------------------------

  /** An optional string counts when it is present and not blank. */
  predicate Filled(s: Option<string>) {
    s.Some? && Trim(s.value) != ""
  }

  /** The six 15-point criteria, in the order the source checks them. */
  function CoreCriteria(u: User): seq<bool> {
    [Truthy(u.fullname), Truthy(u.email), Truthy(u.university),
     Truthy(SkillLevelName(u.skillLevel)), |u.interests| > 0, Filled(u.bio)]
  }

  /** The two 5-point social-profile criteria. */
  function SocialCriteria(u: User): seq<bool> {
    [Filled(u.github), Filled(u.linkedin)]
  }

  function Points(b: bool, w: nat): nat { if b then w else 0 }

  /** `calculateProfileCompletion`: 15 points for each of fullname, email,
      university and skillLevel when truthy, 15 for a non-empty interest
      list, 15 for a non-blank bio, 5 each for a non-blank github and
      linkedin URL, capped at 100. */
  function ProfileCompletion(u: User): (score: int)
    ensures 0 <= score <= 100
  {
    var base := Points(Truthy(u.fullname), 15) + Points(Truthy(u.email), 15)
      + Points(Truthy(u.university), 15) + Points(Truthy(SkillLevelName(u.skillLevel)), 15)
      + Points(|u.interests| > 0, 15) + Points(Filled(u.bio), 15);
    var bonus := Points(Filled(u.github), 5) + Points(Filled(u.linkedin), 5);
    Seqs.Min(base + bonus, 100)
  }

  /** How many of the criteria hold. */
  function CountTrue(bs: seq<bool>): nat {
    if |bs| == 0 then 0 else Points(bs[0], 1) + CountTrue(bs[1..])
  }

  /** The score is 15 per met core criterion plus 5 per met social
      criterion: the cap of 100 never cuts anything off. */
  lemma CompletionIsWeightedCount(u: User)
    ensures ProfileCompletion(u) == 15 * CountTrue(CoreCriteria(u)) + 5 * CountTrue(SocialCriteria(u))
  {
    var c := CoreCriteria(u);
    var s := SocialCriteria(u);
    CountTrueSix(c);
    CountTrueTwo(s);
  }

  lemma CountTrueSix(c: seq<bool>)
    requires |c| == 6
    ensures CountTrue(c) == Points(c[0], 1) + Points(c[1], 1) + Points(c[2], 1)
      + Points(c[3], 1) + Points(c[4], 1) + Points(c[5], 1)
  {
    assert c[1..][1..] == c[2..];
    assert c[2..][1..] == c[3..];
    assert c[3..][1..] == c[4..];
    assert c[4..][1..] == c[5..];
    assert c[5..][1..] == [];
    assert CountTrue(c[5..]) == Points(c[5], 1);
    assert CountTrue(c[4..]) == Points(c[4], 1) + CountTrue(c[5..]);
    assert CountTrue(c[3..]) == Points(c[3], 1) + CountTrue(c[4..]);
    assert CountTrue(c[2..]) == Points(c[2], 1) + CountTrue(c[3..]);
    assert CountTrue(c[1..]) == Points(c[1], 1) + CountTrue(c[2..]);
  }

  lemma CountTrueTwo(c: seq<bool>)
    requires |c| == 2
    ensures CountTrue(c) == Points(c[0], 1) + Points(c[1], 1)
  {
    assert c[1..][1..] == [];
    assert CountTrue(c[1..]) == Points(c[1], 1);
  }

  /** A full score means every criterion is met, and conversely. */
  lemma CompletionFullIff(u: User)
    ensures ProfileCompletion(u) == 100
      <==> (forall i :: 0 <= i < 6 ==> CoreCriteria(u)[i]) && Filled(u.github) && Filled(u.linkedin)
  {
    CompletionIsWeightedCount(u);
    CountTrueSix(CoreCriteria(u));
    CountTrueTwo(SocialCriteria(u));
  }

  /** Every saved user has the three required strings, and skillLevel is
      always set, so a stored profile is at least 60 percent complete. */
  lemma RequiredFieldsGiveSixty(u: User)
    requires u.fullname != "" && u.email != "" && u.university != ""
    ensures ProfileCompletion(u) >= 60
  {
  }

  /** The two pre-save hooks: the completion percentage is recomputed from
      the other fields, `profile.lastActive` becomes the save time, and a new
      document also gets `profile.joinedDate`. */
  function Saved(u: User, now: int, isNew: bool): (r: User)
    ensures r.completion == ProfileCompletion(r)
    ensures r.profileLastActive == now
    ensures r.joinedDate == if isNew then now else u.joinedDate
    ensures r.(completion := u.completion, profileLastActive := u.profileLastActive, joinedDate := u.joinedDate) == u
  {
    var v := u.(profileLastActive := now, joinedDate := if isNew then now else u.joinedDate);
    v.(completion := ProfileCompletion(v))
  }

  /** Saving again at the same time stores the same document. */
  lemma SavedIdempotent(u: User, now: int, isNew: bool)
    ensures Saved(Saved(u, now, isNew), now, false) == Saved(u, now, isNew)
  {
  }

  // ---------------------------------------------------------------------
  // Social profile URL validators
  // ---------------------------------------------------------------------

  const GithubPath: string := "github.com/"
  const LinkedinPath: string := "linkedin.com/in/"

  /** `[a-zA-Z0-9_-]` */
  predicate SegmentChar(c: char) {
    ('a' <= c <= 'z') || ('A' <= c <= 'Z') || ('0' <= c <= '9') || c == '_' || c == '-'
  }

  predicate ValidSegment(seg: string) {
    |seg| > 0 && forall i :: 0 <= i < |seg| ==> SegmentChar(seg[i])
  }

  /** The part of a URL after `https://` and an optional `www.`. */
  function AfterHost(s: string): string
    requires StartsWith(s, "https://")
  {
    var r := s[8..];
    if StartsWith(r, "www.") then r[4..] else r
  }

  /** The trailing path segment after `path`, without an optional final
      slash. */
  function TrailingSegment(tail: string): string {
    if |tail| > 0 && tail[|tail| - 1] == '/' then tail[..|tail| - 1] else tail
  }

  /** The anchored regular expression
      `^https:\/\/(www\.)?<path>[a-zA-Z0-9_-]+\/?$`, for a `path` such as
      `github\.com\/` or `linkedin\.com\/in\/`. */
  predicate MatchesProfileUrl(s: string, path: string) {
    StartsWith(s, "https://")
    && StartsWith(AfterHost(s), path)
    && ValidSegment(TrailingSegment(AfterHost(s)[|path|..]))
  }

  /** The URL built from its parts: the language the pattern describes. */
  function ProfileUrl(path: string, www: bool, segment: string, slash: bool): string {
    "https://" + (if www then "www." else "") + path + segment + (if slash then "/" else "")
  }

  /** Every URL of the described shape matches the pattern. */
  lemma ProfileUrlMatches(path: string, www: bool, segment: string, slash: bool)
    requires |path| > 0 && path[0] != 'w'
    requires ValidSegment(segment)
    ensures MatchesProfileUrl(ProfileUrl(path, www, segment, slash), path)
  {
    var s := ProfileUrl(path, www, segment, slash);
    var r := s[8..];
    var tail := segment + (if slash then "/" else "");
    if www {
      assert r == "www." + path + tail;
      assert StartsWith(r, "www.");
      assert AfterHost(s) == path + tail;
    } else {
      assert r == path + tail;
      assert r[0] == path[0];
      assert !StartsWith(r, "www.");
      assert AfterHost(s) == path + tail;
    }
    assert AfterHost(s)[|path|..] == tail;
    if slash {
      assert TrailingSegment(tail) == segment;
    } else {
      assert TrailingSegment(tail) == segment;
    }
  }

  /** Every matching URL is of the described shape, with the parts read off
      the URL itself. */
  lemma MatchingUrlDecomposes(s: string, path: string)
    requires MatchesProfileUrl(s, path)
    ensures var tail := AfterHost(s)[|path|..];
      var slash := |tail| > 0 && tail[|tail| - 1] == '/';
      s == ProfileUrl(path, StartsWith(s[8..], "www."), TrailingSegment(tail), slash)
      && ValidSegment(TrailingSegment(tail))
  {
    var r := s[8..];
    var www := StartsWith(r, "www.");
    var host := AfterHost(s);
    var tail := host[|path|..];
    var slash := |tail| > 0 && tail[|tail| - 1] == '/';
    TrailingSegmentSplit(tail);
    PrefixSplit(host, path);
    if www {
      PrefixSplit(r, "www.");
    }
    PrefixSplit(s, "https://");
    var w := if www then "www." else "";
    var seg := TrailingSegment(tail);
    var sl := if slash then "/" else "";
    assert r == w + host;
    assert host == path + (seg + sl);
    assert s == "https://" + (w + (path + (seg + sl)));
    ConcatAssoc4("https://", w, path, seg, sl);
  }

  lemma ConcatAssoc4(a: string, b: string, c: string, d: string, e: string)
    ensures a + (b + (c + (d + e))) == a + b + c + d + e
  {
  }

  lemma TrailingSegmentSplit(tail: string)
    ensures tail == TrailingSegment(tail) + (if |tail| > 0 && tail[|tail| - 1] == '/' then "/" else "")
  {
  }

  lemma PrefixSplit(s: string, prefix: string)
    requires StartsWith(s, prefix)
    ensures s == prefix + s[|prefix|..]
  {
    assert s == s[..|prefix|] + s[|prefix|..];
  }

  /** The schema validator `!v || pattern.test(v)`: an absent or empty
      value is accepted. */
  predicate ProfileUrlFieldValid(v: Option<string>, path: string) {
    v.None? || v.value == "" || MatchesProfileUrl(v.value, path)
  }

  // ---------------------------------------------------------------------
  // Schema validation and the public projection
  // ---------------------------------------------------------------------

  const FullnameMin: nat := 3
  const PasswordMin: nat := 6
  const UniversityMin: nat := 3
  const BioMax: nat := 500

  /** The checks the schema applies when a document is saved (the stored
      strings are already trimmed by the schema's `trim` setters); lengths
      are JavaScript lengths, in UTF-16 code units. The
      email pattern is a library-level regular expression whose verdict is
      passed in. */
  predicate SchemaValid(u: User, emailMatches: bool) {
    Utf16Length(u.fullname) >= FullnameMin
    && u.email != "" && emailMatches
    && Utf16Length(u.password) >= PasswordMin
    && Utf16Length(u.university) >= UniversityMin
    && (forall i :: 0 <= i < |u.interests| ==> KnownInterest(u.interests[i]))
    && ProfileUrlFieldValid(u.github, GithubPath)
    && ProfileUrlFieldValid(u.linkedin, LinkedinPath)
    && (u.bio.None? || Utf16Length(u.bio.value) <= BioMax)
  }

  /** `getPublicProfile`: the user without password, socket id and
      preferences. */
  datatype PublicProfile = PublicProfile(
    fullname: string,
    email: string,
    university: string,
    skillLevel: SkillLevel,
    interests: seq<string>,
    github: Option<string>,
    linkedin: Option<string>,
    bio: Option<string>,
    status: Status,
    lastActive: int,
    avatar: Option<string>,
    completion: int,
    joinedDate: int,
    profileLastActive: int,
    stats: Stats,
    projects: seq<ProjectRef>,
    createdAt: int)

  function PublicProfileOf(u: User): PublicProfile {
    PublicProfile(u.fullname, u.email, u.university, u.skillLevel, u.interests,
      u.github, u.linkedin, u.bio, u.status, u.lastActive, u.avatar, u.completion,
      u.joinedDate, u.profileLastActive, u.stats, u.projects, u.createdAt)
  }

  /** Puts the three removed fields back. */
  function WithSecrets(p: PublicProfile, password: string, socketId: Option<SocketId>, preferences: Preferences): User {
    User(p.fullname, p.email, password, p.university, p.skillLevel, p.interests,
      p.github, p.linkedin, p.bio, socketId, p.status, p.lastActive, p.avatar,
      p.completion, p.joinedDate, p.profileLastActive, preferences, p.stats, p.projects, p.createdAt)
  }

  /** The projection keeps every other field: restoring the three removed
      ones gives the user back. */
  lemma PublicProfileKeepsTheRest(u: User)
    ensures WithSecrets(PublicProfileOf(u), u.password, u.socketId, u.preferences) == u
  {
  }

  /** The projection reveals nothing about the removed fields: users that
      differ only there have the same public profile. */
  lemma PublicProfileHidesSecrets(u: User, password: string, socketId: Option<SocketId>, preferences: Preferences)
    ensures PublicProfileOf(u.(password := password, socketId := socketId, preferences := preferences))
      == PublicProfileOf(u)
  {
  }
}

=== FILE: wrappers.dfy ===
/** Optional values, used for absent request fields, missing records and
    query failures throughout the model. */
module Wrappers {

  datatype Option<+T> = None | Some(value: T) {

    /** The wrapped value, or `default` when absent (JavaScript's `x || d`
        for values whose only falsy form is "absent"). */
    function GetOr(default: T): T {
      match this
      case Some(v) => v
      case None => default
    }

    /** The wrapped value transformed by `f`; absence stays absence. */
    function Map<U>(f: T -> U): (r: Option<U>)
      ensures r.Some? <==> this.Some?
      ensures r.Some? ==> r.value == f(this.value)
    {
      match this
      case Some(v) => Some(f(v))
      case None => None
    }
  }
}
